=== FILE: README.md ===
# Point-of-sale core, modelled in Dafny

This project models the core of a desktop point-of-sale application for a
shop with several branches. The application has two parts.

- The main process owns a SQLite database. It answers the renderer through
  IPC handlers for invoices, products, categories, the daily cash session
  ("daily"), expenses ("credit"), settings, users and their permissions,
  reports, product movements and PDF export. A preload script lets only
  listed channels through. A fixed-window rate limiter guards every
  handler. The handler files for units and branches export their functions
  too, but the handler index never requires them and no channel leads to
  them; the model covers those functions as written.
- The renderer is a React application with Redux slices. Its pages build
  invoices, validate forms, filter and page tables, and decide which
  actions a user's permissions show.

The model is a set of Dafny modules, one per source file or component:

- Each table is a sequence of row records (`Tables` holds the shared
  `WHERE`, `COUNT` and `LIMIT/OFFSET` helpers).
- Each handler is a pure function from the tables and its arguments to a
  `Result` and the new tables.
- Each page helper or reducer is a function on its state.

JavaScript's coercions are written out in `Numbers` and `Text`: `Number`,
`parseInt`, `String`, `padStart`, `trim`, `toLowerCase`, `split` and `||`.
Money is an integer count of the smallest unit. Percentages and averages
are `real`. The clock, the active branch kept in electron-store, the
signed-in user, password hashes and tokens are parameters.

Where the source does not do what it evidently means to, the model keeps
the behaviour as written. It adds a corrected definition next to it, with a
lemma that shows the difference on a concrete input ("## Findings").

## Model

| member | source | states |
|---|---|---|
| Access.TogglePermission | src/renderer/src/components/users/PermissionsSelector.tsx:48-57 | a disabled picker leaves the selection alone; otherwise the clicked id ends up selected exactly when it was not, and every other id keeps its membership |
| Access.ToggleTwiceRestores | src/renderer/src/components/users/PermissionsSelector.tsx:48-57 | clicking an unselected permission twice gives back the original selection, order included |
| Access.ToggleKeepsDistinct | src/renderer/src/components/users/PermissionsSelector.tsx:48-57 | a click never makes the picker hold an id twice, so the list it feeds to the user handlers stays free of repeats |
| Access.CategoryIds | src/renderer/src/components/users/PermissionsSelector.tsx:60-61 | the ids of a category's permissions in listing order, and none for a category the grouping lacks |
| Access.AddMissing | src/renderer/src/components/users/PermissionsSelector.tsx:69-74 | the selection extended in place: it is a prefix of the result, the result holds exactly the old and the new ids, and no id is added twice |
| Access.ToggleCategory | src/renderer/src/components/users/PermissionsSelector.tsx:59-77 | when every id of the category is selected they are all removed and nothing else; otherwise the missing ones are appended after the untouched selection |
| Access.ToggleCategoryKeepsDistinct | src/renderer/src/components/users/PermissionsSelector.tsx:59-77 | toggling a category keeps a selection free of repeats |
| Access.SelectedCountBounds | src/renderer/src/components/users/PermissionsSelector.tsx:89-92 | the counted selected ids are zero exactly when none is selected and the full length exactly when all are |
| Access.SelectionIff | src/renderer/src/components/users/PermissionsSelector.tsx:86-94 | the badge reads none, all or partial exactly in the three disjoint situations of the category's ids, an empty category counting as none |
| Access.ToggleCategoryState | src/renderer/src/components/users/PermissionsSelector.tsx:59-94 | a category shown as all selected becomes none after its toggle, and any other state becomes all |
| Access.UsePermission | src/renderer/src/hooks/use-permissions.ts:4-8 | the hook is true exactly when a user is signed in and lists the permission, whatever the role |
| Access.Allows | src/renderer/src/components/app-sidebar.component.tsx:146-151 | an empty requirement and an admin always pass; otherwise some required permission must be listed by the user |
| Access.UsePermissionShowsEntry | src/renderer/src/components/app-sidebar.component.tsx:146-151 | whatever the hook grants, the menu grants too for any requirement listing that permission |
| Access.AdminWithoutListSeesMenuOnly | src/renderer/src/components/app-sidebar.component.tsx:149 | an admin with no permission list passes every menu check yet fails every hook check |
| Access.Hide | src/renderer/src/components/app-sidebar.component.tsx:157-161 | an entry is hidden only when its own list fails, and for a folder exactly when both its list and every sub-item's list fail |
| Access.Active | src/renderer/src/components/app-sidebar.component.tsx:162-165 | an entry is active exactly when the path is its url or one of its sub-items' urls |
| Access.Hidden | src/renderer/src/components/app-sidebar.component.tsx:186-214 | a day-bound entry disappears while the day check has failed; any other entry disappears exactly when it is hidden |
| Access.VisibleSubItems | src/renderer/src/components/app-sidebar.component.tsx:240-243 | the shown sub-items are exactly the folder's sub-items whose own list passes |
| Access.OwnListAllowsSomeSubItem | src/renderer/src/components/app-sidebar.component.tsx:81-122 | for a folder whose list is the union of its sub-items' lists, passing the folder's list means some sub-item passes |
| Access.FolderShownIffSubItemShown | src/renderer/src/components/app-sidebar.component.tsx:157-161 | such a folder is shown exactly when it has a sub-item to show, so it never opens empty |
| Access.MenuFoldersNeverEmpty | src/renderer/src/components/app-sidebar.component.tsx:39-139 | both folders of the menu list their pages' permissions, so neither is ever shown empty, and the home entry is never hidden |
| Access.CashierSeesCreateInvoiceOnly | src/renderer/src/components/app-sidebar.component.tsx:81-101 | a cashier listing only `sales.create` sees the invoices folder holding just the create page, the folder vanishes on a closed day, and the users entry is hidden |
| Access.NoneCounted | src/renderer/src/components/users/PermissionsSelector.tsx:86-94 | no id of a category is counted as selected exactly when none of them is |
| Access.AllCounted | src/renderer/src/components/users/PermissionsSelector.tsx:86-94 | every id is counted as selected exactly when all of them are |
| Access.SalesFolderListsItsPages | src/renderer/src/components/app-sidebar.component.tsx:82-100 | the invoices folder asks for the union of its pages' permissions, and a cashier with only `sales.create` sees it with the create page alone |
| Auth.LoginThunk | src/renderer/src/store/slices/authSlice.ts:33-59 | sign-in settles as fulfilled exactly when the bridge exists and answers success with a user, carrying that user; a success answer without a user is rejected with the TypeError its `user.branchId` read throws, and the other cases with the missing-bridge, bad-credentials or exception message |
| Auth.OrElse | src/renderer/src/store/slices/authSlice.ts:151 | `x \|\| fallback` on text: a non-empty value is kept, a missing or empty one gives the fallback |
| Auth.LogoutError | src/renderer/src/store/slices/authSlice.ts:166 | the shown sign-out error is never empty: without an `Error:` marker it is "Logout failed", with one it is the text after the marker up to the next one |
| Auth.LoadingFollowsRequests | src/renderer/src/store/slices/authSlice.ts:119-188 | every pending request turns the spinner on, every settled one turns it off, and no other action but `setLoading` touches it |
| Auth.ReduceKeepsNoUserWhenSignedOut | src/renderer/src/store/slices/authSlice.ts:119-188 | no action leaves a user in a signed-out state |
| Auth.ReduceKeepsUserWhenSignedIn | src/renderer/src/store/slices/authSlice.ts:138-181 | a signed-in state keeps its user through every action that carries one, apart from `clearUser` |
| Auth.ClearUserLeavesSignedIn | src/renderer/src/store/slices/authSlice.ts:123-125 | `clearUser` drops the user but leaves the state signed in |
| Auth.LoginThenLogoutRestores | src/renderer/src/store/slices/authSlice.ts:133-162 | a sign-in followed by a sign-out ends in the initial state; the sign-in signs in exactly on a successful answer that carries a user, a signed-in state always has a user, and a refused sign-in signs out with a non-empty message |
| Auth.FailedCheckShowsNoError | src/renderer/src/store/slices/authSlice.ts:172-187 | a failed or negative session check returns to the initial state without an error message |
| Auth.FailedLogoutKeepsSession | src/renderer/src/store/slices/authSlice.ts:164-167 | a failed sign-out keeps the session and user and records the derived message |
| Auth.BridgeErrorMessage | src/renderer/src/store/slices/authSlice.ts:166 | for "x Error: boom" the shown message is " boom" |
| AuthLegacy.LoginThunk | src/renderer/src/store/slices/authSlice.js:4-31 | with the bridge its answer is passed on unchanged; without it exactly admin / admin123 signs in, as the development admin, and anything else is refused with a fixed message |
| AuthLegacy.ReduceKeepsNoUserWhenSignedOut | src/renderer/src/store/slices/authSlice.js:89-166 | no action of the older slice leaves a user in a signed-out state |
| AuthLegacy.RefusedLoginKeepsSession | src/renderer/src/store/slices/authSlice.js:110-126 | a refused sign-in leaves the session and user as they were and records a non-empty message |
| AuthLegacy.DevLoginIsAdmin | src/renderer/src/store/slices/authSlice.js:13-20 | the offline fallback signs in exactly on password admin123 (or an existing session), and that user passes every menu check |
| AuthLegacy.LogoutClears | src/renderer/src/store/slices/authSlice.js:93-135 | both the `logout` reducer and a successful sign-out request end in the initial state, the reducer keeping the spinner as it was |
| BranchPage.HandleChange | src/renderer/src/pages/Branches/CreateBranchPage.tsx:23-31 | the edited field takes the typed text and nothing else in the form changes; that field's own error is cleared when set and every other error stays |
| BranchPage.FieldError | src/renderer/src/pages/Branches/CreateBranchPage.tsx:36-46 | a field is in error exactly when it is blank after trimming or shorter than three characters before trimming |
| BranchPage.Validate | src/renderer/src/pages/Branches/CreateBranchPage.tsx:33-50 | the name and the address each carry an error exactly under the blank-or-short condition |
| BranchPage.Collect | src/renderer/src/pages/Branches/CreateBranchPage.tsx:34-48 | the error map holds exactly the fields with an error, each with its message |
| BranchPage.ValidIff | src/renderer/src/pages/Branches/CreateBranchPage.tsx:33-50 | the form is valid exactly when both fields are non-blank and at least three characters long |
| BranchPage.Submit | src/renderer/src/pages/Branches/CreateBranchPage.tsx:52-64 | a payload is sent exactly for a valid form, holding both fields trimmed |
| BranchPage.SubmittedIsCreatedUnlessTaken | src/main/ipc/handlers/branches.js:9-50 | a payload the page sends is refused by the handler exactly when a branch already has that exact name |
| BranchPage.NameMessage | src/renderer/src/pages/Branches/CreateBranchPage.tsx:116-118 | the text under the name input, read from the never-set `username` entry, is always empty |
| BranchPage.MessageFixed | src/renderer/src/pages/Branches/CreateBranchPage.tsx:132-134 | the text under an input, read from the field's own entry, is that entry's message or nothing |
| BranchPage.NameErrorHidden | src/renderer/src/pages/Branches/CreateBranchPage.tsx:116-118 | submitting the empty form sets a name error whose text the page as written never shows, while the corrected read shows "اسم الفرع مطلوب" |
| BranchStockPage.Load | src/renderer/src/pages/Products/AddProdutBranchPage.tsx:85-96 | the form takes the loaded stock, starts the added quantity at "0", reads an empty barcode as none and clears the generated code |
| BranchStockPage.ChangeNewQuantity | src/renderer/src/pages/Products/AddProdutBranchPage.tsx:123-129 | typing into the added-quantity input stores the text and changes nothing else |
| BranchStockPage.DefaultUnitInputs | src/renderer/src/pages/Products/AddProdutBranchPage.tsx:114-120 | one input per loaded unit, in order, each at quantity 0 |
| BranchStockPage.SetQuantity | src/renderer/src/pages/Products/AddProdutBranchPage.tsx:134-137 | the list keeps its length, the entry at the index takes the new quantity and every other entry is untouched |
| BranchStockPage.UnitInputChange | src/renderer/src/pages/Products/AddProdutBranchPage.tsx:131-141 | the entry at the index takes `Number(value)` and every other entry is untouched |
| BranchStockPage.SetQuantityBack | src/renderer/src/pages/Products/AddProdutBranchPage.tsx:131-141 | setting an entry to a value and then back to what it held restores the list |
| BranchStockPage.UnitInputChangeBack | src/renderer/src/pages/Products/AddProdutBranchPage.tsx:131-141 | editing a unit input and then typing its previous number back restores the list |
| BranchStockPage.AddedTo | src/renderer/src/pages/Products/AddProdutBranchPage.tsx:171-174 | the submitted stock exceeds the old one by exactly the read amount, and is NaN exactly when the amount is |
| BranchStockPage.LoadedAddsTyped | src/renderer/src/pages/Products/AddProdutBranchPage.tsx:165-181 | loading a product and typing a number submits its stock plus exactly that number |
| BranchStockPage.LoadThenType | src/renderer/src/pages/Products/AddProdutBranchPage.tsx:85-129 | typing into a freshly loaded form keeps the loaded stock |
| BranchStockPage.UntouchedKeepsStock | src/renderer/src/pages/Products/AddProdutBranchPage.tsx:165-181 | submitting the loaded form untouched sends the stock unchanged |
| Branches.Create | src/main/ipc/handlers/branches.js:9-50 | refused exactly without a name, without an address, or when a branch has exactly that name; otherwise one branch with those fields and a fresh id is appended and the others stay |
| Branches.CreateKeepsNamesUnique | src/main/ipc/handlers/branches.js:28-41 | branch names that are unique stay unique after a create |
| Branches.GetAll | src/main/ipc/handlers/branches.js:52-75 | the total is the number of branches; the page holds `min(limit, n - offset)` rows (no limit when negative, a negative offset read as 0) for n branches, and row k is the branch at position offset + k counted from the newest |
| Branches.GetAllWithoutPagination | src/main/ipc/handlers/branches.js:77-95 | every branch exactly once, newest first |
| Branches.WhereSql | src/main/ipc/handlers/branches.js:110-118 | the WHERE text is "1=1" exactly when no name is given |
| Branches.Search | src/main/ipc/handlers/branches.js:98-139 | the total counts exactly the branches whose name contains the term; the page holds `min(limit, n - offset)` rows (no limit when negative, a negative offset read as 0) for n such branches, and row k is the one at position offset + k counted from the newest |
| Branches.EmptySearchIsGetAll | src/main/ipc/handlers/branches.js:98-139 | a search without a name returns the plain paged listing |
| Branches.Delete | src/main/ipc/handlers/branches.js:141-165 | refused exactly for id 0 or when no id contains the id's digits; otherwise the branches left are exactly those whose id does not contain them |
| Branches.DeleteTakesNeighbours | src/main/ipc/handlers/branches.js:149-155 | deleting branch 2 also deletes branch 12 |
| Branches.DeleteFixed | src/main/ipc/handlers/branches.js:141-165 | refused exactly for id 0 or an unknown id; otherwise exactly the branches with another id remain |
| Branches.DeleteFixedKeepsNeighbours | src/main/ipc/handlers/branches.js:141-165 | the exact delete of branch 2 keeps branch 12 |
| Branches.Switch | src/main/ipc/handlers/branches.js:168-195 | refused exactly for id 0 or when no id contains the id's digits; otherwise the selected branch is one of the table whose id contains them |
| Branches.SwitchToExisting | src/main/ipc/handlers/branches.js:176-183 | with positive ids in rowid order, switching to an existing branch selects that very branch |
| Branches.SwitchToMissingPicksOther | src/main/ipc/handlers/branches.js:176-183 | switching to a removed id 2 silently selects branch 12 |
| Categories.Create | src/main/ipc/handlers/categories.js:5-32 | refused exactly for an empty name or when some live category's name contains it; otherwise one live category with that name and a fresh id is appended |
| Categories.CreateTwiceFails | src/main/ipc/handlers/categories.js:13-19 | creating the same name a second time is refused |
| Categories.ShorterNameRefused | src/main/ipc/handlers/categories.js:13-19 | with "زيت زيتون" live, "زيت" cannot be created, because the check is containment rather than equality |
| Categories.GetAll | src/main/ipc/handlers/categories.js:34-48 | exactly the live categories |
| Categories.FindById | src/main/ipc/handlers/categories.js:69-91 | fails exactly when no live category has the id; otherwise returns a live category of the table with that id |
| Categories.Search | src/main/ipc/handlers/categories.js:93-111 | exactly the live categories whose name contains the text |
| Categories.EmptySearchIsGetAll | src/main/ipc/handlers/categories.js:93-111 | an empty search lists the same rows as `getAll` |
| Categories.GetByName | src/main/ipc/handlers/categories.js:50-67 | always fails, because it filters on a `username` column the categories table lacks |
| Categories.Update | src/main/ipc/handlers/categories.js:113-144 | always fails: an empty name with the handler's message, any other name on the same missing column and the malformed UPDATE |
| Categories.UpdateFixed | src/main/ipc/handlers/categories.js:113-144 | refused exactly for an empty name or when the first live category whose name contains the new one has another id, and never when no other live category matches; success renames exactly the rows with the id and changes nothing else |
| Categories.RenameWorksOnlyWhenFixed | src/main/ipc/handlers/categories.js:123-134 | renaming a category to a name no other live category contains fails as written and succeeds with the corrected update |
| Categories.Delete | src/main/ipc/handlers/categories.js:146-176 | refused exactly for id 0 or when no live id contains the id's digits; otherwise the table keeps its length, rows with another id are untouched and rows with the id are stamped deleted |
| Categories.DeleteLiveCategory | src/main/ipc/handlers/categories.js:154-166 | with positive ids in rowid order, deleting a live category renames it `deleted_<name>_<id>`, stamps it, leaves every other row alone and drops it from the listing |
| CreditPage.HandleInputChange | src/renderer/src/pages/Credit/CreateCreditPage.tsx:75-97 | the edited field takes the value, the amount through `Number`, and nothing else in the form changes; that field's error is removed when set and every other error stays |
| CreditPage.FailsIff | src/renderer/src/pages/Credit/CreateCreditPage.tsx:27-37 | a field fails exactly when the reason or receiver is blank after trimming, or the amount is not above zero |
| CreditPage.Validate | src/renderer/src/pages/Credit/CreateCreditPage.tsx:24-41 | the error map holds exactly the failing fields |
| CreditPage.ValidIff | src/renderer/src/pages/Credit/CreateCreditPage.tsx:24-41 | the form is valid exactly when reason and receiver are non-blank and the amount is not at or below zero |
| CreditPage.Payload | src/renderer/src/pages/Credit/CreateCreditPage.tsx:54-56 | the object sent carries the reason and amount, but the receiver under the key `reciever`, so the handler's `receiver` arrives missing |
| CreditPage.PayloadFixed | src/renderer/src/pages/Credit/CreateCreditPage.tsx:54-56 | the same object with the receiver under the key the handler reads |
| CreditPage.ReceiverStoredOnlyWhenFixed | src/main/ipc/handlers/credit.js:7-47 | a valid form on a branch with an open day is recorded either way, but as written with an empty receiver and with the corrected key with the typed one |
| CreditPage.NaNAmountPassesPageOnly | src/renderer/src/pages/Credit/CreateCreditPage.tsx:35-37 | an amount that is not a number passes the page's `price <= 0` check but the handler refuses it as missing input |
| CreditPage.NextRoute | src/renderer/src/pages/Credit/CreateCreditPage.tsx:58-68 | the page moves to the daily expense list exactly when the save succeeded |
| Credits.Create | src/main/ipc/handlers/credit.js:7-47 | as written every call fails: missing reason or price gives the input message, and any input that passes reaches the never-imported `Store` and throws |
| Credits.StoredReceiver | src/main/ipc/handlers/credit.js:19-22 | a given receiver is stored as typed; a missing, null or empty one as "" |
| Credits.CreateFixed | src/main/ipc/handlers/credit.js:7-47 | with the branch as a parameter: refused exactly for a missing reason or price, then exactly for no branch, then exactly when the branch has no live open day; otherwise one live expense with a fresh id is appended against an open day of the branch |
| Credits.CreditRaisesOpenDayExpenses | src/main/ipc/handlers/credit.js:26-38 | while the branch has one open day, a recorded expense lands on that day and raises the day's expense total by its price |
| Credits.SearchName | src/main/ipc/handlers/credit.js:54 | the search name is the trimmed text exactly when it is a non-blank string |
| Credits.PositiveOr | src/main/ipc/handlers/credit.js:55-56 | a positive integer is kept, anything else takes the default |
| Credits.NormalisedArgsArePositive | src/main/ipc/handlers/credit.js:55-57 | the normalised page and limit are at least 1, so the offset is never negative |
| Credits.ParamsMatchPlaceholdersIff | src/main/ipc/handlers/credit.js:60-94 | the count query's parameters match its placeholders exactly unless a branch is selected and a name searched, when there is one parameter too many |
| Credits.GetAll | src/main/ipc/handlers/credit.js:49-104 | as written the `new Store()` inside the try throws, so the answer is always an empty list with an error |
| Credits.GetAllWithBranch | src/main/ipc/handlers/credit.js:49-104 | with the branch supplied: an error exactly for a branch and a name together; otherwise the total counts the rows the written WHERE selects and the page holds `min(limit, n - offset)` rows (no limit when negative, a negative offset read as 0) of them, row k being the selected row at position offset + k counted from the newest |
| Credits.NameSearchCountsDeleted | src/main/ipc/handlers/credit.js:70-83 | with no branch a name search counts a deleted expense whose reason matches, because the OR is not bracketed; the corrected listing never does |
| Credits.GetAllFixed | src/main/ipc/handlers/credit.js:49-104 | the corrected listing never fails, counts the live rows of the branch matching the name, and the page holds `min(limit, n - offset)` rows (no limit when negative, a negative offset read as 0) of them, row k being the one at position offset + k counted from the newest |
| Credits.FixedAgreesWithoutName | src/main/ipc/handlers/credit.js:60-94 | without a name the corrected listing is the listing as written |
| Credits.NameWithBranchFailsOnlyAsWritten | src/main/ipc/handlers/credit.js:64-94 | a branch and a name matching one of its live expenses: the listing as written fails, the corrected one counts that expense |
| Credits.Delete | src/main/ipc/handlers/credit.js:170-199 | refused exactly for id 0 or when no live id contains the id's digits; otherwise exactly the rows whose id is the id are stamped deleted and nothing else changes |
| Credits.DeleteLiveCredit | src/main/ipc/handlers/credit.js:178-188 | with ids in rowid order, deleting a live expense with a non-zero id stamps that row only |
| Credits.DeleteOfDeletedSucceeds | src/main/ipc/handlers/credit.js:178-188 | deleting an already deleted expense 2 succeeds because live expense 12 contains its digits, and re-stamps it |
| Daily.OpenDaily | src/main/ipc/handlers/daily.js:5-38 | fails exactly without a branch, or when the branch has no open day and no user is signed in (`daily.userId` is NOT NULL); reports a refusal and writes nothing exactly when the branch already has an open day; otherwise appends one open, live day for that user and branch with a fresh id and the opening amount, 0 by default |
| Daily.CloseDaily | src/main/ipc/handlers/daily.js:40-70 | closes something exactly when the branch has an open day, and then it is the first such day whose rows get the UTC `YYYY-MM-DD HH:MM:SS` clock and the closing amount, 0 by default; otherwise nothing changes |
| Daily.OpenDailyKeepsOneOpen | src/main/ipc/handlers/daily.js:15-29 | opening a day keeps every branch at no more than one open day |
| Daily.CloseDailyClosesBranch | src/main/ipc/handlers/daily.js:46-61 | closing keeps every branch at no more than one open day and leaves the closed branch with none |
| Daily.ClosingTheOpenDay | src/main/ipc/handlers/daily.js:58-61 | closing the rows with the id of a branch's open day leaves that branch no open day and opens none anywhere |
| Daily.DailyLifecycle | src/main/ipc/handlers/daily.js:5-70 | after a close a signed-in cashier can open a new day, and a second open straight after an open is refused and writes nothing |
| Daily.DeleteUserDays | src/main/database/connection.js:32-43 | deleting a user cascades to the days: exactly the days that user did not open remain |
| Daily.DeletingOpenerDropsOpenDay | src/main/database/connection.js:37-42 | deleting the cashier who opened a branch's day leaves that branch with no open day |
| Daily.ExpensesAppend | src/main/ipc/handlers/daily.js:131-136 | a new expense adds its price to the expense total of the days it belongs to and nothing to others |
| Daily.Average | src/main/ipc/handlers/daily.js:138 | the average times the count gives the total, and an empty day averages 0 |
| Daily.GetDaily | src/main/ipc/handlers/daily.js:71-162 | `success: false` exactly when no day is in scope (the branch's open days, or all open days without a branch); otherwise cash sales, returns, cash count, products sold on cash invoices and expenses are the sums over exactly those days, and the average divides sales by count |
| Daily.CashInvoiceRaisesSales | src/main/ipc/handlers/daily.js:98-119 | a new cash invoice on an in-scope day raises sales by its net total and the count by one, and leaves returns unchanged |
| Dates.FormatDateForMySqlLayout | src/main/ipc/handlers/daily.js:164-176 | for a valid instant with a four-digit year the text is nineteen characters `YYYY-MM-DD HH:MM:SS` with the separators in place and every field read back from its zero-padded digits, the month 1-based |
| Dates.ReplaceFirst | src/main/ipc/handlers/reports.js:524 | `replace` with a one-character pattern keeps the length and changes nothing when the character is absent |
| Dates.ReplaceFirstAfter | src/main/ipc/handlers/reports.js:524 | only the first occurrence of the character is replaced |
| Dates.ToSqliteDate | src/main/ipc/handlers/reports.js:523-525 | the result is the first nineteen characters of the ISO text, or all of a shorter one |
| Dates.SqliteDateOfIsoString | src/main/ipc/handlers/reports.js:523-525 | `toSqliteDate` of an instant's ISO text is exactly the text `formatDateForMySQL` writes for the same instant, so report bounds and stored timestamps are comparable |
| Dates.Pad2Order | src/main/ipc/handlers/daily.js:165 | two-digit zero-padded numbers sort as text exactly as they sort as numbers, and are equal exactly when the numbers are |
| Dates.ClockOrder | src/main/ipc/handlers/daily.js:171-175 | the `HH:MM:SS` part sorts chronologically |
| Dates.Year4Order | src/main/ipc/handlers/daily.js:167 | four-digit years sort as text exactly as they sort as numbers |
| Dates.MonthDayOrder | src/main/ipc/handlers/daily.js:168-169 | the `MM-DD` part sorts by month, then by day, and is equal exactly for equal month and day |
| Dates.DatePartOrder | src/main/ipc/handlers/daily.js:167-175 | the `YYYY-MM-DD` part sorts chronologically and equal texts mean the same calendar date |
| Dates.MySqlTextOrder | src/main/ipc/handlers/daily.js:164-176 | the stored timestamp text sorts exactly when the instants are in order, so SQLite's text comparison is a time comparison |
| Dates.StoredSortsBeforeIsoOnSameDate | src/main/ipc/handlers/invoice.js:115-138 | against a raw `toISOString()` bound on the same calendar date a stored timestamp always sorts first, because ' ' precedes 'T', so `createdAt <= to` keeps and `createdAt >= from` drops the whole day whatever the hour |
| Dates.SplitFirst | src/renderer/src/utils/formDate.ts:4-6 | reading back the shown text: the part before and after the first separator, with the separator absent from the first part, exactly when it occurs |
| Dates.FormatDateReadsBack | src/renderer/src/utils/formDate.ts:1-8 | every `D/M/YYYY H:MM` text `formatDate` prints reads back to its day, 1-based month, year, hour and two-digit minute; the JavaScript copy `src/renderer/src/utils/formDate.js:1-8` is the same function |
| Dates.DatePartShape | src/main/ipc/handlers/reports.js:25-26 | the date part of a four-digit-year time is ten characters: the year, a dash, and the month and day |
| Dates.ShownFieldsReadBack | src/renderer/src/utils/formDate.ts:1-10 | fields free of the separators and readable as numbers are read back from `D/M/YYYY H:MM` in their places |
| InvoiceBrowser.NetTotal | src/renderer/src/pages/Invoice/components/data-table.component.tsx:215-218 | the shown net total plus the invoice discount is the sum of the line totals, so the discount is taken off as an amount |
| InvoiceBrowser.OrDefault | src/renderer/src/pages/Invoice/components/data-table.component.tsx:77-81 | `x \|\| default` on text: a non-empty value is kept and the empty string falls back |
| InvoiceBrowser.ToBrowseLines | src/renderer/src/pages/Invoice/components/data-table.component.tsx:84-93 | one shown line per saved line, in order, with its item id, name, quantity, unit price and discount |
| InvoiceBrowser.UpdateInvoiceUI | src/renderer/src/pages/Invoice/components/data-table.component.tsx:55-94 | no data clears the details and lines and offers no step either way; data shows the invoice's details and lines, makes its id both step bounds and keeps the step flags; filters, current id and spinner are untouched |
| InvoiceBrowser.Data | src/renderer/src/pages/Invoice/components/data-table.component.tsx:108-112 | the payload's data is present exactly when the request succeeded with an invoice |
| InvoiceBrowser.FetchFirst | src/renderer/src/pages/Invoice/components/data-table.component.tsx:97-140 | the newest invoice matching the filter over every day becomes current and both bounds, with a step forward offered exactly when a later one matches; finding none clears the page and offers no step |
| InvoiceBrowser.ResetNavigation | src/renderer/src/pages/Invoice/components/data-table.component.tsx:41-47 | a filter change drops both bounds, offers a step back and no step forward, and leaves the shown invoice alone |
| InvoiceBrowser.ChangeFilter | src/renderer/src/pages/Invoice/components/data-table.component.tsx:41-53 | whatever the previous state, a found first invoice becomes current and both bounds with a step back offered, and finding none clears the page and offers no step |
| InvoiceBrowser.ClearFilters | src/renderer/src/pages/Invoice/components/data-table.component.tsx:220-225 | every filter goes back to empty and the shown invoice is untouched |
| InvoiceBrowser.Previous | src/renderer/src/pages/Invoice/components/data-table.component.tsx:159-185 | a no-op unless a step back is offered and nothing loads; otherwise the invoice before the bound is shown with a step forward offered and a step back offered exactly when an earlier one exists, or, with none, only the step back is withdrawn; the current invoice id never moves |
| InvoiceBrowser.After | src/renderer/src/pages/Invoice/components/data-table.component.tsx:187-213 | a no-op unless a step forward is offered and nothing loads; otherwise the open day's next invoice is shown and made current with a step back offered and a step forward offered exactly when a later one exists, or, with none, only the step forward is withdrawn |
| InvoiceBrowser.StepsMoveMonotonically | src/renderer/src/pages/Invoice/components/data-table.component.tsx:159-213 | a step back shows a smaller id than before and a step forward a larger one |
| InvoiceBrowser.PaymentRadio | src/renderer/src/pages/Invoice/components/data-table.component.tsx:390-408 | only the cash choice does anything: it shows cash and sets cash on exactly the rows whose id is the current invoice id |
| InvoiceBrowser.CashRadioAfterPreviousHitsHiddenInvoice | src/renderer/src/pages/Invoice/components/data-table.component.tsx:159-185 | after a step back the current id still names the invoice shown before, so the cash radio leaves the shown invoice's rows unchanged |
| InvoiceBrowser.PreviousFixed | src/renderer/src/pages/Invoice/components/data-table.component.tsx:159-185 | the step back that also makes the shown invoice current, as the step forward does |
| InvoiceBrowser.CashRadioAfterPreviousFixedHitsShownInvoice | src/renderer/src/pages/Invoice/components/data-table.component.tsx:390-408 | with the corrected step back the cash radio changes only rows of the shown invoice and sets them all to cash |
| InvoiceBrowser.SavedTotalIsSubtotal | src/renderer/src/pages/Invoice/components/data-table.component.tsx:215-217 | the browser's line total of a saved cart equals the create page's subtotal |
| InvoiceBrowser.DiscountReadAsAmount | src/renderer/src/pages/Invoice/components/data-table.component.tsx:218 | one line of 200 with a 10% invoice discount nets 180 on the create page but 190 when browsed |
| InvoiceBrowser.NetTotalFixed | src/renderer/src/pages/Invoice/components/data-table.component.tsx:218 | the net total with the discount read as a percentage: the line total minus it is that percentage of the line total |
| InvoiceBrowser.FixedNetMatchesCreatePage | src/renderer/src/pages/Invoice/create-invoicePage.tsx:376-382 | with the fix, browsing a saved invoice shows the net total the create page computed |
| InvoiceDraft.NetTotal | src/renderer/src/pages/Invoice/create-invoicePage.jsx:75-80 | the net total plus the invoice discount is the sum of the line totals |
| InvoiceDraft.TotalAppend | src/renderer/src/pages/Invoice/create-invoicePage.jsx:78 | the `reduce` total of two joined lists is the sum of their totals |
| InvoiceDraft.AddProduct | src/renderer/src/pages/Invoice/create-invoicePage.jsx:51-63 | blank text changes nothing; otherwise the lines gain exactly one line at the end named by the untrimmed text, with the clock as id, quantity 1, price 100 and no discount, and the text is cleared |
| InvoiceDraft.AddProductRaisesTotal | src/renderer/src/pages/Invoice/create-invoicePage.jsx:51-78 | every added line raises the total by exactly 100 |
| InvoiceDraft.UpdateProduct | src/renderer/src/pages/Invoice/create-invoicePage.jsx:65-69 | every line with the id has the field set to `Number(value) \|\| 0` and every other line is untouched |
| InvoiceDraft.UpdateWithTextIsZero | src/renderer/src/pages/Invoice/create-invoicePage.jsx:67 | typing "abc" into a field sets it to 0 on every line with the id |
| InvoiceDraft.RemoveProduct | src/renderer/src/pages/Invoice/create-invoicePage.jsx:71-73 | exactly the lines with another id remain, and the total drops by the total of the removed lines |
| InvoiceDraft.RemoveProductIdempotent | src/renderer/src/pages/Invoice/create-invoicePage.jsx:71-73 | removing an id twice is the same as removing it once |
| InvoiceDraft.Submit | src/renderer/src/pages/Invoice/create-invoicePage.jsx:82-92 | the invoice submitted carries the lines and discount as shown, the total is the lines' total and the net total is that minus the discount |
| InvoiceFilters.ClearAll | src/renderer/src/pages/Invoice/components/filterSection.tsx:23-28 | every filter becomes empty and no filter is active afterwards |
| InvoiceFilters.ClearChip | src/renderer/src/pages/Invoice/components/filterSection.tsx:128-158 | a chip's close button empties its own filter and keeps the other two |
| InvoiceFilters.ChipsShowActiveFilters | src/renderer/src/pages/Invoice/components/filterSection.tsx:30 | the chip row shows exactly when some filter is non-empty |
| InvoiceFilters.ClosingEveryChipClears | src/renderer/src/pages/Invoice/components/filterSection.tsx:23-28 | closing the three chips, in either order, is the same as clearing all |
| InvoiceFilters.TypeOption | src/renderer/src/pages/Invoice/components/filterSection.tsx:99-102 | the cash and return options carry their stored spelling, while the deferred option's "آجل" names no type the schema accepts |
| InvoiceFilters.DeferredOptionMatchesNothing | src/main/database/connection.js:76 | choosing the deferred option hides every invoice the schema can hold, whatever the dates |
| InvoiceFilters.TypeOptionFixed | src/renderer/src/pages/Invoice/components/filterSection.tsx:99-102 | every option carries the schema's own spelling of its type |
| InvoiceFilters.FixedOptionSelectsItsType | src/main/ipc/handlers/invoice.js:141-144 | with the schema's spellings an option keeps exactly the invoices of its type |
| InvoicePage.SubtotalAppend | src/renderer/src/pages/Invoice/create-invoicePage.tsx:379 | the subtotal of two joined carts is the sum of their subtotals |
| InvoicePage.SubtotalNonNegative | src/renderer/src/pages/Invoice/create-invoicePage.tsx:379 | lines with non-negative quantity and price never make the subtotal negative |
| InvoicePage.Summarize | src/renderer/src/pages/Invoice/create-invoicePage.tsx:376-382 | the subtotal is the sum of quantity times price, the discount is that percentage of it, and the payable total plus the discount is the subtotal |
| InvoicePage.SummaryBounds | src/renderer/src/pages/Invoice/create-invoicePage.tsx:347-352 | with a discount inside the input's 0..100 range and non-negative lines, the payable total lies between 0 and the subtotal |
| InvoicePage.DiscountIsNotClamped | src/renderer/src/pages/Invoice/create-invoicePage.tsx:347-352 | the range is only a hint on the input: a 150% discount on 100 makes the payable total -50 |
| InvoicePage.TypedQuantity | src/renderer/src/pages/Invoice/create-invoicePage.tsx:257-262 | the typed quantity is at least 1 and at most the stock: a number within range is taken as typed, and NaN or 0 gives 1 |
| InvoicePage.TypedQuantityOfRendered | src/renderer/src/pages/Invoice/create-invoicePage.tsx:257-262 | typing a quantity that is in stock shows exactly that quantity |
| InvoicePage.Decrement | src/renderer/src/pages/Invoice/create-invoicePage.tsx:250 | the minus button lowers the quantity by one but never below 1 |
| InvoicePage.Increment | src/renderer/src/pages/Invoice/create-invoicePage.tsx:271 | the plus button raises the quantity by one but never above the stock |
| InvoicePage.IncrementThenDecrement | src/renderer/src/pages/Invoice/create-invoicePage.tsx:250-271 | plus then minus is the identity while there is room to add one |
| InvoicePage.UpdateQuantity | src/renderer/src/pages/Invoice/create-invoicePage.tsx:613-617 | only the line at the index takes the quantity; the others are untouched |
| InvoicePage.UpdatePrice | src/renderer/src/pages/Invoice/create-invoicePage.tsx:619-623 | only the line at the index takes the price; the others are untouched |
| InvoicePage.RemoveAt | src/renderer/src/pages/Invoice/create-invoicePage.tsx:625-627 | the line at a valid index is dropped and the later lines move up one; an invalid index changes nothing |
| InvoicePage.UpdateQuantitySubtotal | src/renderer/src/pages/Invoice/create-invoicePage.tsx:613-617 | changing one line's quantity moves the subtotal by exactly that line's difference |
| InvoicePage.RemoveAtSubtotal | src/renderer/src/pages/Invoice/create-invoicePage.tsx:625-627 | removing a line takes exactly its amount off the subtotal |
| InvoicePage.AddSampleProduct | src/renderer/src/pages/Invoice/create-invoicePage.tsx:633-658 | warns and changes nothing exactly for blank search text, an unknown product or one out of stock; otherwise appends one line for the found product with quantity 1, its price and barcode and its stock as ceiling, and clears the search |
| InvoicePage.AddedLineInStock | src/renderer/src/pages/Invoice/create-invoicePage.tsx:633-658 | an added line starts within its stock, so the plus and minus controls keep it in range |
| InvoicePage.SavePayload | src/renderer/src/pages/Invoice/create-invoicePage.tsx:660-681 | nothing is sent exactly for an empty cart; otherwise every line goes out in order with discount 0, together with the details as shown |
| InvoicePage.SavedTotalsMatchSummary | src/renderer/src/pages/Invoice/create-invoicePage.tsx:666-678 | the saved total is the summary's subtotal and the saved net total its payable total, the two differing by the percentage discount |
| InvoicePage.ResetInvoice | src/renderer/src/pages/Invoice/create-invoicePage.tsx:587-604 | reset empties the cart, restores the default details, forgets the current invoice and turns every navigation flag off |
| InvoicePage.ResetIsInitial | src/renderer/src/pages/Invoice/create-invoicePage.tsx:587-604 | reset lands in the page's initial state whatever came before, so a second reset changes nothing |
| InvoicePage.PaymentTypeDisabled | src/renderer/src/pages/Invoice/create-invoicePage.tsx:860-862 | the payment type is locked exactly while viewing a saved invoice that is cash or returned |
| InvoicePage.DeferredStaysEditable | src/renderer/src/pages/Invoice/create-invoicePage.tsx:860-862 | a deferred invoice, and any invoice being entered, keeps its payment type editable |
| InvoicePage.DetailChange | src/renderer/src/pages/Invoice/create-invoicePage.tsx:606-611 | the named detail takes the value and every other detail keeps its own |
| InvoicePage.DiscountChange | src/renderer/src/pages/Invoice/create-invoicePage.tsx:629-631 | only the discount changes |
| Invoices.StoredLine | src/main/ipc/handlers/invoice.js:68-82 | a stored line keeps the invoice id, item, unit price, quantity and discount; its gross price is unit price times quantity and its net amount is that minus the discount, clamped at 0 so it is never negative |
| Invoices.StoredLines | src/main/ipc/handlers/invoice.js:56-83 | one stored line per sent line, in order |
| Invoices.MoveStock | src/main/ipc/handlers/invoice.js:57-67 | the items with the line's id lose its quantity on a sale and gain it on a return; every other item is untouched |
| Invoices.MoveAll | src/main/ipc/handlers/invoice.js:56-67 | after the loop each item's stock has moved by the total quantity its lines carry, down for a sale and up for a return, and nothing else changes |
| Invoices.FirstUnknown | src/main/database/connection.js:84-95 | the loop stops at the first line naming no item, because its invoiceItems insert fails the foreign key; every earlier line names an item |
| Invoices.CreateInvoice | src/main/ipc/handlers/invoice.js:9-93 | refused without writing exactly when the payment type is missing, the cart is empty, no day is open or the type fails the CHECK; succeeds exactly when in addition every line names an item; whenever the invoice row is inserted, it goes to the first open day with the clock as date, and the lines before the first unknown item are stored and moved, so a failed line leaves the earlier writes behind |
| Invoices.Record | src/main/ipc/handlers/invoice.js:44-83 | the rows one save leaves: the invoice row with a fresh id, its stored lines and the stock moves |
| Invoices.CompleteSave | src/main/ipc/handlers/invoice.js:44-83 | a save that succeeds writes the invoice row, every line and every stock move |
| Invoices.UnknownItemLeavesHalfInvoice | src/main/ipc/handlers/invoice.js:56-83 | a sale whose second line names an unknown item fails but keeps its invoice row, its first stored line and that line's stock move |
| Invoices.CreateInvoiceAtomic | src/main/ipc/handlers/invoice.js:33-92 | the save inside one transaction: it succeeds exactly when the save as written succeeds, with the same rows, and a failure writes nothing |
| Invoices.AtomicSaveWritesAllOrNothing | src/main/ipc/handlers/invoice.js:33-92 | a transactional save leaves the database unchanged or writes the whole invoice with every line |
| Invoices.SaleThenReturnRestoresStock | src/main/ipc/handlers/invoice.js:56-67 | saving a sale and then a return of the same lines both succeed and leave every item's stock where it started |
| Invoices.ReturnAccepted | src/main/ipc/handlers/invoice.js:29-55 | the return of a saved sale passes every check of the handler: the same open day, a valid type and items that still exist |
| Invoices.ReturnUndoesSale | src/main/ipc/handlers/invoice.js:56-67 | restocking the lines a sale took out puts every item back exactly |
| Invoices.MovedSingle | src/main/ipc/handlers/invoice.js:56-67 | when every line names a different item, each item's stock moves by exactly its own line's quantity |
| Invoices.UpdateInvoice | src/main/ipc/handlers/invoice.js:338-361 | refused exactly when some row has the id and the type is outside the CHECK's three spellings; otherwise exactly the rows with the id take the new payment type and nothing else changes |
| Invoices.LinesOf | src/main/ipc/handlers/invoice.js:167-175 | every shown line is one of the invoice's stored lines named after an item with its id, and every stored line of the invoice appears once for each item carrying its id, as the join gives |
| Invoices.OpenDay | src/main/ipc/handlers/invoice.js:105-111 | the day the queries use is the first open day of any branch: it is open and every earlier day is closed; there is none exactly when every day is closed |
| Invoices.BeforeInvoice | src/main/ipc/handlers/invoice.js:95-188 | fails exactly without an open day; no data exactly when nothing matches (the open day's invoices, or every day's with `all`, below the bound and within the filters); otherwise the matching invoice with the largest id, the smallest matching id as `first`, and the invoice's lines |
| Invoices.AfterInvoice | src/main/ipc/handlers/invoice.js:189-276 | fails exactly without an open day; no data exactly when nothing on the open day above the bound matches; otherwise the matching invoice with the smallest id, the largest matching id as `last`, and the invoice's lines |
| Invoices.BeforeIsNearest | src/main/ipc/handlers/invoice.js:128-131 | stepping back never skips an invoice: the one shown lies below the bound and nothing matching lies strictly between them |
| Invoices.FromBoundDropsItsOwnDate | src/main/ipc/handlers/invoice.js:113-134 | a `from` bound hides every invoice stored on the bound's own UTC date, even one stored after the bound |
| Invoices.FromBoundExample | src/main/ipc/handlers/invoice.js:113-134 | in a UTC time zone, filtering from midnight of 17 July 2025 hides an invoice saved at 10:15:05 that day |
| Invoices.FixedFilterIsChronological | src/main/ipc/handlers/invoice.js:113-144 | with both sides in the stored text format an invoice passes exactly when it lies within the bounds, to the second, and has the chosen type |
| Preload.SafeInvoke | src/main/security/preload.cjs:86-112 | a channel off the list is refused with "Invalid channel" before anything reaches the main process; a listed channel gets the main process's outcome unchanged |
| Preload.ExposedCallsPassGuard | src/main/security/preload.cjs:114-192 | every call the exposed `electronAPI` object makes is on the list, so the guard never refuses one of them |
| Preload.On | src/main/security/preload.cjs:194-200 | an off-list channel is ignored; otherwise the callback is added last on that channel and no other channel changes, so the registry only ever holds listed channels |
| Preload.LastIndexOf | src/main/security/preload.cjs:201-207 | the position removal uses: -1 exactly when the callback is absent, otherwise its last occurrence |
| Preload.RemoveListener | src/main/security/preload.cjs:201-207 | an off-list or empty channel is left alone, every other channel is untouched, and the registry keeps holding listed channels only |
| Preload.RemoveAllListeners | src/main/security/preload.cjs:208-214 | an off-list channel is ignored; otherwise that channel loses every listener and every other channel is untouched |
| Preload.OnThenRemoveRestores | src/main/security/preload.cjs:194-207 | adding a listener and removing it again gives back the registry as it was |
| IpcHandlers.Current | src/main/ipc/handlers/index.js:45-57 | an unknown sender, or one whose window has passed, starts a fresh window of `RATE_LIMIT_WINDOW` ms with no calls; otherwise the sender's limiter is used as it is |
| IpcHandlers.RateLimit | src/main/ipc/handlers/index.js:40-68 | a call passes exactly when the current window holds fewer than `RATE_LIMIT_MAX_CALLS` (100) calls, and is then counted; other senders' limiters are untouched |
| IpcHandlers.RateLimitKeepsBounded | src/main/ipc/handlers/index.js:40-68 | no limiter ever counts more than the maximum |
| IpcHandlers.WindowRoomBoundsAccepted | src/main/ipc/handlers/index.js:40-68 | calls that all fall inside the sender's current window pass at most as often as the window has room left |
| IpcHandlers.AtMostMaxCallsPerWindow | src/main/ipc/handlers/index.js:37-64 | a call that opens a window followed by any calls within it lets at most 100 through, the opening call included |
| IpcHandlers.ExpiredWindowAccepts | src/main/ipc/handlers/index.js:54-64 | once the window has passed the next call always passes and opens a window counting one call |
| IpcHandlers.Sweep | src/main/ipc/handlers/index.js:177-185 | the periodic sweep keeps exactly the limiters not idle for a whole window past their reset time, unchanged |
| IpcHandlers.SweepIsInvisible | src/main/ipc/handlers/index.js:177-185 | any later call is accepted or refused as it would have been without the sweep, and leaves the same limiter |
| IpcHandlers.Dispatch | src/main/ipc/handlers/index.js:70-173 | a renderer call is refused exactly off the preload list, finds no handler exactly on a listed channel nobody registered, and on a listed registered channel reaches the handler exactly when the rate limit passes |
| IpcHandlers.ReportsAreUnreachable | src/main/ipc/handlers/index.js:169 | the inventory report is registered in the main process but refused by the preload guard, so no renderer call reaches it |
| IpcHandlers.UnitsAndBranchesUnwired | src/main/ipc/handlers/index.js:5-16 | no `units:` or `branches:` channel is registered or on the preload list, so every renderer call on one is refused |
| IpcHandlers.DispatchFixed | src/main/security/preload.cjs:5-84 | with every registered channel on the list a call is refused exactly off the widened list, and a registered channel is reached exactly when the rate limit passes |
| IpcHandlers.FixedListReachesEveryHandler | src/main/ipc/handlers/index.js:76-173 | with the widened list every registered handler is reachable, and every channel already allowed routes exactly as before |
| ConfirmModal.Reduce | src/renderer/src/store/slices/confirmModalSlice.ts:10-21 | a show opens the dialog with the payload's callback and its label, "" when missing; a hide returns to the initial state whatever came before |
| ConfirmModal.ReplayKeepsCleared | src/renderer/src/store/slices/confirmModalSlice.ts:5-21 | after any sequence of actions a closed dialog holds no label and no callback, and the dialog is open exactly when the last action was a show |
| ConfirmModal.HideUndoesShow | src/renderer/src/store/slices/confirmModalSlice.ts:11-20 | hiding after showing restores the initial state |
| ConfirmModal.ShowIdempotent | src/renderer/src/store/slices/confirmModalSlice.ts:11-15 | showing the same payload twice is the same as showing it once |
| ImageModal.Reduce | src/renderer/src/store/slices/imageModal.ts:9-19 | a show opens the preview with the payload image, "" when missing; a hide returns to the initial state |
| ImageModal.ReplayKeepsCleared | src/renderer/src/store/slices/imageModal.ts:5-19 | after any sequence of actions a closed preview shows no image, and it is open exactly when the last action was a show |
| ImageModal.HideUndoesShow | src/renderer/src/store/slices/imageModal.ts:10-18 | hiding after showing restores the initial state |
| Numbers.DigitsValueOfNatToString | src/main/ipc/handlers/daily.js:165 | the decimal text `String(n)` produces for a natural number reads back as that number |
| Numbers.ContainedNumberIsNotSmaller | src/main/ipc/handlers/branches.js:149-151 | when one id's decimal text contains another's, as `id LIKE '%k%'` accepts, the containing id is at least as large |
| Numbers.ZeroPaddingKeepsValue | src/main/ipc/handlers/daily.js:165 | padding a run of digits on the left with zeros keeps it a run of digits of the same value |
| Numbers.ZeroPad | src/main/ipc/handlers/daily.js:165 | `String(n).padStart(width, "0")` is a run of digits at least the width long that still reads as n |
| Numbers.Pad2 | src/renderer/src/utils/formDate.ts:6 | the two-place minute text reads as the number and is exactly two characters below 100 |
| Numbers.IntToString | src/main/ipc/handlers/products.js:150-154 | the text of an integer starts with a digit exactly when it is non-negative and with a minus sign exactly when it is negative |
| Numbers.LeadingDigits | src/main/ipc/handlers/products.js:150 | the digits parseInt reads are a prefix of the text and stop at the first non-digit |
| Numbers.ParseIntOfIntToString | src/main/ipc/handlers/products.js:150-154 | parseInt reads back whatever integer the barcode text was rendered from |
| Numbers.ToNumberOfIntToString | src/main/ipc/handlers/products.js:229-243 | `Number` reads back the text of any integer |
| Numbers.BlankReadsAsZero | src/main/ipc/handlers/products.js:229-243 | `Number` of blank text, the empty text included, is 0 |
| Numbers.NumberOrZero | src/renderer/src/pages/Invoice/create-invoicePage.jsx:67 | `Number(value) \|\| 0` is the number read, and 0 when the text is not a number |
| Numbers.CeilDiv | src/renderer/src/pages/Invoice/components/productsComponent.tsx:196 | `Math.ceil(n / d)` is the least count of d-sized blocks that covers n |
| Numbers.NatToString | src/main/ipc/handlers/daily.js:165 | `String(n)` of a natural number is a nonempty run of digits, one digit exactly below ten, and reads back as n |
| Numbers.PadStart | src/main/ipc/handlers/daily.js:165 | `padStart(width, c)` reaches the width, ends with the text itself, and puts only `c` before it |
| Numbers.ParseInt | src/renderer/src/pages/Products/prosuctStatisticsPage.tsx:208 | a number is read only when the text holds a digit, and the rendering of any integer reads back as that integer |
| Numbers.NegativeReadsBack | src/main/ipc/handlers/products.js:229-243 | `Number` reads back the rendering of a negative integer |
| Numbers.NonNegativeReadsBack | src/main/ipc/handlers/products.js:229-243 | `Number` reads back the rendering of a non-negative integer |
| Paging.Slice | src/renderer/src/pages/Products/prosuctStatisticsPage.tsx:236 | `slice(start, end)` is empty when the range is reversed or starts past the end; otherwise it holds the elements from start, up to end or the length |
| Paging.Page | src/renderer/src/pages/Products/prosuctStatisticsPage.tsx:234-236 | a 1-based page holds at most `PAGE_SIZE` rows, and they are the rows that follow the page's offset, in order |
| Paging.LimitOffset | src/main/ipc/handlers/credit.js:86 | `LIMIT ? OFFSET ?` returns at most the limit, the rows that follow the offset in order, and at least one row when the offset is inside the table and the limit is not 0 |
| Paging.TotalPages | src/renderer/src/pages/Products/prosuctStatisticsPage.tsx:234 | the page count covers every row with no empty last page, and it is 0 exactly for an empty list |
| Paging.PagesArePrefix | src/renderer/src/pages/Products/prosuctStatisticsPage.tsx:234-236 | the first n pages shown one after another are the first n times PAGE_SIZE rows of the list |
| Paging.PageIsWindow | src/renderer/src/pages/Products/prosuctStatisticsPage.tsx:235-236 | page n is the rows between the ends of pages n - 1 and n |
| Paging.PagesCoverAll | src/renderer/src/pages/Products/prosuctStatisticsPage.tsx:234-236 | the pages 1 to `totalPages`, shown one after another, are the whole list: every row exactly once and in order |
| Paging.ShownRangeCountsPage | src/renderer/src/pages/Products/components/data-table.component.tsx:302 | on every existing page the footer's "from … to …" starts at the offset plus one and counts exactly the rows the page shows |
| Paging.PageShowsRowsIff | src/main/ipc/handlers/credit.js:55-57 | a `LIMIT limit OFFSET (page - 1) * limit` query returns rows exactly for the pages that `Math.ceil(total / limit)` announces |
| Paging.PageButtons | src/renderer/src/pages/Products/prosuctStatisticsPage.tsx:530-537 | there are `Math.min(5, totalPages)` numbered buttons, labelled 1 upwards, each an existing page |
| Paging.GoToPage | src/renderer/src/pages/Products/prosuctStatisticsPage.tsx:238-242 | the page moves to the requested page exactly when that page exists, and otherwise it stays where it was |
| PdfExport.KindTextRoundTrip | src/main/ipc/handlers/pdf-export.js:74-89 | each of the six report types' text selects that type again in the `switch (reportType)` |
| PdfExport.KindOf | src/main/ipc/handlers/pdf-export.js:98-113 | a type is recognised only when the text is exactly that type's name |
| PdfExport.TimestampMatchesStoredDate | src/main/ipc/handlers/pdf-export.js:72 | the file-name timestamp `yyyy-MM-dd_HH-mm-ss` has the same digits as the stored date text of the same instant, with `_` and `-` in place of the space and colons |
| PdfExport.Filename | src/main/ipc/handlers/pdf-export.js:71-90 | every name ends in the timestamp and `.pdf`, and the generic name is used exactly when the type is not one of the six |
| PdfExport.FixedNamesApart | src/main/ipc/handlers/pdf-export.js:79-86 | the four types whose names carry no report data get different file names at any instant |
| PdfExport.RenderHtml | src/main/ipc/handlers/pdf-export.js:95-114 | a template is chosen exactly for the six known types whose template finds the data fields it reads; an unknown type fails with "unsupported report type" and a missing field with the TypeError the template's read throws |
| PdfExport.MissingListFails | src/main/ipc/handlers/pdf-export.js:515-748 | the daily and monthly templates never fail on missing data, while the product, inventory and cashier templates fail exactly without the list they read |
| PdfExport.GeneratePdfReport | src/main/ipc/handlers/pdf-export.js:15-66 | the export succeeds exactly for a known type whose data holds the fields its template reads, under that type and the name `generateFilename` gives, and every failure becomes "failed to create the PDF report" |
| PdfExport.ExportNeverUsesGenericName | src/main/ipc/handlers/pdf-export.js:15-90 | because the template step fails first on an unknown type, a successful export never carries the generic file name |
| PdfExport.PageExportAlwaysFails | src/renderer/src/store/slices/reportSlice.ts:15-30 | the reports page's export fails for every request, a supported type included |
| PdfExport.FixedExportUsesRequestedType | src/renderer/src/pages/Reports/index.tsx:87-92 | with the request unpacked into type and data, the export succeeds exactly for a known type whose data holds the fields its template reads, under that type and a name built from its own data |
| PdfExport.StockClassFlagsShortage | src/main/ipc/handlers/pdf-export.js:791-801 | on the three statuses the inventory query produces, the class is "negative" exactly when the item is out of stock or low, and "positive" exactly when in stock |
| PdfExport.ProfitClass | src/main/ipc/handlers/pdf-export.js:521 | a profit cell is "negative" exactly when its value is present and below 0, so a missing value counts as positive |
| PdfExport.Section | src/main/ipc/handlers/pdf-export.js:301-436 | an optional section is printed exactly for a present, non-empty list, with its rows in order and at most the cap of them |
| PdfExport.TopProductsPrintsFirstFifteen | src/main/ipc/handlers/pdf-export.js:436 | the monthly report prints the first fifteen top products in the order given, or all of them when there are fewer |
| Permissions.GroupIsByCategory | src/main/ipc/handlers/permissions.js:30-56 | there is a group for exactly the categories that occur, and each group holds exactly that category's permissions, in query order |
| Permissions.GrantPermission | src/main/ipc/handlers/permissions.js:88-122 | the grant is refused exactly when the user already holds the permission or the row names a user, permission or grantor that does not exist (the foreign-key failure); otherwise exactly one row for the pair is added |
| Permissions.GrantKeepsPairsUnique | src/main/database/connection.js:135-145 | a grant never breaks UNIQUE (user_id, permission_id) |
| Permissions.GrantKeepsReferences | src/main/database/connection.js:135-145 | a grant keeps every row's user, permission and grantor among the existing ids when they were before |
| Permissions.GrantedIsHeld | src/main/ipc/handlers/permissions.js:88-122 | after a grant the user holds the permission exactly when they held it before or the grant named existing ids |
| Permissions.RevokePermission | src/main/ipc/handlers/permissions.js:127-154 | the revoke is refused exactly when the user does not hold the permission; otherwise the pair is gone, every other row stays and nothing is added |
| Permissions.RevokeUndoesGrant | src/main/ipc/handlers/permissions.js:88-154 | revoking a permission granted just before, with existing ids, gives back the table as it was |
| Permissions.UpdateUserPermissions | src/main/ipc/handlers/permissions.js:159-201 | the replacement fails exactly when an id is repeated; otherwise the user then holds exactly the listed permissions, other users' rows are unchanged and unique pairs stay unique |
| Permissions.HasPermissionIff | src/main/ipc/handlers/permissions.js:206-225 | `COUNT(*) > 0` over the join is true exactly when the user holds a permission of that name |
| Permissions.UserPermissions | src/main/ipc/handlers/permissions.js:62-83 | the list holds exactly the permissions the user has a row for |
| Permissions.HasPermissionIffListed | src/main/ipc/handlers/permissions.js:62-225 | `hasPermission` agrees with the list `getUserPermissions` returns |
| Permissions.GrantThenRevokeByName | src/main/ipc/handlers/permissions.js:88-225 | after a grant naming existing ids the user has the permission by name, and after revoking it, with names unique, the user no longer has it |
| Permissions.GetUsersWithPermission | src/main/ipc/handlers/permissions.js:230-251 | the result is ordered by username and holds exactly the active users who hold the named permission |
| ProductFilters.ActiveCount | src/renderer/src/pages/Invoice/components/productsComponent.tsx:158-162 | the count is at most five and is 0 exactly when every filter is empty |
| ProductFilters.FilterChange | src/renderer/src/pages/Invoice/components/productsComponent.tsx:169-174 | the named filter takes the value and the other four keep theirs |
| ProductFilters.ClearSingle | src/renderer/src/pages/Invoice/components/productsComponent.tsx:186-191 | the named filter becomes empty and the other four keep theirs |
| ProductFilters.ClearFilters | src/renderer/src/pages/Invoice/components/productsComponent.tsx:176-184 | every filter becomes empty |
| ProductFilters.ClearSingleCount | src/renderer/src/pages/Invoice/components/productsComponent.tsx:158-191 | clearing one active filter lowers the count by exactly one, clearing an empty one leaves it, and clearing all leaves none |
| ProductFilters.Refilter | src/renderer/src/pages/Invoice/components/productsComponent.tsx:150-152 | a changed search text or filter set sends the table back to page 1, and setting the same values keeps the page |
| ProductFilters.WarningLimit | src/renderer/src/pages/Invoice/components/productsComponent.tsx:123-126 | a missing or empty `warning` setting gives the limit 0 |
| ProductFilters.QuantityBadge | src/renderer/src/pages/Invoice/components/productsComponent.tsx:258-264 | the badge is green exactly above a numeric limit, yellow exactly from 1 up to it, and red exactly at 0 or below; a limit that is not a number makes no badge green |
| ProductFilters.SeededLimitBadges | src/main/database/connection.js:211-213 | with the seeded limit "3", four units are green, three yellow and none red |
| ProductForm.ParseOrZero | src/renderer/src/pages/Invoice/components/productForm.tsx:29 | the leading whole number of the text, and 0 when the text does not start with one |
| ProductForm.HandleChange | src/renderer/src/pages/Invoice/components/productForm.tsx:23-32 | only the named field changes; a field whose name contains "price", and "quantity", gets the number read, and any other field gets the text |
| ProductForm.SelectCategory | src/renderer/src/pages/Invoice/components/productForm.tsx:90-93 | the selector sets `category_id` to the chosen id and leaves every other field alone |
| ProductForm.Submit | src/renderer/src/pages/Invoice/components/productForm.tsx:34-42 | the form is blocked exactly when the name or the price is falsy, so a price of 0 blocks it; otherwise it goes out unchanged |
| ProductForm.NumericFields | src/renderer/src/pages/Invoice/components/productForm.tsx:28 | "price", "buy_price" and "quantity" are read as numbers, and "name" and "barcode" are not |
| ProductForm.PriceGuard | src/renderer/src/pages/Invoice/components/productForm.tsx:23-42 | typing a non-number or 0 into the price blocks submission; typing a non-zero price with a name set lets it through |
| ProductForm.Typed | src/renderer/src/pages/Invoice/components/productForm.tsx:23-32 | after typing a name and then a price, the form holds that name and the price as read |
| ProductPage.ResetForm | src/renderer/src/pages/Products/CreateProductPage.tsx:61-81 | the form is empty and the page is in new-product mode with no original quantity |
| ProductPage.ApplyGeneratedCode | src/renderer/src/pages/Products/CreateProductPage.tsx:198-225 | the generated code becomes both the generated code and the barcode, the page returns to new-product mode, and the typed name and quantity stay |
| ProductPage.HandleSearch | src/renderer/src/pages/Products/CreateProductPage.tsx:83-149 | an empty text resets the form; an unknown barcode prepares a new product under the typed text and keeps the generated code; a found item fills the form from its fields and remembers its quantity |
| ProductPage.TypeNewQuantity | src/renderer/src/pages/Products/CreateProductPage.tsx:151-162 | only the added-quantity text changes |
| ProductPage.Submit | src/renderer/src/pages/Products/CreateProductPage.tsx:227-252 | refused exactly for a blank name or when neither barcode is set; otherwise the barcode is the typed one or else the generated one, and the quantity is the original plus the added amount for an existing product and the added amount alone for a new one |
| ProductPage.SentQuantity | src/renderer/src/pages/Products/CreateProductPage.tsx:247-251 | an existing product sends the original plus the added amount, NaN when the added text is not a number; a new product sends the added amount |
| ProductPage.AfterSave | src/renderer/src/pages/Products/CreateProductPage.tsx:257-268 | the print dialog opens exactly for a new product with a code, and the form is reset otherwise |
| ProductPage.RestockAddsQuantity | src/renderer/src/pages/Products/CreateProductPage.tsx:83-252 | scanning an item's barcode, typing the added quantity and saving raises that item's stock by the added amount and logs one purchase of the whole new quantity |
| ProductPage.RestockSaves | src/main/ipc/handlers/products.js:8-92 | saving an input with a listed item's barcode overwrites the first item with that barcode and logs one purchase of the whole quantity |
| ProductPage.RestockSubmission | src/renderer/src/pages/Products/CreateProductPage.tsx:83-252 | after scanning a barcode and typing the added amount, the page sends the item's own fields, its barcode, and the raised stock |
| ProductPage.NewProductUnderGeneratedCode | src/renderer/src/pages/Products/CreateProductPage.tsx:198-252 | a new product saved under a fresh generated code is inserted as one more item with that code and the typed quantity |
| Products.CreateProduct | src/main/ipc/handlers/products.js:8-92 | refused when a required field is missing; with a generated code, refused exactly when an item already has it, and otherwise one item with that code and a larger id is appended and one purchase of its quantity is logged; without one, refused exactly when no item has the typed barcode, and otherwise exactly the items with that barcode are overwritten and one purchase is logged for the first of them |
| Products.Newest | src/main/ipc/handlers/products.js:138-140 | there is a newest item exactly when the table is not empty, and no item has a larger id |
| Products.GenerateBarCode | src/main/ipc/handlers/products.js:137-155 | "100" for an empty table; otherwise the newest item's barcode read by `parseInt`, plus one, or "NaN" when it has no leading digits |
| Products.GeneratedCodesCountUp | src/main/ipc/handlers/products.js:8-155 | creating a product under the generated code makes it the newest item, so the next generated code is one more |
| Products.FirstCodes | src/main/ipc/handlers/products.js:143-147 | an empty catalogue's first code is 100, and after saving a product under it the next is 101 |
| Products.Clauses | src/main/ipc/handlers/products.js:221-250 | one WHERE clause for each non-empty search value |
| Products.WhereSql | src/main/ipc/handlers/products.js:255 | no clauses give "1=1", and one clause is used as it is |
| Products.NoFiltersKeepAll | src/main/ipc/handlers/products.js:255 | with nothing to filter on, the WHERE is "1=1" and every item matches |
| Products.AddingFilterNarrows | src/main/ipc/handlers/products.js:221-250 | a filter only narrows: an item that passes with a category condition added also passes without it |
| Products.Search | src/main/ipc/handlers/products.js:198-279 | the total counts exactly the items the name and filters select; the page holds `min(limit, n - offset)` rows (no limit when negative, a negative offset read as 0) for n such items, and row k is the one at position offset + k counted from the newest |
| Products.GetAll | src/main/ipc/handlers/products.js:94-117 | the total is the table size; the page holds `min(limit, n - offset)` rows (no limit when negative, a negative offset read as 0) for n items, and row k is the item at position offset + k counted from the newest |
| Products.GetAllIsUnfilteredSearch | src/main/ipc/handlers/products.js:94-279 | `getAll` gives the same page and total as `search` with no name and no filters |
| Products.GetByName | src/main/ipc/handlers/products.js:119-135 | the result holds exactly the items whose name or barcode contains the text |
| Products.GetByNameCountsAsSearch | src/main/ipc/handlers/products.js:119-279 | `getByName` finds as many items as a name-only `search` counts |
| Products.GetByBarcode | src/main/ipc/handlers/products.js:157-176 | nothing is found exactly when no barcode contains the text; otherwise an item whose barcode contains it |
| Products.FindById | src/main/ipc/handlers/products.js:178-196 | a failure exactly when no item has the id; otherwise an item with that id |
| Products.Update | src/main/ipc/handlers/products.js:281-305 | refused exactly when a required field is falsy; otherwise exactly the rows whose barcode equals the submitted id take the new name, quantity and prices, and the other rows are unchanged |
| Products.DeleteWhere | src/main/database/connection.js:121-132 | the delete fails exactly when a targeted item still has a stock movement; otherwise exactly the targeted items go and the movements stay |
| Products.DeleteProduct | src/main/ipc/handlers/products.js:307-330 | refused exactly for a falsy id, for an id no item's id contains, or when such an item has a movement; otherwise exactly the items whose id contains the id's digits are deleted |
| Products.DeleteProductTakesNeighbours | src/main/ipc/handlers/products.js:307-330 | deleting product 1 also deletes product 12 |
| Products.CreatedProductCannotBeDeleted | src/main/ipc/handlers/products.js:8-330 | a product saved under a generated code has its purchase logged, so deleting it by its id always fails |
| Products.DeleteProductFixed | src/main/ipc/handlers/products.js:307-330 | the delete by exact id is refused exactly for a falsy or unknown id or one with movements; otherwise exactly the rows with that id go |
| Products.FixedDeleteKeepsOtherIds | src/main/ipc/handlers/products.js:307-330 | where both deletes succeed, the LIKE delete removes at least as many rows; where only the exact one succeeds, some other item whose id contains the digits has a movement |
| InventoryPage.Search | src/renderer/src/pages/Reports/InventoryReport.tsx:50-61 | the search keeps exactly the fetched rows whose product name contains the term, ignoring case, since the category test reads a field the rows do not carry |
| InventoryPage.EmptySearchKeepsRows | src/renderer/src/pages/Reports/InventoryReport.tsx:50-61 | an empty search shows every fetched row |
| InventoryPage.SwitchIsIgnored | src/renderer/src/pages/Reports/InventoryReport.tsx:32-45 | the low-stock switch is never sent, so the report fetched is the same with it on or off |
| InventoryPage.FetchFixed | src/renderer/src/pages/Reports/InventoryReport.tsx:32-45 | the corrected request passes the switch on as `lowStockOnly` and keeps the page |
| InventoryPage.FixedSwitchListsLowStock | src/main/ipc/handlers/reports.js:437-521 | with the switch passed on, every listed row is at or under the warning threshold and none shows as available |
| InventoryPage.StatusIcon | src/renderer/src/pages/Reports/InventoryReport.tsx:73-84 | the fallback icon is used exactly for text that is not one of the three statuses |
| InventoryPage.StatusColour | src/renderer/src/pages/Reports/InventoryReport.tsx:86-97 | the gray badge is used exactly for text that is not one of the three statuses |
| InventoryPage.StatusesLookDifferent | src/renderer/src/pages/Reports/InventoryReport.tsx:73-97 | the three statuses get three different icons and three different badge colours, none of them the fallback |
| InventoryPage.LowQuantityShownGreen | src/renderer/src/pages/Reports/InventoryReport.tsx:261-265 | a low row's quantity is coloured green next to its yellow "low" badge, because the rows carry no `min_stock_level` |
| InventoryPage.QuantityColourFixed | src/renderer/src/pages/Reports/InventoryReport.tsx:261-265 | the corrected quantity colour is red, yellow or green exactly when the row's status is out of stock, low or available |
| InventoryPage.FixedColourAgreesAtZero | src/renderer/src/pages/Reports/InventoryReport.tsx:261-265 | the corrected colour is red exactly where the page's own colour is red, at a quantity of zero |
| InventoryPage.LimitOffsetIsPage | src/main/ipc/handlers/reports.js:437-521 | `LIMIT size OFFSET (page - 1) * size` gives the same rows as the page slice |
| InventoryPage.FooterCountsFixedListing | src/renderer/src/pages/Reports/InventoryReport.tsx:309 | with the count taken over the selected rows, the footer of every announced page counts exactly the rows listed |
| ProductReportPage.Search | src/renderer/src/pages/Reports/ProductPerformanceReport.tsx:44-52 | the search keeps exactly the rows whose name or category contains the term, ignoring case |
| ProductReportPage.EmptySearchKeepsRows | src/renderer/src/pages/Reports/ProductPerformanceReport.tsx:44-52 | an empty search keeps every row |
| ProductReportPage.SummaryCards | src/renderer/src/pages/Reports/ProductPerformanceReport.tsx:100-103 | no rows give five zero cards; the active count is the number of rows with sales and never exceeds the rows shown |
| ProductReportPage.CardsAddUp | src/renderer/src/pages/Reports/ProductPerformanceReport.tsx:100-103 | revenue, units sold, profit and the active count add up over any split of the rows, so each row counts once |
| ProductReportPage.CardsAddRow | src/renderer/src/pages/Reports/ProductPerformanceReport.tsx:100-103 | one more row adds its revenue, units sold and profit (0 when missing) to the totals, one to the active count exactly when it sold something, and one to the rows shown |
| ProductReportPage.LowOnlyWhenNegative | src/renderer/src/pages/Reports/ProductPerformanceReport.tsx:66-75 | with the threshold of 0 the page passes, a product shows as low exactly when its stock is negative and as out of stock exactly at zero |
| CashierReportPage.Active | src/renderer/src/pages/Reports/CashierPerformanceReport.tsx:107 | the active cashiers are exactly those with at least one transaction |
| CashierReportPage.TotalsOf | src/renderer/src/pages/Reports/CashierPerformanceReport.tsx:110-112 | the average times the transaction count is the sales total, and the average is 0 without transactions |
| CashierReportPage.Ranked | src/renderer/src/pages/Reports/CashierPerformanceReport.tsx:114-117 | the ranking is a permutation of the active cashiers, best sales first |
| CashierReportPage.Chart | src/renderer/src/pages/Reports/CashierPerformanceReport.tsx:114-122 | the chart holds at most ten bars, the first ranked cashiers, each with that cashier's name, sales and transactions |
| CashierReportPage.FirstIsBest | src/renderer/src/pages/Reports/CashierPerformanceReport.tsx:114-117 | in the ranking the first cashier has the most sales |
| CashierReportPage.TopPerformerLeadsChart | src/renderer/src/pages/Reports/CashierPerformanceReport.tsx:114-127 | the top performer is an active cashier whom no active cashier outsold, and it is the first bar of the chart |
| CashierReportPage.RolesLabelledApart | src/renderer/src/pages/Reports/CashierPerformanceReport.tsx:58-78 | the three roles get different labels and colours, and any other text is shown as it is in gray |
| DailySalesPage.FindHour | src/renderer/src/pages/Reports/DailySalesReport.tsx:104 | the lookup finds a group of that hour, and finds nothing exactly when no group has it |
| DailySalesPage.Buckets | src/renderer/src/pages/Reports/DailySalesReport.tsx:103-110 | the chart has exactly 24 hours |
| DailySalesPage.ChartShowsEachHour | src/renderer/src/pages/Reports/DailySalesReport.tsx:103-110 | each hour of the chart shows the count and total of that hour's sales of the day, returns excluded, and zeros for an hour without sales |
| DailySalesPage.BucketAt | src/renderer/src/pages/Reports/DailySalesReport.tsx:103-110 | an hour shows the group found for it, or zeros when there is none |
| DailySalesPage.StoredTypesShownAsStored | src/renderer/src/pages/Reports/DailySalesReport.tsx:59-66 | the stored payment types are none of the three keys, so each slice is labelled with the stored type itself |
| DailySalesPage.SliceColour | src/renderer/src/pages/Reports/DailySalesReport.tsx:68-116 | each slice takes one of the four colours |
| DailySalesPage.NeighbouringSlicesDiffer | src/renderer/src/pages/Reports/DailySalesReport.tsx:116 | neighbouring slices differ in colour, and the colours repeat every four slices |
| Reports.StatusTextRoundTrip | src/main/ipc/handlers/reports.js:465-469 | each of the three stock statuses' text reads back as that status |
| Reports.ParseStatus | src/main/ipc/handlers/reports.js:465-469 | a text is read as a status only when it is that status's text |
| Reports.ClassifyAgreesWithFilter | src/main/ipc/handlers/reports.js:465-476 | with a non-negative threshold, the low-stock filter `quantity <= warning` keeps exactly the non-negative quantities not shown as available, and a smaller quantity never gets a better status |
| Reports.WarningOf | src/main/ipc/handlers/reports.js:446-452 | the report fails when there is no `warning` row; otherwise the limit is the number some `warning` row's value reads as |
| Reports.SeededWarningIsThree | src/main/database/connection.js:178 | the seeded database warns at three items |
| Reports.CategoryNameOf | src/main/ipc/handlers/reports.js:468-471 | the LEFT JOIN gives no name exactly when no category has the id, and otherwise the name of the category with that id |
| Reports.Selection | src/main/ipc/handlers/reports.js:474-476 | the listing reads exactly the items, or with `lowStockOnly` exactly those at or under the threshold |
| Reports.Ordered | src/main/ipc/handlers/reports.js:479 | the selection ordered by quantity then name is a permutation of it, and sorted |
| Reports.PageItems | src/main/ipc/handlers/reports.js:474-483 | the listed page is the window of the selected items in quantity order: the page holds `min(limit, n - offset)` rows (no limit when negative, a negative offset read as 0), row k being the selected item at position offset + k of that order, with items tied on quantity and name kept in table order (a tie order the model chooses) |
| Reports.SortedWindow | src/main/ipc/handlers/reports.js:479-480 | a `LIMIT`/`OFFSET` window of the sorted selection holds only selected items, in quantity order |
| Reports.Listing | src/main/ipc/handlers/reports.js:454-483 | one row per item of the listed page, in its order, each carrying that item's fields, its category name and the status its quantity gets under the threshold |
| Reports.SummaryWith | src/main/ipc/handlers/reports.js:494-502 | the summary counts every item, has no sums for an empty table, and counts the items at or under the limit and those at zero |
| Reports.Summary | src/main/ipc/handlers/reports.js:494-502 | the summary's low-stock count is the number of items at or under 5 |
| Reports.SummaryFixed | src/main/ipc/handlers/reports.js:494-502 | the corrected summary counts as low the items the low-stock listing selects |
| Reports.GetInventory | src/main/ipc/handlers/reports.js:437-521 | the report fails exactly when the threshold cannot be read; otherwise it lists the page, counts every item, and summarises with the fixed limit of 5 |
| Reports.GetInventoryFixed | src/main/ipc/handlers/reports.js:437-521 | the corrected report counts exactly the rows the listing selects and summarises low stock with the threshold |
| Reports.CountIgnoresLowStockFilter | src/main/ipc/handlers/reports.js:485-493 | with `lowStockOnly` and an item above the threshold, the count exceeds the number of rows the listing can ever show |
| Reports.FixedCountMatchesPages | src/main/ipc/handlers/reports.js:437-521 | with the corrected count, a page shows rows exactly when the count announces it |
| Reports.SummaryDisagreesWithStatus | src/main/ipc/handlers/reports.js:465-502 | an item with four left is counted low by the summary while its row, under the seeded threshold of three, shows it as available; the corrected summary agrees with the row |
| Reports.FixedSummaryCountsStatus | src/main/ipc/handlers/reports.js:494-502 | with a non-negative threshold, the corrected low-stock count is the number of items whose row is not shown as available |
| Reports.DailySummary | src/main/ipc/handlers/reports.js:36-54 | the day's transaction count is the number of its non-return invoices; sales and average are missing exactly when there are none, and the average times the count is the sales; tax and digital sales are 0 |
| Reports.CashPlusCreditIsSales | src/main/database/connection.js:76 | with payment types limited by the CHECK, a day's sales are its cash sales plus its deferred sales |
| Reports.HourOf | src/main/ipc/handlers/reports.js:60 | an hour read from a timestamp is below 24 |
| Reports.HourOfStored | src/main/ipc/handlers/reports.js:60 | the hour read back from a stored timestamp is the hour written |
| Reports.HoursFrom | src/main/ipc/handlers/reports.js:56-70 | each group is for an hour in range, below 24 |
| Reports.StartOfMonth | src/main/ipc/handlers/reports.js:531 | the start of the month is a valid instant not after now |
| Reports.EndOfMonth | src/main/ipc/handlers/reports.js:532 | the end of the month is a valid instant not before now |
| Reports.BoundText | src/main/ipc/handlers/reports.js:531-532 | a bound fails exactly when the given date cannot be read, and a missing bound uses the fallback |
| Reports.RangeIsChronological | src/main/ipc/handlers/reports.js:531-544 | `createdAt BETWEEN start AND end` holds exactly when the stored time is not before the start and not after the end, to the second |
| Reports.FinancialFor | src/main/ipc/handlers/reports.js:533-600 | revenue and transactions count only cash sales in range, expenses sum the credits in range, tax is 0 so net revenue is the revenue, and net profit is gross profit less the expenses |
| Reports.GetFinancial | src/main/ipc/handlers/reports.js:527-621 | the range defaults to the current month, and the report fails exactly when a given bound cannot be read |
| Reports.NonCashInvoiceIsIgnored | src/main/ipc/handlers/reports.js:537-544 | a deferred sale or a return changes none of the sales figures |
| Reports.CashSaleRaisesRevenue | src/main/ipc/handlers/reports.js:537-544 | a cash sale in range adds its net total to the revenue and one to the count |
| Reports.ExpenseLowersNetProfit | src/main/ipc/handlers/reports.js:549-557 | an expense in range lowers the net profit by its amount, and one outside changes nothing |
| Schema.PaymentTypeRoundTrip | src/main/database/connection.js:76 | each payment type's stored spelling passes the CHECK and reads back as that type |
| Schema.ParsePaymentType | src/main/database/connection.js:76 | a text passes the CHECK only when it is one type's stored spelling |
| Schema.RoleOnInsert | src/main/database/connection.js:24 | an omitted role becomes 'cashier', and a given role is stored exactly when it is admin, manager or cashier |
| Schema.RecordMovement | src/main/database/connection.js:122-132 | a movement keeps its item, kind, quantity and unit price, and its `total_value` is their product |
| Schema.InitDatabase | src/main/database/connection.js:220-256 | the schema is created exactly when the file has no tables, and an existing database is left as found |
| Schema.GetDatabase | src/main/database/connection.js:265-270 | a handle is returned exactly when one is set |
| Schema.CloseDatabase | src/main/database/connection.js:272-278 | after closing there is no handle, also when there was none |
| Schema.ConnectionLifecycle | src/main/database/connection.js:220-278 | the handle is usable after init and refused after close, and initialising an initialised file changes nothing |
| Schema.SeededWarningIsThree | src/main/database/connection.js:178 | the seed data sets the products-domain `warning` to "3" |
| Settings.GetByDomain | src/main/ipc/handlers/settings.js:4-20 | the result holds exactly the settings of the domain |
| Settings.GetByKey | src/main/ipc/handlers/settings.js:22-38 | nothing is found exactly when no setting has the key; otherwise the first setting with it |
| Settings.Write | src/main/ipc/handlers/settings.js:65-68 | one write sets the value of exactly the rows with the entry's key, and only for an entry with a key and a value |
| Settings.WriteAllIsLastValue | src/main/ipc/handlers/settings.js:62-72 | after the writes each setting holds the value of the last entry naming its key, or its own value, and nothing but values changes |
| Settings.UpdateSettings | src/main/ipc/handlers/settings.js:54-85 | as written the update is refused for an empty list with the array message, throws after the writes whenever some entry has a key and a value (the result of `db.run` is destructured as an array), and otherwise answers "0 setting(s) updated" with the table unchanged; the table always ends with each row taking the value of the last entry that names its key |
| Settings.UpdateSettingsFixed | src/main/ipc/handlers/settings.js:54-85 | the corrected update, counting without destructuring: refused exactly for an empty list; otherwise every row keeps its key and takes the value of the last entry that names it |
| Settings.FixedWritesAsWritten | src/main/ipc/handlers/settings.js:62-73 | on a non-empty list the written and the corrected update leave the same table, and the written one fails exactly when some entry has a key and a value |
| Settings.OneEntryThrowsAfterWriting | src/main/ipc/handlers/settings.js:62-76 | saving one entry for an existing key fails as written, yet `getByKey` afterwards reads the new value |
| Settings.UnnamedKeyKeepsValue | src/main/ipc/handlers/settings.js:62-72 | a key that no entry names keeps its value |
| Settings.WrittenValueIsRead | src/main/ipc/handlers/settings.js:22-85 | with the corrected update, after one entry sets an existing key `getByKey` reads back the new value |
| Settings.KeysKept | src/main/ipc/handlers/settings.js:54-85 | the corrected update changes values only, so every row keeps its key |
| Settings.FirstKeyKept | src/main/ipc/handlers/settings.js:22-34 | `getByKey` returns the first row with the key when one exists |
| SettingsHeaders.Kind | src/renderer/src/pages/Settings/components/product.header.tsx:66-70 | a value is a switch exactly when it is "true" or "false", a number field exactly when it is otherwise a number, and a text field in every other case |
| SettingsHeaders.SeededKinds | src/main/database/connection.js:177-180 | the seeded settings show as a number field and two switches |
| SettingsHeaders.HandleChange | src/renderer/src/pages/Settings/components/product.header.tsx:44-53 | the entry at the index takes the new value and keeps its other fields, and the other entries are untouched |
| SettingsHeaders.EditIsSaved | src/renderer/src/pages/Settings/components/product.header.tsx:28-53 | saving after an edit writes the new value to the setting with that entry's key, and as written the save then reports a failure |
| SettingsHeaders.Entries | src/main/ipc/handlers/settings.js:62-70 | the editors send one key and value per local entry, in order |
| SettingsHeaders.LastEntryWins | src/main/ipc/handlers/settings.js:62-72 | when only one entry names a key, the key ends with that entry's value |
| SettingsHeaders.Toggle | src/renderer/src/pages/Settings/components/product.header.tsx:88 | the switch turns "true" into "false" and anything else into "true" |
| SettingsHeaders.ToggleTwice | src/renderer/src/pages/Settings/components/product.header.tsx:88 | toggling a switch twice restores it, and it stays a switch |
| SettingsHeaders.CheckboxValue | src/renderer/src/pages/Settings/components/daily.header.tsx:69-71 | the checkbox writes "true" exactly when checked, and always a boolean text |
| SettingsHeaders.Mirror | src/renderer/src/pages/Settings/components/product.header.tsx:21-25 | the local copy follows the store's settings and the loading flag is kept |
| SettingsHeaders.BeginSave | src/renderer/src/pages/Settings/components/product.header.tsx:28-30 | saving shows loading and keeps the entries |
| SettingsHeaders.EndSave | src/renderer/src/pages/Settings/components/product.header.tsx:39-41 | after the save, whatever its outcome, loading is off and the entries are kept |
| Sorting.Insert | src/main/ipc/handlers/reports.js:479 | inserting adds the element once, keeps the others, and keeps a sorted list sorted |
| Sorting.Sort | src/main/ipc/handlers/reports.js:479 | the sort is a permutation of its input and sorted under any total order |
| Sorting.SortKeepsElements | src/main/ipc/handlers/permissions.js:240 | an element is in the sorted list exactly when it was in the input |
| Sorting.TextOrderTotal | src/main/ipc/handlers/permissions.js:240 | text order compares any two texts, so `ORDER BY` on a name is a total order |
| MovementFilters.Read | src/renderer/src/pages/Products/prosuctStatisticsPage.tsx:171-219 | each filter step applies exactly when its input is in use: the search and the name once their trimmed text is non-empty, the type and dates once non-empty, the quantity bounds once `parseInt` reads a number |
| MovementFilters.RunIsWhere | src/renderer/src/pages/Products/prosuctStatisticsPage.tsx:171-221 | running the filter steps one after another keeps exactly the rows every step admits, in their order |
| MovementFilters.FilterIsConjunction | src/renderer/src/pages/Products/prosuctStatisticsPage.tsx:165-223 | the chain of filters selects exactly the movements that pass every criterion in use, keeping their order |
| MovementFilters.ListedIff | src/renderer/src/pages/Products/prosuctStatisticsPage.tsx:165-223 | a movement is listed exactly when it is in the data and passes every criterion in use |
| MovementFilters.ActiveCount | src/renderer/src/pages/Products/prosuctStatisticsPage.tsx:226-231 | the badge is at most six and is 0 exactly when every filter text is blank once trimmed |
| MovementFilters.NothingSetListsAll | src/renderer/src/pages/Products/prosuctStatisticsPage.tsx:165-223 | with no search and every filter empty, every movement is listed |
| MovementFilters.NothingSetCountsNothing | src/renderer/src/pages/Products/prosuctStatisticsPage.tsx:226-231 | with every filter empty the badge counts nothing |
| MovementFilters.View | src/renderer/src/pages/Products/prosuctStatisticsPage.tsx:234-236 | the page shown is the window of the filtered movements after the page's offset, at most ten, and the page count covers the whole list with no empty last page |
| MovementFilters.ViewShowsOnlyPassing | src/renderer/src/pages/Products/prosuctStatisticsPage.tsx:165-236 | whatever page is shown holds only movements of the data that pass every criterion in use |
| MovementFilters.AdmittedIffPasses | src/renderer/src/pages/Products/prosuctStatisticsPage.tsx:181-222 | the chain of filter stages admits a movement exactly when it passes every set filter |
| MovementFilters.NothingSetPasses | src/renderer/src/pages/Products/prosuctStatisticsPage.tsx:181-230 | with no search and no filter set every movement passes and no filter is counted active |
| DataTable.AnyColumnMatches | src/renderer/src/pages/Products/components/data-table.component.tsx:136-144 | a row matches exactly when some shown column's text contains the search, ignoring case |
| DataTable.Search | src/renderer/src/pages/Products/components/data-table.component.tsx:136-144 | the search keeps exactly the rows some shown column of which matches |
| DataTable.GuardedSearch | src/renderer/src/pages/Products/components/data-table.component.tsx:134-145 | an empty search shows the rows as they are, and any other search filters them |
| DataTable.UnguardedEmptySearch | src/renderer/src/pages/Credit/components/data-table.component.tsx:94-109 | without the guard an empty search keeps every row while some column is shown, and no row once every column is hidden |
| DataTable.SearchIgnoresHiddenColumns | src/renderer/src/pages/Products/components/data-table.component.tsx:136-144 | two rows that agree on every shown column are kept or dropped together |
| DataTable.Install | src/renderer/src/pages/Products/components/data-table.component.tsx:100-108 | a failed request leaves the table as it was, and a successful one replaces the rows and the total, with missing ones read as empty and 0 |
| DataTable.PageCountLabel | src/renderer/src/pages/Users/components/data-table.component.tsx:222 | the footer's page count is at least 1, and the real page count whenever there are rows |
| DataTable.NextEnabled | src/renderer/src/pages/Users/components/data-table.component.tsx:227 | with rows, "next" is disabled exactly on the last page; with none it is never disabled |
| DataTable.EmptyAnswerShowsOnePage | src/renderer/src/pages/Users/components/data-table.component.tsx:222-227 | an answer without rows or total leaves an empty table announced as one page, with "next" enabled |
| ProductTable.BadgeIsStatusAtTen | src/renderer/src/pages/Products/components/data-table.component.tsx:234-241 | on a non-negative quantity the badge is the status the inventory report gives with a threshold of 10, red exactly at zero |
| ProductTable.Footer | src/renderer/src/pages/Products/components/data-table.component.tsx:302 | on every existing page the footer starts at the offset plus one and counts exactly the rows of that page |
| CreditTable.Visible | src/renderer/src/pages/Credit/components/data-table.component.tsx:94-110 | the total is the number of matches, and the page shows at most ten of them, the ones that follow the page's offset, in order |
| CreditTable.PagesShowEveryMatchOnce | src/renderer/src/pages/Credit/components/data-table.component.tsx:94-110 | walking from page 1 to the last page shows every match exactly once, in order |
| CreditTable.ShownUpTo | src/renderer/src/pages/Credit/components/data-table.component.tsx:241 | on every existing page the "showing … of" figure passes the page's offset and never exceeds the total |
| CreditTable.TypingShowsFirstMatches | src/renderer/src/pages/Credit/components/data-table.component.tsx:84-88 | typing a search goes back to page 1, so the table shows the first matches |
| CreditDailyTable.Payload | src/renderer/src/pages/Credit/components/data-table.daily.component.tsx:128-132 | the dialog sends its reason and amount, and the receiver under a key the handler does not read |
| CreditDailyTable.Confirm | src/renderer/src/pages/Credit/components/data-table.daily.component.tsx:128-152 | confirming always closes the dialog; a save that succeeds resets the fields, and one that fails keeps what was typed |
| CreditDailyTable.UntouchedDialogRefused | src/renderer/src/pages/Credit/components/data-table.daily.component.tsx:128-152 | confirming an untouched dialog is refused for the missing reason and amount, and the dialog comes back as it started |
| CreditDailyTable.SavedExpenseHasNoReceiver | src/renderer/src/pages/Credit/components/data-table.daily.component.tsx:128-132 | whatever receiver was typed, a saved expense stores an empty one |
| UsersTable.AfterSearch | src/renderer/src/pages/Users/components/data-table.component.tsx:62-81 | after a search answer the table shows only answered rows that a shown column matches, and every such row; an empty term shows the answer as installed; the footer counts the answer's total, or keeps its count on failure |
| UsersTable.FailedSearchFiltersCurrentRows | src/renderer/src/pages/Users/components/data-table.component.tsx:62-81 | a failed search keeps the rows on show, filtered by the new text |
| CategoriesTable.CanCreate | src/renderer/src/pages/Categories/components/data-table.component.tsx:130 | a non-admin sees "create" exactly with `category.create` |
| CategoriesTable.DeleteGatedByEdit | src/renderer/src/pages/Categories/components/data-table.component.tsx:153-215 | an edit-only user sees a delete button under no header, and a delete-only user sees none |
| CategoriesTable.FixedDeleteNeedsDeletePermission | src/renderer/src/pages/Categories/components/data-table.component.tsx:153-215 | gated on its own permission, a non-admin sees the delete button exactly with `category.delete`, and whoever sees the header sees the button |
| UnitsTable.CanCreate | src/renderer/src/pages/Units/components/data-table.component.tsx:100 | a non-admin sees "create" exactly with `units.create` |
| UnitsTable.CellFollowsDeletePermission | src/renderer/src/pages/Units/components/data-table.component.tsx:124-156 | the actions cell appears exactly with its delete button and only under the header, so an edit-only user gets the header over rows without the cell |
| UnitsTable.Rows | src/renderer/src/pages/Units/components/data-table.component.tsx:51-92 | the search text is never set, so the table shows the rows as given |
| Tables.FreshId | src/main/database/connection.js:12 | the id `MAX(id) + 1` given to a new row is positive, not among the present ids, and above each of them |
| Tables.IdLikeSelf | src/main/ipc/handlers/branches.js:149 | every id is `LIKE '%id%'` itself, so the exact row is always among the matches |
| Tables.IdLikeAtLeast | src/main/ipc/handlers/products.js:315-321 | among non-negative ids, `id LIKE '%k%'` matches only ids of at least k |
| Tables.NewestFirst | src/main/ipc/handlers/products.js:104 | `ORDER BY id DESC` over a table kept in ascending id order is the rows reversed |
| Tables.NewestPage | src/main/ipc/handlers/products.js:104-106 | `ORDER BY id DESC LIMIT ? OFFSET ?` holds `min(limit, n - offset)` rows, row k being the row at position offset + k counted from the end of the table |
| Text.Trim | src/main/ipc/handlers/credit.js:54 | the trimmed text starts and ends with no whitespace and occurs in the original right after the leading whitespace |
| Text.TrimEmptyIffBlank | src/main/ipc/handlers/units.js:22 | trimming leaves nothing exactly when the text is blank, the case `unit.name.trim() === ""` refuses |
| Text.TrimIdempotent | src/main/ipc/handlers/credit.js:54 | trimming twice changes nothing more |
| Text.ContainsIffOccurs | src/main/ipc/handlers/categories.js:12-15 | the substring test used for `LIKE '%x%'` holds exactly when the part occurs at some position |
| Text.IndexOf | src/renderer/src/store/slices/usersSlice.js:39 | the first position of the separator, and -1 exactly when it does not occur |
| Text.SplitSecond | src/renderer/src/store/slices/usersSlice.js:39 | `split(sep)[1]` exists exactly when the separator occurs, holds no separator, and is what follows an occurrence of it |
| Text.ContainsEmpty | src/main/ipc/handlers/categories.js:12-15 | every text contains the empty text, so an empty search `LIKE '%%'` keeps every row |
| Text.ToLower | src/renderer/src/pages/Reports/ProductPerformanceReport.tsx:49-50 | lowering keeps the length and folds each Latin capital and nothing else |
| Text.ToLowerIdempotent | src/renderer/src/pages/Reports/ProductPerformanceReport.tsx:49-50 | lowering twice changes nothing more |
| Text.PrefixIgnoringCase | src/renderer/src/pages/Reports/ProductPerformanceReport.tsx:49-50 | a name that starts with the search term includes it whatever the case |
| Text.Take | src/main/ipc/handlers/units.js:37 | `substring(0, n)` is a prefix of n characters, or the whole text when it is shorter |
| ProductTransactions.IconFollowsStock | src/main/ipc/handlers/transaction.js:41-50 | every type the schema allows gets a label and its own label, and the arrow points up exactly when the movement adds stock and down exactly when it removes it |
| ProductTransactions.PagesFor | src/main/ipc/handlers/transaction.js:89 | `Math.ceil(total / limit)` is the least whole count covering the total for a positive limit, NaN or Infinity for a zero limit, and the matching bound for a negative one |
| ProductTransactions.Listing | src/main/ipc/handlers/transaction.js:33-58 | a page lists the window of the product's movements: the page holds `min(limit, n - offset)` rows (no limit when negative, a negative offset read as 0), each a movement of that product in order, with the label and icon of its type |
| ProductTransactions.GetProductTransactions | src/main/ipc/handlers/transaction.js:5-101 | an unknown product is refused with "Product not found"; otherwise the answer names that product, counts all its movements, echoes the page and limit, and lists one page of its movements newest first, all of that product; movements written in the same second are taken newest first, a tie order the model chooses |
| ProductTransactions.RecordingMovesStatistics | src/main/ipc/handlers/transaction.js:65-75 | recording a movement of the product adds one movement, its quantity to the sales or the purchases total by its type, and its value to the value total |
| ProductTransactions.OtherProductsIgnored | src/main/ipc/handlers/transaction.js:5-101 | movements of other products change nothing in the product's answer |
| ProductTransactions.PageListsIffCounted | src/main/ipc/handlers/transaction.js:53-93 | with a positive limit, a page lists movements exactly when its number is at most the announced page count |
| UnitPage.HandleChange | src/renderer/src/pages/Units/CreateUnitPage.tsx:24-38 | the checkbox sets the flag to "1" when checked and "0" otherwise, a text field takes the typed value, and only that field's set error is cleared |
| UnitPage.CheckboxDecidesDefault | src/renderer/src/pages/Units/CreateUnitPage.tsx:24-38 | ticking the box is exactly what makes the created unit the default, and the initial form makes none |
| UnitPage.Validate | src/renderer/src/pages/Units/CreateUnitPage.tsx:40-55 | a name error exactly for a blank name or one under two characters, an abbreviation error exactly for more than ten, and never a flag error |
| UnitPage.NameError | src/renderer/src/pages/Units/CreateUnitPage.tsx:43-47 | an error exactly for a blank name or one under two characters, counted before trimming |
| UnitPage.Payload | src/renderer/src/pages/Units/CreateUnitPage.tsx:63-67 | the trimmed name and flag as they stand, and the trimmed abbreviation or else the first three characters of the untrimmed name |
| UnitPage.ValidIff | src/renderer/src/pages/Units/CreateUnitPage.tsx:40-55 | the form is valid exactly when the name is not blank, has at least two characters, and the abbreviation has at most ten |
| UnitPage.ValidPayloadIsCreated | src/renderer/src/pages/Units/CreateUnitPage.tsx:57-67 | the handler accepts a valid form's payload and stores the trimmed name and the abbreviation the page sent |
| Units.Abbreviation | src/main/ipc/handlers/units.js:37 | a given abbreviation is kept; a missing one becomes the first three characters of the untrimmed name, or all of it when shorter |
| Units.FirstDefault | src/main/ipc/handlers/units.js:72 | the first live default other than the excepted id, none exactly when every live default carries that id, and no earlier row qualifies |
| Units.ClearOtherDefault | src/main/ipc/handlers/units.js:27-33 | only default flags change, and only by being cleared; nothing changes when the new row is not to be the default |
| Units.Create | src/main/ipc/handlers/units.js:16-57 | a blank name is refused; otherwise one row is appended with a fresh id, the trimmed name, the abbreviation, and the default flag exactly for 1 or "1", after the old default is cleared |
| Units.CreateKeepsOneDefault | src/main/ipc/handlers/units.js:16-57 | create keeps at most one live default, and a default created unit leaves no other |
| Units.CreateKeepsInvariant | src/main/ipc/handlers/units.js:16-57 | create keeps at most one live default |
| Units.CreateClearsOthers | src/main/ipc/handlers/units.js:27-33 | a unit created as the default leaves every earlier row without a live default |
| Units.Update | src/main/ipc/handlers/units.js:60-98 | a blank name changes nothing; otherwise the other default is cleared before the matching live row is rewritten, and success means some live row carried the id |
| Units.UpdateKeepsOneDefault | src/main/ipc/handlers/units.js:60-98 | update keeps at most one live default when ids are unique |
| Units.NewDefaultIsTheOnlyOne | src/main/ipc/handlers/units.js:70-88 | an update that makes its unit the default leaves at most one live default |
| Units.DefaultHasUpdatedId | src/main/ipc/handlers/units.js:70-88 | after the clear and the write, any live default row in that position carries the updated id |
| Units.OldDefaultStaysAlone | src/main/ipc/handlers/units.js:60-98 | an update that does not set the default keeps at most one live default |
| Units.FailedUpdateDropsDefault | src/main/ipc/handlers/units.js:70-88 | making an unknown id the default fails, yet the old default has already lost its flag, so no default is left |
| Units.UpdateFixed | src/main/ipc/handlers/units.js:60-98 | the update with the existence test first: a failure changes nothing, success is a nonblank name with a matching live row, and success agrees with the written update |
| Units.UpdateFixedKeepsDefault | src/main/ipc/handlers/units.js:60-98 | the fixed update keeps at most one live default and leaves the table as it was when it fails |
| Units.Delete | src/main/ipc/handlers/units.js:100-135 | refused for an id with no live unit, for the default unit, or for a unit an item uses; otherwise every row with the id gets the deletion time and nothing else changes |
| Units.DefaultUnitIsProtected | src/main/ipc/handlers/units.js:112-115 | the live default unit can never be deleted |
| Units.DeleteKeepsOneDefault | src/main/ipc/handlers/units.js:100-135 | a delete keeps at most one live default |
| Units.GetAll | src/main/ipc/handlers/units.js:5-13 | the listing is a reordering of exactly the live units, defaults first and then by name |
| Units.DefaultsLead | src/main/ipc/handlers/units.js:8 | in the listing no default unit follows a non-default one |
| UserPage.HandleChange | src/renderer/src/pages/Users/EditUserPage.tsx:51-59 | the input's field takes the value, only that field's set message is blanked, and selection and the password box stay |
| UserPage.SetChangePassword | src/renderer/src/pages/Users/EditUserPage.tsx:196-206 | the box takes the tick; unticking empties both password fields and blanks their messages, and the name and selection stay |
| UserPage.Validate | src/renderer/src/pages/Users/EditUserPage.tsx:61-88 | a name message exactly for a blank name or one under three characters, a password message exactly when changing with none, a confirm message exactly for a mismatch while changing, a permissions message exactly for none picked |
| UserPage.ValidIff | src/renderer/src/pages/Users/EditUserPage.tsx:61-88 | the form is valid exactly when the name is not blank and has three characters, something is picked, and a changed password is given and confirmed |
| UserPage.ShortPasswordMessageNeverShown | src/renderer/src/pages/Users/EditUserPage.tsx:70-75 | the too-short password message is never shown: a failing password always gets the required one |
| UserPage.Submit | src/renderer/src/pages/Users/EditUserPage.tsx:90-108 | nothing is sent for an invalid form or without a loaded user; otherwise its id, the trimmed name, the picked ids, the editor's id, and the password only when it is being changed |
| UserPage.SubmittedNameIsPresent | src/renderer/src/pages/Users/EditUserPage.tsx:90-108 | the handler never refuses a submitted name as missing |
| UserPage.SubmittedUpdateIsSaved | src/renderer/src/pages/Users/EditUserPage.tsx:90-108 | a submitted form with distinct picks and a free name is saved with the trimmed name, exactly the picked permissions, and the old hash unless the password changed |
| UserPage.UsernameErrorFixed | src/renderer/src/pages/Users/EditUserPage.tsx:64-67 | the intended check passes exactly the names with three characters after trimming |
| UserPage.PaddedShortNamePasses | src/renderer/src/pages/Users/EditUserPage.tsx:64-67 | as written, a one-letter name padded with spaces passes the three-character check and one letter is sent; the intended check refuses it |
| UserPage.FixedCheckSendsThreeCharacters | src/renderer/src/pages/Users/EditUserPage.tsx:64-67 | with the intended check every name sent has at least three characters and also passes the written check |
| Users.CreateUser | src/main/ipc/handlers/users.js:8-76 | refused with no change without a name or password or for a taken name; otherwise the user is appended with a fresh id and the default role, and either every listed permission is granted by the creator or, for a repeated id, the INSERT fails with the user row left in place |
| Users.CreateUserFixed | src/main/ipc/handlers/users.js:8-76 | the creation inside a transaction: it fails exactly when it changes nothing, fails for the same inputs, and otherwise agrees with the written one |
| Users.FreshUserHoldsNothing | src/main/ipc/handlers/users.js:33-41 | the fresh id holds no permission in consistent tables |
| Users.CreateUserGrantsList | src/main/ipc/handlers/users.js:43-56 | a created user holds exactly the listed permissions, and the tables stay consistent |
| Users.HoldsAppended | src/main/ipc/handlers/users.js:43-56 | a user holds a permission in two lists of rows together exactly when it holds it in one of them |
| Users.CreatedIsConsistent | src/main/ipc/handlers/users.js:33-56 | appending a user with a fresh, untaken name and its own distinct rows keeps the tables consistent |
| Users.CreateWithRepeatedIdLeavesUser | src/main/ipc/handlers/users.js:28-70 | a repeated permission id fails the creation yet leaves the user, so the retry is refused as a taken name; with a transaction nothing is left and the retry succeeds |
| Users.Update | src/main/ipc/handlers/users.js:204-276 | refused without a name or for a name another user has, with no change; otherwise the user is renamed, re-hashed only when a password is given, and its permission rows are replaced, or only deleted when a repeated id fails the INSERT |
| Users.UpdateFixed | src/main/ipc/handlers/users.js:204-276 | the update inside a transaction: a failure changes nothing, it fails for the same inputs, and otherwise agrees with the written one |
| Users.UpdateEffect | src/main/ipc/handlers/users.js:228-260 | after an update the user carries the new name, the hash changes only when a password is given, role and activity stay, other users stay, and it holds exactly the listed permissions |
| Users.UpdateKeepsConsistent | src/main/ipc/handlers/users.js:204-276 | a successful update of an existing user keeps the tables consistent |
| Users.RenameKeepsDistinct | src/main/ipc/handlers/users.js:214-241 | renaming to a name no other user has keeps ids and names distinct |
| Users.GrantStaysOwned | src/main/ipc/handlers/users.js:243-260 | after the update every permission row still names an existing user |
| Users.KeptHoldsNothing | src/main/ipc/handlers/users.js:245-248 | once its rows are deleted the user holds no permission |
| Users.UpdateWithRepeatedIdDropsPermissions | src/main/ipc/handlers/users.js:243-270 | as written, an update with a repeated permission id fails and yet strips the user of every permission |
| Users.UpdateFixedKeepsPermissions | src/main/ipc/handlers/users.js:243-270 | inside a transaction the same failing update leaves a held permission in place |
| Users.DeleteUser | src/main/ipc/handlers/users.js:278-315 | refused with no change for a falsy id or an unknown user; otherwise the user is gone, every other user stays, it holds no permission, and no row names it as grantor |
| Users.DeleteKeepsConsistent | src/main/ipc/handlers/users.js:278-315 | deleting a user keeps the tables consistent |
| Users.RemovedIsConsistent | src/main/ipc/handlers/users.js:294-299 | the permission rows go first and then the user, and the result is consistent |
| Users.KeptGrantsReferUsers | src/main/ipc/handlers/users.js:294-299 | the permission rows a delete keeps name users it keeps |
| Users.ClearedGrants | src/main/ipc/handlers/users.js:294-299 | clearing the grantor keeps each row's user and its distinct pairs |
| Users.GetById | src/main/ipc/handlers/users.js:136-171 | unknown ids are refused; otherwise the user with that id and exactly the catalogue permissions it holds |
| Users.CreatedUserIsFound | src/main/ipc/handlers/users.js:8-171 | a created user is found with its name and exactly the listed catalogue permissions |
| Users.Search | src/main/ipc/handlers/users.js:174-201 | the total counts the matching users; the page holds `min(limit, n - offset)` rows (no limit when negative, a negative offset read as 0) for n matching users, and row k is the match at position offset + k in table order |
| Users.EmptySearchCountsAll | src/main/ipc/handlers/users.js:184-191 | an empty name matches every user |
| Users.PermissionCount | src/main/ipc/handlers/users.js:86-94 | a user's count is the number of permission rows naming it |
| Users.GetAll | src/main/ipc/handlers/users.js:77-107 | the total counts every user; the page holds `min(limit, n - offset)` rows (no limit when negative, a negative offset read as 0) for n users, row k being the user at position offset + k counted from the newest (users created in the same second taken newest first, a tie order the model chooses), with its permission count |
| Users.UpdatedCountIsListLength | src/main/ipc/handlers/users.js:243-260 | after a successful update the listing counts one row per given id |
| UsersSlice.ReplaceFirst | src/renderer/src/store/slices/usersSlice.js:159-165 | the first user with that id is replaced and every other position kept; with no such user nothing changes |
| UsersSlice.UpdateFulfilled | src/renderer/src/store/slices/usersSlice.js:159-165 | the spinner stops, an answer without an id changes nothing, and a user replaces the first with its id |
| UsersSlice.DeleteFulfilled | src/renderer/src/store/slices/usersSlice.js:175-178 | the spinner stops, an answer object changes nothing, and an id removes exactly the users carrying it |
| UsersSlice.Pending | src/renderer/src/store/slices/usersSlice.js:156-158 | a request shows the spinner and keeps the list and error |
| UsersSlice.Rejected | src/renderer/src/store/slices/usersSlice.js:166-170 | a rejection stops the spinner, keeps the list and records the message |
| UsersSlice.LocalUpdate | src/renderer/src/store/slices/usersSlice.js:53-58 | an unknown id is refused with "User not found"; otherwise the stored user is replaced and the update is the payload |
| UsersSlice.LocalDelete | src/renderer/src/store/slices/usersSlice.js:92-95 | no stored user keeps the id, and the id is the payload |
| UsersSlice.ListFollowsStorage | src/renderer/src/store/slices/usersSlice.js:45-178 | without the bridge the shown list becomes what is stored after an update or a deletion |
| UsersSlice.BridgeAnswersLeaveList | src/renderer/src/store/slices/usersSlice.js:49-51 | the bridge's answers carry no id, so the list is unchanged after an update or a deletion |
| UsersSlice.ReplaceFirstIdempotent | src/renderer/src/store/slices/usersSlice.js:159-165 | replacing a user twice is replacing it once |
| UsersSlice.DeleteIdempotent | src/renderer/src/store/slices/usersSlice.js:175-178 | removing an id twice is removing it once |

## Left out

- Schema assumption: the handlers read and write a `units` table, a
  `branches` table, the columns `branchId` and `deleted_at`, and the
  `items.unit_id` column that units.js:118 counts before a delete. No schema
  script in `src/main/database/connection.js` creates them. The row records
  in `Tables` take the handlers' view of the tables as given.
- Database driver: `users.js`, `permissions.js`, `invoice.js` and
  `products.js` call `db.execute` and destructure `[rows]` in the mysql2
  style, on the handle that `getDatabase` returns. The model reads each
  such call as the SQL statement it names and ignores the driver's calling
  convention. The transaction statements are read the MySQL way:
  `START TRANSACTION` (permissions.js:164) opens a transaction, and a
  `COMMIT` or `ROLLBACK` with none open does nothing, which is how
  users.js:59 and users.js:68 behave in `createUser`, which never opens
  one. On SQLite, `START TRANSACTION` is a syntax error and a bare `COMMIT`
  fails, so under the SQLite reading Permissions.UpdateUserPermissions
  would always fail and Users.CreateUser would fail after its inserts.
  Users.CreateUser, Users.CreateWithRepeatedIdLeavesUser and
  Permissions.UpdateUserPermissions rest on the MySQL reading.
  This applies to Users.CreateUser, Users.Update, Users.DeleteUser,
  Permissions.UpdateUserPermissions, Invoices.CreateInvoice,
  Invoices.BeforeInvoice, Invoices.AfterInvoice, Products.DeleteProduct and
  the other `Products` handlers. Whether that handle has such a method is
  not part of this model.
- Users.DeleteUser: models the deletion of the user's permission rows and
  the `ON DELETE SET NULL` of `user_permissions.granted_by`. The cascade on
  `daily.userId` is modelled separately by Daily.DeleteUserDays. The
  `SET NULL` of `invoices.dailyId` and `credit.daily_id` when those days go
  is not modelled, because no invoice or expense table is part of this
  handler's state.
- Products.DeleteProduct: the foreign key from `transactions.item_id`
  refuses the delete of an item with movements, and that is modelled. The
  foreign keys from `invoiceItems.itemId` are not part of the state, so an
  item that only appears on invoice lines is deleted.
- Daily.OpenDaily: the `daily.userId` NOT NULL constraint is modelled. The
  foreign key from `daily.userId` to `users.id` is not checked, because the
  users table is not part of the daily state.
- LIKE patterns: `LIKE '%x%'` is read as "contains x", with `%` and `_`
  inside x taken as literal characters. SQLite's LIKE also folds ASCII
  case, and that is modelled. A search text holding `%` or `_` therefore
  matches fewer rows in the model than in SQLite. This affects
  Categories.Create, Categories.Search, Products.Matches, Users.Search,
  Credits.GetAllWithBranch (the name filter) and Tables.IdLike.
- Money columns: `DECIMAL(10,2)` amounts and the stock `quantity` are
  integers, counting the smallest currency unit. Rounding is not modelled.
  This affects Reports.CashPlusCreditIsSales, Invoices.StoredLine and every
  total built from them.
- Numbers.ToNumber: reads an optional sign and decimal digits after
  trimming. It gives NaN (`None`) for a fraction such as "3.5", an exponent
  or a hexadecimal literal, where JavaScript gives a number. Reports.WarningOf
  reads the low-stock threshold with it, so a fractional threshold makes the
  model's report fail where the application would compare against the
  fraction.
- Text.Trim: strips space, tab, line feed and carriage return. JavaScript's
  `trim` also strips the other Unicode white-space characters, such as the
  no-break space.
- Text.ToLower: folds the Latin capitals A to Z only. Arabic text has no
  case, so the application's searches are unaffected.
- ProductForm.ParseOrZero: `parseFloat(value) || 0` keeps only the integer
  part of the typed text here. Fractional prices are not modelled.
- SettingsHeaders.HandleChange: an index outside the list leaves the list
  unchanged. JavaScript would grow the array. The settings editors only pass
  indices of rows they display.
- Settings.UpdateSettings: the writes run through `Promise.all`. The model
  applies them in list order, as SQLite serialises them on one connection.
  The TypeError raised when `[result]` is destructured from the object
  that `db.run` resolves to is modelled as one error text; its exact
  wording is not.
- Categories.Delete: renames the deleted row `deleted_<name>_<id>` and
  stamps `deleted_at`. Its contract states which rows are stamped and that
  the row count is kept, and only the lemma Categories.DeleteLiveCategory
  states the rename.
- Branches.Switch: the contract says that the chosen branch's id contains
  the requested digits. Branches.SwitchToExisting proves that an existing id
  selects that very branch. The contract does not say which of several
  containing ids is chosen in general.
- CreditDailyTable.Payload: the daily expense dialog sends the receiver
  under the same misspelt key `reciever` as the create page. The correction
  is the one CreditPage.PayloadFixed states and is not written out a second
  time.
- `getCreditByDaily` (credit.js:106-168) and `getAllInvoices`
  (invoice.js:278-336) are not modelled. Both are listings of the shape the
  model already covers. The first pages the open day's expenses, and like
  Credits.GetAll it reaches the never-imported `Store` first. The second
  composes a date and type WHERE over invoices with an item count, and
  passes the page number where the offset belongs.
- `getByName` in `users.js` is exported but registered on no
  channel, so it is not modelled. The unregistered `getByName` of
  `categories.js` and `products.js` is modelled (Categories.GetByName,
  Products.GetByName), since their logic differs from the registered
  searches.
- `create-invoicePage.jsx`: the Enter-key handler registered on `window`
  is not modelled. The line operations and totals of that page are.
- The `ORDER BY p.category, p.display_name` of permission listings is not
  modelled. Listings keep table order.
- The confirmation dialog's `onConfirm` callback is an opaque value: the
  slice stores and clears it but never calls it.
- The preload script exposes no `pdf` or `reports` object to the renderer,
  and "reports:inventory" is not on its channel list. The renderer-side
  export thunk therefore throws before it sends anything. This is modelled
  by PdfExport.PageExportAlwaysFails and IpcHandlers.ReportsAreUnreachable.
- Clock, randomness and environment: the current time, the branch id kept
  in electron-store, and the signed-in user are parameters. bcrypt hashing
  and JWT signing are opaque strings. The SQLite driver is replaced by
  pure functions on the tables. Puppeteer's PDF rendering and the HTML
  templates' markup are left out: only the report-type dispatch, the file
  name and the cell classes are modelled. Logging, window management and
  IPC transport are left out.
- Units and branches handlers: `units.js` and `branches.js` are not
  required by `src/main/ipc/handlers/index.js`, and the preload exposes no
  `units` or `branches` object, so the pages' calls to
  `window.electronAPI.units` and `window.electronAPI.branches` throw before
  reaching the main process. IpcHandlers.UnitsAndBranchesUnwired states
  that no such channel is registered or let through. The `Units` and
  `Branches` modules model the exported functions as if they were wired.
- Auth.LoginThunk: the `switchBranch` dispatch after a successful sign-in
  is not modelled. The promise of a dispatched thunk always resolves, so
  it cannot change the sign-in's outcome, and the branch it selects is a
  parameter of the model.
- Permissions.UpdateUserPermissions: does not check the foreign keys of
  `user_permissions` (connection.js:141-143). An unknown user, permission
  or grantor makes the INSERT fail and the transaction roll back, but the
  grants table is the handler's whole state here, so the model refuses
  only a repeated id. Permissions.GrantPermission does check them.
- Users.CreateUser: does not check that the listed permission ids exist,
  nor that `createdBy` names a user. The permissions table is not part of
  the accounts state, so an unknown id is granted in the model, where the
  foreign key on `user_permissions.permission_id` would fail the INSERT
  with the user row left in place. `createdBy` is written to `granted_by`,
  which references `users(id)` (connection.js:143), so a `createdBy`
  naming no user fails the INSERT the same way; an absent one is NULL
  and passes.
- Users.Update: does not check that the listed permission ids exist, nor
  that `updatedBy` names a user, for the same reasons; either foreign key
  (connection.js:142-143) would fail the INSERT after the old permission
  rows were deleted.
- Users.GetAll: ties on `created_at` are broken newest first. The column
  is `CURRENT_TIMESTAMP`, one-second resolution, so users created in the
  same second (or after the clock was set back) tie, and SQL leaves their
  order open; with `LIMIT`/`OFFSET` a tied user may even repeat or be
  skipped across pages. The contract pins row k to the reversed table.
- ProductTransactions.GetProductTransactions: ties on `created_at` are
  broken newest first, for the same reason as Users.GetAll; movements
  written in the same second may come in another order, or repeat or be
  skipped across pages, under SQLite.
- Reports.PageItems: items that tie on both quantity and `name` (names
  are not UNIQUE) are kept in table order by the stable sort. SQL leaves
  their order open, so the contract pins a tie order SQLite may not
  follow.
- Products.CreateProduct: does not check the foreign key from
  `items.category_id` to `categories(id)` (connection.js:68). The
  categories table is not part of the catalogue state, so an unknown
  category id is accepted in the model and refused by SQLite.
- Invoices.FromBoundExample: takes the local time zone to be UTC.
  `startOfDay` (invoice.js:117) gives local midnight, and `toISOString`
  writes it in UTC, so in a time zone east of UTC the bound text falls on
  the previous day and the example invoice is listed.
- Tables.FreshId: gives one more than the largest id present. SQLite's
  AUTOINCREMENT gives one more than the largest id ever used, so after the
  row with the largest id is deleted the model hands out that id again
  where SQLite would not. This matters only after Products.DeleteProduct,
  Users.DeleteUser or Branches.Delete removed the newest row.
- ProductPage: the create page's `handleChange` stores price and buy
  price as the typed text and sends it as it is (the category select
  converts with `Number`). The handler's required-field check (`!price`,
  products.js:22-35) then sees the non-empty text "0" as present and
  accepts it. The model's form keeps these fields as integers, so a typed
  "0" reaches Products.CreateProduct as 0 and is refused as a missing
  field.
- `formDate.js` is `formDate.ts` without the type annotations. Both are modelled
  by the same `Dates` members.

## Findings

None of these was executed. Each is read from the source text and
exhibited by a lemma about the as-written member.

| source | as written | input that shows it | evidently intended | confidence | as-written member | corrected member |
|---|---|---|---|---|---|---|
| src/main/ipc/handlers/products.js:315-321 | the delete selects and removes `WHERE id LIKE '%id%'` | deleting item 1 while item 12 exists | remove the item with that id only | high, not executed | Products.DeleteProductTakesNeighbours | Products.DeleteProductFixed |
| src/main/ipc/handlers/branches.js:149-155 | the delete matches `id LIKE '%id%'` | deleting branch 2 while branch 12 exists | remove the branch with that id only | high, not executed | Branches.DeleteTakesNeighbours | Branches.DeleteFixed |
| src/main/ipc/handlers/categories.js:123-134 | the duplicate check filters on a `username` column the table lacks, and the UPDATE has a stray comma | any rename with a non-empty name | refuse only a name another live category has, otherwise rename | high, not executed | Categories.RenameWorksOnlyWhenFixed | Categories.UpdateFixed |
| src/renderer/src/pages/Categories/components/data-table.component.tsx:153-215 | the delete button is shown when the user may edit | a user holding `category.edit` but not `category.delete` | show delete exactly with `category.delete` | medium, not executed | CategoriesTable.DeleteGatedByEdit | CategoriesTable.FixedDeleteNeedsDeletePermission |
| src/renderer/src/pages/Invoice/components/filterSection.tsx:99-102 | the deferred option's value is "آجل" | choosing the deferred option | the schema's spelling "أجل", which the CHECK admits | high, not executed | InvoiceFilters.DeferredOptionMatchesNothing | InvoiceFilters.FixedOptionSelectsItsType |
| src/main/ipc/handlers/invoice.js:113-134 | `createdAt >= ?` compares the stored "YYYY-MM-DD HH:MM:SS" text with an ISO "YYYY-MM-DDT…" bound | in a UTC time zone, `from` = 17 July 2025 and an invoice saved 10:15:05 that day | the invoice lies within the bound and is listed | high, not executed | Invoices.FromBoundExample | Invoices.FixedFilterIsChronological |
| src/main/ipc/handlers/invoice.js:56-83 | the invoice row, its lines and the stock moves are separate statements with no transaction | a sale whose second line names an unknown item | the save writes everything or nothing | medium, not executed | Invoices.UnknownItemLeavesHalfInvoice | Invoices.AtomicSaveWritesAllOrNothing |
| src/renderer/src/pages/Invoice/components/data-table.component.tsx:215-218 | the net total takes the discount off as an amount | an invoice saved with discount 10 on lines worth 200 | take it off as a percentage, as the create page does | high, not executed | InvoiceBrowser.NetTotal | InvoiceBrowser.FixedNetMatchesCreatePage |
| src/renderer/src/pages/Invoice/components/data-table.component.tsx:159-185 | the step back shows the earlier invoice but leaves the current id unchanged | step back, then choose the cash radio | the shown invoice becomes current, as on the step forward | high, not executed | InvoiceBrowser.CashRadioAfterPreviousHitsHiddenInvoice | InvoiceBrowser.CashRadioAfterPreviousFixedHitsShownInvoice |
| src/main/ipc/handlers/users.js:28-70 | the user row and the permission rows are written with no transaction begun; under the MySQL reading of the stray COMMIT and ROLLBACK | a creation listing one permission id twice | a failed creation leaves no user behind | medium, not executed | Users.CreateWithRepeatedIdLeavesUser | Users.CreateUserFixed |
| src/main/ipc/handlers/users.js:243-270 | the user's permissions are deleted before the INSERT that can fail, with no transaction | an update listing one permission id twice | a failed update leaves the permissions as they were | medium, not executed | Users.UpdateWithRepeatedIdDropsPermissions | Users.UpdateFixedKeepsPermissions |
| src/main/ipc/handlers/settings.js:73 | the reduce destructures `[result]` from each answer of `db.run`, an object that is not iterable | one entry `{ key: "warning", value: "4" }` | count the updated settings and report success after the writes | high, not executed | Settings.OneEntryThrowsAfterWriting | Settings.WrittenValueIsRead |
| src/main/ipc/handlers/units.js:70-88 | the other default is cleared before the UPDATE that may match no row | making an unknown id the default | a failed update changes nothing | medium, not executed | Units.FailedUpdateDropsDefault | Units.UpdateFixedKeepsDefault |
| src/main/ipc/handlers/credit.js:7-47 | `new Store()` is called but `Store` is never imported | any expense with a reason and a price | read the active branch and record the expense | high, not executed | Credits.Create | Credits.CreateFixed |
| src/main/ipc/handlers/credit.js:60-94 | with a branch and a name, the WHERE has two placeholders but three parameters, and the unbracketed OR lets deleted rows through | a branch and a name that matches one of its live expenses | list that branch's live expenses whose name matches | high, not executed | Credits.NameWithBranchFailsOnlyAsWritten | Credits.GetAllFixed |
| src/renderer/src/pages/Credit/CreateCreditPage.tsx:54-56 | the receiver is sent under the key `reciever` | a form with a receiver typed | the handler stores the typed receiver | high, not executed | CreditPage.Payload | CreditPage.ReceiverStoredOnlyWhenFixed |
| src/renderer/src/pages/Branches/CreateBranchPage.tsx:116-118 | the name input shows `errors.username`, which the form never sets | submitting the empty form | show the name error "اسم الفرع مطلوب" | high, not executed | BranchPage.NameErrorHidden | BranchPage.MessageFixed |
| src/main/ipc/handlers/index.js:169 | "reports:inventory" and the other report channels are registered but not on the preload list | any renderer call to the inventory report | the registered handlers are reachable | high, not executed | IpcHandlers.ReportsAreUnreachable | IpcHandlers.FixedListReachesEveryHandler |
| src/renderer/src/store/slices/reportSlice.ts:15-30 | the thunk calls `electronAPI.pdf`, which the preload never exposes; the one request object it would pass lands where the handler expects the type | exporting any report from the reports page | export the requested type with its data | high, not executed | PdfExport.PageExportAlwaysFails | PdfExport.FixedExportUsesRequestedType |
| src/main/ipc/handlers/reports.js:485-493 | the count query never receives the low-stock condition | `lowStockOnly` with an item above the threshold | count the rows the listing selects | high, not executed | Reports.CountIgnoresLowStockFilter | Reports.FixedCountMatchesPages |
| src/main/ipc/handlers/reports.js:494-502 | the summary counts as low the items at or under a fixed 5 | an item with four left under the seeded threshold of 3 | count as low the items the rows show as low | high, not executed | Reports.SummaryDisagreesWithStatus | Reports.FixedSummaryCountsStatus |
| src/renderer/src/pages/Reports/InventoryReport.tsx:32-45 | the low-stock switch is never sent with the request | turning the switch on | the report lists only low-stock rows | high, not executed | InventoryPage.SwitchIsIgnored | InventoryPage.FixedSwitchListsLowStock |
| src/renderer/src/pages/Reports/InventoryReport.tsx:261-265 | the quantity colour compares with `min_stock_level`, which the rows lack | a row with status low and a positive quantity | colour the quantity by the row's status | high, not executed | InventoryPage.LowQuantityShownGreen | InventoryPage.QuantityColourFixed |
| src/renderer/src/pages/Users/EditUserPage.tsx:64-67 | the three-character check counts the untrimmed name, and the trimmed one is sent | the name "a" followed by two spaces | at least three characters after trimming | high, not executed | UserPage.PaddedShortNamePasses | UserPage.FixedCheckSendsThreeCharacters |

=== FILE: access.dfy ===
/** What the renderer shows to whom: the permission picker of the user
    forms (`src/renderer/src/components/users/PermissionsSelector.tsx`),
    the menu of `src/renderer/src/components/app-sidebar.component.tsx` and
    the `usePermission` hook of `src/renderer/src/hooks/use-permissions.ts`. */
module Access {
  import opened Wrappers
  import opened Tables
  import Permissions

  /* ---------------- the permission picker ---------------- */

  /** The filter `id => id !== permissionId`. */
  function IsNot(permissionId: int): int -> bool {
    (id: int) => id != permissionId
  }

  /** `handlePermissionToggle`: a disabled picker ignores clicks; otherwise
      a selected id is taken out and an unselected one is put at the end. */
  function TogglePermission(selected: seq<int>, permissionId: int, disabled: bool): (r: seq<int>)
    ensures disabled ==> r == selected
    ensures !disabled ==> (permissionId in r <==> permissionId !in selected)
    ensures !disabled ==> forall id :: id != permissionId ==> (id in r <==> id in selected)
  {
    if disabled then selected
    else if permissionId in selected then Where(selected, IsNot(permissionId))
    else selected + [permissionId]
  }

  /** Clicking a permission twice gives back the selection. */
  lemma ToggleTwiceRestores(selected: seq<int>, permissionId: int)
    requires permissionId !in selected
    ensures TogglePermission(TogglePermission(selected, permissionId, false), permissionId, false) == selected
  {
    WhereAppend(selected, [permissionId], IsNot(permissionId));
    assert forall k :: 0 <= k < |selected| ==> IsNot(permissionId)(selected[k]);
    WhereAllRows(selected, IsNot(permissionId));
    assert [permissionId][1..] == [];
  }

  /** The picker never selects an id twice, so the update it feeds never
      fails on the `UNIQUE(user_id, permission_id)` constraint. */
  lemma ToggleKeepsDistinct(selected: seq<int>, permissionId: int, disabled: bool)
    requires Permissions.Distinct(selected)
    ensures Permissions.Distinct(TogglePermission(selected, permissionId, disabled))
  {
    if !disabled && permissionId in selected {
      var byId := (id: int) => id;
      WhereKeepsDistinct(selected, byId, IsNot(permissionId));
    }
  }

  /** `permissionsByCategory[category] || []`, mapped to ids. */
  function CategoryIds(groups: map<string, seq<Permission>>, category: string): (ids: seq<int>)
    ensures category in groups ==>
              |ids| == |groups[category]| && forall k :: 0 <= k < |ids| ==> ids[k] == groups[category][k].id
    ensures category !in groups ==> ids == []
  {
    if category in groups then
      seq(|groups[category]|, k requires 0 <= k < |groups[category]| => groups[category][k].id)
    else []
  }

  /** Every id of the list is selected (`every`, true for an empty list). */
  predicate AllIn(ids: seq<int>, selected: seq<int>) {
    forall k :: 0 <= k < |ids| ==> ids[k] in selected
  }

  /** The filter `id => !categoryPermissionIds.includes(id)`. */
  function NotAmong(ids: seq<int>): int -> bool {
    (id: int) => id !in ids
  }

  /** The `forEach` that pushes every id not yet in the list, in order. */
  function AddMissing(acc: seq<int>, ids: seq<int>): (r: seq<int>)
    ensures |acc| <= |r| && r[..|acc|] == acc
    ensures forall id :: id in r <==> id in acc || id in ids
    ensures Permissions.Distinct(acc) ==> Permissions.Distinct(r)
    decreases |ids|
  {
    if ids == [] then acc
    else if ids[0] in acc then AddMissing(acc, ids[1..])
    else
      var next := acc + [ids[0]];
      assert next[..|acc|] == acc;
      var r := AddMissing(next, ids[1..]);
      assert r[..|acc|] == next[..|acc|];
      r
  }

  /** `handleCategoryToggle`: when the whole category is selected it is taken
      out; otherwise the missing ids of the category are added after the
      current selection. */
  function ToggleCategory(selected: seq<int>, ids: seq<int>): (r: seq<int>)
    ensures AllIn(ids, selected) ==> forall id :: id in r <==> id in selected && id !in ids
    ensures !AllIn(ids, selected) ==> forall id :: id in r <==> id in selected || id in ids
    ensures !AllIn(ids, selected) ==> |selected| <= |r| && r[..|selected|] == selected
  {
    if AllIn(ids, selected) then Where(selected, NotAmong(ids))
    else AddMissing(selected, ids)
  }

  lemma ToggleCategoryKeepsDistinct(selected: seq<int>, ids: seq<int>)
    requires Permissions.Distinct(selected)
    ensures Permissions.Distinct(ToggleCategory(selected, ids))
  {
    if AllIn(ids, selected) {
      var byId := (id: int) => id;
      WhereKeepsDistinct(selected, byId, NotAmong(ids));
    }
  }

  /** The check box state of a category. */
  datatype SelectionState = NoneSelected | AllSelected | PartlySelected

  /** The filter `id => selectedPermissions.includes(id)`. */
  function Among(selected: seq<int>): int -> bool {
    (id: int) => id in selected
  }

  /** `getCategorySelectionState`: a count of zero is checked first, so an
      empty category reads as none selected. */
  function SelectionOf(ids: seq<int>, selected: seq<int>): (s: SelectionState)
  {
    var count := CountWhere(ids, Among(selected));
    if count == 0 then NoneSelected
    else if count == |ids| then AllSelected
    else PartlySelected
  }

  /** Counting the selected ids of a category: zero exactly when none is
      selected, the whole length exactly when all are. */
  lemma SelectedCountBounds(ids: seq<int>, selected: seq<int>)
    ensures CountWhere(ids, Among(selected)) == 0 <==> forall k :: 0 <= k < |ids| ==> ids[k] !in selected
    ensures CountWhere(ids, Among(selected)) == |ids| <==> AllIn(ids, selected)
  {
    NoneCounted(ids, selected);
    AllCounted(ids, selected);
  }

  /** No row counted exactly when no id is selected. */
  lemma {:induction false} NoneCounted(ids: seq<int>, selected: seq<int>)
    ensures CountWhere(ids, Among(selected)) == 0 <==> forall k :: 0 <= k < |ids| ==> ids[k] !in selected
    decreases |ids|
  {
    if ids != [] {
      NoneCounted(ids[1..], selected);
      assert forall k :: 1 <= k < |ids| ==> ids[k] == ids[1..][k - 1];
    }
  }

  /** Every row counted exactly when every id is selected. */
  lemma {:induction false} AllCounted(ids: seq<int>, selected: seq<int>)
    ensures CountWhere(ids, Among(selected)) == |ids| <==> AllIn(ids, selected)
    decreases |ids|
  {
    if ids != [] {
      AllCounted(ids[1..], selected);
      assert forall k :: 1 <= k < |ids| ==> ids[k] == ids[1..][k - 1];
      assert CountWhere(ids[1..], Among(selected)) <= |ids[1..]|;
    }
  }

  /** The state says which of the three cases holds. */
  lemma SelectionIff(ids: seq<int>, selected: seq<int>)
    ensures SelectionOf(ids, selected) == NoneSelected <==> forall k :: 0 <= k < |ids| ==> ids[k] !in selected
    ensures SelectionOf(ids, selected) == AllSelected <==> ids != [] && AllIn(ids, selected)
    ensures SelectionOf(ids, selected) == PartlySelected <==>
              (exists k :: 0 <= k < |ids| && ids[k] in selected) && !AllIn(ids, selected)
  {
    SelectedCountBounds(ids, selected);
  }

  /** Clicking a non-empty category's box moves it to all selected, or, when
      it already was, to none selected. */
  lemma ToggleCategoryState(selected: seq<int>, ids: seq<int>)
    requires ids != []
    ensures SelectionOf(ids, selected) == AllSelected ==> SelectionOf(ids, ToggleCategory(selected, ids)) == NoneSelected
    ensures SelectionOf(ids, selected) != AllSelected ==> SelectionOf(ids, ToggleCategory(selected, ids)) == AllSelected
  {
    var r := ToggleCategory(selected, ids);
    SelectionIff(ids, selected);
    SelectionIff(ids, r);
    if AllIn(ids, selected) {
      assert forall k :: 0 <= k < |ids| ==> ids[k] in ids;
    } else {
      assert AllIn(ids, r);
    }
  }

  /* ---------------- the signed-in user ---------------- */

  /** The user object the auth state holds: its role and, when the login
      answer carried one, its list of permission names. */
  datatype SessionUser = SessionUser(id: int, username: string, role: string, permissions: Option<seq<string>>)

  /** `user?.permissions?.includes(p)`. */
  predicate Lists(user: Option<SessionUser>, permission: string) {
    user.Some? && user.value.permissions.Some? && permission in user.value.permissions.value
  }

  /** `usePermission`: exactly whether the user's list names the permission;
      no user or no list means no. There is no exception for admins. */
  function UsePermission(user: Option<SessionUser>, permission: string): (b: bool)
    ensures b <==> Lists(user, permission)
    ensures user.None? ==> !b
  {
    match user
    case None => false
    case Some(u) => u.permissions.Some? && permission in u.permissions.value
  }

  /* ---------------- the side menu ---------------- */

  datatype SubItem = SubItem(url: string, permissions: seq<string>)

  /** A menu entry: a plain link when `group` is empty, a folder otherwise;
      `daily` entries need an open cash day. */
  datatype MenuItem = MenuItem(url: string, group: seq<SubItem>, daily: bool, permissions: seq<string>)

  /** The sidebar's `hasPermission`: an empty requirement and the admin role
      pass; otherwise some required name must be listed. */
  function Allows(user: Option<SessionUser>, required: seq<string>): (b: bool)
    ensures required == [] ==> b
    ensures user.Some? && user.value.role == "admin" ==> b
    ensures b <==> required == [] || (user.Some? && user.value.role == "admin")
                   || exists k :: 0 <= k < |required| && Lists(user, required[k])
  {
    required == [] || (user.Some? && user.value.role == "admin")
    || exists k :: 0 <= k < |required| && Lists(user, required[k])
  }

  /** The hook agrees with the menu: a listed permission shows every entry
      that asks for it. */
  lemma UsePermissionShowsEntry(user: Option<SessionUser>, permission: string, required: seq<string>)
    requires UsePermission(user, permission) && permission in required
    ensures Allows(user, required)
  {
    var k :| 0 <= k < |required| && required[k] == permission;
  }

  /** An admin whose answer lists no permissions sees every menu entry, while
      every `usePermission` check says no. */
  lemma AdminWithoutListSeesMenuOnly(id: int, username: string, required: seq<string>, permission: string)
    ensures Allows(Some(SessionUser(id, username, "admin", None)), required)
    ensures !UsePermission(Some(SessionUser(id, username, "admin", None)), permission)
  {
  }

  /** `hasGroupPermission`: some sub-entry is allowed. */
  predicate GroupAllows(user: Option<SessionUser>, group: seq<SubItem>) {
    exists k :: 0 <= k < |group| && Allows(user, group[k].permissions)
  }

  /** `hide`: the entry's own list fails and either it has no sub-entries or
      none of them is allowed. */
  function Hide(user: Option<SessionUser>, item: MenuItem): (b: bool)
    ensures b ==> !Allows(user, item.permissions)
    ensures !Allows(user, item.permissions) && item.group == [] ==> b
    ensures item.group != [] ==> (b <==> !Allows(user, item.permissions) && !GroupAllows(user, item.group))
  {
    !Allows(user, item.permissions) && (item.group == [] || !GroupAllows(user, item.group))
  }

  /** `active`: the path is the entry's own or one of its sub-entries'. */
  function Active(path: string, item: MenuItem): (b: bool)
    ensures b <==> path == item.url || exists k :: 0 <= k < |item.group| && item.group[k].url == path
  {
    path == item.url || exists k :: 0 <= k < |item.group| && item.group[k].url == path
  }

  /** The `hidden` class: a daily entry while the cash-day answer says
      `success: false`, or a hidden entry. An unknown day (no answer) does
      not hide daily entries. */
  function Hidden(user: Option<SessionUser>, item: MenuItem, dailySuccess: Option<bool>): (b: bool)
    ensures !item.daily ==> (b <==> Hide(user, item))
    ensures item.daily && dailySuccess == Some(false) ==> b
    ensures dailySuccess != Some(false) ==> (b <==> Hide(user, item))
  {
    (item.daily && dailySuccess == Some(false)) || Hide(user, item)
  }

  /** The filter of a folder's sub-entries. */
  function SubItemAllowed(user: Option<SessionUser>): SubItem -> bool {
    (s: SubItem) => Allows(user, s.permissions)
  }

  /** The sub-entries a folder shows, in order. */
  function VisibleSubItems(user: Option<SessionUser>, item: MenuItem): (r: seq<SubItem>)
    ensures forall k :: 0 <= k < |r| ==> r[k] in item.group && Allows(user, r[k].permissions)
    ensures forall k :: 0 <= k < |item.group| && Allows(user, item.group[k].permissions) ==> item.group[k] in r
  {
    Where(item.group, SubItemAllowed(user))
  }

  /** A folder whose own list is exactly the names its sub-entries ask for,
      each sub-entry asking for something. */
  ghost predicate FolderListsItsSubItems(item: MenuItem) {
    item.group != [] &&
    (forall k :: 0 <= k < |item.group| ==> item.group[k].permissions != []) &&
    (forall k, p :: 0 <= k < |item.group| && p in item.group[k].permissions ==> p in item.permissions) &&
    (forall p :: p in item.permissions ==> exists k :: 0 <= k < |item.group| && p in item.group[k].permissions)
  }

  /** A folder's own list passes only when one of its sub-entries does. */
  lemma OwnListAllowsSomeSubItem(user: Option<SessionUser>, item: MenuItem)
    requires FolderListsItsSubItems(item)
    ensures Allows(user, item.permissions) ==> GroupAllows(user, item.group)
  {
    assert item.group[0].permissions[0] in item.permissions;
    if user.Some? && user.value.role == "admin" {
      assert Allows(user, item.group[0].permissions);
    } else if exists j :: 0 <= j < |item.permissions| && Lists(user, item.permissions[j]) {
      var j :| 0 <= j < |item.permissions| && Lists(user, item.permissions[j]);
      var p := item.permissions[j];
      assert p in item.permissions;
      var k :| 0 <= k < |item.group| && p in item.group[k].permissions;
      var i :| 0 <= i < |item.group[k].permissions| && item.group[k].permissions[i] == p;
      assert Allows(user, item.group[k].permissions);
    }
  }

  /** For such a folder the menu never shows an empty folder: it is shown
      exactly when it shows at least one sub-entry. */
  lemma FolderShownIffSubItemShown(user: Option<SessionUser>, item: MenuItem)
    requires FolderListsItsSubItems(item)
    ensures !Hide(user, item) <==> VisibleSubItems(user, item) != []
  {
    OwnListAllowsSomeSubItem(user, item);
    var shown := VisibleSubItems(user, item);
    if GroupAllows(user, item.group) {
      var k :| 0 <= k < |item.group| && Allows(user, item.group[k].permissions);
      assert item.group[k] in shown;
    }
    if shown != [] {
      assert Allows(user, shown[0].permissions);
    }
  }

  /** The menu of the application, in order. */
  const Menu: seq<MenuItem> := [
    MenuItem("/", [], false, []),
    MenuItem("/users", [], false, ["users.view"]),
    MenuItem("/categories", [], false, ["category.view"]),
    MenuItem("/products", [], false, ["inventory.view"]),
    MenuItem("/units", [], false, ["units.view"]),
    MenuItem("/invoiceManagement",
             [SubItem("/invoice/create", ["sales.create"]), SubItem("/invoice", ["sales.view"])],
             true, ["sales.view", "sales.create"]),
    MenuItem("/credit",
             [SubItem("/credit/daily", ["credit.create"]), SubItem("/credit", ["credit.view"])],
             true, ["credit.view", "credit.create"]),
    MenuItem("/reports", [], false, ["reports.view"]),
    MenuItem("/settings", [], false, ["settings.view"])
  ]

  /** The two folders of the menu list exactly their sub-entries' names, so
      neither is ever shown empty; the home entry is never hidden. */
  lemma MenuFoldersNeverEmpty(user: Option<SessionUser>, dailySuccess: Option<bool>)
    ensures FolderListsItsSubItems(Menu[5]) && FolderListsItsSubItems(Menu[6])
    ensures !Hide(user, Menu[5]) <==> VisibleSubItems(user, Menu[5]) != []
    ensures !Hide(user, Menu[6]) <==> VisibleSubItems(user, Menu[6]) != []
    ensures !Hidden(user, Menu[0], dailySuccess)
  {
    SalesFolderListsItsPages();
    CreditFolderListsItsPages();
    FolderShownIffSubItemShown(user, Menu[5]);
    FolderShownIffSubItemShown(user, Menu[6]);
  }

  /** The invoices folder's list is the union of its two pages' lists. */
  lemma SalesFolderListsItsPages()
    ensures FolderListsItsSubItems(Menu[5])
  {
    var sales := Menu[5];
    assert "sales.view" in sales.group[1].permissions;
    assert "sales.create" in sales.group[0].permissions;
  }

  /** The credit folder's list is the union of its two pages' lists. */
  lemma CreditFolderListsItsPages()
    ensures FolderListsItsSubItems(Menu[6])
  {
    var credit := Menu[6];
    assert "credit.view" in credit.group[1].permissions;
    assert "credit.create" in credit.group[0].permissions;
  }

  /** A cashier listing only `sales.create` gets the invoices folder with
      just the create page, and that folder disappears on a closed day. */
  lemma CashierSeesCreateInvoiceOnly(id: int)
    ensures var u := Some(SessionUser(id, "cashier", "cashier", Some(["sales.create"])));
            !Hide(u, Menu[5]) && VisibleSubItems(u, Menu[5]) == [Menu[5].group[0]]
            && Hidden(u, Menu[5], Some(false)) && Hide(u, Menu[1])
  {
    var u := Some(SessionUser(id, "cashier", "cashier", Some(["sales.create"])));
    var g := Menu[5].group;
    assert Lists(u, "sales.create");
    assert Allows(u, g[0].permissions);
    assert !Allows(u, g[1].permissions);
    assert g[1..][1..] == [];
    assert VisibleSubItems(u, Menu[5]) == [g[0]];
  }
}

=== FILE: auth.dfy ===
/** The sign-in state of the renderer, `src/renderer/src/store/slices/authSlice.ts`:
    the `loginUser` thunk's guard and the reducers for the login, logout and
    session-check requests. The older `authSlice.js` is module AuthLegacy. */
module Auth {
  import opened Wrappers
  import Text
  import Access

  datatype State = State(isAuthenticated: bool, user: Option<Access.SessionUser>, loading: bool, error: Option<string>)

  const Initial := State(false, None, false, None)

  /** What the login bridge call gave: an exception with its message, or
      an answer (None when nothing came back). */
  datatype Reply = Threw(message: string) | Replied(answer: Option<LoginAnswer>)

  datatype LoginAnswer = LoginAnswer(success: bool, user: Option<Access.SessionUser>)

  datatype Action =
    | LoginPending
    | LoginFulfilled(user: Option<Access.SessionUser>)
    | LoginRejected(reason: Option<string>)
    | LogoutPending
    | LogoutFulfilled
    | LogoutRejected(reason: Option<string>)
    | CheckPending
    | CheckFulfilled(success: bool, sessionUser: Option<Access.SessionUser>)
    | CheckRejected
    | ClearError
    | ClearUser
    | SetLoading(on: bool)

  const NoBridge := "Electron API غير متاح"
  const BadCredentials := "اسم المستخدم أو كلمة المرور غير صحيحة"
  const LoginCrashed := "حدث خطأ أثناء تسجيل الدخول"

  /** The message of the TypeError `result.user.branchId` raises on an
      answer without a user. */
  const NoUserInAnswer := "Cannot read properties of undefined (reading 'branchId')"

  /** `loginUser`: without the bridge, or unless the answer says success,
      the request is rejected. A success answer is then read for
      `result.user.branchId`, which throws without a user, and the catch
      rejects with that error's message; otherwise it settles with the
      answer's user. */
  function LoginThunk(bridge: bool, reply: Reply): (a: Action)
    ensures a.LoginFulfilled? <==> bridge && reply.Replied? && reply.answer.Some? && reply.answer.value.success
                                   && reply.answer.value.user.Some?
    ensures a.LoginFulfilled? ==> a.user == reply.answer.value.user && CarriesUser(a)
    ensures !bridge ==> a == LoginRejected(Some(NoBridge))
    ensures bridge && reply.Replied? && !(reply.answer.Some? && reply.answer.value.success) ==>
              a == LoginRejected(Some(BadCredentials))
    ensures bridge && reply.Replied? && reply.answer.Some? && reply.answer.value.success && reply.answer.value.user.None? ==>
              a == LoginRejected(Some(NoUserInAnswer))
    ensures bridge && reply.Threw? ==> a == LoginRejected(Some(if reply.message == "" then LoginCrashed else reply.message))
  {
    if !bridge then LoginRejected(Some(NoBridge))
    else match reply
      case Threw(m) => LoginRejected(Some(if m == "" then LoginCrashed else m))
      case Replied(answer) =>
        if answer.None? || !answer.value.success then LoginRejected(Some(BadCredentials))
        else if answer.value.user.None? then LoginRejected(Some(NoUserInAnswer))
        else LoginFulfilled(answer.value.user)
  }

  /** `x || fallback` on an optional text: undefined and "" take the
      fallback. */
  function OrElse(x: Option<string>, fallback: string): (r: string)
    ensures x.Some? && x.value != "" ==> r == x.value
    ensures !(x.Some? && x.value != "") ==> r == fallback
  {
    if x.Some? && x.value != "" then x.value else fallback
  }

  /** `payload?.split("Error:")[1] || "Logout failed"`: the text after the
      first `Error:` marker, up to the next one. */
  function LogoutError(reason: Option<string>): (e: string)
    ensures e != ""
    ensures reason.None? || !Text.Contains(reason.value, "Error:") ==> e == "Logout failed"
    ensures reason.Some? && Text.Contains(reason.value, "Error:") ==>
              !Text.Contains(e, "Error:") || e == "Logout failed"
  {
    match reason
    case None => "Logout failed"
    case Some(text) =>
      var piece := Text.SplitSecond(text, "Error:");
      if piece.0 && piece.1 != "" then piece.1 else "Logout failed"
  }

  /** The slice's reducer. */
  function Reduce(s: State, a: Action): State {
    match a
    case LoginPending => s.(loading := true, error := None)
    case LoginFulfilled(user) => State(true, user, false, None)
    case LoginRejected(reason) => State(false, None, false, Some(OrElse(reason, "Login failed")))
    case LogoutPending => s.(loading := true)
    case LogoutFulfilled => State(false, None, false, None)
    case LogoutRejected(reason) => s.(loading := false, error := Some(LogoutError(reason)))
    case CheckPending => s.(loading := true)
    case CheckFulfilled(success, user) =>
      if success then State(true, user, false, None) else State(false, None, false, None)
    case CheckRejected => State(false, None, false, None)
    case ClearError => s.(error := None)
    case ClearUser => s.(user := None)
    case SetLoading(on) => s.(loading := on)
  }

  predicate IsPending(a: Action) {
    a.LoginPending? || a.LogoutPending? || a.CheckPending?
  }

  predicate IsSettled(a: Action) {
    a.LoginFulfilled? || a.LoginRejected? || a.LogoutFulfilled? || a.LogoutRejected?
    || a.CheckFulfilled? || a.CheckRejected?
  }

  /** Every request shows the spinner while it runs and hides it once it
      settles, whatever the outcome; nothing else touches the spinner but
      `setLoading`. */
  lemma LoadingFollowsRequests(s: State, a: Action)
    ensures IsPending(a) ==> Reduce(s, a).loading
    ensures IsSettled(a) ==> !Reduce(s, a).loading
    ensures !IsPending(a) && !IsSettled(a) && !a.SetLoading? ==> Reduce(s, a).loading == s.loading
  {
  }

  /** Signed out means no user: every action keeps that. */
  predicate NoUserWhenSignedOut(s: State) {
    !s.isAuthenticated ==> s.user.None?
  }

  lemma ReduceKeepsNoUserWhenSignedOut(s: State, a: Action)
    requires NoUserWhenSignedOut(s)
    ensures NoUserWhenSignedOut(Reduce(s, a))
  {
  }

  /** Signed in means a user, as long as every successful answer carries
      one; `clearUser` alone breaks it. */
  predicate UserWhenSignedIn(s: State) {
    s.isAuthenticated ==> s.user.Some?
  }

  predicate CarriesUser(a: Action) {
    (a.LoginFulfilled? ==> a.user.Some?) && (a.CheckFulfilled? && a.success ==> a.sessionUser.Some?)
  }

  lemma ReduceKeepsUserWhenSignedIn(s: State, a: Action)
    requires UserWhenSignedIn(s) && CarriesUser(a) && !a.ClearUser?
    ensures UserWhenSignedIn(Reduce(s, a))
  {
  }

  /** The `clearUser` case of the reducer drops the user but leaves the
      state signed in. The slice exports only `clearError` and `setLoading`
      as action creators, so no module can dispatch `clearUser`; the lemma
      is about the reducer case alone. */
  lemma ClearUserLeavesSignedIn(u: Access.SessionUser)
    ensures var s := Reduce(State(true, Some(u), false, None), ClearUser);
            s.isAuthenticated && s.user.None? && !UserWhenSignedIn(s)
  {
  }

  /** A sign-in through the guard and a sign-out end where the application
      started; a refused sign-in signs out and always shows a message. */
  lemma LoginThenLogoutRestores(s: State, reply: Reply)
    ensures var t := Reduce(Reduce(s, LoginPending), LoginThunk(true, reply));
            Reduce(Reduce(t, LogoutPending), LogoutFulfilled) == Initial
    ensures var t := Reduce(Reduce(s, LoginPending), LoginThunk(true, reply));
            t.isAuthenticated <==> reply.Replied? && reply.answer.Some? && reply.answer.value.success
                                   && reply.answer.value.user.Some?
    ensures var t := Reduce(Reduce(s, LoginPending), LoginThunk(true, reply));
            t.isAuthenticated ==> t.user.Some?
    ensures var t := Reduce(Reduce(s, LoginPending), LoginThunk(true, reply));
            !t.isAuthenticated ==> t.user.None? && t.error.Some? && t.error.value != ""
  {
  }

  /** A failed session check signs out silently. */
  lemma FailedCheckShowsNoError(s: State, success: bool, user: Option<Access.SessionUser>)
    ensures Reduce(s, CheckRejected) == Initial
    ensures !success ==> Reduce(s, CheckFulfilled(success, user)) == Initial
  {
  }

  /** A failed sign-out keeps the session and reports the bridge's own
      message when it carries one. */
  lemma FailedLogoutKeepsSession(s: State, reason: Option<string>)
    ensures Reduce(s, LogoutRejected(reason)).isAuthenticated == s.isAuthenticated
    ensures Reduce(s, LogoutRejected(reason)).user == s.user
    ensures Reduce(s, LogoutRejected(reason)).error == Some(LogoutError(reason))
  {
  }

  /** An exception from the bridge in the usual `...: Error: <text>` form
      shows the text after the marker. */
  lemma BridgeErrorMessage()
    ensures LogoutError(Some("x Error: boom")) == " boom"
  {
    var s := "x Error: boom";
    MarkerAtTwo(s);
    assert s[8..] == " boom";
    TailLacksMarker(" boom");
  }

  /** The marker starts at the third character of the example. */
  lemma MarkerAtTwo(s: string)
    requires s == "x Error: boom"
    ensures Text.IndexOf(s, "Error:") == 2
  {
    assert s[2..][..6] == "Error:";
    assert Text.IndexOf(s[2..], "Error:") == 0;
    assert s[1..][1..] == s[2..];
    assert s[1..][..6][0] == ' ';
    assert Text.IndexOf(s[1..], "Error:") == 1;
    assert s[..6][0] == 'x';
  }

  /** Text shorter than the marker cannot hold it. */
  lemma TailLacksMarker(s: string)
    requires |s| < 6
    ensures !Text.Contains(s, "Error:")
  {
    Text.ContainsIffOccurs(s, "Error:");
  }
}

=== FILE: auth_legacy.dfy ===
/** The older sign-in state, `src/renderer/src/store/slices/authSlice.js`:
    the answer is passed through without the success guard, a development
    fallback stands in for the bridge, and refused sign-ins keep the
    session. */
module AuthLegacy {
  import opened Wrappers
  import Access
  import Auth

  datatype State = State(user: Option<Access.SessionUser>, isAuthenticated: bool, loading: bool, error: Option<string>)

  const Initial := State(None, false, false, None)

  datatype LoginAnswer = LoginAnswer(success: bool, user: Option<Access.SessionUser>, message: Option<string>)

  datatype Action =
    | LoginPending
    | LoginFulfilled(answer: LoginAnswer)
    | LoginRejected(reason: Option<string>)
    | LogoutPending
    | LogoutFulfilled
    | LogoutRejected(reason: Option<string>)
    | CheckPending
    | CheckFulfilled(success: bool, authenticated: bool, sessionUser: Option<Access.SessionUser>)
    | CheckRejected(reason: Option<string>)
    | ClearError
    | Logout

  /** The account the development fallback accepts. */
  const DevAdmin := Access.SessionUser(1, "admin", "admin", None)

  /** `loginUser`: with the bridge its answer is passed on whatever it says;
      without it only admin / admin123 signs in, anything else is refused. */
  function LoginThunk(bridge: Option<LoginAnswer>, username: string, password: string): (a: Action)
    ensures bridge.Some? ==> a == LoginFulfilled(bridge.value)
    ensures bridge.None? ==> (a.LoginFulfilled? <==> username == "admin" && password == "admin123")
    ensures bridge.None? && a.LoginFulfilled? ==> a.answer.success && a.answer.user == Some(DevAdmin)
    ensures bridge.None? && !a.LoginFulfilled? ==> a == LoginRejected(Some("Invalid username or password"))
  {
    match bridge
    case Some(answer) => LoginFulfilled(answer)
    case None =>
      if username == "admin" && password == "admin123" then LoginFulfilled(LoginAnswer(true, Some(DevAdmin), None))
      else LoginRejected(Some("Invalid username or password"))
  }

  function Reduce(s: State, a: Action): State {
    match a
    case LoginPending => s.(loading := true, error := None)
    case LoginFulfilled(answer) =>
      if answer.success then s.(loading := false, user := answer.user, isAuthenticated := true)
      else s.(loading := false, error := Some(Auth.OrElse(answer.message, "Login failed")))
    case LoginRejected(reason) => s.(loading := false, error := Some(Auth.OrElse(reason, "Login failed")))
    case LogoutPending => s.(loading := true)
    case LogoutFulfilled => State(None, false, false, None)
    case LogoutRejected(reason) => s.(loading := false, error := Some(Auth.OrElse(reason, "Logout failed")))
    case CheckPending => s.(loading := true)
    case CheckFulfilled(success, authenticated, user) =>
      if success && authenticated then s.(loading := false, user := user, isAuthenticated := true)
      else s.(loading := false, user := None, isAuthenticated := false)
    case CheckRejected(reason) => s.(loading := false, user := None, isAuthenticated := false,
                                     error := Some(Auth.OrElse(reason, "Auth check failed")))
    case ClearError => s.(error := None)
    case Logout => s.(user := None, isAuthenticated := false, error := None)
  }

  /** A user is only ever held while signed in: every action keeps that. */
  predicate NoUserWhenSignedOut(s: State) {
    !s.isAuthenticated ==> s.user.None?
  }

  lemma ReduceKeepsNoUserWhenSignedOut(s: State, a: Action)
    requires NoUserWhenSignedOut(s)
    ensures NoUserWhenSignedOut(Reduce(s, a))
  {
  }

  /** Unlike the typed slice, a refused sign-in here leaves an existing
      session as it was and only records the message. */
  lemma RefusedLoginKeepsSession(s: State, a: Action)
    requires a.LoginRejected? || (a.LoginFulfilled? && !a.answer.success)
    ensures Reduce(s, a).isAuthenticated == s.isAuthenticated && Reduce(s, a).user == s.user
    ensures Reduce(s, a).error.Some? && Reduce(s, a).error.value != "" && !Reduce(s, a).loading
  {
  }

  /** The development fallback signs in exactly the admin account, which
      then sees every menu entry. */
  lemma DevLoginIsAdmin(s: State, password: string, required: seq<string>)
    ensures var t := Reduce(Reduce(s, LoginPending), LoginThunk(None, "admin", password));
            t.isAuthenticated <==> password == "admin123" || s.isAuthenticated
    ensures password == "admin123" ==>
              var t := Reduce(Reduce(s, LoginPending), LoginThunk(None, "admin", password));
              t.user == Some(DevAdmin) && Access.Allows(t.user, required)
  {
  }

  /** Both ways of signing out end in the initial state, apart from the
      spinner, which only the request form resets. */
  lemma LogoutClears(s: State)
    ensures Reduce(s, Logout) == Initial.(loading := s.loading)
    ensures Reduce(Reduce(s, LogoutPending), LogoutFulfilled) == Initial
  {
  }
}

=== FILE: branch_page.dfy ===
/** The branch form `src/renderer/src/pages/Branches/CreateBranchPage.tsx`:
    per-field errors, validation, the trimmed payload handed to
    `createBranch` (module Branches), and the message shown under each
    field. */
module BranchPage {
  import opened Wrappers
  import Text
  import Tables
  import Branches

  datatype Field = NameField | AddressField

  datatype Form = Form(name: string, address: string)

  const InitialForm: Form := Form("", "")

  /** The error kept for each field; "" is no error. */
  type Errors = map<Field, string>

  /** `handleChange`: the field takes the typed value; its own error, when
      set, is cleared and the other error stays. */
  function HandleChange(f: Form, errors: Errors, field: Field, value: string): (r: (Form, Errors))
    ensures field == NameField ==> r.0 == f.(name := value)
    ensures field == AddressField ==> r.0 == f.(address := value)
    ensures field in errors && errors[field] != "" ==> r.1 == errors[field := ""]
    ensures !(field in errors && errors[field] != "") ==> r.1 == errors
  {
    var form := match field
      case NameField => f.(name := value)
      case AddressField => f.(address := value);
    (form, if field in errors && errors[field] != "" then errors[field := ""] else errors)
  }

  /** The error of one text field: required, then at least three
      characters counted on the untrimmed text. */
  function FieldError(text: string, required: string, tooShort: string): (e: Option<string>)
    ensures e.Some? <==> Text.IsBlank(text) || |text| < 3
  {
    Text.TrimEmptyIffBlank(text);
    if Text.Trim(text) == [] then Some(required)
    else if |text| < 3 then Some(tooShort)
    else None
  }

  /** `validateForm`. */
  function Validate(f: Form): (errors: Errors)
    ensures NameField in errors <==> Text.IsBlank(f.name) || |f.name| < 3
    ensures AddressField in errors <==> Text.IsBlank(f.address) || |f.address| < 3
  {
    Collect(FieldError(f.name, "اسم الفرع مطلوب", "اسم الفرع يجب أن يكون 3 أحرف على الأقل"),
            FieldError(f.address, "العنوان مطلوب", "العنوان يجب أن يكون 3 أحرف على الأقل"))
  }

  /** The error map holding each field's error that is present. */
  function Collect(nameError: Option<string>, addressError: Option<string>): (errors: Errors)
    ensures NameField in errors <==> nameError.Some?
    ensures AddressField in errors <==> addressError.Some?
    ensures NameField in errors ==> errors[NameField] == nameError.value
    ensures AddressField in errors ==> errors[AddressField] == addressError.value
  {
    var withName: Errors := if nameError.Some? then map[NameField := nameError.value] else map[];
    if addressError.Some? then withName[AddressField := addressError.value] else withName
  }

  predicate Valid(f: Form) {
    |Validate(f)| == 0
  }

  lemma ValidIff(f: Form)
    ensures Valid(f) <==> !Text.IsBlank(f.name) && |f.name| >= 3 && !Text.IsBlank(f.address) && |f.address| >= 3
  {
    var e := Validate(f);
    if NameField in e {
      assert |e| > 0;
    }
    if AddressField in e {
      assert |e| > 0;
    }
    if e != map[] {
      var k :| k in e;
    }
  }

  /** `handleSubmit`'s payload: both fields trimmed; None for an invalid
      form, which is not sent. */
  function Submit(f: Form): (r: Option<(string, string)>)
    ensures r.Some? <==> Valid(f)
    ensures r.Some? ==> r.value == (Text.Trim(f.name), Text.Trim(f.address))
  {
    if Valid(f) then Some((Text.Trim(f.name), Text.Trim(f.address))) else None
  }

  /** A submitted form is refused by the handler only for a name that a
      branch already has exactly. */
  lemma SubmittedIsCreatedUnlessTaken(bs: seq<Tables.Branch>, f: Form)
    requires Submit(f).Some?
    ensures var (name, address) := Submit(f).value;
            Branches.Create(bs, name, address).Err? <==> exists k :: 0 <= k < |bs| && bs[k].name == name
  {
    ValidIff(f);
    Text.TrimEmptyIffBlank(f.name);
    Text.TrimEmptyIffBlank(f.address);
  }

  /** The text under the name input as written: it reads the `username`
      entry, which the form never sets, so a name error shows an empty
      message (the input is still outlined in red). */
  function NameMessage(errors: Errors): (m: string)
    ensures m == ""
  {
    ""
  }

  /** The text under an input read from the field's own entry. */
  function MessageFixed(errors: Errors, field: Field): (m: string)
    ensures field in errors ==> m == errors[field]
    ensures field !in errors ==> m == ""
  {
    if field in errors then errors[field] else ""
  }

  /** Submitting the empty form sets a name error whose text the page as
      written never shows, while the fixed message shows it. */
  lemma NameErrorHidden()
    ensures NameField in Validate(InitialForm)
    ensures NameMessage(Validate(InitialForm)) == ""
    ensures MessageFixed(Validate(InitialForm), NameField) == "اسم الفرع مطلوب"
  {
    Text.TrimEmptyIffBlank("");
  }
}

=== FILE: branch_stock_page.dfy ===
/** The add-stock page `src/renderer/src/pages/Products/AddProdutBranchPage.tsx`:
    the product loaded by its barcode, one quantity input per unit, and
    the submitted quantity. Only the added-quantity input is editable. */
module BranchStockPage {
  import opened Wrappers
  import Tables
  import Numbers

  datatype Form = Form(
    name: string,
    description: string,
    quantity: int,
    newQuantity: string,
    price: int,
    buyPrice: int,
    unitId: int,
    barcode: Option<string>,
    generatedCode: Option<string>,
    categoryId: int)

  /** The form filled from the loaded product; an empty barcode reads as
      no barcode and the added quantity starts at 0. */
  function Load(it: Tables.Item): (f: Form)
    ensures f.quantity == it.quantity && f.newQuantity == "0"
    ensures f.barcode.None? <==> it.barcode == ""
    ensures f.barcode.Some? ==> f.barcode.value == it.barcode
    ensures f.generatedCode.None?
  {
    Form(it.name, it.description, it.quantity, "0", it.price, it.buyPrice, 0,
         if it.barcode != "" then Some(it.barcode) else None, None, it.categoryId)
  }

  /** `handleChange` on the added-quantity input. */
  function ChangeNewQuantity(f: Form, text: string): (r: Form)
    ensures r.newQuantity == text && r.(newQuantity := f.newQuantity) == f
  {
    f.(newQuantity := text)
  }

  /** One unit's quantity input; `Number` of the text, None for NaN. */
  datatype UnitInput = UnitInput(unitId: int, quantity: Option<int>)

  /** The inputs the unit list starts with: one per loaded unit, at 0. */
  function DefaultUnitInputs(units: seq<Tables.Unit>): (r: seq<UnitInput>)
    ensures |r| == |units|
    ensures forall k :: 0 <= k < |units| ==> r[k] == UnitInput(units[k].id, Some(0))
  {
    seq(|units|, k requires 0 <= k < |units| => UnitInput(units[k].id, Some(0)))
  }

  /** The list with the entry at the index holding quantity `q`. */
  function SetQuantity(inputs: seq<UnitInput>, index: int, q: Option<int>): (r: seq<UnitInput>)
    ensures |r| == |inputs|
    ensures forall k :: 0 <= k < |inputs| && k != index ==> r[k] == inputs[k]
    ensures 0 <= index < |inputs| ==> r[index] == inputs[index].(quantity := q)
  {
    seq(|inputs|, k requires 0 <= k < |inputs| =>
      if k == index then inputs[k].(quantity := q) else inputs[k])
  }

  /** `handleUnitInputChange`: the entry at the index takes `Number(value)`
      and every other entry is untouched. */
  function UnitInputChange(inputs: seq<UnitInput>, index: int, value: string): (r: seq<UnitInput>)
    ensures |r| == |inputs|
    ensures forall k :: 0 <= k < |inputs| && k != index ==> r[k] == inputs[k]
    ensures 0 <= index < |inputs| ==> r[index] == inputs[index].(quantity := Numbers.ToNumber(value))
  {
    SetQuantity(inputs, index, Numbers.ToNumber(value))
  }

  /** Setting an entry twice leaves the second value, and setting it back
      to what it held restores the list. */
  lemma SetQuantityBack(inputs: seq<UnitInput>, index: int, q: Option<int>, p: Option<int>)
    requires 0 <= index < |inputs| && inputs[index].quantity == p
    ensures SetQuantity(SetQuantity(inputs, index, q), index, p) == inputs
  {
    var r := SetQuantity(SetQuantity(inputs, index, q), index, p);
    assert r[index] == inputs[index];
    forall k | 0 <= k < |inputs| && k != index
      ensures r[k] == inputs[k]
    {
    }
    assert r == inputs;
  }

  /** Editing an input and then typing its previous text back restores the
      list when that text was a number. */
  lemma UnitInputChangeBack(inputs: seq<UnitInput>, index: int, value: string, n: int)
    requires 0 <= index < |inputs| && inputs[index].quantity == Some(n)
    ensures UnitInputChange(UnitInputChange(inputs, index, value), index, Numbers.IntToString(n)) == inputs
  {
    Numbers.ToNumberOfIntToString(n);
    SetQuantityBack(inputs, index, Numbers.ToNumber(value), Some(n));
  }

  /** `handleSubmit`'s quantity: the current quantity plus the added
      amount; None when the added text is not a number (NaN). */
  function SubmittedQuantity(f: Form): Option<int> {
    AddedTo(f.quantity, Numbers.ToNumber(f.newQuantity))
  }

  /** A stock raised by a read amount; NaN stays NaN. */
  function AddedTo(quantity: int, added: Option<int>): (q: Option<int>)
    ensures q.Some? <==> added.Some?
    ensures q.Some? ==> q.value - quantity == added.value
  {
    match added
    case Some(n) => Some(quantity + n)
    case None => None
  }

  /** Loading a product and typing a number adds exactly that number to
      its stock; leaving the input untouched submits the stock unchanged. */
  lemma LoadedAddsTyped(it: Tables.Item, text: string, n: int)
    requires Numbers.ToNumber(text) == Some(n)
    ensures SubmittedQuantity(ChangeNewQuantity(Load(it), text)) == Some(it.quantity + n)
  {
    LoadThenType(it, text);
  }

  /** Typing into a freshly loaded form keeps the loaded stock. */
  lemma LoadThenType(it: Tables.Item, text: string)
    ensures ChangeNewQuantity(Load(it), text).newQuantity == text
    ensures ChangeNewQuantity(Load(it), text).quantity == it.quantity
  {
  }

  lemma UntouchedKeepsStock(it: Tables.Item)
    ensures SubmittedQuantity(Load(it)) == Some(it.quantity)
  {
    ZeroReadsAsZero();
  }

  lemma ZeroReadsAsZero()
    ensures Numbers.ToNumber("0") == Some(0)
  {
    Numbers.ToNumberOfIntToString(0);
    assert Numbers.NatToString(0) == "0";
  }
}

=== FILE: branches.dfy ===
/** The branch handler `src/main/ipc/handlers/branches.js`: creation with
    an exact-name uniqueness check, the paged listing and search (newest
    first), the delete that matches ids with `LIKE`, and the switch that
    stores the chosen branch id (the store is the returned id). */
module Branches {
  import opened Wrappers
  import opened Tables
  import Text
  import Paging
  import Numbers

  /** The `id` column. */
  function Ids(bs: seq<Branch>): seq<int> {
    Column(bs, (x: Branch) => x.id)
  }

  /** `createBranch`: refused without a name or an address, or when a
      branch has exactly that name; otherwise appended under a fresh id. */
  function Create(bs: seq<Branch>, name: string, address: string): (r: Result<seq<Branch>>)
    ensures r.Err? <==> name == "" || address == "" || exists k :: 0 <= k < |bs| && bs[k].name == name
    ensures r.Ok? ==> |r.value| == |bs| + 1 && r.value[..|bs|] == bs
                      && var b := r.value[|bs|]; b.name == name && b.address == address && b.id !in Ids(bs)
  {
    if name == "" || address == "" then Err("برجاء إدخال اسم الفرع والعنوان")
    else if FirstWhere(bs, (b: Branch) => b.name == name).Some? then Err("هذا الفرع موجود بالفعل")
    else Ok(bs + [Branch(FreshId(Ids(bs)), name, address)])
  }

  /** Names stay unique under `createBranch`. */
  predicate UniqueNames(bs: seq<Branch>) {
    forall i, j :: 0 <= i < |bs| && 0 <= j < |bs| && bs[i].name == bs[j].name ==> i == j
  }

  lemma CreateKeepsNamesUnique(bs: seq<Branch>, name: string, address: string)
    requires UniqueNames(bs) && Create(bs, name, address).Ok?
    ensures UniqueNames(Create(bs, name, address).value)
  {
    var r := Create(bs, name, address).value;
    assert forall k :: 0 <= k < |bs| ==> r[k] == bs[k];
  }

  /** One page of a listing with the count of all matching rows. */
  datatype PageResult = PageResult(branches: seq<Branch>, total: nat)

  /** `getAll`: newest first, `LIMIT limit OFFSET (page - 1) * limit`. */
  function GetAll(bs: seq<Branch>, page: int, limit: int): (r: PageResult)
    ensures r.total == |bs|
    ensures limit >= 0 ==> |r.branches| <= limit
    ensures |r.branches| == Paging.Window(|bs|, limit, Paging.Offset(page, limit))
    ensures var start := Paging.Offset(page, limit);
            forall k :: 0 <= k < |r.branches| && start >= 0 ==>
              start + k < |bs| && r.branches[k] == bs[|bs| - 1 - (start + k)]
  {
    PageResult(NewestPage(bs, limit, Paging.Offset(page, limit)), |bs|)
  }

  /** `getAllWithoutPagination`: every branch, newest first. */
  function GetAllWithoutPagination(bs: seq<Branch>): (r: seq<Branch>)
    ensures |r| == |bs| && forall k :: 0 <= k < |bs| ==> r[k] == bs[|bs| - 1 - k]
  {
    NewestFirst(bs)
  }

  /** The WHERE `search` builds: the name condition when a name is given,
      else "1=1". */
  function WhereSql(name: string): (w: string)
    ensures w == "1=1" <==> name == ""
  {
    if name != "" then "(name LIKE ?)" else "1=1"
  }

  predicate Matches(b: Branch, name: string) {
    name != "" ==> Text.IncludesIgnoreCase(b.name, name)
  }

  /** The branches the name condition keeps, in table order. */
  function Hits(bs: seq<Branch>, name: string): (r: seq<Branch>)
    ensures forall k :: 0 <= k < |r| ==> Matches(r[k], name) && r[k] in bs
    ensures forall k :: 0 <= k < |bs| && Matches(bs[k], name) ==> bs[k] in r
  {
    Where(bs, (b: Branch) => Matches(b, name))
  }

  /** `search`: the `LIMIT`/`OFFSET` window of the matching branches,
      newest first, with their count. */
  function Search(bs: seq<Branch>, name: string, page: int, limit: int): (r: PageResult)
    ensures r.total == |Hits(bs, name)|
    ensures limit >= 0 ==> |r.branches| <= limit
    ensures |r.branches| == Paging.Window(r.total, limit, Paging.Offset(page, limit))
    ensures var hits := Hits(bs, name);
            var start := Paging.Start(Paging.Offset(page, limit));
            forall k :: 0 <= k < |r.branches| ==>
              start + k < |hits| && r.branches[k] == hits[|hits| - 1 - (start + k)]
    ensures forall k :: 0 <= k < |r.branches| ==> Matches(r.branches[k], name) && r.branches[k] in bs
  {
    var hits := Hits(bs, name);
    var shown := NewestPage(hits, limit, Paging.Offset(page, limit));
    assert forall k :: 0 <= k < |shown| ==> shown[k] in hits;
    PageResult(shown, |hits|)
  }

  /** A search without a name is the plain listing. */
  lemma EmptySearchIsGetAll(bs: seq<Branch>, page: int, limit: int)
    ensures Search(bs, "", page, limit) == GetAll(bs, page, limit)
  {
    WhereAllRows(bs, (b: Branch) => Matches(b, ""));
  }

  /** `deleteBranch` as written: refused for a falsy id or when no id is
      LIKE it; otherwise every branch whose id contains the id's digits is
      deleted. */
  function Delete(bs: seq<Branch>, id: int): (r: Result<seq<Branch>>)
    ensures r.Err? <==> id == 0 || forall k :: 0 <= k < |bs| ==> !IdLike(bs[k].id, id)
    ensures r.Ok? ==> forall k :: 0 <= k < |r.value| ==> !IdLike(r.value[k].id, id) && r.value[k] in bs
    ensures r.Ok? ==> forall k :: 0 <= k < |bs| && !IdLike(bs[k].id, id) ==> bs[k] in r.value
  {
    if id == 0 then Err("الفرع غير موجود")
    else if FirstWhere(bs, (b: Branch) => IdLike(b.id, id)).None? then Err("الفرع غير موجود")
    else Ok(Where(bs, (b: Branch) => !IdLike(b.id, id)))
  }

  /** Deleting branch 2 also deletes branch 12. */
  lemma DeleteTakesNeighbours()
    ensures Delete([Branch(2, "a", "x"), Branch(12, "b", "y")], 2) == Ok([])
  {
    var a := Branch(2, "a", "x");
    var b := Branch(12, "b", "y");
    assert Numbers.IntToString(2) == "2";
    assert Numbers.IntToString(12) == "12";
    assert Text.IsPrefix("2", "12"[1..]);
    assert Text.Contains("12"[1..], "2");
    assert IdLike(a.id, 2) && IdLike(b.id, 2);
    assert [a, b][1..] == [b];
    assert [b][1..] == [];
  }

  /** The delete by exact id. */
  function DeleteFixed(bs: seq<Branch>, id: int): (r: Result<seq<Branch>>)
    ensures r.Err? <==> id == 0 || forall k :: 0 <= k < |bs| ==> bs[k].id != id
    ensures r.Ok? ==> forall k :: 0 <= k < |r.value| ==> r.value[k].id != id && r.value[k] in bs
    ensures r.Ok? ==> forall k :: 0 <= k < |bs| && bs[k].id != id ==> bs[k] in r.value
  {
    if id == 0 then Err("الفرع غير موجود")
    else if FirstWhere(bs, (b: Branch) => b.id == id).None? then Err("الفرع غير موجود")
    else Ok(Where(bs, (x: Branch) => x.id != id))
  }

  /** The fixed delete keeps the neighbour. */
  lemma DeleteFixedKeepsNeighbours()
    ensures DeleteFixed([Branch(2, "a", "x"), Branch(12, "b", "y")], 2) == Ok([Branch(12, "b", "y")])
  {
    var a := Branch(2, "a", "x");
    var b := Branch(12, "b", "y");
    var keep := (x: Branch) => x.id != 2;
    assert [a, b][1..] == [b];
    assert [b][1..] == [];
    assert Where([b], keep) == [b];
    assert Where([a, b], keep) == [b];
  }

  /** The `id LIKE '%id%'` test on a branch row. */
  function LikeId(id: int): Branch -> bool {
    (b: Branch) => IdLike(b.id, id)
  }

  /** `switchBranch`: refused for a falsy id or when no id is LIKE it;
      otherwise the first such branch is stored and returned. */
  function Switch(bs: seq<Branch>, id: int): (r: Result<Branch>)
    ensures r.Err? <==> id == 0 || forall k :: 0 <= k < |bs| ==> !IdLike(bs[k].id, id)
    ensures r.Ok? ==> r.value in bs && IdLike(r.value.id, id)
  {
    if id == 0 then Err("الفرع غير موجود")
    else
      match FirstWhere(bs, LikeId(id))
      case None => Err("الفرع غير موجود")
      case Some(k) => Ok(bs[k])
  }

  /** With ids in rowid order, switching to an existing branch stores that
      very branch: no smaller id contains its digits. */
  lemma SwitchToExisting(bs: seq<Branch>, k: nat)
    requires Ascending(Ids(bs)) && forall j :: 0 <= j < |bs| ==> bs[j].id >= 1
    requires k < |bs|
    ensures Switch(bs, bs[k].id) == Ok(bs[k])
  {
    var id := bs[k].id;
    IdLikeSelf(id);
    assert LikeId(id)(bs[k]);
    var f := FirstWhere(bs, LikeId(id));
    assert f.Some?;
    if f.value < k {
      EarlierIdNotLike(bs, f.value, k);
    }
    assert f.value == k;
  }

  /** In rowid order an earlier id is smaller, so it cannot contain a later
      one. */
  lemma EarlierIdNotLike(bs: seq<Branch>, j: nat, k: nat)
    requires Ascending(Ids(bs)) && forall i :: 0 <= i < |bs| ==> bs[i].id >= 1
    requires j < k < |bs|
    ensures !IdLike(bs[j].id, bs[k].id)
  {
    assert Ids(bs)[j] < Ids(bs)[k];
    if IdLike(bs[j].id, bs[k].id) {
      IdLikeAtLeast(bs[j].id, bs[k].id);
    }
  }

  /** Switching to an id that no longer exists silently selects another
      branch whose id contains it. */
  lemma SwitchToMissingPicksOther()
    ensures Switch([Branch(12, "b", "y")], 2) == Ok(Branch(12, "b", "y"))
  {
    assert Numbers.IntToString(2) == "2";
    assert Numbers.IntToString(12) == "12";
    assert Text.IsPrefix("2", "12"[1..]);
    assert Text.Contains("12"[1..], "2");
    assert IdLike(12, 2);
  }
}

=== FILE: cashier_report_page.dfy ===
/** The cashier performance page
    `src/renderer/src/pages/Reports/CashierPerformanceReport.tsx`: totals,
    the average, the top-ten chart, the top performer and the role labels. */
module CashierReportPage {
  import opened Wrappers
  import opened Tables
  import Sorting
  import Schema

  /** A cashier row; NULL sums read as 0. */
  datatype CashierRow = CashierRow(name: string, role: string, totalSales: Option<int>, totalTransactions: Option<int>)

  function Sales(c: CashierRow): int {
    c.totalSales.GetOr(0)
  }

  function Transactions(c: CashierRow): int {
    c.totalTransactions.GetOr(0)
  }

  function IsActive(): CashierRow -> bool {
    (c: CashierRow) => Transactions(c) > 0
  }

  /** The cashiers with at least one transaction. */
  function Active(cashiers: seq<CashierRow>): (r: seq<CashierRow>)
    ensures forall k :: 0 <= k < |r| ==> r[k] in cashiers && Transactions(r[k]) > 0
    ensures forall k :: 0 <= k < |cashiers| && Transactions(cashiers[k]) > 0 ==> cashiers[k] in r
  {
    Where(cashiers, IsActive())
  }

  function AnyCashier(): CashierRow -> bool {
    (c: CashierRow) => true
  }

  function SalesOf(): CashierRow -> int {
    (c: CashierRow) => Sales(c)
  }

  function TransactionsOf(): CashierRow -> int {
    (c: CashierRow) => Transactions(c)
  }

  /** The three summary figures over all cashiers; the average is guarded
      against a zero transaction total. */
  datatype Totals = Totals(sales: int, transactions: int, average: real)

  function TotalsOf(cashiers: seq<CashierRow>): (t: Totals)
    ensures t.transactions > 0 ==> t.average * t.transactions as real == t.sales as real
    ensures t.transactions <= 0 ==> t.average == 0.0
  {
    var sales := SumOf(cashiers, AnyCashier(), SalesOf());
    var count := SumOf(cashiers, AnyCashier(), TransactionsOf());
    Totals(sales, count, if count > 0 then sales as real / count as real else 0.0)
  }

  /** The comparison `(b.total_sales || 0) - (a.total_sales || 0)`: `a` may
      come first when its sales are not smaller. */
  function MoreSales(): (CashierRow, CashierRow) -> bool {
    (a: CashierRow, b: CashierRow) => Sales(a) >= Sales(b)
  }

  lemma MoreSalesTotal()
    ensures Sorting.Total(MoreSales())
  {
  }

  /** The active cashiers sorted by sales, best first. `sort` works in
      place, so this is also the order the top performer is looked up in. */
  function Ranked(cashiers: seq<CashierRow>): (r: seq<CashierRow>)
    ensures multiset(r) == multiset(Active(cashiers))
    ensures Sorting.Sorted(r, MoreSales())
  {
    MoreSalesTotal();
    Sorting.Sort(Active(cashiers), MoreSales())
  }

  /** A chart bar. */
  datatype Bar = Bar(name: string, sales: int, transactions: int)

  /** The chart: the first ten ranked cashiers. */
  function Chart(cashiers: seq<CashierRow>): (r: seq<Bar>)
    ensures |r| <= 10 && |r| <= |Ranked(cashiers)|
    ensures forall k :: 0 <= k < |r| ==>
              r[k] == Bar(Ranked(cashiers)[k].name, Sales(Ranked(cashiers)[k]), Transactions(Ranked(cashiers)[k]))
  {
    var ranked := Ranked(cashiers);
    var n := if |ranked| < 10 then |ranked| else 10;
    seq(n, k requires 0 <= k < n => Bar(ranked[k].name, Sales(ranked[k]), Transactions(ranked[k])))
  }

  /** The fold `(top, current) => current sales > top sales ? current : top`. */
  function Best(rows: seq<CashierRow>, top: CashierRow): CashierRow
    decreases |rows|
  {
    if rows == [] then top
    else Best(rows[1..], if Sales(rows[0]) > Sales(top) then rows[0] else top)
  }

  /** The top performer card: the fold over the (already ranked) active
      cashiers from the first one; none without an active cashier. */
  function TopPerformer(cashiers: seq<CashierRow>): Option<CashierRow> {
    var ranked := Ranked(cashiers);
    if ranked == [] then None else Some(Best(ranked, ranked[0]))
  }

  /** In a best-first ranking the first cashier has the most sales. */
  lemma {:induction false} FirstIsBest(ranked: seq<CashierRow>, k: nat)
    requires Sorting.Sorted(ranked, MoreSales()) && k < |ranked|
    ensures Sales(ranked[0]) >= Sales(ranked[k])
  {
    if k > 0 {
      FirstIsBest(ranked, k - 1);
      assert MoreSales()(ranked[k - 1], ranked[k]);
    }
  }

  /** A fold that meets nothing better keeps its start. */
  lemma {:induction false} BestKeepsTop(rows: seq<CashierRow>, top: CashierRow)
    requires forall k :: 0 <= k < |rows| ==> Sales(rows[k]) <= Sales(top)
    ensures Best(rows, top) == top
    decreases |rows|
  {
    if rows != [] {
      BestKeepsTop(rows[1..], top);
    }
  }

  /** The top performer is the first bar of the chart, is active, and no
      active cashier sold more. */
  lemma TopPerformerLeadsChart(cashiers: seq<CashierRow>)
    requires Active(cashiers) != []
    ensures TopPerformer(cashiers).Some?
    ensures var t := TopPerformer(cashiers).value;
            Chart(cashiers) != [] && Chart(cashiers)[0].name == t.name && Chart(cashiers)[0].sales == Sales(t)
            && t in Active(cashiers)
            && forall c :: c in Active(cashiers) ==> Sales(c) <= Sales(t)
  {
    var ranked := Ranked(cashiers);
    assert Active(cashiers)[0] in multiset(Active(cashiers));
    assert |ranked| > 0;
    forall k | 0 <= k < |ranked|
      ensures Sales(ranked[k]) <= Sales(ranked[0])
    {
      FirstIsBest(ranked, k);
    }
    BestKeepsTop(ranked, ranked[0]);
    assert ranked[0] in multiset(ranked);
    forall c | c in Active(cashiers)
      ensures Sales(c) <= Sales(ranked[0])
    {
      assert c in multiset(ranked);
      var k :| 0 <= k < |ranked| && ranked[k] == c;
    }
  }

  /** `getRoleName`: the label of a known role, the text itself otherwise. */
  function RoleName(role: string): string {
    if role == "admin" then "مدير"
    else if role == "manager" then "مشرف"
    else if role == "cashier" then "كاشير"
    else role
  }

  /** `getRoleBadgeColor`. */
  function RoleColour(role: string): string {
    if role == "admin" then "bg-red-100 text-red-800"
    else if role == "manager" then "bg-blue-100 text-blue-800"
    else if role == "cashier" then "bg-green-100 text-green-800"
    else "bg-gray-100 text-gray-800"
  }

  /** Every role the schema allows gets its own label and colour, and any
      other text is shown as it is, in gray. */
  lemma RolesLabelledApart(a: Schema.Role, b: Schema.Role, other: string)
    requires other != "admin" && other != "manager" && other != "cashier"
    ensures a != b ==> RoleName(Schema.RoleText(a)) != RoleName(Schema.RoleText(b))
    ensures a != b ==> RoleColour(Schema.RoleText(a)) != RoleColour(Schema.RoleText(b))
    ensures RoleColour(Schema.RoleText(a)) != "bg-gray-100 text-gray-800"
    ensures RoleName(other) == other && RoleColour(other) == "bg-gray-100 text-gray-800"
  {
  }
}

=== FILE: categories.dfy ===
/** The category handler `src/main/ipc/handlers/categories.js`: creation
    refused when a live name contains the new one, lookups over the live
    rows, and the soft delete that renames the row. SQLite's `LIKE` is
    case-insensitive for Latin letters, as `Text.IncludesIgnoreCase`. */
module Categories {
  import opened Wrappers
  import opened Tables
  import Text
  import Numbers

  predicate Live(c: Category) {
    c.deletedAt.None?
  }

  /** The `id` column. */
  function Ids(cats: seq<Category>): seq<int> {
    Column(cats, (x: Category) => x.id)
  }

  /** `name LIKE '%text%' AND deleted_at IS NULL`. */
  predicate LiveNameLike(c: Category, text: string) {
    Live(c) && Text.IncludesIgnoreCase(c.name, text)
  }

  /** `createCategory`: refused for an empty name and whenever some live
      category's name contains it; otherwise appended under a fresh id. */
  function Create(cats: seq<Category>, name: string): (r: Result<seq<Category>>)
    ensures r.Err? <==> name == "" || exists k :: 0 <= k < |cats| && LiveNameLike(cats[k], name)
    ensures r.Ok? ==> |r.value| == |cats| + 1 && r.value[..|cats|] == cats
                      && var c := r.value[|cats|]; c.name == name && Live(c) && c.id !in Ids(cats)
  {
    if name == "" then Err("برجاء إدخال اسم القسم")
    else if FirstWhere(cats, (c: Category) => LiveNameLike(c, name)).Some? then Err("اسم القسم موجود بالفعل")
    else Ok(cats + [Category(FreshId(Ids(cats)), name, None)])
  }

  /** Creating the same name twice fails the second time. */
  lemma CreateTwiceFails(cats: seq<Category>, name: string)
    requires Create(cats, name).Ok?
    ensures Create(Create(cats, name).value, name).Err?
  {
    var r := Create(cats, name).value;
    Text.ContainsSelf(Text.ToLower(name));
    assert LiveNameLike(r[|cats|], name);
  }

  /** The containment check refuses a new name that is part of an existing
      one: with "زيت زيتون" live, "زيت" cannot be created. */
  lemma ShorterNameRefused()
    ensures Create([Category(1, "زيت زيتون", None)], "زيت").Err?
  {
    var c := Category(1, "زيت زيتون", None);
    assert Text.IsPrefix("زيت", c.name);
    Text.PrefixIgnoringCase(c.name, "زيت");
  }

  /** `getAll`: the live categories. */
  function GetAll(cats: seq<Category>): (r: seq<Category>)
    ensures forall k :: 0 <= k < |r| ==> Live(r[k]) && r[k] in cats
    ensures forall k :: 0 <= k < |cats| && Live(cats[k]) ==> cats[k] in r
  {
    Where(cats, Live)
  }

  /** `findById`: the first live category with the id, else failure. */
  function FindById(cats: seq<Category>, id: int): (r: Result<Category>)
    ensures r.Err? <==> forall k :: 0 <= k < |cats| ==> !(cats[k].id == id && Live(cats[k]))
    ensures r.Ok? ==> r.value in cats && r.value.id == id && Live(r.value)
  {
    match FirstWhere(cats, (c: Category) => c.id == id && Live(c))
    case None => Err("User not found")
    case Some(k) => Ok(cats[k])
  }

  /** `search`: the live categories whose name contains the text. */
  function Search(cats: seq<Category>, text: string): (r: seq<Category>)
    ensures forall k :: 0 <= k < |r| ==> LiveNameLike(r[k], text) && r[k] in cats
    ensures forall k :: 0 <= k < |cats| && LiveNameLike(cats[k], text) ==> cats[k] in r
  {
    Where(cats, (c: Category) => LiveNameLike(c, text))
  }

  /** An empty search lists exactly `getAll`. */
  lemma EmptySearchIsGetAll(cats: seq<Category>)
    ensures Search(cats, "") == GetAll(cats)
  {
    assert Text.ToLower("") == "";
    forall c: Category ensures LiveNameLike(c, "") == Live(c) {
      Text.ContainsEmpty(Text.ToLower(c.name));
    }
    WhereCongruent(cats, (c: Category) => LiveNameLike(c, ""), Live);
  }

  /** `getByName` and `update` look the name up in a `username` column the
      categories table does not have, so SQLite rejects the statement: as
      written they fail for every input (update refuses an empty name
      before that). */
  function GetByName(cats: seq<Category>, text: string): (r: Result<seq<Category>>)
    ensures r.Err?
  {
    Err("no such column: username")
  }

  function Update(cats: seq<Category>, id: int, name: string): (r: Result<seq<Category>>)
    ensures r.Err?
    ensures name == "" ==> r == Err("برجاء إدخال اسم  القسم")
  {
    if name == "" then Err("برجاء إدخال اسم  القسم") else Err("no such column: username")
  }

  /** `update` with the name column and a well-formed UPDATE: refused for an
      empty name and when the first live category whose name contains the
      new one is another category; otherwise the rows with the id take the
      name. */
  function UpdateFixed(cats: seq<Category>, id: int, name: string): (r: Result<seq<Category>>)
    ensures name == "" ==> r.Err?
    ensures r.Ok? ==> |r.value| == |cats| && forall k :: 0 <= k < |cats| ==>
      r.value[k] == if cats[k].id == id then cats[k].(name := name) else cats[k]
    ensures r.Err? && name != "" ==> exists k :: 0 <= k < |cats| && LiveNameLike(cats[k], name) && cats[k].id != id
    ensures r.Err? <==> name == "" || exists k :: 0 <= k < |cats| && LiveNameLike(cats[k], name) && cats[k].id != id
                                                  && forall j :: 0 <= j < k ==> !LiveNameLike(cats[j], name)
    ensures name != "" && (forall k :: 0 <= k < |cats| && LiveNameLike(cats[k], name) ==> cats[k].id == id) ==> r.Ok?
  {
    if name == "" then Err("برجاء إدخال اسم  القسم")
    else
      match FirstHolder(cats, name)
      case Some(k) =>
        FirstHolderIsUnique(cats, name, k);
        if cats[k].id != id then Err("اسم القسم موجود بالفعل") else Ok(Renamed(cats, id, name))
      case None => Ok(Renamed(cats, id, name))
  }

  /** The first row of `SELECT ... WHERE name LIKE '%name%' AND deleted_at
      IS NULL`, the one the duplicate check compares. */
  function FirstHolder(cats: seq<Category>, name: string): (r: Option<nat>)
    ensures r.Some? ==> r.value < |cats| && LiveNameLike(cats[r.value], name)
    ensures r.Some? ==> forall j :: 0 <= j < r.value ==> !LiveNameLike(cats[j], name)
    ensures r.None? <==> forall j :: 0 <= j < |cats| ==> !LiveNameLike(cats[j], name)
  {
    FirstWhere(cats, (c: Category) => LiveNameLike(c, name))
  }

  /** Only one row is a first match. */
  lemma FirstHolderIsUnique(cats: seq<Category>, name: string, k: nat)
    requires FirstHolder(cats, name) == Some(k)
    ensures forall m :: 0 <= m < |cats| && LiveNameLike(cats[m], name) && (forall j :: 0 <= j < m ==> !LiveNameLike(cats[j], name))
                        ==> m == k
  {
    forall m | 0 <= m < |cats| && LiveNameLike(cats[m], name) && (forall j :: 0 <= j < m ==> !LiveNameLike(cats[j], name))
      ensures m == k
    {
      if m < k {
        assert false;
      } else if k < m {
        assert false;
      }
    }
  }

  /** The UPDATE's effect: the rows with the id take the name. */
  function Renamed(cats: seq<Category>, id: int, name: string): (r: seq<Category>)
    ensures |r| == |cats|
    ensures forall k :: 0 <= k < |cats| ==> r[k] == if cats[k].id == id then cats[k].(name := name) else cats[k]
  {
    seq(|cats|, j requires 0 <= j < |cats| => if cats[j].id == id then cats[j].(name := name) else cats[j])
  }

  /** Renaming a live category to a name no other live category contains
      succeeds with the fixed update, where the written one fails. */
  lemma RenameWorksOnlyWhenFixed(cats: seq<Category>, k: nat, name: string)
    requires k < |cats| && name != ""
    requires forall j :: 0 <= j < |cats| && LiveNameLike(cats[j], name) ==> cats[j].id == cats[k].id
    ensures Update(cats, cats[k].id, name).Err?
    ensures UpdateFixed(cats, cats[k].id, name).Ok?
    ensures UpdateFixed(cats, cats[k].id, name).value[k].name == name
  {
  }

  /** The name a deleted category is given. */
  function DeletedName(name: string, id: int): string {
    "deleted_" + name + "_" + Numbers.IntToString(id)
  }

  /** `deleteCategory`: refused for a falsy id and when no live id is LIKE
      it; otherwise the rows whose id IS the id are renamed after the FIRST
      live LIKE match and stamped deleted. */
  function Delete(cats: seq<Category>, id: int, now: string): (r: Result<seq<Category>>)
    ensures r.Err? <==> id == 0 || forall k :: 0 <= k < |cats| ==> !(Live(cats[k]) && IdLike(cats[k].id, id))
    ensures r.Ok? ==> |r.value| == |cats|
    ensures r.Ok? ==> forall k :: 0 <= k < |cats| && cats[k].id != id ==> r.value[k] == cats[k]
    ensures r.Ok? ==> forall k :: 0 <= k < |cats| && cats[k].id == id ==> r.value[k].deletedAt == Some(now)
  {
    if id == 0 then Err("قسم غير موجود")
    else
      match FirstWhere(cats, (c: Category) => Live(c) && IdLike(c.id, id))
      case None => Err("قسم غير موجود")
      case Some(m) =>
        Ok(seq(|cats|, j requires 0 <= j < |cats| =>
          if cats[j].id == id then Category(cats[j].id, DeletedName(cats[m].name, id), Some(now)) else cats[j]))
  }

  /** With ids in rowid order, deleting a live category renames that very
      category after itself, and it drops out of the live listing. */
  lemma DeleteLiveCategory(cats: seq<Category>, k: nat, now: string)
    requires Ascending(Ids(cats)) && forall j :: 0 <= j < |cats| ==> cats[j].id >= 1
    requires k < |cats| && Live(cats[k])
    ensures Delete(cats, cats[k].id, now).Ok?
    ensures Delete(cats, cats[k].id, now).value[k]
            == Category(cats[k].id, DeletedName(cats[k].name, cats[k].id), Some(now))
    ensures forall j :: 0 <= j < |cats| && j != k ==> Delete(cats, cats[k].id, now).value[j] == cats[j]
    ensures cats[k] !in GetAll(Delete(cats, cats[k].id, now).value)
  {
    var id := cats[k].id;
    IdLikeSelf(id);
    assert Live(cats[k]) && IdLike(cats[k].id, id);
    var m := FirstWhere(cats, (c: Category) => Live(c) && IdLike(c.id, id)).value;
    if m < k {
      IdLikeAtLeast(cats[m].id, id);
    }
    assert m == k;
    var r := Delete(cats, id, now).value;
    forall j | 0 <= j < |cats| && j != k ensures r[j] == cats[j] {
      if j < k {
        assert Ids(cats)[j] < Ids(cats)[k];
      } else {
        assert Ids(cats)[k] < Ids(cats)[j];
      }
    }
  }
}

=== FILE: categories_table.dfy ===
/** The categories table `src/renderer/src/pages/Categories/components/data-table.component.tsx`:
    which controls a user sees. */
module CategoriesTable {
  import opened Wrappers
  import Access

  predicate IsAdmin(user: Access.SessionUser) {
    user.role == "admin"
  }

  predicate Has(user: Access.SessionUser, permission: string) {
    Access.Lists(Some(user), permission)
  }

  /** The "create" button. */
  function CanCreate(user: Access.SessionUser): (b: bool)
    ensures !IsAdmin(user) ==> (b <==> Has(user, "category.create"))
  {
    IsAdmin(user) || Has(user, "category.create")
  }

  /** The "actions" column header: admins, or users who may both delete
      and edit. */
  function ActionsHeader(user: Access.SessionUser): bool {
    IsAdmin(user) || (Has(user, "category.delete") && Has(user, "category.edit"))
  }

  /** The delete button of each row, as written: gated on the edit
      permission. */
  function DeleteButton(user: Access.SessionUser): bool {
    IsAdmin(user) || Has(user, "category.edit")
  }

  /** A user allowed only to edit sees a delete button under no header, and
      a user allowed only to delete sees none. */
  lemma DeleteGatedByEdit()
    ensures var editor := Access.SessionUser(2, "editor", "manager", Some(["category.edit"]));
            DeleteButton(editor) && !ActionsHeader(editor) && !Has(editor, "category.delete")
    ensures var deleter := Access.SessionUser(3, "deleter", "manager", Some(["category.delete"]));
            !DeleteButton(deleter) && Has(deleter, "category.delete")
  {
    var editor := Access.SessionUser(2, "editor", "manager", Some(["category.edit"]));
    assert "category.delete" != "category.edit";
    assert !Has(editor, "category.delete");
  }

  /** The delete button gated on the delete permission. */
  function DeleteButtonFixed(user: Access.SessionUser): bool {
    IsAdmin(user) || Has(user, "category.delete")
  }

  /** Gated on its own permission, the button shows exactly for those who
      may delete, and whoever sees the header sees the button. */
  lemma FixedDeleteNeedsDeletePermission(user: Access.SessionUser)
    ensures !IsAdmin(user) ==> (DeleteButtonFixed(user) <==> Has(user, "category.delete"))
    ensures ActionsHeader(user) ==> DeleteButtonFixed(user)
  {
  }
}

=== FILE: confirm_modal.dfy ===
/** The confirmation dialog slice `src/renderer/src/store/slices/confirmModalSlice.ts`:
    open with its payload, or closed and cleared. */
module ConfirmModal {
  import opened Wrappers

  /** The slice state; the confirmation callback is opaque here, so it is
      a type parameter, and `null`/`undefined` is None. */
  datatype State<C> = State(open: bool, itemLabel: string, onConfirm: Option<C>)

  function Initial<C>(): State<C> {
    State(false, "", None)
  }

  /** The payload `{ itemLabel, onConfirm }`; a missing label is None. */
  datatype Payload<C> = Payload(itemLabel: Option<string>, onConfirm: Option<C>)

  datatype Action<C> = Show(payload: Payload<C>) | Hide

  /** `showConfirmModal` and `hideConfirmModal`. The state before an action
      does not matter: each overwrites all three fields. */
  function Reduce<C>(s: State<C>, a: Action<C>): (r: State<C>)
    ensures a.Show? ==> r.open && r.onConfirm == a.payload.onConfirm
                        && r.itemLabel == a.payload.itemLabel.GetOr("")
    ensures a.Hide? ==> r == Initial()
  {
    match a
    case Show(p) => State(true, if p.itemLabel.Some? && p.itemLabel.value != "" then p.itemLabel.value else "", p.onConfirm)
    case Hide => State(false, "", None)
  }

  /** A closed dialog holds no label and no callback. */
  predicate Cleared<C>(s: State<C>) {
    !s.open ==> s.itemLabel == "" && s.onConfirm.None?
  }

  /** The state after a sequence of actions from the initial one. */
  function Replay<C>(actions: seq<Action<C>>): State<C>
    decreases |actions|
  {
    if actions == [] then Initial() else Reduce(Replay(actions[..|actions| - 1]), actions[|actions| - 1])
  }

  /** Whatever has been dispatched, a closed dialog is cleared, and the
      dialog is open exactly when the last action was a show. */
  lemma ReplayKeepsCleared<C>(actions: seq<Action<C>>)
    ensures Cleared(Replay(actions))
    ensures Replay(actions).open <==> actions != [] && actions[|actions| - 1].Show?
  {
  }

  /** Hiding after showing restores the initial state, whatever was shown. */
  lemma HideUndoesShow<C>(s: State<C>, p: Payload<C>)
    ensures Reduce(Reduce(s, Show(p)), Hide) == Initial()
  {
  }

  /** Showing is idempotent: showing the same payload twice is showing it
      once. */
  lemma ShowIdempotent<C>(s: State<C>, p: Payload<C>)
    ensures Reduce(Reduce(s, Show(p)), Show(p)) == Reduce(s, Show(p))
  {
  }
}

=== FILE: credit_daily_table.dfy ===
/** The daily expense table `src/renderer/src/pages/Credit/components/data-table.daily.component.tsx`:
    the guarded search and the "create expense" dialog. */
module CreditDailyTable {
  import opened Wrappers
  import Credits
  import Tables

  /** The dialog's fields: reason and receiver start as `null`, the amount
      as 0 and becomes `Number(text)` (None for NaN). */
  datatype Dialog = Dialog(open: bool, reason: Option<string>, price: Option<int>, receiver: Option<string>)

  const Initial: Dialog := Dialog(false, None, Some(0), None)

  /** `createCredit({ price, reason, reciever })`: the receiver travels
      under a key the handler does not read. */
  function Payload(d: Dialog): (input: Credits.CreditInput)
    ensures input.receiver.None?
    ensures input.reason == d.reason && input.price == d.price
  {
    Credits.CreditInput(None, d.reason, d.price)
  }

  /** `onConfirm`: the save starts and the dialog closes at once; a save
      that succeeds puts the fields back to their initial values, one that
      fails keeps what was typed. */
  function Confirm(d: Dialog, saved: bool): (r: Dialog)
    ensures !r.open
    ensures saved ==> r == Initial
    ensures !saved ==> r.reason == d.reason && r.price == d.price && r.receiver == d.receiver
  {
    if saved then Initial else d.(open := false)
  }

  /** Confirming an untouched dialog is refused by the handler for the
      missing reason and amount, and the dialog comes back as it started. */
  lemma UntouchedDialogRefused(credits: seq<Tables.Credit>, dailies: seq<Tables.Daily>, branch: Option<int>)
    ensures Credits.CreateFixed(credits, dailies, Payload(Initial.(open := true)), branch) == Err(Credits.MissingInput)
    ensures Confirm(Initial.(open := true), false) == Initial
  {
  }

  /** Whatever receiver was typed, a saved expense stores an empty one. */
  lemma SavedExpenseHasNoReceiver(credits: seq<Tables.Credit>, dailies: seq<Tables.Daily>, d: Dialog, branch: Option<int>)
    requires Credits.CreateFixed(credits, dailies, Payload(d), branch).Ok?
    ensures Credits.CreateFixed(credits, dailies, Payload(d), branch).value[|credits|].receiver == ""
  {
  }
}

=== FILE: credit_page.dfy ===
/** The expense form `src/renderer/src/pages/Credit/CreateCreditPage.tsx`:
    a reason, an amount and a receiver, per-field errors, validation, and
    the object handed to `createCredit` (module Credits). */
module CreditPage {
  import opened Wrappers
  import Text
  import Numbers
  import Tables
  import Daily
  import Credits

  datatype Field = ReasonField | PriceField | ReceiverField

  /** The amount is a JavaScript number; None is NaN. */
  datatype Form = Form(reason: string, price: Option<int>, receiver: string)

  const InitialForm: Form := Form("", Some(0), "")

  type Errors = map<Field, string>

  /** `handleInputChange`: the field's own error, when set, is removed; the
      field takes the value, the amount through `Number`. */
  function HandleInputChange(f: Form, errors: Errors, field: Field, value: string): (r: (Form, Errors))
    ensures field == ReasonField ==> r.0 == f.(reason := value)
    ensures field == PriceField ==> r.0 == f.(price := Numbers.ToNumber(value))
    ensures field == ReceiverField ==> r.0 == f.(receiver := value)
    ensures field in errors && errors[field] != "" ==> r.1 == errors - {field}
    ensures !(field in errors && errors[field] != "") ==> r.1 == errors
  {
    var form := match field
      case ReasonField => f.(reason := value)
      case PriceField => f.(price := Numbers.ToNumber(value))
      case ReceiverField => f.(receiver := value);
    (form, if field in errors && errors[field] != "" then errors - {field} else errors)
  }

  /** `price <= 0`: false for NaN, which JavaScript never orders. */
  predicate NotPositive(price: Option<int>) {
    price.Some? && price.value <= 0
  }

  /** Whether `validateForm` sets an error for the field. */
  predicate Fails(f: Form, field: Field) {
    match field
    case ReasonField => Text.Trim(f.reason) == []
    case ReceiverField => Text.Trim(f.receiver) == []
    case PriceField => NotPositive(f.price)
  }

  lemma FailsIff(f: Form)
    ensures Fails(f, ReasonField) <==> Text.IsBlank(f.reason)
    ensures Fails(f, ReceiverField) <==> Text.IsBlank(f.receiver)
    ensures Fails(f, PriceField) <==> NotPositive(f.price)
  {
    Text.TrimEmptyIffBlank(f.reason);
    Text.TrimEmptyIffBlank(f.receiver);
  }

  function Message(field: Field): string {
    match field
    case ReasonField => "يرجى إدخال سبب المصروف"
    case ReceiverField => "يرجى إدخال اسم المستلم"
    case PriceField => "يرجى إدخال سعر صحيح أكبر من صفر"
  }

  /** `validateForm`. */
  function Validate(f: Form): (errors: Errors)
    ensures ReasonField in errors <==> Text.IsBlank(f.reason)
    ensures ReceiverField in errors <==> Text.IsBlank(f.receiver)
    ensures PriceField in errors <==> NotPositive(f.price)
  {
    FailsIff(f);
    map field: Field | Fails(f, field) :: Message(field)
  }

  predicate Valid(f: Form) {
    |Validate(f)| == 0
  }

  lemma ValidIff(f: Form)
    ensures Valid(f) <==> !Text.IsBlank(f.reason) && !Text.IsBlank(f.receiver) && !NotPositive(f.price)
  {
    var e := Validate(f);
    if ReasonField in e || ReceiverField in e || PriceField in e {
      assert |e| > 0;
    }
    if e != map[] {
      var k :| k in e;
    }
  }

  /** The object the page sends is `{ price, reason, reciever }`; the
      handler reads the key `receiver`, so the receiver arrives missing. */
  function Payload(f: Form): (input: Credits.CreditInput)
    ensures input.receiver.None?
    ensures input.reason == Some(f.reason) && input.price == f.price
  {
    Credits.CreditInput(None, Some(f.reason), f.price)
  }

  /** The payload under the key the handler reads. */
  function PayloadFixed(f: Form): (input: Credits.CreditInput)
    ensures input.receiver == Some(f.receiver)
    ensures input.reason == Some(f.reason) && input.price == f.price
  {
    Credits.CreditInput(Some(f.receiver), Some(f.reason), f.price)
  }

  /** A valid form with an amount, on a branch with an open day, is
      recorded (handler with the branch supplied); as written the typed
      receiver is dropped and "" stored, with the fixed key it is kept. */
  lemma ReceiverStoredOnlyWhenFixed(credits: seq<Tables.Credit>, dailies: seq<Tables.Daily>, f: Form,
                                    branch: Option<int>, k: nat)
    requires Valid(f) && f.price.Some?
    requires Daily.BranchSelected(branch) && k < |dailies| && Credits.OpenLiveFor(dailies[k], branch)
    ensures Credits.CreateFixed(credits, dailies, Payload(f), branch).Ok?
    ensures Credits.CreateFixed(credits, dailies, Payload(f), branch).value[|credits|].receiver == ""
    ensures Credits.CreateFixed(credits, dailies, PayloadFixed(f), branch).Ok?
    ensures Credits.CreateFixed(credits, dailies, PayloadFixed(f), branch).value[|credits|].receiver == f.receiver
  {
    ValidIff(f);
    assert f.reason != "" && f.receiver != "";
  }

  /** An amount that is not a number passes the page's check but not the
      handler's. */
  lemma NaNAmountPassesPageOnly(credits: seq<Tables.Credit>, dailies: seq<Tables.Daily>, f: Form, branch: Option<int>)
    requires f.price.None? && !Text.IsBlank(f.reason) && !Text.IsBlank(f.receiver)
    ensures Valid(f)
    ensures Credits.CreateFixed(credits, dailies, PayloadFixed(f), branch) == Err(Credits.MissingInput)
  {
    ValidIff(f);
  }

  /** After a save: the daily expense list on success, the form otherwise. */
  function NextRoute(saved: Result<seq<Tables.Credit>>): (route: Option<string>)
    ensures route.Some? <==> saved.Ok?
    ensures route.Some? ==> route.value == "/credit/daily"
  {
    if saved.Ok? then Some("/credit/daily") else None
  }
}

=== FILE: credit_table.dfy ===
/** The expense table `src/renderer/src/pages/Credit/components/data-table.component.tsx`:
    the search and the paging both run in the browser, over the rows it was
    given. */
module CreditTable {
  import opened DataTable
  import Paging

  /** The page on show and the number of matches the footer counts. */
  datatype View = View(rows: seq<Row>, total: nat)

  /** `filteredAndPaginatedData`: the search (with no empty-search guard),
      then page `page` of the matches; the total becomes the number of
      matches. The buttons keep the page at 1 or above. */
  function Visible(rows: seq<Row>, columns: seq<Column>, search: string, page: nat): (v: View)
    requires page >= 1
    ensures v.total == |Search(rows, columns, search)|
    ensures |v.rows| <= Paging.PageSize
    ensures forall k :: 0 <= k < |v.rows| ==>
              Paging.Offset(page, Paging.PageSize) + k < v.total
              && v.rows[k] == Search(rows, columns, search)[Paging.Offset(page, Paging.PageSize) + k]
  {
    var matches := Search(rows, columns, search);
    View(Paging.Page(matches, page, Paging.PageSize), |matches|)
  }

  /** Walking from page 1 to the last page shows every match exactly once,
      in order. */
  lemma PagesShowEveryMatchOnce(rows: seq<Row>, columns: seq<Column>, search: string)
    ensures var matches := Search(rows, columns, search);
            Paging.Pages(matches, Paging.PageSize, Paging.TotalPages(|matches|, Paging.PageSize)) == matches
  {
    Paging.PagesCoverAll(Search(rows, columns, search), Paging.PageSize);
  }

  /** "showing `Math.min(page * 10, total)` of total": on an existing page,
      the matches up to and including that page. */
  function ShownUpTo(page: nat, total: nat): (n: int)
    ensures n <= total
    ensures 1 <= page <= Paging.TotalPages(total, Paging.PageSize) ==> n > Paging.Offset(page, Paging.PageSize)
  {
    if page * Paging.PageSize < total then page * Paging.PageSize else total
  }

  /** Typing in the search box sets the text and goes back to page 1, so
      the table shows the first matches. */
  lemma TypingShowsFirstMatches(rows: seq<Row>, columns: seq<Column>, text: string)
    ensures var matches := Search(rows, columns, text);
            Visible(rows, columns, text, 1).rows
              == matches[..if |matches| < Paging.PageSize then |matches| else Paging.PageSize]
  {
    var matches := Search(rows, columns, text);
    var shown := Visible(rows, columns, text, 1).rows;
    var n := if |matches| < Paging.PageSize then |matches| else Paging.PageSize;
    assert |shown| == n;
  }
}

=== FILE: credits.dfy ===
/** The expense handler `src/main/ipc/handlers/credit.js` (an expense is
    a "credit" row): recording, the paged list, the soft delete. */
module Credits {
  // The handler reads the selected branch with `new Store()`, but the file
  // never imports `electron-store`, so that expression throws a
  // `ReferenceError` wherever it runs. The members named `...WithBranch` and
  // `...Fixed` take the branch as a parameter, which is what an import would
  // give. Recording charges the branch's open day; the list has a name search.

  import opened Wrappers
  import opened Tables
  import Text
  import Numbers
  import Paging
  import Daily

  const MissingInput := "برجاء إدخال سبب القرض والمبلغ"
  const NoBranch := "برجاء إختيار فرع"
  const NoOpenDay := "برجاء فتح يومية جديدة"
  const StoreUndefined := "Store is not defined"

  /** The handler's argument `{ receiver, reason, price }`: an absent key is
      None, and so is a price that is NaN. */
  datatype CreditInput = CreditInput(receiver: Option<string>, reason: Option<string>, price: Option<int>)

  /** JavaScript truthiness of a string and of a number. */
  predicate Given(s: Option<string>) {
    s.Some? && s.value != ""
  }

  predicate NonZero(p: Option<int>) {
    p.Some? && p.value != 0
  }

  predicate Live(c: Credit) {
    c.deletedAt.None?
  }

  /** The `id` column. */
  function Ids(credits: seq<Credit>): seq<int> {
    Column(credits, (x: Credit) => x.id)
  }

  /** `closed_at IS NULL AND branchId = ? AND deleted_at IS NULL`. */
  predicate OpenLiveFor(d: Tables.Daily, branch: Option<int>) {
    Daily.OpenFor(d, branch) && d.deletedAt.None?
  }

  /** `createCredit` as written: the input check comes first; any input
      that passes it reaches `new Store()` and fails. */
  function Create(credits: seq<Credit>, dailies: seq<Tables.Daily>, input: CreditInput): (r: Result<seq<Credit>>)
    ensures r.Err?
    ensures r == Err(MissingInput) <==> !Given(input.reason) || !NonZero(input.price)
  {
    if !Given(input.reason) || !NonZero(input.price) then Err(MissingInput)
    else Err(StoreUndefined)
  }

  /** The receiver stored for a missing, null or empty one. */
  function StoredReceiver(receiver: Option<string>): (s: string)
    ensures Given(receiver) ==> s == receiver.value
    ensures !Given(receiver) ==> s == ""
  {
    if Given(receiver) then receiver.value else ""
  }

  /** `createCredit` with the branch supplied: refused without a reason or
      price, without a branch, and when the branch has no open day;
      otherwise one expense is appended against the first open day. */
  function CreateFixed(credits: seq<Credit>, dailies: seq<Tables.Daily>, input: CreditInput, branch: Option<int>)
    : (r: Result<seq<Credit>>)
    ensures r == Err(MissingInput) <==> !Given(input.reason) || !NonZero(input.price)
    ensures r == Err(NoBranch) <==> Given(input.reason) && NonZero(input.price) && !Daily.BranchSelected(branch)
    ensures r == Err(NoOpenDay) <==>
      Given(input.reason) && NonZero(input.price) && Daily.BranchSelected(branch)
      && forall k :: 0 <= k < |dailies| ==> !OpenLiveFor(dailies[k], branch)
    ensures r.Ok? ==>
      |r.value| == |credits| + 1 && r.value[..|credits|] == credits
      && var c := r.value[|credits|];
         c.id !in Ids(credits) && c.reason == input.reason.value && c.price == input.price.value
         && c.receiver == StoredReceiver(input.receiver) && c.branchId == branch.value && Live(c)
         && exists k :: 0 <= k < |dailies| && OpenLiveFor(dailies[k], branch) && c.dailyId == dailies[k].id
  {
    if !Given(input.reason) || !NonZero(input.price) then Err(MissingInput)
    else if !Daily.BranchSelected(branch) then Err(NoBranch)
    else
      match FirstWhere(dailies, (d: Tables.Daily) => OpenLiveFor(d, branch))
      case None => Err(NoOpenDay)
      case Some(k) =>
        Ok(credits + [Credit(FreshId(Ids(credits)), input.reason.value, input.price.value,
                             StoredReceiver(input.receiver), dailies[k].id, branch.value, None)])
  }

  /** While the branch has one open day, a recorded expense lands on that
      day and raises its expenses (module Daily) by its price. */
  lemma CreditRaisesOpenDayExpenses(credits: seq<Credit>, dailies: seq<Tables.Daily>, input: CreditInput,
                                    branch: Option<int>, k: nat)
    requires Daily.AtMostOneOpenPerBranch(dailies)
    requires k < |dailies| && OpenLiveFor(dailies[k], branch)
    requires Given(input.reason) && NonZero(input.price) && Daily.BranchSelected(branch)
    ensures CreateFixed(credits, dailies, input, branch).Ok?
    ensures var after := CreateFixed(credits, dailies, input, branch).value;
            after[|credits|].dailyId == dailies[k].id
            && Daily.Expenses(after, {dailies[k].id}) == Daily.Expenses(credits, {dailies[k].id}) + input.price.value
  {
    var after := CreateFixed(credits, dailies, input, branch).value;
    var m :| 0 <= m < |dailies| && OpenLiveFor(dailies[m], branch) && after[|credits|].dailyId == dailies[m].id;
    assert after == credits + [after[|credits|]];
    Daily.ExpensesAppend(credits, after[|credits|], {dailies[k].id});
  }

  /** `getAllCredit`'s arguments: None for a name that is not a string and
      for a page or limit that is not an integer. */
  datatype ListArgs = ListArgs(name: Option<string>, page: Option<int>, limit: Option<int>)

  /** The trimmed name when it is not blank. */
  function SearchName(args: ListArgs): (n: Option<string>)
    ensures n.Some? <==> args.name.Some? && Text.Trim(args.name.value) != ""
    ensures n.Some? ==> n.value == Text.Trim(args.name.value)
  {
    if args.name.Some? && Text.Trim(args.name.value) != "" then Some(Text.Trim(args.name.value)) else None
  }

  /** A positive integer, else the default. */
  function PositiveOr(v: Option<int>, default: int): (n: int)
    ensures v.Some? && v.value > 0 ==> n == v.value
    ensures !(v.Some? && v.value > 0) ==> n == default
  {
    if v.Some? && v.value > 0 then v.value else default
  }

  function Page(args: ListArgs): int {
    PositiveOr(args.page, 1)
  }

  function Limit(args: ListArgs): int {
    PositiveOr(args.limit, 10)
  }

  /** The normalised arguments are always a valid page request. */
  lemma NormalisedArgsArePositive(args: ListArgs)
    ensures Page(args) >= 1 && Limit(args) >= 1 && Paging.Offset(Page(args), Limit(args)) >= 0
  {
  }

  /** A bound parameter of the query. */
  datatype Param = Number(n: int) | Pattern(text: string)

  /** A statement as literal text and `?` placeholders. */
  datatype Sql = Lit(text: string) | Hole

  /** The number of placeholders. */
  function Holes(s: seq<Sql>): nat {
    if s == [] then 0 else (if s[0].Hole? then 1 else 0) + Holes(s[1..])
  }

  lemma {:induction false} HolesAppend(a: seq<Sql>, b: seq<Sql>)
    ensures Holes(a + b) == Holes(a) + Holes(b)
    decreases |a|
  {
    if a != [] {
      assert (a + b)[1..] == a[1..] + b;
      HolesAppend(a[1..], b);
    } else {
      assert a + b == b;
    }
  }

  const BranchWhere: seq<Sql> := [Lit("WHERE branchId = "), Hole]
  const NameWhere: seq<Sql> := [Lit("WHERE reason LIKE "), Hole, Lit(" OR CAST(price AS CHAR) LIKE "), Hole]
  const LiveWhere: seq<Sql> := [Lit("WHERE deleted_at IS NULL")]
  const AndLive: seq<Sql> := [Lit(" AND deleted_at IS NULL")]

  /** The WHERE string as written: the name clause REPLACES the branch
      clause, then the live condition is appended. */
  function WhereString(branch: Option<int>, name: Option<string>): seq<Sql> {
    var base := if name.Some? then NameWhere else if Daily.BranchSelected(branch) then BranchWhere else [];
    if base == [] then LiveWhere else base + AndLive
  }

  /** The parameters as written: the branch id stays even when its clause
      was replaced. */
  function WhereParams(branch: Option<int>, name: Option<string>): seq<Param> {
    (if Daily.BranchSelected(branch) then [Number(branch.value)] else [])
    + (if name.Some? then [Pattern("%" + name.value + "%"), Pattern("%" + name.value + "%")] else [])
  }

  /** The count query's parameters match its placeholders unless a branch
      is selected AND a name is searched, when there is one too many. */
  lemma ParamsMatchPlaceholdersIff(branch: Option<int>, name: Option<string>)
    ensures Holes(WhereString(branch, name)) == |WhereParams(branch, name)|
            <==> !(Daily.BranchSelected(branch) && name.Some?)
    ensures Daily.BranchSelected(branch) && name.Some? ==>
            |WhereParams(branch, name)| == Holes(WhereString(branch, name)) + 1
  {
    assert Holes(AndLive) == 0;
    assert Holes(LiveWhere) == 0;
    assert Holes(BranchWhere) == 1;
    assert Holes(NameWhere) == 2;
    HolesAppend(BranchWhere, AndLive);
    HolesAppend(NameWhere, AndLive);
  }

  /** `reason LIKE '%name%'` and `CAST(price AS CHAR) LIKE '%name%'`. */
  predicate NameLike(c: Credit, name: string) {
    Text.IncludesIgnoreCase(c.reason, name) || Text.IncludesIgnoreCase(Numbers.IntToString(c.price), name)
  }

  /** The rows the statement as written selects when it runs. `AND` binds
      tighter than `OR`, so with a name the live condition only guards the
      price match. */
  predicate SelectedAsWritten(c: Credit, branch: Option<int>, name: Option<string>) {
    if name.Some? then Text.IncludesIgnoreCase(c.reason, name.value)
                       || (Text.IncludesIgnoreCase(Numbers.IntToString(c.price), name.value) && Live(c))
    else (Daily.BranchSelected(branch) ==> c.branchId == branch.value) && Live(c)
  }

  /** `{ data, total, error }`. */
  datatype ListResult = ListResult(data: seq<Credit>, total: nat, error: Option<string>)

  /** `getAllCredit` as written: the `new Store()` inside its `try` throws,
      and the catch answers with an empty list. */
  function GetAll(credits: seq<Credit>, args: ListArgs): (r: ListResult)
    ensures r.data == [] && r.total == 0 && r.error.Some?
  {
    ListResult([], 0, Some(StoreUndefined))
  }

  /** `getAllCredit` with the branch supplied: the driver refuses a
      statement given more parameters than placeholders, which happens
      exactly for a branch and a name together (ParamsMatchPlaceholdersIff),
      and the catch answers with an empty list; otherwise the selected rows, newest
      first, one page of them. */
  function GetAllWithBranch(credits: seq<Credit>, branch: Option<int>, args: ListArgs): (r: ListResult)
    ensures r.error.Some? <==> Daily.BranchSelected(branch) && SearchName(args).Some?
    ensures r.error.Some? ==> r.data == [] && r.total == 0
    ensures r.error.None? ==>
      r.total == CountWhere(credits, (c: Credit) => SelectedAsWritten(c, branch, SearchName(args)))
      && |r.data| <= Limit(args)
      && forall k :: 0 <= k < |r.data| ==> SelectedAsWritten(r.data[k], branch, SearchName(args)) && r.data[k] in credits
    ensures r.error.None? ==>
      var hits := SelectedRowsAsWritten(credits, branch, args);
      var start := Paging.Start(Paging.Offset(Page(args), Limit(args)));
      |r.data| == Paging.Window(r.total, Limit(args), Paging.Offset(Page(args), Limit(args)))
      && forall k :: 0 <= k < |r.data| ==> start + k < |hits| && r.data[k] == hits[|hits| - 1 - (start + k)]
  {
    var name := SearchName(args);
    if Daily.BranchSelected(branch) && name.Some? then
      ListResult([], 0, Some("SQLITE_RANGE: column index out of range"))
    else
      var hits := SelectedRowsAsWritten(credits, branch, args);
      ListResult(NewestPage(hits, Limit(args), Paging.Offset(Page(args), Limit(args))), |hits|, None)
  }

  /** The rows the statement as written selects, in table order. */
  function SelectedRowsAsWritten(credits: seq<Credit>, branch: Option<int>, args: ListArgs): (r: seq<Credit>)
    ensures |r| == CountWhere(credits, (c: Credit) => SelectedAsWritten(c, branch, SearchName(args)))
    ensures forall k :: 0 <= k < |r| ==> SelectedAsWritten(r[k], branch, SearchName(args)) && r[k] in credits
  {
    Where(credits, (c: Credit) => SelectedAsWritten(c, branch, SearchName(args)))
  }

  /** With no branch selected, a name search counts a deleted expense
      whose reason matches; the fixed listing never does. */
  lemma NameSearchCountsDeleted(credits: seq<Credit>, args: ListArgs, k: nat)
    requires SearchName(args).Some? && k < |credits| && !Live(credits[k])
    requires Text.IncludesIgnoreCase(credits[k].reason, SearchName(args).value)
    ensures GetAllWithBranch(credits, None, args).total >= 1
    ensures !SelectedFixed(credits[k], None, SearchName(args))
  {
    var p := (c: Credit) => SelectedAsWritten(c, None, SearchName(args));
    assert p(credits[k]);
    assert credits[k] in Where(credits, p);
  }

  /** The intended query: the name clause ANDed with the branch clause,
      the live condition over the whole condition. */
  predicate SelectedFixed(c: Credit, branch: Option<int>, name: Option<string>) {
    (Daily.BranchSelected(branch) ==> c.branchId == branch.value)
    && (name.Some? ==> NameLike(c, name.value))
    && Live(c)
  }

  function GetAllFixed(credits: seq<Credit>, branch: Option<int>, args: ListArgs): (r: ListResult)
    ensures r.error.None?
    ensures r.total == CountWhere(credits, (c: Credit) => SelectedFixed(c, branch, SearchName(args)))
    ensures |r.data| <= Limit(args)
    ensures forall k :: 0 <= k < |r.data| ==> SelectedFixed(r.data[k], branch, SearchName(args)) && r.data[k] in credits
    ensures |r.data| == Paging.Window(r.total, Limit(args), Paging.Offset(Page(args), Limit(args)))
    ensures var hits := SelectedRowsFixed(credits, branch, args);
            var start := Paging.Start(Paging.Offset(Page(args), Limit(args)));
            forall k :: 0 <= k < |r.data| ==> start + k < |hits| && r.data[k] == hits[|hits| - 1 - (start + k)]
  {
    var hits := SelectedRowsFixed(credits, branch, args);
    ListResult(NewestPage(hits, Limit(args), Paging.Offset(Page(args), Limit(args))), |hits|, None)
  }

  /** The rows the intended statement selects, in table order. */
  function SelectedRowsFixed(credits: seq<Credit>, branch: Option<int>, args: ListArgs): (r: seq<Credit>)
    ensures |r| == CountWhere(credits, (c: Credit) => SelectedFixed(c, branch, SearchName(args)))
    ensures forall k :: 0 <= k < |r| ==> SelectedFixed(r[k], branch, SearchName(args)) && r[k] in credits
    ensures forall k :: 0 <= k < |credits| && SelectedFixed(credits[k], branch, SearchName(args)) ==> credits[k] in r
  {
    Where(credits, (c: Credit) => SelectedFixed(c, branch, SearchName(args)))
  }

  /** Without a name the fixed listing is the one as written; with one, it
      lists only live expenses of the branch, which the written one fails
      to do. */
  lemma FixedAgreesWithoutName(credits: seq<Credit>, branch: Option<int>, args: ListArgs)
    requires SearchName(args).None?
    ensures GetAllFixed(credits, branch, args) == GetAllWithBranch(credits, branch, args)
  {
    var name := SearchName(args);
    WhereCongruent(credits, (c: Credit) => SelectedFixed(c, branch, name), (c: Credit) => SelectedAsWritten(c, branch, name));
    CountCongruent(credits, (c: Credit) => SelectedFixed(c, branch, name), (c: Credit) => SelectedAsWritten(c, branch, name));
  }


  /** A branch and a name together: the written listing fails, the fixed
      one counts every live matching expense of the branch. */
  lemma NameWithBranchFailsOnlyAsWritten(credits: seq<Credit>, branch: Option<int>, args: ListArgs, k: nat)
    requires Daily.BranchSelected(branch) && SearchName(args).Some?
    requires k < |credits| && Live(credits[k]) && credits[k].branchId == branch.value
    requires NameLike(credits[k], SearchName(args).value)
    ensures GetAllWithBranch(credits, branch, args).error.Some?
    ensures GetAllFixed(credits, branch, args).total >= 1
  {
    var p := (c: Credit) => SelectedFixed(c, branch, SearchName(args));
    assert p(credits[k]);
    assert credits[k] in Where(credits, p);
  }

  /** `deleteCredit`: refused for a falsy id and when no live id is LIKE
      it; otherwise the rows whose id IS the id are stamped deleted. */
  function Delete(credits: seq<Credit>, id: int, now: string): (r: Result<seq<Credit>>)
    ensures r.Err? <==> id == 0 || forall k :: 0 <= k < |credits| ==> !(Live(credits[k]) && IdLike(credits[k].id, id))
    ensures r.Ok? ==> |r.value| == |credits|
    ensures r.Ok? ==> forall k :: 0 <= k < |credits| ==>
      r.value[k] == if credits[k].id == id then credits[k].(deletedAt := Some(now)) else credits[k]
  {
    if id == 0 then Err("يوميه غير موجود")
    else if FirstWhere(credits, (c: Credit) => Live(c) && IdLike(c.id, id)).None? then Err("منتج غير موجود")
    else Ok(seq(|credits|, j requires 0 <= j < |credits| =>
      if credits[j].id == id then credits[j].(deletedAt := Some(now)) else credits[j]))
  }

  /** With distinct ids, deleting a live expense stamps exactly that row. */
  lemma DeleteLiveCredit(credits: seq<Credit>, k: nat, now: string)
    requires Ascending(Ids(credits))
    requires k < |credits| && Live(credits[k])
    ensures Delete(credits, credits[k].id, now).Ok? || credits[k].id == 0
    ensures credits[k].id != 0 ==>
      var r := Delete(credits, credits[k].id, now).value;
      !Live(r[k]) && forall j :: 0 <= j < |credits| && j != k ==> r[j] == credits[j]
  {
    var id := credits[k].id;
    IdLikeSelf(id);
    assert Live(credits[k]) && IdLike(credits[k].id, id);
    if id != 0 {
      var r := Delete(credits, id, now).value;
      forall j | 0 <= j < |credits| && j != k ensures r[j] == credits[j] {
        if j < k {
          assert Ids(credits)[j] < Ids(credits)[k];
        } else {
          assert Ids(credits)[k] < Ids(credits)[j];
        }
      }
    }
  }

  /** Deleting an expense that is already deleted reports success when a
      live expense's id contains its digits, and changes nothing live. */
  lemma DeleteOfDeletedSucceeds()
    ensures var gone := Credit(2, "a", 5, "", 1, 1, Some("t0"));
            var kept := Credit(12, "b", 7, "", 1, 1, None);
            Delete([gone, kept], 2, "t1") == Ok([gone.(deletedAt := Some("t1")), kept])
  {
    var gone := Credit(2, "a", 5, "", 1, 1, Some("t0"));
    var kept := Credit(12, "b", 7, "", 1, 1, None);
    assert Numbers.IntToString(2) == "2";
    assert Numbers.IntToString(12) == "12";
    assert Text.IsPrefix("2", "12"[1..]);
    assert Text.Contains("12"[1..], "2");
    assert Live(kept) && IdLike(kept.id, 2);
    assert FirstWhere([gone, kept], (c: Credit) => Live(c) && IdLike(c.id, 2)).Some?;
    var r := Delete([gone, kept], 2, "t1").value;
    assert |r| == 2 && r[0] == gone.(deletedAt := Some("t1")) && r[1] == kept;
    assert r == [gone.(deletedAt := Some("t1")), kept];
  }
}

=== FILE: daily.dfy ===
/** The cash day of `src/main/ipc/handlers/daily.js`: a per-branch
    open/close state machine over `daily` and the open days' summary. */
module Daily {
  // The selected branch and user come from the settings store and the
  // closing time from the clock; all three are parameters here. An unset
  // value is `None`; bound into `branchId = ?` it becomes NULL, which equals
  // no row.

  import opened Wrappers
  import opened Tables
  import Dates

  /** `if (!branchId)`: no branch chosen, or the falsy id 0. */
  predicate BranchSelected(branch: Option<int>) {
    branch.Some? && branch.value != 0
  }

  /** `closed_at IS NULL AND branchId = ?`. */
  predicate OpenFor(d: Daily, branch: Option<int>) {
    d.closedAt.None? && branch.Some? && d.branchId == branch
  }

  predicate HasOpen(dailies: seq<Daily>, branch: Option<int>) {
    exists k :: 0 <= k < |dailies| && OpenFor(dailies[k], branch)
  }

  /** The invariant the handlers keep: no branch has two open days. */
  predicate AtMostOneOpenPerBranch(dailies: seq<Daily>) {
    forall i, j :: 0 <= i < j < |dailies| && dailies[i].closedAt.None? && dailies[j].closedAt.None?
      ==> dailies[i].branchId != dailies[j].branchId
  }

  /** The `id` column. */
  function Ids(dailies: seq<Daily>): seq<int> {
    Column(dailies, (x: Daily) => x.id)
  }

  /** `openDaily(openPrice = 0)`. Fails without a branch; reports
      `success: false` and writes nothing when the branch already has an
      open day; otherwise inserts one open day for the branch, which fails
      on `daily.userId NOT NULL` when no user is signed in. */
  function OpenDaily(dailies: seq<Daily>, userId: Option<int>, branch: Option<int>, openPrice: Option<int>)
    : (r: Result<(seq<Daily>, bool)>)
    ensures r.Err? <==> !BranchSelected(branch) || (!HasOpen(dailies, branch) && userId.None?)
    ensures r.Ok? ==> (r.value.1 <==> !HasOpen(dailies, branch))
    ensures r.Ok? && !r.value.1 ==> r.value.0 == dailies
    ensures r.Ok? && r.value.1 ==>
      |r.value.0| == |dailies| + 1 && r.value.0[..|dailies|] == dailies
      && var d := r.value.0[|dailies|];
         d.id !in Ids(dailies) && d.userId == userId && d.userId.Some? && d.branchId == branch
         && d.openPrice == openPrice.GetOr(0) && d.closedAt.None? && d.closePrice.None?
         && d.deletedAt.None?
  {
    if !BranchSelected(branch) then Err("برجاء اختيار الفرع")
    else if FirstWhere(dailies, (d: Daily) => OpenFor(d, branch)).Some? then Ok((dailies, false))
    else if userId.None? then Err("NOT NULL constraint failed: daily.userId")
    else
      var row := Daily(FreshId(Ids(dailies)), userId, branch, openPrice.GetOr(0), None, None, None);
      Ok((dailies + [row], true))
  }

  /** The close of one row: the closing time and price are written. */
  function Closed(d: Daily, closedAt: string, closePrice: int): Daily {
    d.(closedAt := Some(closedAt), closePrice := Some(closePrice))
  }

  /** `UPDATE daily SET closed_at = ?, closePrice = ? WHERE id = ?`: the
      rows with that id are closed and no other row changes. */
  predicate ClosesId(before: seq<Daily>, after: seq<Daily>, id: int, closedAt: string, closePrice: int) {
    |after| == |before| &&
    forall i :: 0 <= i < |before| ==>
      after[i] == if before[i].id == id then Closed(before[i], closedAt, closePrice) else before[i]
  }

  /** `closeDaily(closePrice = 0)`. The branch is not checked: with none
      selected nothing matches. When the branch has an open day, the first
      one (and any row sharing its id) gets `closed_at` set to the clock in
      `formatDateForMySQL` form and the close price; otherwise
      `success: false` and nothing changes. */
  function CloseDaily(dailies: seq<Daily>, branch: Option<int>, closePrice: Option<int>, now: Dates.DateTime)
    : (r: (seq<Daily>, bool))
    ensures r.1 <==> HasOpen(dailies, branch)
    ensures !r.1 ==> r.0 == dailies
    ensures |r.0| == |dailies|
    ensures r.1 ==>
      exists k :: 0 <= k < |dailies| && OpenFor(dailies[k], branch)
                  && (forall j :: 0 <= j < k ==> !OpenFor(dailies[j], branch))
                  && ClosesId(dailies, r.0, dailies[k].id, Dates.FormatDateForMySql(now), closePrice.GetOr(0))
  {
    match FirstWhere(dailies, (d: Daily) => OpenFor(d, branch))
    case None => (dailies, false)
    case Some(k) =>
      var id := dailies[k].id;
      var at := Dates.FormatDateForMySql(now);
      var rows := seq(|dailies|, i requires 0 <= i < |dailies| =>
        if dailies[i].id == id then Closed(dailies[i], at, closePrice.GetOr(0)) else dailies[i]);
      (rows, true)
  }

  /** Opening keeps at most one open day per branch. */
  lemma OpenDailyKeepsOneOpen(dailies: seq<Daily>, userId: Option<int>, branch: Option<int>, openPrice: Option<int>)
    requires AtMostOneOpenPerBranch(dailies)
    requires OpenDaily(dailies, userId, branch, openPrice).Ok?
    ensures AtMostOneOpenPerBranch(OpenDaily(dailies, userId, branch, openPrice).value.0)
  {
    var r := OpenDaily(dailies, userId, branch, openPrice).value;
    if r.1 {
      var n := |dailies|;
      forall i, j | 0 <= i < j < |r.0| && r.0[i].closedAt.None? && r.0[j].closedAt.None?
        ensures r.0[i].branchId != r.0[j].branchId
      {
        if j == n {
          assert r.0[i] == dailies[i];
          assert !OpenFor(dailies[i], branch);
        } else {
          assert r.0[i] == dailies[i] && r.0[j] == dailies[j];
        }
      }
    }
  }

  /** Closing keeps at most one open day per branch, and afterwards the
      branch has none. */
  lemma CloseDailyClosesBranch(dailies: seq<Daily>, branch: Option<int>, closePrice: Option<int>, now: Dates.DateTime)
    requires AtMostOneOpenPerBranch(dailies)
    ensures AtMostOneOpenPerBranch(CloseDaily(dailies, branch, closePrice, now).0)
    ensures !HasOpen(CloseDaily(dailies, branch, closePrice, now).0, branch)
  {
    var r := CloseDaily(dailies, branch, closePrice, now);
    if r.1 {
      var at := Dates.FormatDateForMySql(now);
      var k :| 0 <= k < |dailies| && OpenFor(dailies[k], branch)
        && ClosesId(dailies, r.0, dailies[k].id, at, closePrice.GetOr(0));
      ClosingTheOpenDay(dailies, r.0, branch, k, at, closePrice.GetOr(0));
    }
  }

  /** Closing the rows with the id of a branch's open day leaves that
      branch no open day, and opens none anywhere. */
  lemma ClosingTheOpenDay(dailies: seq<Daily>, after: seq<Daily>, branch: Option<int>, k: nat, at: string, price: int)
    requires AtMostOneOpenPerBranch(dailies)
    requires k < |dailies| && OpenFor(dailies[k], branch)
    requires ClosesId(dailies, after, dailies[k].id, at, price)
    ensures AtMostOneOpenPerBranch(after)
    ensures !HasOpen(after, branch)
  {
    forall i | 0 <= i < |after|
      ensures !OpenFor(after[i], branch)
    {
      if dailies[i].id != dailies[k].id {
        assert after[i] == dailies[i];
        if i < k {
          assert !(dailies[i].closedAt.None? && dailies[i].branchId == dailies[k].branchId);
        } else {
          assert !(dailies[k].branchId == dailies[i].branchId && dailies[i].closedAt.None?);
        }
      }
    }
  }

  /** The day's life cycle: once a branch's day is closed, a new one can be
      opened, and opening twice in a row is refused the second time. */
  lemma DailyLifecycle(dailies: seq<Daily>, userId: Option<int>, branch: Option<int>, price: Option<int>, now: Dates.DateTime)
    requires AtMostOneOpenPerBranch(dailies) && BranchSelected(branch) && userId.Some?
    ensures var afterClose := CloseDaily(dailies, branch, price, now).0;
            OpenDaily(afterClose, userId, branch, price).Ok? && OpenDaily(afterClose, userId, branch, price).value.1
    ensures var afterOpen := OpenDaily(dailies, userId, branch, price).value.0;
            OpenDaily(afterOpen, userId, branch, price) == Ok((afterOpen, false))
  {
    CloseDailyClosesBranch(dailies, branch, price, now);
    var r := OpenDaily(dailies, userId, branch, price).value;
    if r.1 {
      assert OpenFor(r.0[|dailies|], branch);
    }
  }

  /** The filter of the days another user opened. */
  function OpenedByOther(userId: int): Daily -> bool {
    (d: Daily) => d.userId != Some(userId)
  }

  /** Deleting user `userId`: `daily.userId` references `users(id)` with
      ON DELETE CASCADE, so every day that user opened goes with them,
      open or closed, and every other day stays. */
  function DeleteUserDays(dailies: seq<Daily>, userId: int): (r: seq<Daily>)
    ensures forall k :: 0 <= k < |r| ==> r[k].userId != Some(userId) && r[k] in dailies
    ensures forall k :: 0 <= k < |dailies| && dailies[k].userId != Some(userId) ==> dailies[k] in r
  {
    Where(dailies, OpenedByOther(userId))
  }

  /** Deleting the cashier who opened a branch's day leaves the branch with
      no open day, so the next `openDaily` starts a new one. */
  lemma DeletingOpenerDropsOpenDay(dailies: seq<Daily>, branch: Option<int>, k: nat, userId: int)
    requires AtMostOneOpenPerBranch(dailies)
    requires k < |dailies| && OpenFor(dailies[k], branch) && dailies[k].userId == Some(userId)
    ensures !HasOpen(DeleteUserDays(dailies, userId), branch)
  {
    var r := DeleteUserDays(dailies, userId);
    forall i | 0 <= i < |r|
      ensures !OpenFor(r[i], branch)
    {
      var j :| 0 <= j < |dailies| && dailies[j] == r[i];
      OtherOpenerNotOpen(dailies, branch, k, j);
    }
  }

  /** With one open day per branch, a day opened by someone else is not
      the branch's open day. */
  lemma OtherOpenerNotOpen(dailies: seq<Daily>, branch: Option<int>, k: nat, j: nat)
    requires AtMostOneOpenPerBranch(dailies)
    requires k < |dailies| && j < |dailies| && OpenFor(dailies[k], branch)
    requires dailies[j].userId != dailies[k].userId
    ensures !OpenFor(dailies[j], branch)
  {
  }

  /** The figures `getDaily` returns. */
  datatype Summary = Summary(
    totalSales: int,
    totalReturns: int,
    countSales: nat,
    productsSold: int,
    expenses: int,
    averageInvoice: real)

  const CashText: string := "خالص"
  const ReturnText: string := "مرتجع"

  /** The days `getDaily` reads: the branch's open days when a branch is
      selected, every open day otherwise. */
  predicate InScope(d: Daily, branch: Option<int>) {
    d.closedAt.None? && (BranchSelected(branch) ==> d.branchId == branch)
  }

  /** `dailyRows.map(d => d.id)`, as the set the `IN (...)` lists test. */
  function ScopeIds(dailies: seq<Daily>, branch: Option<int>): set<int> {
    set k | 0 <= k < |dailies| && InScope(dailies[k], branch) :: dailies[k].id
  }

  predicate InvoiceIn(i: Invoice, ids: set<int>, paymentType: string) {
    i.dailyId in ids && i.paymentType == paymentType
  }

  /** `COALESCE(SUM(totalAfterDiscount), 0)` over the day's invoices of one type. */
  function TotalOf(invoices: seq<Invoice>, ids: set<int>, paymentType: string): int {
    SumOf(invoices, (i: Invoice) => InvoiceIn(i, ids, paymentType), (i: Invoice) => i.totalAfterDiscount)
  }

  /** How many cash invoices of the day a line joins to (one when ids are unique). */
  function JoinCount(invoices: seq<Invoice>, invoiceId: int, ids: set<int>): nat {
    CountWhere(invoices, (i: Invoice) => i.id == invoiceId && InvoiceIn(i, ids, CashText))
  }

  /** `SUM(ii.quantity)` over the join of lines with the day's cash invoices. */
  function ProductsSold(lines: seq<InvoiceItem>, invoices: seq<Invoice>, ids: set<int>): int {
    SumOf(lines, (l: InvoiceItem) => true, (l: InvoiceItem) => l.quantity * JoinCount(invoices, l.invoiceId, ids))
  }

  /** `SUM(price) FROM credit WHERE daily_id IN (...)`: every expense row of
      the days, soft-deleted or not. */
  function Expenses(credits: seq<Credit>, ids: set<int>): int {
    SumOf(credits, (c: Credit) => c.dailyId in ids, (c: Credit) => c.price)
  }

  /** A new expense row adds its price to the expenses of the days it
      belongs to and nothing to other days'. */
  lemma {:induction false} ExpensesAppend(credits: seq<Credit>, c: Credit, ids: set<int>)
    ensures Expenses(credits + [c], ids) == Expenses(credits, ids) + (if c.dailyId in ids then c.price else 0)
  {
    SumOfAppend(credits, [c], (c: Credit) => c.dailyId in ids, (c: Credit) => c.price);
  }

  /** `total_sales / count_sales`, guarded against an empty day. */
  function Average(total: int, count: nat): (a: real)
    ensures count > 0 ==> a * count as real == total as real
    ensures count == 0 ==> a == 0.0
  {
    if count > 0 then total as real / count as real else 0.0
  }

  /** `getDaily`: `success: false` when no day is in scope; otherwise the
      sums over the in-scope days' invoices and expenses. */
  function GetDaily(dailies: seq<Daily>, invoices: seq<Invoice>, lines: seq<InvoiceItem>,
                    credits: seq<Credit>, branch: Option<int>): (r: Result<Summary>)
    ensures r.Err? <==> forall k :: 0 <= k < |dailies| ==> !InScope(dailies[k], branch)
    ensures r.Ok? ==>
      var ids := ScopeIds(dailies, branch);
      r.value.totalSales == TotalOf(invoices, ids, CashText)
      && r.value.totalReturns == TotalOf(invoices, ids, ReturnText)
      && r.value.countSales == CountWhere(invoices, (i: Invoice) => InvoiceIn(i, ids, CashText))
      && r.value.productsSold == ProductsSold(lines, invoices, ids)
      && r.value.expenses == Expenses(credits, ids)
      && r.value.averageInvoice == Average(r.value.totalSales, r.value.countSales)
  {
    if FirstWhere(dailies, (d: Daily) => InScope(d, branch)).None? then Err("لا توجد يومية مفتوحة")
    else
      var ids := ScopeIds(dailies, branch);
      var sales := TotalOf(invoices, ids, CashText);
      var count := CountWhere(invoices, (i: Invoice) => InvoiceIn(i, ids, CashText));
      Ok(Summary(sales, TotalOf(invoices, ids, ReturnText), count,
                 ProductsSold(lines, invoices, ids), Expenses(credits, ids), Average(sales, count)))
  }

  /** A new cash invoice on an in-scope day raises the day's sales by its
      net total and its count by one; the returns total is unchanged. */
  lemma {:induction false} CashInvoiceRaisesSales(invoices: seq<Invoice>, ids: set<int>, inv: Invoice)
    requires inv.dailyId in ids && inv.paymentType == CashText
    ensures TotalOf(invoices + [inv], ids, CashText) == TotalOf(invoices, ids, CashText) + inv.totalAfterDiscount
    ensures TotalOf(invoices + [inv], ids, ReturnText) == TotalOf(invoices, ids, ReturnText)
    ensures CountWhere(invoices + [inv], (i: Invoice) => InvoiceIn(i, ids, CashText))
            == CountWhere(invoices, (i: Invoice) => InvoiceIn(i, ids, CashText)) + 1
  {
    SumOfAppend(invoices, [inv], (i: Invoice) => InvoiceIn(i, ids, CashText), (i: Invoice) => i.totalAfterDiscount);
    SumOfAppend(invoices, [inv], (i: Invoice) => InvoiceIn(i, ids, ReturnText), (i: Invoice) => i.totalAfterDiscount);
    WhereAppend(invoices, [inv], (i: Invoice) => InvoiceIn(i, ids, CashText));
  }
}

=== FILE: daily_sales_page.dfy ===
/** The daily sales page `src/renderer/src/pages/Reports/DailySalesReport.tsx`:
    the 24-hour chart and the payment method slices. */
module DailySalesPage {
  import opened Wrappers
  import opened Tables
  import Schema
  import Reports

  /** One hour of the chart. */
  datatype Bucket = Bucket(sales: int, transactions: int)

  /** `hourlyData.find(h => h.hour === hour)`. */
  function FindHour(rows: seq<Reports.HourlyRow>, h: nat): (r: Option<Reports.HourlyRow>)
    ensures r.Some? ==> r.value in rows && r.value.hour == Some(h)
    ensures r.None? <==> forall k :: 0 <= k < |rows| ==> rows[k].hour != Some(h)
  {
    if rows == [] then None
    else if rows[0].hour == Some(h) then Some(rows[0])
    else FindHour(rows[1..], h)
  }

  /** `Array.from({ length: 24 }, ...)`: each hour's group, or zeros. */
  function Buckets(rows: seq<Reports.HourlyRow>): (b: seq<Bucket>)
    ensures |b| == 24
  {
    seq(24, h requires 0 <= h < 24 =>
      match FindHour(rows, h)
      case Some(row) => Bucket(row.sales, row.transactions)
      case None => Bucket(0, 0))
  }

  /** A first group of another hour is passed over. */
  lemma FindSkips(head: seq<Reports.HourlyRow>, rest: seq<Reports.HourlyRow>, h: nat)
    requires forall k :: 0 <= k < |head| ==> head[k].hour != Some(h)
    ensures FindHour(head + rest, h) == FindHour(rest, h)
    decreases |head|
  {
    if head != [] {
      assert (head + rest)[1..] == head[1..] + rest;
      FindSkips(head[1..], rest, h);
    } else {
      assert head + rest == rest;
    }
  }

  /** A first group of the hour sought is the one found. */
  lemma FindFirst(x: Reports.HourlyRow, rest: seq<Reports.HourlyRow>, h: nat)
    requires x.hour == Some(h)
    ensures FindHour([x] + rest, h) == Some(x)
  {
    assert ([x] + rest)[0] == x;
  }

  /** Looking an hour up among the groups from a given hour on. */
  lemma {:induction false} FindInHoursFrom(sold: seq<Invoice>, from: nat, h: nat)
    requires from <= h < 24
    ensures FindHour(Reports.HoursFrom(sold, from), h)
            == if CountWhere(sold, Reports.AtHour(Some(h))) > 0 then Some(Reports.HourRow(sold, Some(h))) else None
    decreases 24 - from
  {
    var rest := Reports.HoursFrom(sold, from + 1);
    var present := CountWhere(sold, Reports.AtHour(Some(from))) > 0;
    var head := if present then [Reports.HourRow(sold, Some(from))] else [];
    assert Reports.HoursFrom(sold, from) == head + rest;
    if from == h {
      assert FindHour(rest, h).None?;
      if present {
        FindFirst(Reports.HourRow(sold, Some(from)), rest, h);
      } else {
        assert head + rest == rest;
      }
    } else {
      FindInHoursFrom(sold, from + 1, h);
      FindSkips(head, rest, h);
    }
  }

  /** Each hour of the chart shows the number and the total of that hour's
      sales (returns excluded), and zero for an hour without sales. */
  lemma ChartShowsEachHour(invoices: seq<Invoice>, start: string, end: string, h: nat)
    requires h < 24
    ensures var sold := Where(invoices, Reports.InDay(start, end));
            Buckets(Reports.HourlyBreakdown(invoices, start, end))[h]
            == Bucket(SumOf(sold, Reports.AtHour(Some(h)), Reports.TotalOf()), CountWhere(sold, Reports.AtHour(Some(h))))
  {
    var sold := Where(invoices, Reports.InDay(start, end));
    var p := Reports.AtHour(Some(h));
    var nullRow := if CountWhere(sold, Reports.AtHour(None)) > 0 then [Reports.HourRow(sold, None)] else [];
    var rows := Reports.HourlyBreakdown(invoices, start, end);
    assert rows == nullRow + Reports.HoursFrom(sold, 0);
    FindSkips(nullRow, Reports.HoursFrom(sold, 0), h);
    FindInHoursFrom(sold, 0, h);
    BucketAt(rows, h);
    if CountWhere(sold, p) == 0 {
      assert Where(sold, p) == [];
      SumOfNoMatch(sold, p, Reports.TotalOf());
    }
  }

  lemma BucketAt(rows: seq<Reports.HourlyRow>, h: nat)
    requires h < 24
    ensures FindHour(rows, h).Some? ==> Buckets(rows)[h] == Bucket(FindHour(rows, h).value.sales, FindHour(rows, h).value.transactions)
    ensures FindHour(rows, h).None? ==> Buckets(rows)[h] == Bucket(0, 0)
  {
  }

  /** `getPaymentMethodName`: the labels of `cash`, `card` and `digital`,
      any other method as it is. */
  function PaymentName(name: string): string {
    if name == "cash" then "نقدي"
    else if name == "card" then "بطاقة"
    else if name == "digital" then "رقمي"
    else name
  }

  /** The report groups by the stored payment type, which is none of the
      three keys, so each slice is labelled with the stored type itself. */
  lemma StoredTypesShownAsStored(p: Schema.PaymentType)
    ensures PaymentName(Schema.PaymentTypeText(p)) == Schema.PaymentTypeText(p)
  {
  }

  const Colours: seq<string> := ["#0088FE", "#00C49F", "#FFBB28", "#FF8042"]

  /** `COLORS[index % COLORS.length]`. */
  function SliceColour(index: nat): (c: string)
    ensures c in Colours
  {
    Colours[index % |Colours|]
  }

  /** Neighbouring slices differ in colour, and the colours repeat every
      four slices. */
  lemma NeighbouringSlicesDiffer(index: nat)
    ensures SliceColour(index) != SliceColour(index + 1)
    ensures SliceColour(index) == SliceColour(index + 4)
  {
    assert (index + 1) % 4 == (index % 4 + 1) % 4;
  }
}

=== FILE: data_table.dfy ===
/** The table component the list pages under `src/renderer/src/pages`
    share (products, expenses, users, categories, units). */
module DataTable {
  // Columns that may be hidden, a case-insensitive search over the shown
  // columns, the server answers a search or a page change installs, and the
  // page controls.

  import opened Wrappers
  import opened Tables
  import Text
  import Paging

  datatype Column = Column(accessorKey: string, header: string, visible: Option<bool>)

  /** `col.visible !== false`: a column is shown unless marked hidden. */
  predicate Shown(c: Column) {
    c.visible != Some(false)
  }

  /** A row as the search reads it: each cell's `String(value)`. */
  type Row = map<string, string>

  /** `String(row[key] ?? "")`. */
  function Cell(row: Row, key: string): string {
    if key in row then row[key] else ""
  }

  predicate ColumnMatches(row: Row, c: Column, search: string) {
    Shown(c) && Text.IncludesIgnoreCase(Cell(row, c.accessorKey), search)
  }

  /** `visibleColumns.some(col => col.visible && cell.toLowerCase().includes(search.toLowerCase()))`. */
  function AnyColumnMatches(row: Row, columns: seq<Column>, search: string): (b: bool)
    ensures b <==> exists k :: 0 <= k < |columns| && ColumnMatches(row, columns[k], search)
  {
    if columns == [] then false
    else if ColumnMatches(row, columns[0], search) then true
    else
      var rest := AnyColumnMatches(row, columns[1..], search);
      assert forall k :: 1 <= k < |columns| ==> columns[k] == columns[1..][k - 1];
      rest
  }

  function Matching(columns: seq<Column>, search: string): Row -> bool {
    (row: Row) => AnyColumnMatches(row, columns, search)
  }

  /** The search filter itself: the rows some shown column of which
      contains the text, in their order. */
  function Search(rows: seq<Row>, columns: seq<Column>, search: string): (r: seq<Row>)
    ensures forall k :: 0 <= k < |r| ==> r[k] in rows && AnyColumnMatches(r[k], columns, search)
    ensures forall k :: 0 <= k < |rows| && AnyColumnMatches(rows[k], columns, search) ==> rows[k] in r
  {
    Where(rows, Matching(columns, search))
  }

  /** `if (!search) return currentData;` before the filter: an empty search
      shows the rows as they are. */
  function GuardedSearch(rows: seq<Row>, columns: seq<Column>, search: string): (r: seq<Row>)
    ensures search == [] ==> r == rows
    ensures search != [] ==> r == Search(rows, columns, search)
  {
    if search == [] then rows else Search(rows, columns, search)
  }

  /** Without the guard an empty search keeps every row while some column
      is shown, and no row once every column is hidden. */
  lemma UnguardedEmptySearch(rows: seq<Row>, columns: seq<Column>)
    ensures (exists k :: 0 <= k < |columns| && Shown(columns[k])) ==> Search(rows, columns, []) == rows
    ensures (forall k :: 0 <= k < |columns| ==> !Shown(columns[k])) ==> Search(rows, columns, []) == []
  {
    assert Text.ToLower([]) == [];
    forall row: Row, c: Column | Shown(c)
      ensures ColumnMatches(row, c, [])
    {
      Text.ContainsEmpty(Text.ToLower(Cell(row, c.accessorKey)));
    }
    if exists k :: 0 <= k < |columns| && Shown(columns[k]) {
      WhereAllRows(rows, Matching(columns, []));
    } else {
      WhereNone(rows, Matching(columns, []));
    }
  }

  /** The search looks only at shown columns: two rows that agree on every
      shown column are kept or dropped together. */
  lemma SearchIgnoresHiddenColumns(a: Row, b: Row, columns: seq<Column>, search: string)
    requires forall k :: 0 <= k < |columns| && Shown(columns[k]) ==>
               Cell(a, columns[k].accessorKey) == Cell(b, columns[k].accessorKey)
    ensures AnyColumnMatches(a, columns, search) == AnyColumnMatches(b, columns, search)
  {
  }

  /** What a list request answers: `payload.<rows>` and `payload.total`,
      either of which may be missing. */
  datatype Answer = Answer(rows: Option<seq<Row>>, total: Option<nat>)

  /** The rows on show and the total the footer counts. */
  datatype Listing = Listing(rows: seq<Row>, total: nat)

  /** Installing an answer: a failed request only shows an error; a
      successful one replaces the rows (`|| []`) and the total (`|| 0`). */
  function Install(current: Listing, answer: Result<Answer>): (r: Listing)
    ensures answer.Err? ==> r == current
    ensures answer.Ok? ==> r.rows == answer.value.rows.GetOr([]) && r.total == answer.value.total.GetOr(0)
  {
    match answer
    case Err(_) => current
    case Ok(a) => Listing(a.rows.GetOr([]), a.total.GetOr(0))
  }

  /** `totalPages || 1`, the page count the footer prints. */
  function PageCountLabel(total: nat): (n: nat)
    ensures n >= 1
    ensures total > 0 ==> n == Paging.TotalPages(total, Paging.PageSize)
    ensures total == 0 ==> n == 1
  {
    var pages := Paging.TotalPages(total, Paging.PageSize);
    if pages == 0 then 1 else pages
  }

  /** `disabled={page === totalPages}` on the "next" button. */
  function NextEnabled(page: int, total: nat): (b: bool)
    ensures total == 0 && page >= 1 ==> b
    ensures total > 0 ==> (!b <==> page == PageCountLabel(total))
  {
    page != Paging.TotalPages(total, Paging.PageSize)
  }

  /** An answer without rows or total leaves an empty table announced as
      one page, whose "next" button stays enabled. */
  lemma EmptyAnswerShowsOnePage(current: Listing, page: int)
    requires page >= 1
    ensures var l := Install(current, Ok(Answer(None, None)));
            l.rows == [] && PageCountLabel(l.total) == 1 && NextEnabled(page, l.total)
  {
  }
}

=== FILE: dates.dfy ===
/** Date text as the application writes and compares it. */
module Dates {
  // A JavaScript `Date` is represented by the calendar fields its getters
  // return (`getUTC*` or the local-time `get*`, whichever the caller reads);
  // computing those fields from an instant and a time zone is not modelled.
  // SQLite keeps timestamps as text and compares text byte by byte, which
  // `LexLe` captures.

  import opened Wrappers
  import Numbers
  import Text

  /** Calendar fields; `month0` is the 0-based month `getMonth` returns. */
  datatype DateTime = DateTime(
    year: nat,
    month0: nat,
    day: nat,
    hour: nat,
    minute: nat,
    second: nat,
    millis: nat)

  predicate Valid(t: DateTime) {
    t.month0 < 12 && 1 <= t.day <= 31 && t.hour < 24 && t.minute < 60
    && t.second < 60 && t.millis < 1000
  }

  /** A year that renders as exactly four digits. */
  predicate FourDigitYear(t: DateTime) {
    1000 <= t.year <= 9999
  }

  /** `HH:MM:SS`, each field zero-padded to two digits. */
  function Clock(t: DateTime): string {
    Numbers.Pad2(t.hour) + ":" + Numbers.Pad2(t.minute) + ":" + Numbers.Pad2(t.second)
  }

  /** `YYYY-MM-DD` with the year as `${year}` renders it. */
  function DatePart(t: DateTime): string {
    Numbers.NatToString(t.year) + "-" + Numbers.Pad2(t.month0 + 1) + "-" + Numbers.Pad2(t.day)
  }

  /** `formatDateForMySQL`: `${year}-MM-DD HH:MM:SS` from the UTC fields,
      the text `daily.closed_at` receives. */
  function FormatDateForMySql(t: DateTime): string {
    DatePart(t) + " " + Clock(t)
  }

  lemma FourDigitNatToString(n: nat)
    requires 1000 <= n <= 9999
    ensures |Numbers.NatToString(n)| == 4
  {
    assert |Numbers.NatToString(n / 10 / 10 / 10)| == 1;
    assert |Numbers.NatToString(n / 10 / 10)| == 2;
    assert |Numbers.NatToString(n / 10)| == 3;
  }

  /** The layout `formatDateForMySQL` promises: nineteen characters with the
      separators in fixed places, and every field readable back from its
      zero-padded digits (the month 1-based). */
  lemma FormatDateForMySqlLayout(t: DateTime)
    requires Valid(t) && FourDigitYear(t)
    ensures var r := FormatDateForMySql(t);
      |r| == 19 && r[4] == '-' && r[7] == '-' && r[10] == ' ' && r[13] == ':' && r[16] == ':'
      && Numbers.AllDigits(r[0..4]) && Numbers.DigitsValue(r[0..4]) == t.year
      && Numbers.AllDigits(r[5..7]) && Numbers.DigitsValue(r[5..7]) == t.month0 + 1
      && Numbers.AllDigits(r[8..10]) && Numbers.DigitsValue(r[8..10]) == t.day
      && Numbers.AllDigits(r[11..13]) && Numbers.DigitsValue(r[11..13]) == t.hour
      && Numbers.AllDigits(r[14..16]) && Numbers.DigitsValue(r[14..16]) == t.minute
      && Numbers.AllDigits(r[17..19]) && Numbers.DigitsValue(r[17..19]) == t.second
  {
    FourDigitNatToString(t.year);
    Numbers.DigitsValueOfNatToString(t.year);
    Blocks19(Numbers.NatToString(t.year), Numbers.Pad2(t.month0 + 1), Numbers.Pad2(t.day),
             Numbers.Pad2(t.hour), Numbers.Pad2(t.minute), Numbers.Pad2(t.second));
  }

  /** Where the six blocks of a `YYYY-MM-DD HH:MM:SS` text lie. */
  lemma Blocks19(y: string, mo: string, d: string, h: string, mi: string, se: string)
    requires |y| == 4 && |mo| == 2 && |d| == 2 && |h| == 2 && |mi| == 2 && |se| == 2
    ensures var r := y + "-" + mo + "-" + d + " " + (h + ":" + mi + ":" + se);
      |r| == 19 && r[4] == '-' && r[7] == '-' && r[10] == ' ' && r[13] == ':' && r[16] == ':'
      && r[0..4] == y && r[5..7] == mo && r[8..10] == d
      && r[11..13] == h && r[14..16] == mi && r[17..19] == se
  {
  }

  /** `date.toISOString()`: `YYYY-MM-DDTHH:MM:SS.sssZ` from the UTC fields. */
  function ToIsoString(t: DateTime): string {
    Numbers.ZeroPad(t.year, 4) + "-" + Numbers.Pad2(t.month0 + 1) + "-" + Numbers.Pad2(t.day)
    + "T" + Clock(t) + "." + Numbers.ZeroPad(t.millis, 3) + "Z"
  }

  /** `s.replace(c, d)` with a one-character pattern: only the first
      occurrence changes. */
  function ReplaceFirst(s: string, c: char, d: char): (r: string)
    ensures |r| == |s|
    ensures c !in s ==> r == s
  {
    if s == [] then []
    else if s[0] == c then [d] + s[1..]
    else [s[0]] + ReplaceFirst(s[1..], c, d)
  }

  lemma {:induction false} ReplaceFirstAfter(a: string, c: char, d: char, b: string)
    requires c !in a
    ensures ReplaceFirst(a + [c] + b, c, d) == a + [d] + b
    decreases |a|
  {
    if a != [] {
      ReplaceFirstAfter(a[1..], c, d, b);
      assert (a + [c] + b)[1..] == a[1..] + [c] + b;
    } else {
      assert a + [c] + b == [c] + b;
    }
  }

  /** `toSqliteDate` (reports.js): the first nineteen characters of the ISO
      text with the `T` turned into a space. */
  function ToSqliteDate(iso: string): (r: string)
    ensures |r| == if |iso| < 19 then |iso| else 19
  {
    ReplaceFirst(Text.Take(iso, 19), 'T', ' ')
  }

  lemma NoTInDigits(s: string)
    requires Numbers.AllDigits(s)
    ensures 'T' !in s && ' ' !in s
  {
  }

  /** `toSqliteDate` turns an ISO timestamp into exactly the text
      `formatDateForMySQL` writes for the same instant, so the two meet in
      SQLite comparisons. */
  lemma SqliteDateOfIsoString(t: DateTime)
    requires Valid(t) && FourDigitYear(t)
    ensures ToSqliteDate(ToIsoString(t)) == FormatDateForMySql(t)
  {
    FourDigitNatToString(t.year);
    assert Numbers.ZeroPad(t.year, 4) == Numbers.NatToString(t.year);
    var date := DatePart(t);
    var rest := Clock(t);
    var iso := ToIsoString(t);
    assert iso == date + "T" + rest + "." + Numbers.ZeroPad(t.millis, 3) + "Z";
    assert |date| == 10 && |rest| == 8;
    assert Text.Take(iso, 19) == date + ['T'] + rest;
    NoTInDigits(Numbers.NatToString(t.year));
    NoTInDigits(Numbers.Pad2(t.month0 + 1));
    NoTInDigits(Numbers.Pad2(t.day));
    assert 'T' !in date;
    ReplaceFirstAfter(date, 'T', ' ', rest);
  }

  /** SQLite's default (BINARY) text comparison `a <= b`: code point by code
      point, a proper prefix sorting first. */
  predicate LexLe(a: string, b: string)
    decreases |a|
  {
    a == [] || (b != [] && (a[0] < b[0] || (a[0] == b[0] && LexLe(a[1..], b[1..]))))
  }

  /** Any two texts are ordered one way or the other. */
  lemma {:induction false} LexLeTotal(a: string, b: string)
    ensures LexLe(a, b) || LexLe(b, a)
    decreases |a|
  {
    if a != [] && b != [] && a[0] == b[0] {
      LexLeTotal(a[1..], b[1..]);
    }
  }

  lemma {:induction false} LexLeCommonPrefix(p: string, a: string, b: string)
    ensures LexLe(p + a, p + b) <==> LexLe(a, b)
    decreases |p|
  {
    if p != [] {
      assert (p + a)[1..] == p[1..] + a;
      assert (p + b)[1..] == p[1..] + b;
      LexLeCommonPrefix(p[1..], a, b);
    } else {
      assert p + a == a && p + b == b;
    }
  }

  /** Comparing texts made of equally long leading blocks: the first
      differing block decides. */
  lemma {:induction false} LexLeBlocks(a1: string, b1: string, a2: string, b2: string)
    requires |a1| == |a2|
    ensures LexLe(a1 + b1, a2 + b2) <==> if a1 == a2 then LexLe(b1, b2) else LexLe(a1, a2)
    decreases |a1|
  {
    if a1 == [] {
      assert a1 + b1 == b1 && a2 + b2 == b2;
    } else {
      assert (a1 + b1)[1..] == a1[1..] + b1;
      assert (a2 + b2)[1..] == a2[1..] + b2;
      LexLeBlocks(a1[1..], b1, a2[1..], b2);
      if a1[0] == a2[0] && a1[1..] == a2[1..] {
        assert a1 == a2;
      }
    }
  }

  lemma Pad2Digits(n: nat)
    requires n < 100
    ensures Numbers.Pad2(n) == [Numbers.DigitChar(n / 10), Numbers.DigitChar(n % 10)]
  {
    if n >= 10 {
      assert Numbers.NatToString(n / 10) == [Numbers.DigitChar(n / 10)];
    }
  }

  /** Two-digit zero-padded numbers sort as text exactly as they sort as
      numbers. */
  lemma Pad2Order(a: nat, b: nat)
    requires a < 100 && b < 100
    ensures LexLe(Numbers.Pad2(a), Numbers.Pad2(b)) <==> a <= b
    ensures Numbers.Pad2(a) == Numbers.Pad2(b) <==> a == b
  {
    Pad2Digits(a);
    Pad2Digits(b);
    var pa := Numbers.Pad2(a);
    var pb := Numbers.Pad2(b);
    assert pa[1..][1..] == [] && pb[1..][1..] == [];
    assert LexLe(pa[1..][1..], pb[1..][1..]);
    assert LexLe(pa[1..], pb[1..]) <==> pa[1] <= pb[1];
    assert LexLe(pa, pb) <==> pa[0] < pb[0] || (pa[0] == pb[0] && pa[1] <= pb[1]);
    assert pa[0] < pb[0] <==> a / 10 < b / 10;
    assert pa[0] == pb[0] <==> a / 10 == b / 10;
    assert pa[1] <= pb[1] <==> a % 10 <= b % 10;
    assert a <= b <==> a / 10 < b / 10 || (a / 10 == b / 10 && a % 10 <= b % 10);
    assert a == b <==> a / 10 == b / 10 && a % 10 == b % 10;
  }

  /** Clock texts sort chronologically: hours first, then minutes, then
      seconds. */
  lemma ClockOrder(s: DateTime, t: DateTime)
    requires Valid(s) && Valid(t)
    ensures LexLe(Clock(s), Clock(t)) <==>
      s.hour < t.hour || (s.hour == t.hour && (s.minute < t.minute
      || (s.minute == t.minute && s.second <= t.second)))
  {
    Pad2Order(s.hour, t.hour);
    Pad2Order(s.minute, t.minute);
    Pad2Order(s.second, t.second);
    var h1, h2 := Numbers.Pad2(s.hour), Numbers.Pad2(t.hour);
    var m1, m2 := Numbers.Pad2(s.minute), Numbers.Pad2(t.minute);
    var x1, x2 := Numbers.Pad2(s.second), Numbers.Pad2(t.second);
    var c1, c2 := ":" + x1, ":" + x2;
    var b1, b2 := m1 + c1, m2 + c2;
    var a1, a2 := ":" + b1, ":" + b2;
    assert Clock(s) == h1 + a1;
    assert Clock(t) == h2 + a2;
    LexLeCommonPrefix(":", x1, x2);
    LexLeBlocks(m1, c1, m2, c2);
    LexLeCommonPrefix(":", b1, b2);
    LexLeBlocks(h1, a1, h2, a2);
  }

  /** A four-digit year is its two leading digits followed by the last two. */
  lemma Year4Split(n: nat)
    requires 1000 <= n <= 9999
    ensures Numbers.NatToString(n) == Numbers.Pad2(n / 100) + Numbers.Pad2(n % 100)
  {
    Pad2Digits(n / 100);
    Pad2Digits(n % 100);
    assert Numbers.NatToString(n / 100 / 10) == [Numbers.DigitChar(n / 100 / 10)];
    assert n / 10 / 10 == n / 100 && n / 10 % 10 == n % 100 / 10 && n % 10 == n % 100 % 10;
  }

  /** Four-digit years sort as text exactly as they sort as numbers. */
  lemma Year4Order(a: nat, b: nat)
    requires 1000 <= a <= 9999 && 1000 <= b <= 9999
    ensures LexLe(Numbers.NatToString(a), Numbers.NatToString(b)) <==> a <= b
    ensures Numbers.NatToString(a) == Numbers.NatToString(b) <==> a == b
  {
    Year4Split(a);
    Year4Split(b);
    Pad2Order(a / 100, b / 100);
    Pad2Order(a % 100, b % 100);
    LexLeBlocks(Numbers.Pad2(a / 100), Numbers.Pad2(a % 100), Numbers.Pad2(b / 100), Numbers.Pad2(b % 100));
    var x, y := Numbers.Pad2(a / 100) + Numbers.Pad2(a % 100), Numbers.Pad2(b / 100) + Numbers.Pad2(b % 100);
    if x == y {
      assert x[..2] == y[..2] && x[2..] == y[2..];
    }
  }

  /** Chronological order to the second: year, month, day, hour, minute,
      second, compared in that order. */
  predicate NotAfter(s: DateTime, t: DateTime) {
    if s.year != t.year then s.year < t.year
    else if s.month0 != t.month0 then s.month0 < t.month0
    else if s.day != t.day then s.day < t.day
    else if s.hour != t.hour then s.hour < t.hour
    else if s.minute != t.minute then s.minute < t.minute
    else s.second <= t.second
  }

  /** Texts built from equally long leading blocks are equal exactly when
      both blocks are. */
  lemma BlocksEqual(a1: string, b1: string, a2: string, b2: string)
    requires |a1| == |a2|
    ensures a1 + b1 == a2 + b2 <==> a1 == a2 && b1 == b2
  {
    if a1 + b1 == a2 + b2 {
      assert a1 == (a1 + b1)[..|a1|] && a2 == (a2 + b2)[..|a2|];
      assert b1 == (a1 + b1)[|a1|..] && b2 == (a2 + b2)[|a2|..];
    }
  }

  /** Two blocks joined by a separator, the first blocks equally long,
      compare as the first blocks do unless those are equal, and are equal
      exactly when both blocks are. */
  lemma Lexicographic(a1: string, b1: string, a2: string, b2: string, sep: string,
                      aLe: bool, aEq: bool, bLe: bool, bEq: bool)
    requires |a1| == |a2|
    requires LexLe(a1, a2) == aLe && (a1 == a2) == aEq
    requires LexLe(b1, b2) == bLe && (b1 == b2) == bEq
    ensures LexLe(a1 + (sep + b1), a2 + (sep + b2)) == if aEq then bLe else aLe
    ensures (a1 + (sep + b1) == a2 + (sep + b2)) == (aEq && bEq)
  {
    LexLeCommonPrefix(sep, b1, b2);
    LexLeBlocks(a1, sep + b1, a2, sep + b2);
    BlocksEqual(a1, sep + b1, a2, sep + b2);
    BlocksEqual(sep, b1, sep, b2);
  }

  /** `MM-DD`. */
  function MonthDay(t: DateTime): string {
    Numbers.Pad2(t.month0 + 1) + ("-" + Numbers.Pad2(t.day))
  }

  lemma MonthDayOrder(s: DateTime, t: DateTime)
    requires Valid(s) && Valid(t)
    ensures |MonthDay(s)| == 5
    ensures LexLe(MonthDay(s), MonthDay(t)) <==> s.month0 < t.month0 || (s.month0 == t.month0 && s.day <= t.day)
    ensures MonthDay(s) == MonthDay(t) <==> s.month0 == t.month0 && s.day == t.day
  {
    Pad2Order(s.month0 + 1, t.month0 + 1);
    Pad2Order(s.day, t.day);
    Lexicographic(Numbers.Pad2(s.month0 + 1), Numbers.Pad2(s.day), Numbers.Pad2(t.month0 + 1), Numbers.Pad2(t.day), "-",
                  s.month0 <= t.month0, s.month0 == t.month0, s.day <= t.day, s.day == t.day);
  }

  /** The date text is the four year digits, a dash and `MM-DD`. */
  lemma DatePartShape(t: DateTime)
    requires Valid(t) && FourDigitYear(t)
    ensures |Numbers.NatToString(t.year)| == 4 && |DatePart(t)| == 10
    ensures DatePart(t) == Numbers.NatToString(t.year) + ("-" + MonthDay(t))
  {
    FourDigitNatToString(t.year);
  }

  /** The calendar date text sorts chronologically, and equal texts mean
      equal dates. */
  lemma DatePartOrder(s: DateTime, t: DateTime)
    requires Valid(s) && Valid(t) && FourDigitYear(s) && FourDigitYear(t)
    ensures |DatePart(s)| == 10 && |DatePart(t)| == 10
    ensures LexLe(DatePart(s), DatePart(t)) <==>
      s.year < t.year || (s.year == t.year && (s.month0 < t.month0 || (s.month0 == t.month0 && s.day <= t.day)))
    ensures DatePart(s) == DatePart(t) <==> s.year == t.year && s.month0 == t.month0 && s.day == t.day
  {
    Year4Order(s.year, t.year);
    MonthDayOrder(s, t);
    DatePartShape(s);
    DatePartShape(t);
    Lexicographic(Numbers.NatToString(s.year), MonthDay(s), Numbers.NatToString(t.year), MonthDay(t), "-",
                  s.year <= t.year, s.year == t.year,
                  s.month0 < t.month0 || (s.month0 == t.month0 && s.day <= t.day),
                  s.month0 == t.month0 && s.day == t.day);
  }

  /** `formatDateForMySQL` text sorts chronologically, so SQLite compares
      two such timestamps correctly. */
  lemma MySqlTextOrder(s: DateTime, t: DateTime)
    requires Valid(s) && Valid(t) && FourDigitYear(s) && FourDigitYear(t)
    ensures LexLe(FormatDateForMySql(s), FormatDateForMySql(t)) <==> NotAfter(s, t)
  {
    DatePartOrder(s, t);
    ClockOrder(s, t);
    LexLeCommonPrefix(" ", Clock(s), Clock(t));
    assert FormatDateForMySql(s) == DatePart(s) + (" " + Clock(s));
    assert FormatDateForMySql(t) == DatePart(t) + (" " + Clock(t));
    LexLeBlocks(DatePart(s), " " + Clock(s), DatePart(t), " " + Clock(t));
  }

  /** Comparing a stored timestamp with raw ISO text, as a
      `createdAt >= ?` bound does when given `toISOString()`: on the same
      calendar date the stored text always sorts first, because its
      separator ' ' precedes 'T', whatever the clocks say. */
  lemma StoredSortsBeforeIsoOnSameDate(stored: DateTime, bound: DateTime)
    requires Valid(stored) && Valid(bound) && FourDigitYear(stored) && FourDigitYear(bound)
    requires DatePart(stored) == DatePart(bound)
    ensures LexLe(FormatDateForMySql(stored), ToIsoString(bound))
    ensures !LexLe(ToIsoString(bound), FormatDateForMySql(stored))
  {
    FourDigitNatToString(bound.year);
    assert Numbers.ZeroPad(bound.year, 4) == Numbers.NatToString(bound.year);
    var date := DatePart(bound);
    var iso := ToIsoString(bound);
    var tail := Clock(bound) + "." + Numbers.ZeroPad(bound.millis, 3) + "Z";
    assert iso == date + ("T" + tail);
    assert FormatDateForMySql(stored) == date + (" " + Clock(stored));
    LexLeCommonPrefix(date, " " + Clock(stored), "T" + tail);
    LexLeCommonPrefix(date, "T" + tail, " " + Clock(stored));
  }

  /** `formatDate` (utils/formDate): `D/M/YYYY H:MM` from the local-time
      fields, with only the minutes padded. */
  function FormatDate(t: DateTime): string {
    Numbers.NatToString(t.day) + "/" + Numbers.NatToString(t.month0 + 1) + "/"
    + Numbers.NatToString(t.year) + " " + Numbers.NatToString(t.hour) + ":"
    + Numbers.Pad2(t.minute)
  }

  /** The text before and after the first `c`, if `c` occurs. */
  function SplitFirst(s: string, c: char): (r: Option<(string, string)>)
    ensures r.None? <==> c !in s
    ensures r.Some? ==> s == r.value.0 + [c] + r.value.1 && c !in r.value.0
  {
    if s == [] then None
    else if s[0] == c then Some(([], s[1..]))
    else match SplitFirst(s[1..], c)
      case None => None
      case Some(p) => Some(([s[0]] + p.0, p.1))
  }

  lemma {:induction false} SplitFirstAt(a: string, c: char, b: string)
    requires c !in a
    ensures SplitFirst(a + [c] + b, c) == Some((a, b))
    decreases |a|
  {
    if a == [] {
      assert a + [c] + b == [c] + b;
    } else {
      assert (a + [c] + b)[1..] == a[1..] + [c] + b;
      SplitFirstAt(a[1..], c, b);
      assert [a[0]] + a[1..] == a;
    }
  }

  /** The fields `formatDate` shows: day, 1-based month, year, hour, minute. */
  datatype ShownDate = ShownDate(day: nat, month: nat, year: nat, hour: nat, minute: nat)

  function ReadNumber(s: string): Option<nat> {
    if s != [] && Numbers.AllDigits(s) then Some(Numbers.DigitsValue(s)) else None
  }

  /** Reads `D/M/YYYY H:MM` back, insisting on two minute digits. */
  function ParseShownDate(s: string): Option<ShownDate> {
    match SplitFirst(s, '/')
    case None => None
    case Some((d, r1)) =>
      match SplitFirst(r1, '/')
      case None => None
      case Some((m, r2)) =>
        match SplitFirst(r2, ' ')
        case None => None
        case Some((y, r3)) =>
          match SplitFirst(r3, ':')
          case None => None
          case Some((h, mm)) =>
            if |mm| != 2 then None
            else match (ReadNumber(d), ReadNumber(m), ReadNumber(y), ReadNumber(h), ReadNumber(mm))
              case (Some(dv), Some(mv), Some(yv), Some(hv), Some(mnv)) => Some(ShownDate(dv, mv, yv, hv, mnv))
              case _ => None
  }

  lemma DigitsHaveNoSeparator(n: nat)
    ensures var s := Numbers.NatToString(n); '/' !in s && ' ' !in s && ':' !in s
  {
    var s := Numbers.NatToString(n);
    assert Numbers.AllDigits(s);
  }

  lemma ReadNumberOfNat(n: nat)
    ensures ReadNumber(Numbers.NatToString(n)) == Some(n)
  {
    Numbers.DigitsValueOfNatToString(n);
  }

  /** Everything `formatDate` prints can be read back: the day, the 1-based
      month, the year and the hour unpadded, and the minute as exactly two
      digits. */
  lemma FormatDateReadsBack(t: DateTime)
    requires t.minute < 60
    ensures ParseShownDate(FormatDate(t)) == Some(ShownDate(t.day, t.month0 + 1, t.year, t.hour, t.minute))
  {
    DigitsHaveNoSeparator(t.day);
    DigitsHaveNoSeparator(t.month0 + 1);
    DigitsHaveNoSeparator(t.year);
    DigitsHaveNoSeparator(t.hour);
    ReadNumberOfNat(t.day);
    ReadNumberOfNat(t.month0 + 1);
    ReadNumberOfNat(t.year);
    ReadNumberOfNat(t.hour);
    ShownFieldsReadBack(Numbers.NatToString(t.day), Numbers.NatToString(t.month0 + 1),
                        Numbers.NatToString(t.year), Numbers.NatToString(t.hour), Numbers.Pad2(t.minute),
                        ShownDate(t.day, t.month0 + 1, t.year, t.hour, t.minute));
  }

  /** Fields free of the separators, each readable as a number, are read
      back from `D/M/YYYY H:MM` in their places. */
  lemma ShownFieldsReadBack(d: string, m: string, y: string, h: string, mm: string, v: ShownDate)
    requires '/' !in d && '/' !in m && ' ' !in y && ':' !in h && |mm| == 2
    requires ReadNumber(d) == Some(v.day) && ReadNumber(m) == Some(v.month)
    requires ReadNumber(y) == Some(v.year) && ReadNumber(h) == Some(v.hour)
    requires ReadNumber(mm) == Some(v.minute)
    ensures ParseShownDate(d + "/" + m + "/" + y + " " + h + ":" + mm) == Some(v)
  {
    var s := d + "/" + m + "/" + y + " " + h + ":" + mm;
    assert s == d + ['/'] + (m + ['/'] + (y + [' '] + (h + [':'] + mm)));
    SplitFirstAt(d, '/', m + ['/'] + (y + [' '] + (h + [':'] + mm)));
    SplitFirstAt(m, '/', y + [' '] + (h + [':'] + mm));
    SplitFirstAt(y, ' ', h + [':'] + mm);
    SplitFirstAt(h, ':', mm);
  }

}

=== FILE: image_modal.dfy ===
/** The image preview slice `src/renderer/src/store/slices/imageModal.ts`:
    open with the image it shows, or closed and cleared. */
module ImageModal {
  import opened Wrappers

  datatype State = State(open: bool, image: string)

  const Initial: State := State(false, "")

  /** `showImageModal` with a possibly missing payload, and `hideImageModal`. */
  datatype Action = Show(payload: Option<string>) | Hide

  function Reduce(s: State, a: Action): (r: State)
    ensures a.Show? ==> r.open && r.image == a.payload.GetOr("")
    ensures a.Hide? ==> r == Initial
  {
    match a
    case Show(p) => State(true, if p.Some? && p.value != "" then p.value else "")
    case Hide => State(false, "")
  }

  /** A closed preview holds no image. */
  predicate Cleared(s: State) {
    !s.open ==> s.image == ""
  }

  function Replay(actions: seq<Action>): State
    decreases |actions|
  {
    if actions == [] then Initial else Reduce(Replay(actions[..|actions| - 1]), actions[|actions| - 1])
  }

  /** Whatever has been dispatched, a closed preview shows no image, and the
      preview is open exactly when the last action was a show. */
  lemma ReplayKeepsCleared(actions: seq<Action>)
    ensures Cleared(Replay(actions))
    ensures Replay(actions).open <==> actions != [] && actions[|actions| - 1].Show?
  {
  }

  lemma HideUndoesShow(s: State, p: Option<string>)
    ensures Reduce(Reduce(s, Show(p)), Hide) == Initial
  {
  }
}

=== FILE: inventory_page.dfy ===
/** The inventory page `src/renderer/src/pages/Reports/InventoryReport.tsx`:
    the name search over the fetched rows, the low-stock switch, the status
    icons and colours and the "showing x to y of total" footer. */
module InventoryPage {
  import opened Wrappers
  import opened Tables
  import Text
  import Paging
  import Schema
  import Reports

  /** The page size of the footer. */
  const PageSize := 10

  function NameMatches(term: string): Reports.InventoryRow -> bool {
    (r: Reports.InventoryRow) => Text.IncludesIgnoreCase(r.name, term)
  }

  /** The search: the product name contains the term, ignoring case. The
      second test reads `product.category`, a field the rows do not have
      (they carry `category_name`), so it never matches. */
  function Search(rows: seq<Reports.InventoryRow>, term: string): (r: seq<Reports.InventoryRow>)
    ensures forall k :: 0 <= k < |r| ==> r[k] in rows && Text.IncludesIgnoreCase(r[k].name, term)
    ensures forall k :: 0 <= k < |rows| && Text.IncludesIgnoreCase(rows[k].name, term) ==> rows[k] in r
  {
    Where(rows, NameMatches(term))
  }

  /** An empty search shows every fetched row. */
  lemma EmptySearchKeepsRows(rows: seq<Reports.InventoryRow>)
    ensures Search(rows, "") == rows
  {
    forall k | 0 <= k < |rows|
      ensures NameMatches("")(rows[k])
    {
      Text.ContainsEmpty(Text.ToLower(rows[k].name));
    }
    WhereAllRows(rows, NameMatches(""));
  }

  /** The request the page sends, `inventory({ page })`: the switch's state
      is not part of it. */
  function Fetch(page: int, showLowStockOnly: bool): Reports.InventoryArgs {
    Reports.InventoryArgs(Some(page), None, None)
  }

  /** As written the low-stock switch changes nothing that is fetched: the
      report is the same with the switch on or off. */
  lemma SwitchIsIgnored(items: seq<Item>, categories: seq<Category>, settings: seq<Schema.Setting>, page: int)
    ensures Reports.GetInventory(items, categories, settings, Fetch(page, true))
            == Reports.GetInventory(items, categories, settings, Fetch(page, false))
    ensures Fetch(page, true).lowStockOnly.None?
  {
  }

  /** The request with the switch passed on as `lowStockOnly`. */
  function FetchFixed(page: int, showLowStockOnly: bool): (a: Reports.InventoryArgs)
    ensures Reports.LowOnly(a) == showLowStockOnly && Reports.PageOf(a) == page
  {
    Reports.InventoryArgs(Some(page), None, Some(showLowStockOnly))
  }

  /** With the switch passed on, every row listed while it is on is at or
      under the threshold, so none shows as available when the threshold is
      not negative. */
  lemma FixedSwitchListsLowStock(items: seq<Item>, categories: seq<Category>, settings: seq<Schema.Setting>,
                                 page: int, k: nat)
    requires Reports.GetInventory(items, categories, settings, FetchFixed(page, true)).Ok?
    requires k < |Reports.GetInventory(items, categories, settings, FetchFixed(page, true)).value.products|
    ensures var w := Reports.WarningOf(settings).value;
            var row := Reports.GetInventory(items, categories, settings, FetchFixed(page, true)).value.products[k];
            row.stockQuantity <= w && (w >= 0 && row.stockQuantity >= 0 ==> row.status != Reports.InStock)
  {
    var w := Reports.WarningOf(settings).value;
    var row := Reports.GetInventory(items, categories, settings, FetchFixed(page, true)).value.products[k];
    var i :| i in Reports.Selection(items, w, true) && row == Reports.RowOf(i, w, categories);
    if w >= 0 && row.stockQuantity >= 0 {
      Reports.ClassifyAgreesWithFilter(row.stockQuantity, row.stockQuantity, w);
    }
  }

  datatype Icon = XCircle | AlertTriangle | CheckCircle | Activity

  /** `getStockStatusIcon`. */
  function StatusIcon(status: string): (i: Icon)
    ensures i == Activity <==> Reports.ParseStatus(status).None?
  {
    match Reports.ParseStatus(status)
    case Some(OutOfStock) => XCircle
    case Some(LowStock) => AlertTriangle
    case Some(InStock) => CheckCircle
    case None => Activity
  }

  const Red := "bg-red-100 text-red-800"
  const Yellow := "bg-yellow-100 text-yellow-800"
  const Green := "bg-green-100 text-green-800"
  const Gray := "bg-gray-100 text-gray-800"

  /** `getStockStatusColor`. */
  function StatusColour(status: string): (c: string)
    ensures c == Gray <==> Reports.ParseStatus(status).None?
  {
    match Reports.ParseStatus(status)
    case Some(OutOfStock) => Red
    case Some(LowStock) => Yellow
    case Some(InStock) => Green
    case None => Gray
  }

  /** The three statuses get three different icons and three different
      colours, and a status text is told apart from unknown text. */
  lemma StatusesLookDifferent(a: Reports.StockStatus, b: Reports.StockStatus)
    ensures a != b ==> StatusIcon(Reports.StatusText(a)) != StatusIcon(Reports.StatusText(b))
    ensures a != b ==> StatusColour(Reports.StatusText(a)) != StatusColour(Reports.StatusText(b))
    ensures StatusIcon(Reports.StatusText(a)) != Activity
  {
    Reports.StatusTextRoundTrip(a);
    Reports.StatusTextRoundTrip(b);
  }

  /** The colour of the quantity cell as written: red at zero, yellow at or
      under `product.min_stock_level`, green otherwise. The rows carry no
      such field, and a comparison with `undefined` is false. */
  function QuantityColour(quantity: int, minStockLevel: Option<int>): string {
    if quantity == 0 then "text-red-600"
    else if minStockLevel.Some? && quantity <= minStockLevel.value then "text-yellow-600"
    else "text-green-600"
  }

  /** As written a low row's quantity is green next to its yellow "low"
      badge. */
  lemma LowQuantityShownGreen(row: Reports.InventoryRow, warning: int)
    requires row.status == Reports.Classify(row.stockQuantity, warning)
    requires row.status == Reports.LowStock
    ensures QuantityColour(row.stockQuantity, None) == "text-green-600"
    ensures StatusColour(Reports.StatusText(row.status)) == Yellow
  {
    Reports.StatusTextRoundTrip(row.status);
  }

  /** The quantity colour following the row's own status. */
  function QuantityColourFixed(row: Reports.InventoryRow): (c: string)
    ensures c == "text-red-600" <==> row.status == Reports.OutOfStock
    ensures c == "text-yellow-600" <==> row.status == Reports.LowStock
    ensures c == "text-green-600" <==> row.status == Reports.InStock
  {
    match row.status
    case OutOfStock => "text-red-600"
    case LowStock => "text-yellow-600"
    case InStock => "text-green-600"
  }

  /** A listing row's status is its quantity classified by the threshold,
      so the fixed colour is red exactly at zero, as written. */
  lemma FixedColourAgreesAtZero(row: Reports.InventoryRow, warning: int)
    requires row.status == Reports.Classify(row.stockQuantity, warning)
    ensures QuantityColourFixed(row) == "text-red-600" <==> QuantityColour(row.stockQuantity, None) == "text-red-600"
  {
  }

  /** A fetched page with its footer: `Math.min((page - 1) * 10 + 1, total)`
      to `Math.min(page * 10, total)`. */
  function Footer(page: int, total: int): (int, int) {
    Paging.ShownRange(page, PageSize, total)
  }

  /** `LIMIT size OFFSET (page - 1) * size` is the client-side page slice. */
  lemma LimitOffsetIsPage<T>(rows: seq<T>, page: nat, size: nat)
    requires page >= 1 && size > 0
    ensures Paging.LimitOffset(rows, size, Paging.Offset(page, size)) == Paging.Page(rows, page, size)
  {
    Paging.MulMonotone(0, page - 1, size);
    var start: nat := (page - 1) * size;
    assert Paging.Offset(page, size) == start;
    assert Paging.LimitOffset(rows, size, start) == Paging.Slice(rows, start, start + size);
  }

  /** With the count taken over the selected rows, the footer of any page
      the count announces numbers exactly the rows that page lists. */
  lemma FooterCountsFixedListing(items: seq<Item>, categories: seq<Category>, settings: seq<Schema.Setting>,
                                 page: nat, showLowStockOnly: bool)
    requires Reports.GetInventoryFixed(items, categories, settings, FetchFixed(page, showLowStockOnly)).Ok?
    requires var r := Reports.GetInventoryFixed(items, categories, settings, FetchFixed(page, showLowStockOnly)).value;
             1 <= page <= Paging.TotalPages(r.count, PageSize)
    ensures var r := Reports.GetInventoryFixed(items, categories, settings, FetchFixed(page, showLowStockOnly)).value;
            Footer(page, r.count).1 - Footer(page, r.count).0 + 1 == |r.products|
  {
    var w := Reports.WarningOf(settings).value;
    var sorted := Reports.Ordered(items, w, showLowStockOnly);
    LimitOffsetIsPage(sorted, page, PageSize);
    Paging.ShownRangeCountsPage(sorted, page, PageSize);
  }
}

=== FILE: invoice_browser.dfy ===
/** The invoice browser of
    `src/renderer/src/pages/Invoice/components/data-table.component.tsx`. */
module InvoiceBrowser {
  // It shows one saved invoice at a time, steps backwards and forwards
  // through the filtered list with the `beforeInvoice` and `afterInvoice`
  // handlers, totals the shown lines with an absolute invoice discount, and
  // lets the cashier switch the shown invoice to cash.
  //
  // Each asynchronous handler runs to completion before the next event, so a
  // step is one state-to-state function taking the tables it queries.

  import opened Wrappers
  import opened Tables
  import Invoices
  import InvoicePage

  /** A shown line, mapped from the handler's joined row. */
  datatype BrowseLine = BrowseLine(id: int, name: string, quantity: int, price: int, discount: int)

  datatype BrowseDetails = BrowseDetails(customerName: string, customerPhone: string, paymentType: string, invoiceDiscount: int)

  const CashText: string := "خالص"

  const DefaultDetails: BrowseDetails := BrowseDetails("", "", CashText, 0)

  /** The page's navigation state: `beforeId` and `afterId` are the bounds
      the next step passes (`undefined`/`null` is `None`); the shown
      invoice is the one whose id they hold. */
  datatype BrowseState = BrowseState(
    lines: seq<BrowseLine>,
    details: BrowseDetails,
    beforeId: Option<int>,
    afterId: Option<int>,
    canGoBefore: bool,
    canGoAfter: bool,
    isLoading: bool,
    currentId: Option<int>,
    filter: Invoices.NavFilter)

  const NoFilter: Invoices.NavFilter := Invoices.NavFilter(None, None, "")

  /** The state before the first load: stepping back is offered, stepping
      forward is not. */
  const InitialState: BrowseState :=
    BrowseState([], DefaultDetails, None, None, true, false, false, None, NoFilter)

  /** `calculateRowTotal`: gross amount less the line's discount. */
  function RowTotal(l: BrowseLine): int {
    l.quantity * l.price - l.discount
  }

  /** `products.reduce((sum, p) => sum + calculateRowTotal(p), 0)`. */
  function Total(lines: seq<BrowseLine>): int {
    if lines == [] then 0 else Total(lines[..|lines| - 1]) + RowTotal(lines[|lines| - 1])
  }

  /** `netTotal`: the invoice discount is taken off as an amount. */
  function NetTotal(lines: seq<BrowseLine>, invoiceDiscount: int): (n: int)
    ensures n + invoiceDiscount == Total(lines)
  {
    Total(lines) - invoiceDiscount
  }

  /** A `||` default for text: the empty string falls back. */
  function OrDefault(s: string, default: string): (r: string)
    ensures s != "" ==> r == s
    ensures s == "" ==> r == default
  {
    if s != "" then s else default
  }

  /** `data.items.map(p => ({ id: p.itemId, name, quantity, price: p.pricePerUnit, discount }))`. */
  function ToBrowseLines(items: seq<Invoices.ShownLine>): (r: seq<BrowseLine>)
    ensures |r| == |items|
    ensures forall k :: 0 <= k < |items| ==>
      r[k] == BrowseLine(items[k].line.itemId, items[k].name, items[k].line.quantity,
                         items[k].line.pricePerUnit, items[k].line.discount)
  {
    seq(|items|, k requires 0 <= k < |items| =>
      BrowseLine(items[k].line.itemId, items[k].name, items[k].line.quantity,
                 items[k].line.pricePerUnit, items[k].line.discount))
  }

  /** `updateInvoiceUI`: no data clears the page and offers no step in
      either direction; data shows the invoice, makes its id both step
      bounds, and keeps the step flags. */
  function UpdateInvoiceUI(s: BrowseState, data: Option<Invoices.Shown>): (r: BrowseState)
    ensures r.filter == s.filter && r.currentId == s.currentId && r.isLoading == s.isLoading
    ensures data.None? ==>
      r.details == DefaultDetails && r.lines == [] && r.beforeId.None? && r.afterId.None?
      && !r.canGoBefore && !r.canGoAfter
    ensures data.Some? ==>
      var inv := data.value.invoice;
      r.beforeId == Some(inv.id) && r.afterId == Some(inv.id)
      && r.canGoBefore == s.canGoBefore && r.canGoAfter == s.canGoAfter
      && r.lines == ToBrowseLines(data.value.items)
      && r.details.invoiceDiscount == inv.discount
      && r.details.customerName == inv.customerName && r.details.customerPhone == inv.customerPhone
      && (inv.paymentType != "" ==> r.details.paymentType == inv.paymentType)
      && (inv.paymentType == "" ==> r.details.paymentType == CashText)
  {
    match data
    case None => s.(details := DefaultDetails, lines := [], beforeId := None, afterId := None,
                    canGoBefore := false, canGoAfter := false)
    case Some(x) =>
      var inv := x.invoice;
      s.(beforeId := Some(inv.id), afterId := Some(inv.id),
         details := BrowseDetails(OrDefault(inv.customerName, ""), OrDefault(inv.customerPhone, ""),
                                  OrDefault(inv.paymentType, CashText), inv.discount),
         lines := ToBrowseLines(x.items))
  }

  /** `result.payload.data`: a failed request reads as no data. */
  function Data(r: Result<Option<Invoices.Shown>>): (d: Option<Invoices.Shown>)
    ensures d.Some? <==> r.Ok? && r.value.Some?
    ensures d.Some? ==> d.value == r.value.value
  {
    if r.Ok? then r.value else None
  }

  /** `fetchFirstInvoice`: the newest matching invoice over every day, then
      whether anything follows it. */
  function FetchFirst(s: BrowseState, db: Invoices.Db): (r: BrowseState)
    ensures r.filter == s.filter && !r.isLoading
    ensures Data(Invoices.BeforeInvoice(db, None, s.filter, true)).None? ==>
      r.lines == [] && r.currentId == s.currentId && !r.canGoBefore && !r.canGoAfter
    ensures Data(Invoices.BeforeInvoice(db, None, s.filter, true)).Some? ==>
      var inv := Data(Invoices.BeforeInvoice(db, None, s.filter, true)).value.invoice;
      r.currentId == Some(inv.id) && r.beforeId == Some(inv.id) && r.canGoBefore == s.canGoBefore
      && (r.canGoAfter <==> Data(Invoices.AfterInvoice(db, Some(inv.id), s.filter)).Some?)
  {
    match Data(Invoices.BeforeInvoice(db, None, s.filter, true))
    case None => UpdateInvoiceUI(s, None).(isLoading := false)
    case Some(x) =>
      var id := x.invoice.id;
      UpdateInvoiceUI(s, Some(x)).(currentId := Some(id),
        canGoAfter := Data(Invoices.AfterInvoice(db, Some(id), s.filter)).Some?, isLoading := false)
  }

  /** The filter effect's first half: drop both bounds, offer a step back
      and no step forward. */
  function ResetNavigation(s: BrowseState, f: Invoices.NavFilter): (r: BrowseState)
    ensures r.filter == f && r.beforeId.None? && r.afterId.None? && r.canGoBefore && !r.canGoAfter
    ensures r.lines == s.lines && r.details == s.details && r.currentId == s.currentId
  {
    s.(filter := f, beforeId := None, afterId := None, canGoBefore := true, canGoAfter := false)
  }

  /** A filter change: reset the navigation, then fetch the first
      invoice. Whatever the previous state, a found invoice becomes current
      with a step back offered; finding none offers no step at all. */
  function ChangeFilter(s: BrowseState, f: Invoices.NavFilter, db: Invoices.Db): (r: BrowseState)
    ensures r.filter == f && !r.isLoading
    ensures Data(Invoices.BeforeInvoice(db, None, f, true)).None? ==>
      r.lines == [] && r.details == DefaultDetails && !r.canGoBefore && !r.canGoAfter
    ensures Data(Invoices.BeforeInvoice(db, None, f, true)).Some? ==>
      var inv := Data(Invoices.BeforeInvoice(db, None, f, true)).value.invoice;
      r.currentId == Some(inv.id) && r.beforeId == Some(inv.id) && r.afterId == Some(inv.id) && r.canGoBefore
      && (r.canGoAfter <==> Data(Invoices.AfterInvoice(db, Some(inv.id), f)).Some?)
  {
    FetchFirst(ResetNavigation(s, f), db)
  }

  /** `handleClearFilters`: every filter back to empty. */
  function ClearFilters(s: BrowseState): (r: BrowseState)
    ensures r.filter.from.None? && r.filter.to.None? && r.filter.invoiceType == ""
    ensures r.lines == s.lines && r.details == s.details && r.currentId == s.currentId
  {
    s.(filter := NoFilter)
  }

  /** `previous`: a no-op unless a step back is offered and nothing is
      loading; otherwise the invoice before the current bound is shown and
      a step forward is offered. As written, the current invoice id is
      left as it was. */
  function Previous(s: BrowseState, db: Invoices.Db): (r: BrowseState)
    ensures !s.canGoBefore || s.isLoading ==> r == s
    ensures r.currentId == s.currentId && r.filter == s.filter
    ensures s.canGoBefore && !s.isLoading ==>
      var d := Data(Invoices.BeforeInvoice(db, s.beforeId, s.filter, true));
      (d.None? ==> r == s.(canGoBefore := false))
      && (d.Some? ==> r.beforeId == Some(d.value.invoice.id) && r.canGoAfter
                      && (r.canGoBefore <==> Data(Invoices.BeforeInvoice(db, Some(d.value.invoice.id), s.filter, true)).Some?))
  {
    if !s.canGoBefore || s.isLoading then s
    else
      match Data(Invoices.BeforeInvoice(db, s.beforeId, s.filter, true))
      case None => s.(canGoBefore := false)
      case Some(x) =>
        var id := x.invoice.id;
        UpdateInvoiceUI(s, Some(x)).(canGoAfter := true,
          canGoBefore := Data(Invoices.BeforeInvoice(db, Some(id), s.filter, true)).Some?)
  }

  /** `after`: a no-op unless a step forward is offered and nothing is
      loading; otherwise the open day's invoice after the current bound is
      shown, becomes the current invoice, and a step back is offered. */
  function After(s: BrowseState, db: Invoices.Db): (r: BrowseState)
    ensures !s.canGoAfter || s.isLoading ==> r == s
    ensures r.filter == s.filter
    ensures s.canGoAfter && !s.isLoading ==>
      var d := Data(Invoices.AfterInvoice(db, s.afterId, s.filter));
      (d.None? ==> r == s.(canGoAfter := false))
      && (d.Some? ==> r.afterId == Some(d.value.invoice.id) && r.currentId == Some(d.value.invoice.id)
                      && r.canGoBefore
                      && (r.canGoAfter <==> Data(Invoices.AfterInvoice(db, Some(d.value.invoice.id), s.filter)).Some?))
  {
    if !s.canGoAfter || s.isLoading then s
    else
      match Data(Invoices.AfterInvoice(db, s.afterId, s.filter))
      case None => s.(canGoAfter := false)
      case Some(x) =>
        var id := x.invoice.id;
        UpdateInvoiceUI(s, Some(x)).(canGoBefore := true, currentId := Some(id),
          canGoAfter := Data(Invoices.AfterInvoice(db, Some(id), s.filter)).Some?)
  }

  /** Stepping back shows an invoice with a smaller id than the one shown
      before, and stepping forward one with a larger id. */
  lemma StepsMoveMonotonically(s: BrowseState, db: Invoices.Db)
    requires s.beforeId.Some? && s.beforeId.value != 0 && s.afterId == s.beforeId
    ensures var r := Previous(s, db);
            r.beforeId.Some? && r.beforeId != s.beforeId ==> r.beforeId.value < s.beforeId.value
    ensures var r := After(s, db);
            r.afterId.Some? && r.afterId != s.afterId ==> r.afterId.value > s.afterId.value
  {
  }

  /** A payment radio: only choosing cash changes the shown type and
      updates the current invoice's row; the other choices do nothing. */
  function PaymentRadio(s: BrowseState, invoices: seq<Invoice>, choice: string): (r: (BrowseState, seq<Invoice>))
    ensures choice != CashText ==> r == (s, invoices)
    ensures choice == CashText ==>
      r.0 == s.(details := s.details.(paymentType := CashText))
      && |r.1| == |invoices|
      && forall k :: 0 <= k < |invoices| ==>
           r.1[k] == if s.currentId == Some(invoices[k].id) then invoices[k].(paymentType := CashText) else invoices[k]
  {
    if choice != CashText then (s, invoices)
    else
      var updated := match s.currentId
        case None => invoices
        case Some(c) => Invoices.UpdateInvoice(invoices, c, CashText).value;
      (s.(details := s.details.(paymentType := CashText)), updated)
  }

  /** As written, stepping back does not move the current invoice id: once
      the first load has made the shown invoice current, a step back shows
      another invoice, and the cash radio then rewrites the row the cashier
      is no longer looking at while the shown row keeps its type. */
  lemma CashRadioAfterPreviousHitsHiddenInvoice(s: BrowseState, db: Invoices.Db)
    requires s.canGoBefore && !s.isLoading
    requires s.beforeId.Some? && s.beforeId.value != 0 && s.currentId == s.beforeId
    requires Data(Invoices.BeforeInvoice(db, s.beforeId, s.filter, true)).Some?
    ensures var shown := Data(Invoices.BeforeInvoice(db, s.beforeId, s.filter, true)).value.invoice;
            var r := PaymentRadio(Previous(s, db), db.invoices, CashText);
            Previous(s, db).beforeId == Some(shown.id)
            && Previous(s, db).currentId != Some(shown.id)
            && forall k :: 0 <= k < |db.invoices| && db.invoices[k].id == shown.id ==> r.1[k] == db.invoices[k]
  {
  }

  /** `previous` with the current id moved to the shown invoice, as `after`
      already does. */
  function PreviousFixed(s: BrowseState, db: Invoices.Db): (r: BrowseState)
    ensures !s.canGoBefore || s.isLoading ==> r == s
    ensures r.filter == s.filter
    ensures s.canGoBefore && !s.isLoading ==>
      var d := Data(Invoices.BeforeInvoice(db, s.beforeId, s.filter, true));
      (d.None? ==> r == s.(canGoBefore := false))
      && (d.Some? ==> r.beforeId == Some(d.value.invoice.id) && r.currentId == Some(d.value.invoice.id) && r.canGoAfter)
  {
    if !s.canGoBefore || s.isLoading then s
    else
      match Data(Invoices.BeforeInvoice(db, s.beforeId, s.filter, true))
      case None => s.(canGoBefore := false)
      case Some(x) =>
        var id := x.invoice.id;
        UpdateInvoiceUI(s, Some(x)).(canGoAfter := true, currentId := Some(id),
          canGoBefore := Data(Invoices.BeforeInvoice(db, Some(id), s.filter, true)).Some?)
  }

  /** With the fix, the cash radio after a step back rewrites exactly the
      shown invoice's rows. */
  lemma CashRadioAfterPreviousFixedHitsShownInvoice(s: BrowseState, db: Invoices.Db)
    requires s.canGoBefore && !s.isLoading
    requires s.beforeId.Some? && s.beforeId.value != 0
    requires Data(Invoices.BeforeInvoice(db, s.beforeId, s.filter, true)).Some?
    ensures var shown := Data(Invoices.BeforeInvoice(db, s.beforeId, s.filter, true)).value.invoice;
            var r := PaymentRadio(PreviousFixed(s, db), db.invoices, CashText);
            forall k :: 0 <= k < |db.invoices| ==>
              (r.1[k] != db.invoices[k] ==> db.invoices[k].id == shown.id)
              && (db.invoices[k].id == shown.id ==> r.1[k].paymentType == CashText)
  {
  }

  /** The lines a saved cart comes back as: every line stored from the
      create page's payload (discount 0) and joined with some name. */
  predicate SavedFrom(shown: seq<Invoices.ShownLine>, cart: seq<InvoicePage.CartLine>, invoiceId: int) {
    |shown| == |cart|
    && forall k :: 0 <= k < |cart| ==>
         shown[k].line == Invoices.StoredLine(invoiceId, Invoices.LineInput(cart[k].id, cart[k].quantity, cart[k].price, 0))
  }

  /** The browser's line total of a saved cart is the create page's
      subtotal. */
  lemma {:induction false} SavedTotalIsSubtotal(shown: seq<Invoices.ShownLine>, cart: seq<InvoicePage.CartLine>, invoiceId: int)
    requires SavedFrom(shown, cart, invoiceId)
    ensures Total(ToBrowseLines(shown)) == InvoicePage.Subtotal(cart)
    decreases |cart|
  {
    if cart != [] {
      var n := |cart| - 1;
      assert SavedFrom(shown[..n], cart[..n], invoiceId);
      SavedTotalIsSubtotal(shown[..n], cart[..n], invoiceId);
      assert ToBrowseLines(shown)[..n] == ToBrowseLines(shown[..n]);
    }
  }

  /** As written, the saved discount (a percentage on the create page) is
      subtracted as an amount: one line of 200 at 10% nets 180 when saved
      and 190 when browsed. */
  lemma DiscountReadAsAmount()
    ensures var cart := [InvoicePage.CartLine(7, "x", 200, 1, 5, "")];
            var shown := [Invoices.ShownLine(Invoices.StoredLine(1, Invoices.LineInput(7, 1, 200, 0)), "x")];
            SavedFrom(shown, cart, 1)
            && InvoicePage.Summarize(cart, 10.0).total == 180.0
            && NetTotal(ToBrowseLines(shown), 10) == 190
  {
    var cart := [InvoicePage.CartLine(7, "x", 200, 1, 5, "")];
    var shown := [Invoices.ShownLine(Invoices.StoredLine(1, Invoices.LineInput(7, 1, 200, 0)), "x")];
    assert InvoicePage.Subtotal(cart) == 200 by {
      assert cart[..0] == [];
    }
    assert Total(ToBrowseLines(shown)) == 200 by {
      assert ToBrowseLines(shown)[..0] == [];
    }
  }

  /** The net total with the invoice discount read as the percentage the
      create page saved. */
  function NetTotalFixed(lines: seq<BrowseLine>, invoiceDiscount: real): (n: real)
    ensures (Total(lines) as real - n) * 100.0 == Total(lines) as real * invoiceDiscount
  {
    Total(lines) as real - Total(lines) as real * invoiceDiscount / 100.0
  }

  /** With the fix, browsing a saved invoice shows the net total the create
      page saved. */
  lemma FixedNetMatchesCreatePage(shown: seq<Invoices.ShownLine>, cart: seq<InvoicePage.CartLine>, invoiceId: int,
                                  discount: real)
    requires SavedFrom(shown, cart, invoiceId)
    ensures NetTotalFixed(ToBrowseLines(shown), discount) == InvoicePage.Summarize(cart, discount).total
  {
    SavedTotalIsSubtotal(shown, cart, invoiceId);
  }
}

=== FILE: invoice_draft.dfy ===
/** The earlier invoice-entry draft `src/renderer/src/pages/Invoice/create-invoicePage.jsx`:
    lines are typed by name with a fixed price, edited by id, and totalled
    with per-line and absolute invoice discounts. `Date.now()` (the new
    line's id) is a parameter. */
module InvoiceDraft {
  import Text
  import Numbers

  datatype DraftLine = DraftLine(id: int, name: string, quantity: int, price: int, discount: int)

  /** The fields the line inputs edit. */
  datatype DraftField = Quantity | Price | Discount

  const DefaultPrice: int := 100

  /** `calculateRowTotal`. */
  function RowTotal(l: DraftLine): int {
    l.quantity * l.price - l.discount
  }

  /** The sum of the row totals. */
  function Total(lines: seq<DraftLine>): int {
    if lines == [] then 0 else RowTotal(lines[0]) + Total(lines[1..])
  }

  /** `netTotal`: the invoice discount is an amount. */
  function NetTotal(lines: seq<DraftLine>, invoiceDiscount: int): (n: int)
    ensures n + invoiceDiscount == Total(lines)
  {
    Total(lines) - invoiceDiscount
  }

  lemma {:induction false} TotalAppend(a: seq<DraftLine>, b: seq<DraftLine>)
    ensures Total(a + b) == Total(a) + Total(b)
    decreases |a|
  {
    if a == [] {
      assert a + b == b;
    } else {
      assert (a + b)[1..] == a[1..] + b;
      TotalAppend(a[1..], b);
    }
  }

  /** `addProduct`: blank text is ignored; otherwise one line named by the
      text (untrimmed) with quantity 1, price 100 and no discount is
      appended and the text is cleared. */
  function AddProduct(lines: seq<DraftLine>, search: string, now: int): (r: (seq<DraftLine>, string))
    ensures Text.IsBlank(search) ==> r == (lines, search)
    ensures !Text.IsBlank(search) ==>
      r.1 == "" && |r.0| == |lines| + 1 && r.0[..|lines|] == lines
      && r.0[|lines|] == DraftLine(now, search, 1, DefaultPrice, 0)
  {
    Text.TrimEmptyIffBlank(search);
    if Text.Trim(search) == [] then (lines, search)
    else (lines + [DraftLine(now, search, 1, DefaultPrice, 0)], "")
  }

  /** Every added line raises the total by exactly the fixed price. */
  lemma AddProductRaisesTotal(lines: seq<DraftLine>, search: string, now: int)
    requires !Text.IsBlank(search)
    ensures Total(AddProduct(lines, search, now).0) == Total(lines) + DefaultPrice
  {
    var l := DraftLine(now, search, 1, DefaultPrice, 0);
    TotalAppend(lines, [l]);
    assert [l][1..] == [];
  }

  function SetField(l: DraftLine, field: DraftField, v: int): DraftLine {
    match field
    case Quantity => l.(quantity := v)
    case Price => l.(price := v)
    case Discount => l.(discount := v)
  }

  /** `updateProduct`: on every line with that id, the field becomes
      `Number(value)`, or 0 when that is NaN or 0; other lines are
      untouched. */
  function UpdateProduct(lines: seq<DraftLine>, id: int, field: DraftField, value: string): (r: seq<DraftLine>)
    ensures |r| == |lines|
    ensures forall k :: 0 <= k < |lines| && lines[k].id != id ==> r[k] == lines[k]
    ensures forall k :: 0 <= k < |lines| && lines[k].id == id ==>
      r[k] == SetField(lines[k], field, Numbers.NumberOrZero(value))
  {
    seq(|lines|, k requires 0 <= k < |lines| =>
      if lines[k].id == id then SetField(lines[k], field, Numbers.NumberOrZero(value)) else lines[k])
  }

  /** `Number("abc")` is NaN. */
  lemma LettersAreNotANumber()
    ensures Numbers.ToNumber("abc").None?
  {
    var s := "abc";
    assert Text.TrimStart(s) == s by {
      assert !Text.IsSpace(s[0]);
    }
    assert Text.TrimEnd(s) == s by {
      assert !Text.IsSpace(s[2]);
    }
    assert !Numbers.IsDigit(s[0]);
  }

  /** Text that is not a number sets the field to 0. */
  lemma UpdateWithTextIsZero(lines: seq<DraftLine>, id: int, field: DraftField)
    ensures forall k :: 0 <= k < |lines| && lines[k].id == id ==>
      UpdateProduct(lines, id, field, "abc")[k] == SetField(lines[k], field, 0)
  {
    LettersAreNotANumber();
    assert Numbers.NumberOrZero("abc") == 0;
  }

  /** The amount the lines with one id contribute. */
  function TotalWithId(lines: seq<DraftLine>, id: int): int {
    if lines == [] then 0 else (if lines[0].id == id then RowTotal(lines[0]) else 0) + TotalWithId(lines[1..], id)
  }

  /** `removeProduct`: `filter(p => p.id !== id)`. */
  function RemoveProduct(lines: seq<DraftLine>, id: int): (r: seq<DraftLine>)
    ensures |r| <= |lines|
    ensures forall k :: 0 <= k < |r| ==> r[k].id != id && r[k] in lines
    ensures forall k :: 0 <= k < |lines| && lines[k].id != id ==> lines[k] in r
    ensures Total(r) == Total(lines) - TotalWithId(lines, id)
  {
    if lines == [] then []
    else if lines[0].id == id then RemoveProduct(lines[1..], id)
    else [lines[0]] + RemoveProduct(lines[1..], id)
  }

  /** Removing an id twice is the same as removing it once. */
  lemma {:induction false} RemoveProductIdempotent(lines: seq<DraftLine>, id: int)
    ensures RemoveProduct(RemoveProduct(lines, id), id) == RemoveProduct(lines, id)
    decreases |lines|
  {
    if lines != [] {
      RemoveProductIdempotent(lines[1..], id);
      if lines[0].id != id {
        var rest := RemoveProduct(lines[1..], id);
        assert ([lines[0]] + rest)[1..] == rest;
      }
    }
  }

  /** The submitted draft: details, lines and both totals. */
  datatype Submitted = Submitted(lines: seq<DraftLine>, invoiceDiscount: int, total: int, netTotal: int)

  /** `handleSubmit`: the totals shown are the totals submitted. */
  function Submit(lines: seq<DraftLine>, invoiceDiscount: int): (r: Submitted)
    ensures r.lines == lines && r.invoiceDiscount == invoiceDiscount
    ensures r.total == Total(lines) && r.netTotal + invoiceDiscount == r.total
  {
    Submitted(lines, invoiceDiscount, Total(lines), NetTotal(lines, invoiceDiscount))
  }
}

=== FILE: invoice_filters.dfy ===
/** The browser's filter bar `src/renderer/src/pages/Invoice/components/filterSection.tsx`:
    three text filters (from, to, payment type), a clear-all button, one
    removable chip per active filter, and the payment-type options. */
module InvoiceFilters {
  import opened Wrappers
  import Schema
  import Invoices
  import Tables

  datatype Filters = Filters(from: string, to: string, invoiceType: string)

  datatype FilterField = From | To | InvoiceType

  function Get(f: Filters, field: FilterField): string {
    match field
    case From => f.from
    case To => f.to
    case InvoiceType => f.invoiceType
  }

  /** `hasActiveFilters = from || to || invoiceType`. */
  predicate HasActive(f: Filters) {
    f.from != "" || f.to != "" || f.invoiceType != ""
  }

  /** `handleClearFilters`: every filter back to empty, after which no
      filter is active. */
  function ClearAll(f: Filters): (r: Filters)
    ensures forall field :: Get(r, field) == ""
    ensures !HasActive(r)
  {
    Filters("", "", "")
  }

  /** A chip's close button: its own filter becomes empty and the other two
      keep their values. */
  function ClearChip(f: Filters, field: FilterField): (r: Filters)
    ensures Get(r, field) == ""
    ensures forall other :: other != field ==> Get(r, other) == Get(f, other)
  {
    match field
    case From => f.(from := "")
    case To => f.(to := "")
    case InvoiceType => f.(invoiceType := "")
  }

  /** A chip is shown exactly for each non-empty filter, so the chip row
      appears exactly when some filter is active. */
  lemma ChipsShowActiveFilters(f: Filters)
    ensures HasActive(f) <==> exists field :: Get(f, field) != ""
  {
    if f.from != "" {
      assert Get(f, From) != "";
    } else if f.to != "" {
      assert Get(f, To) != "";
    } else if f.invoiceType != "" {
      assert Get(f, InvoiceType) != "";
    }
  }

  /** Closing all three chips, in any order, is the same as clearing. */
  lemma ClosingEveryChipClears(f: Filters)
    ensures ClearChip(ClearChip(ClearChip(f, From), To), InvoiceType) == ClearAll(f)
    ensures ClearChip(ClearChip(ClearChip(f, InvoiceType), To), From) == ClearAll(f)
  {
  }

  /** The value each payment-type option carries, as written: the deferred
      option is spelled with an alif madda, which is not the schema's
      spelling, so only that option names no stored type. */
  function TypeOption(p: Schema.PaymentType): (r: string)
    ensures p != Schema.Deferred ==> Schema.ParsePaymentType(r) == Some(p)
    ensures p == Schema.Deferred ==> Schema.ParsePaymentType(r).None?
  {
    match p
    case Cash => "خالص"
    case Deferred => "آجل"
    case Returned => "مرتجع"
  }

  /** As written, choosing the deferred option hides every invoice the
      schema can hold, whatever the date bounds. */
  lemma DeferredOptionMatchesNothing(inv: Tables.Invoice, f: Invoices.NavFilter)
    requires Schema.ParsePaymentType(inv.paymentType).Some?
    requires f.invoiceType == TypeOption(Schema.Deferred)
    ensures !Invoices.PassesFilter(inv, f)
  {
    var p := Schema.ParsePaymentType(inv.paymentType).value;
    assert inv.paymentType == Schema.PaymentTypeText(p);
  }

  /** The option values spelled as the schema stores them. */
  function TypeOptionFixed(p: Schema.PaymentType): (r: string)
    ensures Schema.ParsePaymentType(r) == Some(p)
  {
    match p
    case Cash => "خالص"
    case Deferred => "أجل"
    case Returned => "مرتجع"
  }

  /** With the schema's spellings, each option keeps exactly the invoices of
      its type (date bounds aside). */
  lemma FixedOptionSelectsItsType(inv: Tables.Invoice, p: Schema.PaymentType)
    ensures Invoices.PassesFilter(inv, Invoices.NavFilter(None, None, TypeOptionFixed(p)))
            <==> Schema.ParsePaymentType(inv.paymentType) == Some(p)
  {
    if Schema.ParsePaymentType(inv.paymentType) == Some(p) {
      assert inv.paymentType == Schema.PaymentTypeText(p);
    }
  }
}

=== FILE: invoice_page.dfy ===
/** The invoice-entry page
    `src/renderer/src/pages/Invoice/create-invoicePage.tsx`. */
module InvoicePage {
  // The cart of lines, the percentage discount summary shown on screen, on
  // the printout and in the saved payload, the quantity controls, and the
  // page state that navigation and reset move.
  //
  // Prices are the items' whole amounts; the discount is a JavaScript number
  // (`parseFloat`), so the discounted amounts are `real`. The product lookup,
  // the save dispatch and the warnings are the page's I/O and appear as
  // parameters or outcomes.

  import opened Wrappers
  import Tables
  import Schema
  import Numbers
  import Text
  import Invoices

  /** One cart line. */
  datatype CartLine = CartLine(
    id: int,
    name: string,
    price: int,
    quantity: int,
    availableQuantity: int,
    barcode: string)

  datatype Details = Details(customerName: string, customerPhone: string, paymentType: string, invoiceDiscount: real)

  const CashText: string := "خالص"
  const ReturnText: string := "مرتجع"

  /** `products.reduce((sum, p) => sum + p.quantity * p.price, 0)`. */
  function Subtotal(lines: seq<CartLine>): int {
    if lines == [] then 0 else Subtotal(lines[..|lines| - 1]) + LineTotal(lines[|lines| - 1])
  }

  function LineTotal(l: CartLine): int {
    l.quantity * l.price
  }

  predicate NonNegativeLines(lines: seq<CartLine>) {
    forall k :: 0 <= k < |lines| ==> lines[k].quantity >= 0 && lines[k].price >= 0
  }

  /** The subtotal of a concatenation is the sum of the parts. */
  lemma {:induction false} SubtotalAppend(a: seq<CartLine>, b: seq<CartLine>)
    ensures Subtotal(a + b) == Subtotal(a) + Subtotal(b)
    decreases |b|
  {
    if b == [] {
      assert a + b == a;
    } else {
      var c := a + b;
      assert c[..|c| - 1] == a + b[..|b| - 1];
      SubtotalAppend(a, b[..|b| - 1]);
    }
  }

  /** Lines with non-negative quantity and price never make the subtotal
      negative. */
  lemma {:induction false} SubtotalNonNegative(lines: seq<CartLine>)
    requires NonNegativeLines(lines)
    ensures Subtotal(lines) >= 0
    decreases |lines|
  {
    if lines != [] {
      var l := lines[|lines| - 1];
      assert LineTotal(l) >= 0;
      SubtotalNonNegative(lines[..|lines| - 1]);
    }
  }

  /** Subtotal, discount amount and payable total of one summary. */
  datatype Totals = Totals(subtotal: int, discountAmount: real, total: real)

  /** The summary formula: the discount is a percentage of the subtotal and
      the payable total is what remains. */
  function Summarize(lines: seq<CartLine>, discount: real): (t: Totals)
    ensures t.subtotal == Subtotal(lines)
    ensures t.discountAmount * 100.0 == t.subtotal as real * discount
    ensures t.total + t.discountAmount == t.subtotal as real
  {
    var subtotal := Subtotal(lines);
    var discountAmount := (subtotal as real * discount) / 100.0;
    Totals(subtotal, discountAmount, subtotal as real - discountAmount)
  }

  /** With a discount inside the input's 0..100 hint and non-negative
      lines, the payable total lies between 0 and the subtotal. */
  lemma SummaryBounds(lines: seq<CartLine>, discount: real)
    requires NonNegativeLines(lines)
    requires 0.0 <= discount <= 100.0
    ensures 0.0 <= Summarize(lines, discount).total <= Subtotal(lines) as real
  {
    SubtotalNonNegative(lines);
    var t := Summarize(lines, discount);
    PercentBounds(t.subtotal as real, discount, t.discountAmount);
  }

  /** A percentage between 0 and 100 of a non-negative amount lies between
      0 and that amount. */
  lemma PercentBounds(s: real, percent: real, part: real)
    requires 0.0 <= s && 0.0 <= percent <= 100.0
    requires part * 100.0 == s * percent
    ensures 0.0 <= part <= s
  {
    ProductNonNegative(s, percent);
    ProductNonNegative(s, 100.0 - percent);
    assert s * (100.0 - percent) == s * 100.0 - s * percent;
  }

  lemma ProductNonNegative(x: real, y: real)
    requires 0.0 <= x && 0.0 <= y
    ensures 0.0 <= x * y
  {
  }

  /** The 0..100 range is only a hint on the input: a discount above 100
      makes the payable total negative. */
  lemma DiscountIsNotClamped()
    ensures Summarize([CartLine(1, "x", 100, 1, 5, "")], 150.0).total == -50.0
  {
    assert Subtotal([CartLine(1, "x", 100, 1, 5, "")]) == 100;
  }

  /** The typed quantity: `parseInt` of the text, 1 when that is NaN or 0,
      then clamped to at least 1 and at most the available stock. */
  function TypedQuantity(text: string, available: int): (q: int)
    ensures q >= 1
    ensures available >= 1 ==> q <= available
    ensures Numbers.ParseInt(text).Some? && 1 <= Numbers.ParseInt(text).value <= available ==>
              q == Numbers.ParseInt(text).value
    ensures Numbers.ParseInt(text).None? || Numbers.ParseInt(text) == Some(0) ==> q == 1
  {
    var parsed := match Numbers.ParseInt(text)
      case Some(v) => if v != 0 then v else 1
      case None => 1;
    var capped := if available < parsed then available else parsed;
    if capped < 1 then 1 else capped
  }

  /** Typing a quantity in stock shows exactly that quantity. */
  lemma TypedQuantityOfRendered(q: int, available: int)
    requires 1 <= q <= available
    ensures TypedQuantity(Numbers.IntToString(q), available) == q
  {
    Numbers.ParseIntOfIntToString(q);
  }

  /** The minus button: one less, never below 1. */
  function Decrement(quantity: int): (q: int)
    ensures q >= 1
    ensures quantity > 1 ==> q == quantity - 1
    ensures quantity <= 1 ==> q == 1
  {
    if quantity - 1 > 1 then quantity - 1 else 1
  }

  /** The plus button: one more, never above the available stock. */
  function Increment(quantity: int, available: int): (q: int)
    ensures q <= available
    ensures quantity < available ==> q == quantity + 1
    ensures quantity >= available ==> q == available
  {
    if available < quantity + 1 then available else quantity + 1
  }

  /** Plus then minus is the identity while there is room to add one. */
  lemma IncrementThenDecrement(quantity: int, available: int)
    requires 1 <= quantity < available
    ensures Decrement(Increment(quantity, available)) == quantity
  {
  }

  /** `handleUpdateQuantity`: only the line at `index` gets the quantity. */
  function UpdateQuantity(lines: seq<CartLine>, index: int, quantity: int): (r: seq<CartLine>)
    ensures |r| == |lines|
    ensures forall k :: 0 <= k < |lines| && k != index ==> r[k] == lines[k]
    ensures 0 <= index < |lines| ==> r[index] == lines[index].(quantity := quantity)
  {
    seq(|lines|, k requires 0 <= k < |lines| => if k == index then lines[k].(quantity := quantity) else lines[k])
  }

  /** `handleUpdatePrice`: only the line at `index` gets the price. */
  function UpdatePrice(lines: seq<CartLine>, index: int, price: int): (r: seq<CartLine>)
    ensures |r| == |lines|
    ensures forall k :: 0 <= k < |lines| && k != index ==> r[k] == lines[k]
    ensures 0 <= index < |lines| ==> r[index] == lines[index].(price := price)
  {
    seq(|lines|, k requires 0 <= k < |lines| => if k == index then lines[k].(price := price) else lines[k])
  }

  /** `handleRemoveProduct`: `filter((_, i) => i !== index)`. */
  function RemoveAt(lines: seq<CartLine>, index: int): (r: seq<CartLine>)
    ensures 0 <= index < |lines| ==> |r| == |lines| - 1
    ensures !(0 <= index < |lines|) ==> r == lines
    ensures forall k :: 0 <= k < |r| ==> r[k] == if 0 <= index <= k then lines[k + 1] else lines[k]
  {
    if 0 <= index < |lines| then lines[..index] + lines[index + 1..] else lines
  }

  /** The subtotal around one line: the part before, the line, the part
      after. */
  lemma SubtotalAround(a: seq<CartLine>, x: CartLine, b: seq<CartLine>)
    ensures Subtotal(a + [x] + b) == Subtotal(a) + LineTotal(x) + Subtotal(b)
  {
    SubtotalAppend(a + [x], b);
    SubtotalAppend(a, [x]);
    assert [x][..0] == [];
  }

  /** Changing one line's quantity moves the subtotal by exactly that
      line's difference. */
  lemma UpdateQuantitySubtotal(lines: seq<CartLine>, index: nat, quantity: int)
    requires index < |lines|
    ensures Subtotal(UpdateQuantity(lines, index, quantity))
            == Subtotal(lines) - LineTotal(lines[index]) + quantity * lines[index].price
  {
    var r := UpdateQuantity(lines, index, quantity);
    var a, b := lines[..index], lines[index + 1..];
    assert lines == a + [lines[index]] + b;
    assert r == a + [r[index]] + b;
    SubtotalAround(a, lines[index], b);
    SubtotalAround(a, r[index], b);
  }

  /** Removing a line takes exactly its amount off the subtotal. */
  lemma RemoveAtSubtotal(lines: seq<CartLine>, index: nat)
    requires index < |lines|
    ensures Subtotal(RemoveAt(lines, index)) == Subtotal(lines) - LineTotal(lines[index])
  {
    var a, b := lines[..index], lines[index + 1..];
    SubtotalAppend(a, b);
    SplitAround(lines, index);
    SubtotalAround(a, lines[index], b);
  }

  lemma SplitAround<T>(s: seq<T>, i: nat)
    requires i < |s|
    ensures s == s[..i] + [s[i]] + s[i + 1..]
  {
  }

  /** What `addSampleProduct` leaves behind: the cart, the search text and
      whether a warning was shown. */
  datatype AddOutcome = AddOutcome(lines: seq<CartLine>, search: string, warned: bool)

  /** `addSampleProduct`: blank search text warns; an unknown product or one
      with no stock warns; otherwise a line of quantity 1 is appended with
      the stock as its ceiling and the search box is cleared. `found` is
      the result of the barcode-or-name lookup. */
  function AddSampleProduct(lines: seq<CartLine>, search: string, found: Option<Tables.Item>): (r: AddOutcome)
    ensures r.warned <==> Text.IsBlank(search) || found.None? || found.value.quantity <= 0
    ensures r.warned ==> r.lines == lines && r.search == search
    ensures !r.warned ==>
      r.search == "" && |r.lines| == |lines| + 1 && r.lines[..|lines|] == lines
      && var l := r.lines[|lines|];
         l.id == found.value.id && l.name == found.value.name && l.price == found.value.price
         && l.quantity == 1 && l.availableQuantity == found.value.quantity && l.barcode == found.value.barcode
  {
    Text.TrimEmptyIffBlank(search);
    if Text.Trim(search) == [] then AddOutcome(lines, search, true)
    else if found.None? || found.value.quantity <= 0 then AddOutcome(lines, search, true)
    else
      var it := found.value;
      AddOutcome(lines + [CartLine(it.id, it.name, it.price, 1, it.quantity, it.barcode)], "", false)
  }

  /** An added line starts within its stock: quantity 1 never exceeds the
      available quantity, so the plus and minus controls keep it in range. */
  lemma AddedLineInStock(lines: seq<CartLine>, search: string, found: Option<Tables.Item>)
    requires !AddSampleProduct(lines, search, found).warned
    ensures var l := AddSampleProduct(lines, search, found).lines[|lines|];
            1 <= l.quantity <= l.availableQuantity
  {
  }

  /** The object `saveInvoice` dispatches to `createInvoice`. */
  datatype Payload = Payload(
    products: seq<Invoices.LineInput>,
    total: int,
    netTotal: real,
    customerName: string,
    customerPhone: string,
    invoiceDiscount: real,
    paymentType: string)

  /** `saveInvoice`'s payload: refused for an empty cart; otherwise every
      line goes out with discount 0, `total` is the subtotal and `netTotal`
      is the discounted total of the summary. */
  function SavePayload(lines: seq<CartLine>, details: Details): (r: Option<Payload>)
    ensures r.None? <==> lines == []
    ensures r.Some? ==>
      |r.value.products| == |lines|
      && (forall k :: 0 <= k < |lines| ==>
            r.value.products[k] == Invoices.LineInput(lines[k].id, lines[k].quantity, lines[k].price, 0))
      && r.value.invoiceDiscount == details.invoiceDiscount && r.value.paymentType == details.paymentType
      && r.value.customerName == details.customerName && r.value.customerPhone == details.customerPhone
  {
    if lines == [] then None
    else
      var t := Summarize(lines, details.invoiceDiscount);
      Some(Payload(seq(|lines|, k requires 0 <= k < |lines| => Invoices.LineInput(lines[k].id, lines[k].quantity, lines[k].price, 0)),
                   t.subtotal, t.total, details.customerName, details.customerPhone,
                   details.invoiceDiscount, details.paymentType))
  }

  /** The saved totals are the ones on screen and on the printout: the
      payload's `total` is the summary's subtotal and its `netTotal` the
      summary's payable total, whose difference is the percentage discount. */
  lemma SavedTotalsMatchSummary(lines: seq<CartLine>, details: Details)
    requires lines != []
    ensures var p := SavePayload(lines, details).value;
            var t := Summarize(lines, details.invoiceDiscount);
            p.total == t.subtotal && p.netTotal == t.total
            && (p.total as real - p.netTotal) * 100.0 == p.total as real * details.invoiceDiscount
  {
  }

  /** The page state the navigation and reset handlers move. */
  datatype PageState = PageState(
    lines: seq<CartLine>,
    details: Details,
    currentId: Option<int>,
    viewingArchived: bool,
    invoiceCreated: bool,
    canGoBefore: bool,
    canGoAfter: bool,
    isFirst: bool,
    isLast: bool)

  const DefaultDetails: Details := Details("", "", CashText, 0.0)

  const InitialState: PageState := PageState([], DefaultDetails, None, false, false, false, false, false, false)

  /** `resetInvoice`: an empty cart, default details, no current invoice
      and every navigation flag off. */
  function ResetInvoice(s: PageState): (r: PageState)
    ensures r.lines == [] && r.details.paymentType == CashText && r.details.invoiceDiscount == 0.0
    ensures r.details.customerName == "" && r.details.customerPhone == ""
    ensures r.currentId.None? && !r.viewingArchived && !r.invoiceCreated
    ensures !r.canGoBefore && !r.canGoAfter && !r.isFirst && !r.isLast
  {
    PageState([], DefaultDetails, None, false, false, false, false, false, false)
  }

  /** Reset returns the page to its initial state, whatever came before. */
  lemma ResetIsInitial(s: PageState)
    ensures ResetInvoice(s) == InitialState
    ensures ResetInvoice(ResetInvoice(s)) == ResetInvoice(s)
  {
  }

  /** `isPaymentTypeDisabled`: the type is locked exactly when viewing a
      saved invoice that is cash or returned. */
  function PaymentTypeDisabled(s: PageState): (b: bool)
    ensures b <==> s.viewingArchived
                   && (Schema.ParsePaymentType(s.details.paymentType) == Some(Schema.Cash)
                       || Schema.ParsePaymentType(s.details.paymentType) == Some(Schema.Returned))
  {
    s.viewingArchived && (s.details.paymentType == CashText || s.details.paymentType == ReturnText)
  }

  /** A deferred invoice stays editable, and so does any invoice that is
      being entered rather than viewed. */
  lemma DeferredStaysEditable(s: PageState)
    requires !s.viewingArchived || s.details.paymentType == Schema.PaymentTypeText(Schema.Deferred)
    ensures !PaymentTypeDisabled(s)
  {
  }

  /** The fields `handleDetailChange` can name. */
  datatype DetailField = CustomerName | CustomerPhone | PaymentType

  /** `handleDetailChange`: the named field takes the value and the other
      fields keep theirs. */
  function DetailChange(d: Details, field: DetailField, value: string): (r: Details)
    ensures r.customerName == if field == CustomerName then value else d.customerName
    ensures r.customerPhone == if field == CustomerPhone then value else d.customerPhone
    ensures r.paymentType == if field == PaymentType then value else d.paymentType
    ensures r.invoiceDiscount == d.invoiceDiscount
  {
    match field
    case CustomerName => d.(customerName := value)
    case CustomerPhone => d.(customerPhone := value)
    case PaymentType => d.(paymentType := value)
  }

  /** `handleDiscountChange`: only the discount changes. */
  function DiscountChange(d: Details, discount: real): (r: Details)
    ensures r.invoiceDiscount == discount
    ensures r.customerName == d.customerName && r.customerPhone == d.customerPhone && r.paymentType == d.paymentType
  {
    d.(invoiceDiscount := discount)
  }
}

=== FILE: invoices.dfy ===
/** The invoice handler `src/main/ipc/handlers/invoice.js`. */
module Invoices {
  // Saving an invoice with its lines and the stock movement it causes,
  // walking the invoice list backwards and forwards under the date and type
  // filters, and changing an invoice's payment type. The four tables an
  // invoice touches are one `Db` value; the clock is a parameter.

  import opened Wrappers
  import opened Tables
  import Schema
  import Dates

  datatype Db = Db(dailies: seq<Daily>, items: seq<Item>, invoices: seq<Invoice>, lines: seq<InvoiceItem>)

  /** One entry of the submitted `products` array. */
  datatype LineInput = LineInput(itemId: int, quantity: int, price: int, discount: int)

  /** The submitted invoice. */
  datatype NewInvoice = NewInvoice(
    customerName: string,
    customerPhone: string,
    paymentType: string,
    invoiceDiscount: int,
    total: int,
    netTotal: int,
    products: seq<LineInput>)

  const ReturnText: string := "مرتجع"

  /** The stored line: `price` is the gross amount and the net amount is
      clamped at zero, so a discount larger than the line never makes it
      negative. */
  function StoredLine(invoiceId: int, p: LineInput): (l: InvoiceItem)
    ensures l.invoiceId == invoiceId && l.itemId == p.itemId
    ensures l.pricePerUnit == p.price && l.quantity == p.quantity && l.discount == p.discount
    ensures l.price == p.price * p.quantity
    ensures l.totalPriceAfterDiscount >= 0
    ensures l.totalPriceAfterDiscount >= l.price - p.discount
    ensures l.totalPriceAfterDiscount == 0 || l.totalPriceAfterDiscount == l.price - p.discount
  {
    var gross := p.price * p.quantity;
    InvoiceItem(invoiceId, p.itemId, p.price, p.quantity, p.discount, gross,
                if gross - p.discount > 0 then gross - p.discount else 0)
  }

  function StoredLines(invoiceId: int, ps: seq<LineInput>): (r: seq<InvoiceItem>)
    ensures |r| == |ps|
    ensures forall k :: 0 <= k < |ps| ==> r[k] == StoredLine(invoiceId, ps[k])
  {
    seq(|ps|, k requires 0 <= k < |ps| => StoredLine(invoiceId, ps[k]))
  }

  /** The total quantity the lines move for one item. */
  function Moved(ps: seq<LineInput>, itemId: int): int {
    SumOf(ps, (p: LineInput) => p.itemId == itemId, (p: LineInput) => p.quantity)
  }

  /** One `UPDATE items SET quantity = quantity -/+ ? WHERE id = ?`. */
  function MoveStock(items: seq<Item>, restock: bool, p: LineInput): (r: seq<Item>)
    ensures |r| == |items|
    ensures forall k :: 0 <= k < |items| ==>
      r[k] == if items[k].id == p.itemId
              then items[k].(quantity := items[k].quantity + (if restock then p.quantity else -p.quantity))
              else items[k]
  {
    seq(|items|, k requires 0 <= k < |items| =>
      if items[k].id == p.itemId
      then items[k].(quantity := items[k].quantity + (if restock then p.quantity else -p.quantity))
      else items[k])
  }

  /** The update loop over the lines, first to last. Each item's stock
      changes by the total quantity its lines carry, down for a sale and up
      for a return; every other field, and every other item, is untouched. */
  function MoveAll(items: seq<Item>, restock: bool, ps: seq<LineInput>): (r: seq<Item>)
    ensures |r| == |items|
    ensures forall k :: 0 <= k < |items| ==>
      r[k] == items[k].(quantity := items[k].quantity
                                    + (if restock then Moved(ps, items[k].id) else -Moved(ps, items[k].id)))
    decreases |ps|
  {
    if ps == [] then items
    else MoveAll(MoveStock(items, restock, ps[0]), restock, ps[1..])
  }

  /** Some item row has the id: what the `invoiceItems.itemId` foreign key
      asks of a line. */
  predicate Known(items: seq<Item>, id: int) {
    exists k :: 0 <= k < |items| && items[k].id == id
  }

  /** The number of lines the loop gets through: the index of the first
      line naming no item, or all of them. */
  function FirstUnknown(items: seq<Item>, ps: seq<LineInput>): (m: nat)
    ensures m <= |ps|
    ensures forall j :: 0 <= j < m ==> Known(items, ps[j].itemId)
    ensures m < |ps| ==> !Known(items, ps[m].itemId)
    decreases |ps|
  {
    if ps == [] || !Known(items, ps[0].itemId) then 0
    else 1 + FirstUnknown(items, ps[1..])
  }

  /** What a save leaves in the database, and the error it threw if any.
      There is no transaction, so a throw half-way keeps what was already
      written. */
  datatype Saved = Saved(db: Db, error: Option<string>)

  /** Every check before the invoice row is written passes. */
  predicate Accepted(db: Db, inv: NewInvoice) {
    inv.paymentType != "" && inv.products != [] && OpenDay(db.dailies).Some?
    && Schema.ParsePaymentType(inv.paymentType).Some?
  }

  /** `after` is `db` with one new invoice row for `inv` in the daily
      `dailyId` under an id no earlier invoice has, the lines `ps` stored
      under that id, and the stock those lines move. */
  predicate Wrote(db: Db, after: Db, inv: NewInvoice, ps: seq<LineInput>, dailyId: int, now: Dates.DateTime) {
    var n := |db.invoices|;
    after.dailies == db.dailies
    && |after.invoices| == n + 1 && after.invoices[..n] == db.invoices
    && var row := after.invoices[n];
       row == Invoice(row.id, inv.customerName, inv.customerPhone, inv.paymentType, inv.invoiceDiscount,
                      inv.total, inv.netTotal, dailyId, Dates.FormatDateForMySql(now))
       && (forall j :: 0 <= j < n ==> db.invoices[j].id != row.id)
       && after.lines == db.lines + StoredLines(row.id, ps)
       && after.items == MoveAll(db.items, inv.paymentType == ReturnText, ps)
  }

  /** `createInvoice`: the input check, the open-day lookup (the first open
      day of any branch), the payment-type CHECK on insert, then the
      invoice row, and per line the stock update followed by the stored
      line. A line whose item does not exist updates nothing and then fails
      the line's foreign key, which ends the loop with the invoice row and
      the earlier lines kept. */
  function CreateInvoice(db: Db, inv: NewInvoice, now: Dates.DateTime): (r: Saved)
    ensures !Accepted(db, inv) ==> r.db == db && r.error.Some?
    ensures r.error.None? <==> Accepted(db, inv) && forall j :: 0 <= j < |inv.products| ==> Known(db.items, inv.products[j].itemId)
    ensures Accepted(db, inv) ==>
              Wrote(db, r.db, inv, inv.products[..FirstUnknown(db.items, inv.products)],
                    db.dailies[OpenDay(db.dailies).value].id, now)
  {
    if inv.paymentType == "" || inv.products == [] then Saved(db, Some("الرجاء ملء جميع الحقول المطلوبة"))
    else
      match OpenDay(db.dailies)
      case None => Saved(db, Some("برجاء فتح يومية جديدة"))
      case Some(k) =>
        if Schema.ParsePaymentType(inv.paymentType).None? then Saved(db, Some("CHECK constraint failed: paymentType"))
        else
          var m := FirstUnknown(db.items, inv.products);
          Saved(Record(db, inv, inv.products[..m], k, now),
                if m < |inv.products| then Some("FOREIGN KEY constraint failed") else None)
  }

  /** The rows the insert leaves, in the open daily `k`. */
  function Record(db: Db, inv: NewInvoice, ps: seq<LineInput>, k: nat, now: Dates.DateTime): (r: Db)
    requires k < |db.dailies|
    ensures Wrote(db, r, inv, ps, db.dailies[k].id, now)
  {
    var ids := seq(|db.invoices|, j requires 0 <= j < |db.invoices| => db.invoices[j].id);
    var id := FreshId(ids);
    assert forall j :: 0 <= j < |db.invoices| ==> db.invoices[j].id == ids[j];
    var row := Invoice(id, inv.customerName, inv.customerPhone, inv.paymentType, inv.invoiceDiscount,
                       inv.total, inv.netTotal, db.dailies[k].id, Dates.FormatDateForMySql(now));
    assert (db.invoices + [row])[|db.invoices|] == row;
    Db(db.dailies, MoveAll(db.items, inv.paymentType == ReturnText, ps),
       db.invoices + [row], db.lines + StoredLines(id, ps))
  }

  /** A save that gets through every line writes them all. */
  lemma CompleteSave(db: Db, inv: NewInvoice, now: Dates.DateTime)
    requires CreateInvoice(db, inv, now).error.None?
    ensures Wrote(db, CreateInvoice(db, inv, now).db, inv, inv.products, db.dailies[OpenDay(db.dailies).value].id, now)
  {
    assert inv.products[..|inv.products|] == inv.products;
    assert FirstUnknown(db.items, inv.products) == |inv.products|;
  }

  /** A sale that names an unknown item after a known one still keeps its
      invoice row, the first line and that line's stock update. */
  lemma UnknownItemLeavesHalfInvoice(db: Db, inv: NewInvoice, now: Dates.DateTime)
    requires Accepted(db, inv) && |inv.products| == 2
    requires Known(db.items, inv.products[0].itemId) && !Known(db.items, inv.products[1].itemId)
    ensures var r := CreateInvoice(db, inv, now);
            r.error.Some? && |r.db.invoices| == |db.invoices| + 1
            && r.db.lines == db.lines + [StoredLine(r.db.invoices[|db.invoices|].id, inv.products[0])]
            && r.db.items == MoveStock(db.items, inv.paymentType == ReturnText, inv.products[0])
  {
    var p := inv.products[0];
    assert FirstUnknown(db.items, inv.products) == 1;
    assert inv.products[..1] == [p];
    WroteOneLine(db, CreateInvoice(db, inv, now).db, inv, p, db.dailies[OpenDay(db.dailies).value].id, now);
  }

  /** Writing one line stores that line and makes that line's update. */
  lemma WroteOneLine(db: Db, after: Db, inv: NewInvoice, p: LineInput, dailyId: int, now: Dates.DateTime)
    requires Wrote(db, after, inv, [p], dailyId, now)
    ensures |after.invoices| == |db.invoices| + 1
    ensures after.lines == db.lines + [StoredLine(after.invoices[|db.invoices|].id, p)]
    ensures after.items == MoveStock(db.items, inv.paymentType == ReturnText, p)
  {
    assert [p][1..] == [];
  }

  /** The save in one transaction: a line naming an unknown item rolls the
      whole invoice back, so a failed save writes nothing. */
  function CreateInvoiceAtomic(db: Db, inv: NewInvoice, now: Dates.DateTime): (r: Saved)
    ensures r.error.Some? ==> r.db == db
    ensures r.error.None? <==> CreateInvoice(db, inv, now).error.None?
    ensures r.error.None? ==> r.db == CreateInvoice(db, inv, now).db
  {
    var saved := CreateInvoice(db, inv, now);
    if saved.error.Some? then Saved(db, saved.error) else saved
  }

  /** A transactional save either writes the whole invoice or nothing. */
  lemma AtomicSaveWritesAllOrNothing(db: Db, inv: NewInvoice, now: Dates.DateTime)
    ensures var r := CreateInvoiceAtomic(db, inv, now);
            r.db == db || (r.error.None? && r.db.lines == db.lines + StoredLines(r.db.invoices[|db.invoices|].id, inv.products))
  {
    if CreateInvoice(db, inv, now).error.None? {
      CompleteSave(db, inv, now);
    }
  }

  /** Moving stock changes quantities only, so the same ids stay known. */
  lemma MoveAllKeepsIds(items: seq<Item>, restock: bool, ps: seq<LineInput>, id: int)
    requires Known(items, id)
    ensures Known(MoveAll(items, restock, ps), id)
  {
    var k :| 0 <= k < |items| && items[k].id == id;
    assert MoveAll(items, restock, ps)[k].id == id;
  }

  /** Stock conservation: saving a sale and then a return of the same lines
      leaves every item's stock where it started. */
  lemma SaleThenReturnRestoresStock(db: Db, sale: NewInvoice, now: Dates.DateTime, later: Dates.DateTime)
    requires CreateInvoice(db, sale, now).error.None? && sale.paymentType != ReturnText
    ensures var mid := CreateInvoice(db, sale, now).db;
            var back := CreateInvoice(mid, sale.(paymentType := ReturnText), later);
            back.error.None? && back.db.items == db.items
  {
    var mid := CreateInvoice(db, sale, now).db;
    var ret := sale.(paymentType := ReturnText);
    CompleteSave(db, sale, now);
    assert mid.items == MoveAll(db.items, false, sale.products);
    ReturnAccepted(db, mid, sale, ret);
    CompleteSave(mid, ret, later);
    ReturnUndoesSale(db.items, sale.products);
  }

  /** The return of a saved sale passes every check: same days, a valid
      type, and items that still exist. */
  lemma ReturnAccepted(db: Db, mid: Db, sale: NewInvoice, ret: NewInvoice)
    requires Accepted(db, sale) && mid.dailies == db.dailies && mid.items == MoveAll(db.items, false, sale.products)
    requires forall j :: 0 <= j < |sale.products| ==> Known(db.items, sale.products[j].itemId)
    requires ret == sale.(paymentType := ReturnText)
    ensures Accepted(mid, ret)
    ensures forall j :: 0 <= j < |ret.products| ==> Known(mid.items, ret.products[j].itemId)
  {
    assert Schema.ParsePaymentType(ReturnText).Some?;
    forall j | 0 <= j < |sale.products|
      ensures Known(mid.items, sale.products[j].itemId)
    {
      MoveAllKeepsIds(db.items, false, sale.products, sale.products[j].itemId);
    }
  }

  /** Restocking the lines a sale took out puts every item back. */
  lemma ReturnUndoesSale(items: seq<Item>, ps: seq<LineInput>)
    ensures MoveAll(MoveAll(items, false, ps), true, ps) == items
  {
    var back := MoveAll(MoveAll(items, false, ps), true, ps);
    forall k | 0 <= k < |items|
      ensures back[k] == items[k]
    {
    }
  }

  /** Each line's stock moves by exactly its own quantity when every line
      names a different item: down for a sale, up for a return. */
  lemma {:induction false} MovedSingle(ps: seq<LineInput>, k: nat)
    requires k < |ps|
    requires forall i :: 0 <= i < |ps| && i != k ==> ps[i].itemId != ps[k].itemId
    ensures Moved(ps, ps[k].itemId) == ps[k].quantity
    decreases |ps|
  {
    var id := ps[k].itemId;
    if k == 0 {
      MovedNone(ps[1..], id);
    } else {
      MovedSingle(ps[1..], k - 1);
    }
  }

  lemma {:induction false} MovedNone(ps: seq<LineInput>, itemId: int)
    requires forall i :: 0 <= i < |ps| ==> ps[i].itemId != itemId
    ensures Moved(ps, itemId) == 0
    decreases |ps|
  {
    if ps != [] {
      MovedNone(ps[1..], itemId);
    }
  }

  /** `updateInvoice`: only the payment type of the rows with that id
      changes; the CHECK refuses a value outside the three spellings when a
      row is actually updated. */
  function UpdateInvoice(invoices: seq<Invoice>, invoiceId: int, paymentType: string): (r: Result<seq<Invoice>>)
    ensures r.Err? <==> Schema.ParsePaymentType(paymentType).None?
                        && exists k :: 0 <= k < |invoices| && invoices[k].id == invoiceId
    ensures r.Ok? ==> |r.value| == |invoices|
    ensures r.Ok? ==> forall k :: 0 <= k < |invoices| ==>
      r.value[k] == if invoices[k].id == invoiceId then invoices[k].(paymentType := paymentType) else invoices[k]
  {
    if Schema.ParsePaymentType(paymentType).None? && FirstWhere(invoices, (i: Invoice) => i.id == invoiceId).Some? then
      Err("CHECK constraint failed: paymentType")
    else
      Ok(seq(|invoices|, k requires 0 <= k < |invoices| =>
        if invoices[k].id == invoiceId then invoices[k].(paymentType := paymentType) else invoices[k]))
  }

  /** The browse filter: each bound is already the start (or end) of the
      chosen day as an instant; `""` for the type means no type filter. */
  datatype NavFilter = NavFilter(from: Option<Dates.DateTime>, to: Option<Dates.DateTime>, invoiceType: string)

  /** The date and type conditions as the handler writes them: each bound is
      `toISOString()` text compared with the stored `createdAt` text. */
  predicate PassesFilter(inv: Invoice, f: NavFilter) {
    (f.from.Some? ==> Dates.LexLe(Dates.ToIsoString(f.from.value), inv.createdAt))
    && (f.to.Some? ==> Dates.LexLe(inv.createdAt, Dates.ToIsoString(f.to.value)))
    && (f.invoiceType != "" ==> inv.paymentType == f.invoiceType)
  }

  /** `id && id !== null` / `if (id)`: an id of 0 or none sets no bound. */
  predicate Truthy(id: Option<int>) {
    id.Some? && id.value != 0
  }

  /** A line of the shown invoice with its item's name (the join drops lines
      whose item is gone). */
  datatype ShownLine = ShownLine(line: InvoiceItem, name: string)

  /** The navigation answer: the invoice, its lines, and the id of the
      other end of the filtered list (`first` or `last`). */
  datatype Shown = Shown(invoice: Invoice, items: seq<ShownLine>, edge: int)

  /** The shown line carries the name of an item with the line's item id. */
  predicate NamedAfterItem(s: ShownLine, items: seq<Item>) {
    exists i :: 0 <= i < |items| && items[i].id == s.line.itemId && s.name == items[i].name
  }

  /** The join of one line with the items: one shown line per item with the
      line's item id, carrying that item's name. */
  function NamesFor(l: InvoiceItem, items: seq<Item>): (r: seq<ShownLine>)
    ensures forall k :: 0 <= k < |r| ==> r[k].line == l
    ensures forall k :: 0 <= k < |r| ==> NamedAfterItem(r[k], items)
    ensures forall i :: 0 <= i < |items| && items[i].id == l.itemId ==> ShownLine(l, items[i].name) in r
  {
    if items == [] then []
    else
      var rest := NamesFor(l, items[1..]);
      var head := if items[0].id == l.itemId then [ShownLine(l, items[0].name)] else [];
      assert forall i :: 1 <= i < |items| ==> items[i] == items[1..][i - 1];
      forall k | 0 <= k < |head + rest|
        ensures NamedAfterItem((head + rest)[k], items)
      {
        if k < |head| {
          assert items[0].id == l.itemId && (head + rest)[k] == ShownLine(l, items[0].name);
        } else {
          var x := rest[k - |head|];
          assert (head + rest)[k] == x && x.line == l;
          var i :| 0 <= i < |items[1..]| && items[1..][i].id == x.line.itemId && x.name == items[1..][i].name;
          assert items[i + 1] == items[1..][i];
        }
      }
      head + rest
  }

  /** `SELECT invoiceItems.*, items.name ... JOIN items ... WHERE invoiceId = ?`:
      every shown line is a stored line of the invoice with the name of an
      item it names, and every stored line of the invoice whose item exists
      is shown with that item's name. */
  function LinesOf(lines: seq<InvoiceItem>, items: seq<Item>, invoiceId: int): (r: seq<ShownLine>)
    ensures forall k :: 0 <= k < |r| ==> r[k].line in lines && r[k].line.invoiceId == invoiceId
    ensures forall k :: 0 <= k < |r| ==> NamedAfterItem(r[k], items)
    ensures forall j, i ::
              0 <= j < |lines| && 0 <= i < |items| && lines[j].invoiceId == invoiceId && items[i].id == lines[j].itemId
              ==> ShownLine(lines[j], items[i].name) in r
  {
    if lines == [] then []
    else
      var rest := LinesOf(lines[1..], items, invoiceId);
      var head := if lines[0].invoiceId == invoiceId then NamesFor(lines[0], items) else [];
      JoinStepShown(lines, items, invoiceId, head, rest);
      JoinStepComplete(lines, items, invoiceId, head, rest);
      head + rest
  }

  /** The shown lines of the first stored line and of the others together
      are still the invoice's lines, each named after an item it names. */
  lemma JoinStepShown(lines: seq<InvoiceItem>, items: seq<Item>, invoiceId: int, head: seq<ShownLine>, rest: seq<ShownLine>)
    requires lines != []
    requires head == if lines[0].invoiceId == invoiceId then NamesFor(lines[0], items) else []
    requires forall k :: 0 <= k < |rest| ==> rest[k].line in lines[1..] && rest[k].line.invoiceId == invoiceId
    requires forall k :: 0 <= k < |rest| ==> NamedAfterItem(rest[k], items)
    ensures forall k :: 0 <= k < |head + rest| ==> (head + rest)[k].line in lines && (head + rest)[k].line.invoiceId == invoiceId
    ensures forall k :: 0 <= k < |head + rest| ==> NamedAfterItem((head + rest)[k], items)
  {
    forall k | 0 <= k < |head + rest|
      ensures (head + rest)[k].line in lines && (head + rest)[k].line.invoiceId == invoiceId
      ensures NamedAfterItem((head + rest)[k], items)
    {
      if k < |head| {
        assert (head + rest)[k] == head[k] && head[k].line == lines[0];
      } else {
        var x := rest[k - |head|];
        assert (head + rest)[k] == x;
        var j :| 0 <= j < |lines[1..]| && lines[1..][j] == x.line;
        assert lines[j + 1] == x.line;
      }
    }
  }

  /** Every stored line of the invoice with an item of its id is among the
      shown lines once the first stored line's names are put before the
      others'. */
  lemma JoinStepComplete(lines: seq<InvoiceItem>, items: seq<Item>, invoiceId: int, head: seq<ShownLine>, rest: seq<ShownLine>)
    requires lines != []
    requires head == if lines[0].invoiceId == invoiceId then NamesFor(lines[0], items) else []
    requires forall j, i ::
               0 <= j < |lines[1..]| && 0 <= i < |items| && lines[1..][j].invoiceId == invoiceId && items[i].id == lines[1..][j].itemId
               ==> ShownLine(lines[1..][j], items[i].name) in rest
    ensures forall j, i ::
              0 <= j < |lines| && 0 <= i < |items| && lines[j].invoiceId == invoiceId && items[i].id == lines[j].itemId
              ==> ShownLine(lines[j], items[i].name) in head + rest
  {
    forall j, i | 0 <= j < |lines| && 0 <= i < |items| && lines[j].invoiceId == invoiceId && items[i].id == lines[j].itemId
      ensures ShownLine(lines[j], items[i].name) in head + rest
    {
      if j > 0 {
        assert lines[j] == lines[1..][j - 1];
      }
    }
  }

  /** The rows `beforeInvoice` considers. */
  predicate BeforeMatch(inv: Invoice, dailyId: int, all: bool, id: Option<int>, f: NavFilter) {
    (!all ==> inv.dailyId == dailyId) && (Truthy(id) ==> inv.id < id.value) && PassesFilter(inv, f)
  }

  /** The rows `afterInvoice` considers: always the open day's. */
  predicate AfterMatch(inv: Invoice, dailyId: int, id: Option<int>, f: NavFilter) {
    inv.dailyId == dailyId && (Truthy(id) ==> inv.id > id.value) && PassesFilter(inv, f)
  }

  /** The first open day of any branch, as every invoice query picks it. */
  function OpenDay(dailies: seq<Daily>): (r: Option<nat>)
    ensures r.Some? ==> r.value < |dailies| && dailies[r.value].closedAt.None?
    ensures r.Some? ==> forall j :: 0 <= j < r.value ==> dailies[j].closedAt.Some?
    ensures r.None? <==> forall k :: 0 <= k < |dailies| ==> dailies[k].closedAt.Some?
  {
    FirstWhere(dailies, (d: Daily) => d.closedAt.None?)
  }

  /** `beforeInvoice`: fails without an open day; `data: null` when nothing
      matches; otherwise the matching invoice with the largest id (the
      nearest one below `id`), its lines, and the smallest matching id. */
  function BeforeInvoice(db: Db, id: Option<int>, f: NavFilter, all: bool): (r: Result<Option<Shown>>)
    ensures r.Err? <==> OpenDay(db.dailies).None?
    ensures r.Ok? ==>
      var day := db.dailies[OpenDay(db.dailies).value].id;
      (r.value.None? <==> forall j :: 0 <= j < |db.invoices| ==> !BeforeMatch(db.invoices[j], day, all, id, f))
      && (r.value.Some? ==>
        var s := r.value.value;
        s.invoice in db.invoices && BeforeMatch(s.invoice, day, all, id, f)
        && (forall j :: 0 <= j < |db.invoices| && BeforeMatch(db.invoices[j], day, all, id, f)
              ==> db.invoices[j].id <= s.invoice.id && s.edge <= db.invoices[j].id)
        && (exists j :: 0 <= j < |db.invoices| && BeforeMatch(db.invoices[j], day, all, id, f)
              && db.invoices[j].id == s.edge)
        && s.items == LinesOf(db.lines, db.items, s.invoice.id))
  {
    match OpenDay(db.dailies)
    case None => Err("برجاء فتح يومية جديدة")
    case Some(d) =>
      var day := db.dailies[d].id;
      var p := (inv: Invoice) => BeforeMatch(inv, day, all, id, f);
      match ArgMaxWhere(db.invoices, p, (inv: Invoice) => inv.id)
      case None => Ok(None)
      case Some(k) =>
        var first := ArgMinWhere(db.invoices, p, (inv: Invoice) => inv.id).value;
        var inv := db.invoices[k];
        Ok(Some(Shown(inv, LinesOf(db.lines, db.items, inv.id), db.invoices[first].id)))
  }

  /** `afterInvoice`: fails without an open day; `data: null` when nothing
      matches; otherwise the open day's matching invoice with the smallest
      id (the nearest one above `id`), its lines, and the largest matching
      id. */
  function AfterInvoice(db: Db, id: Option<int>, f: NavFilter): (r: Result<Option<Shown>>)
    ensures r.Err? <==> OpenDay(db.dailies).None?
    ensures r.Ok? ==>
      var day := db.dailies[OpenDay(db.dailies).value].id;
      (r.value.None? <==> forall j :: 0 <= j < |db.invoices| ==> !AfterMatch(db.invoices[j], day, id, f))
      && (r.value.Some? ==>
        var s := r.value.value;
        s.invoice in db.invoices && AfterMatch(s.invoice, day, id, f)
        && (forall j :: 0 <= j < |db.invoices| && AfterMatch(db.invoices[j], day, id, f)
              ==> s.invoice.id <= db.invoices[j].id && db.invoices[j].id <= s.edge)
        && (exists j :: 0 <= j < |db.invoices| && AfterMatch(db.invoices[j], day, id, f)
              && db.invoices[j].id == s.edge)
        && s.items == LinesOf(db.lines, db.items, s.invoice.id))
  {
    match OpenDay(db.dailies)
    case None => Err("برجاء فتح يومية جديدة")
    case Some(d) =>
      var day := db.dailies[d].id;
      var p := (inv: Invoice) => AfterMatch(inv, day, id, f);
      match ArgMinWhere(db.invoices, p, (inv: Invoice) => inv.id)
      case None => Ok(None)
      case Some(k) =>
        var last := ArgMaxWhere(db.invoices, p, (inv: Invoice) => inv.id).value;
        var inv := db.invoices[k];
        Ok(Some(Shown(inv, LinesOf(db.lines, db.items, inv.id), db.invoices[last].id)))
  }

  /** Stepping back never skips an invoice: with unique ids, nothing that
      matches lies strictly between the shown invoice and the bound. */
  lemma BeforeIsNearest(db: Db, id: int, f: NavFilter, all: bool)
    requires id != 0
    requires BeforeInvoice(db, Some(id), f, all).Ok? && BeforeInvoice(db, Some(id), f, all).value.Some?
    ensures var s := BeforeInvoice(db, Some(id), f, all).value.value;
            s.invoice.id < id && s.edge <= s.invoice.id
            && forall j :: 0 <= j < |db.invoices| && s.invoice.id < db.invoices[j].id < id ==>
                 !(db.invoices[j].dailyId == db.dailies[OpenDay(db.dailies).value].id || all)
                 || !PassesFilter(db.invoices[j], f)
  {
    var s := BeforeInvoice(db, Some(id), f, all).value.value;
    var k :| 0 <= k < |db.invoices| && db.invoices[k] == s.invoice;
  }

  /** As written, a `from` bound excludes every invoice stored on the bound's
      own UTC date, even one stored after the bound: the stored text has ' '
      where the ISO text has 'T'. */
  lemma FromBoundDropsItsOwnDate(inv: Invoice, f: NavFilter, created: Dates.DateTime)
    requires f.from.Some? && Dates.Valid(f.from.value) && Dates.FourDigitYear(f.from.value)
    requires Dates.Valid(created) && Dates.FourDigitYear(created)
    requires inv.createdAt == Dates.FormatDateForMySql(created)
    requires Dates.DatePart(created) == Dates.DatePart(f.from.value)
    ensures !PassesFilter(inv, f)
  {
    Dates.StoredSortsBeforeIsoOnSameDate(created, f.from.value);
  }

  /** The concrete case: filtering from midnight of 17 July 2025 (UTC) hides
      an invoice saved at 10:15:05 that day. */
  lemma FromBoundExample()
    ensures var start := Dates.DateTime(2025, 6, 17, 0, 0, 0, 0);
            var saved := Dates.DateTime(2025, 6, 17, 10, 15, 5, 0);
            Dates.NotAfter(start, saved)
            && !PassesFilter(Invoice(1, "", "", "خالص", 0, 0, 0, 1, Dates.FormatDateForMySql(saved)),
                             NavFilter(Some(start), None, ""))
  {
    var start := Dates.DateTime(2025, 6, 17, 0, 0, 0, 0);
    var saved := Dates.DateTime(2025, 6, 17, 10, 15, 5, 0);
    FromBoundDropsItsOwnDate(Invoice(1, "", "", "خالص", 0, 0, 0, 1, Dates.FormatDateForMySql(saved)),
                             NavFilter(Some(start), None, ""), saved);
  }

  /** The filter with each bound first put into the stored text form, as
      `toSqliteDate` does for the reports. */
  predicate PassesFilterFixed(inv: Invoice, f: NavFilter) {
    (f.from.Some? ==> Dates.LexLe(Dates.ToSqliteDate(Dates.ToIsoString(f.from.value)), inv.createdAt))
    && (f.to.Some? ==> Dates.LexLe(inv.createdAt, Dates.ToSqliteDate(Dates.ToIsoString(f.to.value))))
    && (f.invoiceType != "" ==> inv.paymentType == f.invoiceType)
  }

  /** The corrected filter is chronological: an invoice stored at `created`
      passes exactly when it lies within the bounds, to the second. */
  lemma FixedFilterIsChronological(inv: Invoice, f: NavFilter, created: Dates.DateTime)
    requires Dates.Valid(created) && Dates.FourDigitYear(created)
    requires inv.createdAt == Dates.FormatDateForMySql(created)
    requires f.from.Some? ==> Dates.Valid(f.from.value) && Dates.FourDigitYear(f.from.value)
    requires f.to.Some? ==> Dates.Valid(f.to.value) && Dates.FourDigitYear(f.to.value)
    ensures PassesFilterFixed(inv, f) <==>
      (f.from.Some? ==> Dates.NotAfter(f.from.value, created))
      && (f.to.Some? ==> Dates.NotAfter(created, f.to.value))
      && (f.invoiceType != "" ==> inv.paymentType == f.invoiceType)
  {
    if f.from.Some? {
      Dates.SqliteDateOfIsoString(f.from.value);
      Dates.MySqlTextOrder(f.from.value, created);
    }
    if f.to.Some? {
      Dates.SqliteDateOfIsoString(f.to.value);
      Dates.MySqlTextOrder(created, f.to.value);
    }
  }
}

=== FILE: ipc_handlers.dfy ===
/** The main process's side, `src/main/ipc/handlers/index.js`: the
    handlers registered per channel, each wrapped in the per-sender
    fixed-window rate limiter, and the periodic sweep of stale limiters. */
module IpcHandlers {
  import opened Wrappers
  import Preload

  /** The channels `setupIPC` registers, grouped by handler file. */
  const AuthHandled: set<string> := {"auth:login", "auth:logout", "auth:check"}
  const UserHandled: set<string> :=
    {"users:getAll", "users:getById", "users:create", "users:update", "users:delete", "users:search"}
  const PermissionHandled: set<string> :=
    {"permissions:getAll", "permissions:getByCategory", "permissions:getUserPermissions",
     "permissions:updateUserPermissions", "permissions:grant", "permissions:revoke", "permissions:hasPermission"}
  const SettingsHandled: set<string> :=
    {"settings:getAll", "settings:backupDatabase", "settings:getByDomain", "settings:getByKey", "settings:update"}
  const ProductHandled: set<string> :=
    {"products:getAll", "products:getById", "products:create", "products:update", "products:delete",
     "products:search", "products:generateBarCode", "products:getByBarcode"}
  const CategoryHandled: set<string> :=
    {"categories:getAll", "categories:getById", "categories:create", "categories:update", "categories:delete",
     "categories:search"}
  const DailyHandled: set<string> := {"daily:open", "daily:close", "daily:get"}
  const CreditHandled: set<string> := {"credit:create", "credit:getAll", "credit:getByDaily", "credit:delete"}
  const InvoiceHandled: set<string> :=
    {"invoice:create", "invoice:after", "invoice:before", "invoice:getAll", "invoice:update", "invoice:print"}
  const ReportHandled: set<string> :=
    {"transactions:get-product-transactions",
     "reports:daily-sales", "reports:monthly-sales", "reports:product-performance",
     "reports:cashier-performance", "reports:inventory", "reports:financial-summary",
     "pdf:generate-report"}

  const HandledChannels: set<string> :=
    AuthHandled + UserHandled + PermissionHandled + SettingsHandled + ProductHandled + CategoryHandled
    + DailyHandled + CreditHandled + InvoiceHandled + ReportHandled

  const Window := 1000
  const MaxCalls := 100

  /** `{ count, resetTime }` of one sender. */
  datatype Limiter = Limiter(count: nat, resetTime: int)

  type Limiters = map<int, Limiter>

  /** The sender's limiter as the call sees it: a new one for an unknown
      sender, a fresh window once the old one has passed. */
  function Current(ls: Limiters, sender: int, now: int): (l: Limiter)
    ensures sender !in ls || now > ls[sender].resetTime ==> l == Limiter(0, now + Window)
    ensures sender in ls && now <= ls[sender].resetTime ==> l == ls[sender]
  {
    if sender !in ls then Limiter(0, now + Window)
    else if now > ls[sender].resetTime then Limiter(0, now + Window)
    else ls[sender]
  }

  /** `rateLimit`: the call is refused once the window holds `MaxCalls`
      accepted calls; otherwise it is counted and passed to the handler. */
  function RateLimit(ls: Limiters, sender: int, now: int): (r: (Limiters, bool))
    ensures var l := Current(ls, sender, now);
            (r.1 <==> l.count < MaxCalls)
            && sender in r.0
            && r.0[sender] == (if r.1 then l.(count := l.count + 1) else l)
            && forall s :: s in ls && s != sender ==> s in r.0 && r.0[s] == ls[s]
    ensures forall s :: s in r.0 ==> s in ls || s == sender
  {
    var l := Current(ls, sender, now);
    if l.count >= MaxCalls then (ls[sender := l], false)
    else (ls[sender := l.(count := l.count + 1)], true)
  }

  /** No limiter ever counts more than `MaxCalls`. */
  ghost predicate Bounded(ls: Limiters) {
    forall s :: s in ls ==> ls[s].count <= MaxCalls
  }

  lemma RateLimitKeepsBounded(ls: Limiters, sender: int, now: int)
    requires Bounded(ls)
    ensures Bounded(RateLimit(ls, sender, now).0)
  {
  }

  /** The calls of one sender at the given times, in order: how many pass. */
  function Accepted(ls: Limiters, sender: int, times: seq<int>): nat
    decreases |times|
  {
    if times == [] then 0
    else
      var step := RateLimit(ls, sender, times[0]);
      (if step.1 then 1 else 0) + Accepted(step.0, sender, times[1..])
  }

  /** Calls that all fall inside the sender's current window pass at most
      as often as the window has room left. */
  lemma {:induction false} WindowRoomBoundsAccepted(ls: Limiters, sender: int, times: seq<int>)
    requires sender in ls && ls[sender].count <= MaxCalls
    requires forall k :: 0 <= k < |times| ==> times[k] <= ls[sender].resetTime
    ensures Accepted(ls, sender, times) <= MaxCalls - ls[sender].count
    decreases |times|
  {
    if times != [] {
      var step := RateLimit(ls, sender, times[0]);
      assert step.0[sender].resetTime == ls[sender].resetTime;
      WindowRoomBoundsAccepted(step.0, sender, times[1..]);
    }
  }

  /** The fixed-window promise: a call that opens a window at `start`,
      followed by any calls up to `start + Window`, lets at most `MaxCalls`
      through, the opening call included. */
  lemma AtMostMaxCallsPerWindow(ls: Limiters, sender: int, start: int, later: seq<int>)
    requires sender !in ls || start > ls[sender].resetTime
    requires forall k :: 0 <= k < |later| ==> later[k] <= start + Window
    ensures Accepted(ls, sender, [start] + later) <= MaxCalls
  {
    var times := [start] + later;
    assert times[1..] == later;
    var step := RateLimit(ls, sender, start);
    assert step.0[sender] == Limiter(1, start + Window);
    WindowRoomBoundsAccepted(step.0, sender, later);
  }

  /** Once the window has passed, the next call always goes through. */
  lemma ExpiredWindowAccepts(ls: Limiters, sender: int, now: int)
    requires sender in ls && now > ls[sender].resetTime
    ensures RateLimit(ls, sender, now).1
    ensures RateLimit(ls, sender, now).0[sender] == Limiter(1, now + Window)
  {
  }

  /** The sweep every two windows: limiters idle for a whole window past
      their reset time are dropped, the others kept as they are. */
  function Sweep(ls: Limiters, now: int): (r: Limiters)
    ensures forall s :: s in r <==> s in ls && now <= ls[s].resetTime + Window
    ensures forall s :: s in r ==> r[s] == ls[s]
  {
    map s | s in ls && now <= ls[s].resetTime + Window :: ls[s]
  }

  /** The sweep is invisible to senders: any later call is accepted or
      refused as it would have been, and leaves the same limiter. */
  lemma SweepIsInvisible(ls: Limiters, swept: int, sender: int, now: int)
    requires now >= swept
    ensures RateLimit(Sweep(ls, swept), sender, now).1 == RateLimit(ls, sender, now).1
    ensures RateLimit(Sweep(ls, swept), sender, now).0[sender] == RateLimit(ls, sender, now).0[sender]
  {
    assert Current(Sweep(ls, swept), sender, now) == Current(ls, sender, now);
  }

  /** What a renderer call ends with: refused by the preload guard, no
      handler for the channel, refused by the limiter, or passed on to
      the handler with the limiter's new state. */
  datatype Route = Refused(message: string) | NoHandler | Limited | Reached(limiters: Limiters)

  /** A call from the renderer through `safeInvoke` to `secureHandler`. */
  function Dispatch(ls: Limiters, channel: string, sender: int, now: int): (r: Route)
    ensures r.Refused? <==> channel !in Preload.ValidChannels
    ensures r.NoHandler? <==> channel in Preload.ValidChannels && channel !in HandledChannels
    ensures r.Reached? ==> channel in Preload.ValidChannels * HandledChannels && RateLimit(ls, sender, now).1
    ensures channel in Preload.ValidChannels * HandledChannels ==>
              (r.Reached? <==> RateLimit(ls, sender, now).1)
  {
    if channel !in Preload.ValidChannels then Refused(Preload.InvalidChannel(channel))
    else if channel !in HandledChannels then NoHandler
    else
      var step := RateLimit(ls, sender, now);
      if step.1 then Reached(step.0) else Limited
  }

  /** The registered report, export, print, backup and product-movement
      handlers are not on the preload list, so no renderer call reaches
      them; the inventory report is one. */
  lemma ReportsAreUnreachable(ls: Limiters, sender: int, now: int)
    ensures "reports:inventory" in HandledChannels
    ensures Dispatch(ls, "reports:inventory", sender, now).Refused?
  {
    InventoryNotListed();
  }

  /** `units.js` and `branches.js` are required by no handler index and
      their groups are on no channel list: no channel of either kind is
      registered or let through, so the units and branches pages reach
      no handler. */
  lemma UnitsAndBranchesUnwired(c: string)
    requires "units:" <= c || "branches:" <= c
    ensures c !in HandledChannels && c !in Preload.ValidChannels
    ensures forall ls: Limiters, sender: int, now: int :: Dispatch(ls, c, sender, now).Refused?
  {
    UnitOrBranchPrefix(c);
    NoUnitOrBranchHandled();
    NoUnitOrBranchListed();
    forall ls: Limiters, sender: int, now: int
      ensures Dispatch(ls, c, sender, now).Refused?
    {
    }
  }

  lemma UnitOrBranchPrefix(c: string)
    requires "units:" <= c || "branches:" <= c
    ensures UnitOrBranch(c)
  {
    if "units:" <= c {
      assert c[0] == "units:"[0] && c[1] == "units:"[1];
    } else {
      assert c[0] == "branches:"[0];
    }
  }

  /** A text that opens like a units or a branches channel. */
  predicate UnitOrBranch(c: string) {
    |c| >= 2 && (c[0] == 'b' || (c[0] == 'u' && c[1] == 'n'))
  }

  lemma NoUnitOrBranchHandled()
    ensures forall c :: c in HandledChannels ==> !UnitOrBranch(c)
  {
    NoUnitOrBranchHandledFirst();
    NoUnitOrBranchHandledLast();
  }

  lemma NoUnitOrBranchHandledFirst()
    ensures forall c :: c in AuthHandled + UserHandled + PermissionHandled ==> !UnitOrBranch(c)
    ensures forall c :: c in SettingsHandled + ProductHandled ==> !UnitOrBranch(c)
  {
    assert forall c :: c in AuthHandled ==> !UnitOrBranch(c);
    assert forall c :: c in UserHandled ==> !UnitOrBranch(c);
    assert forall c :: c in PermissionHandled ==> !UnitOrBranch(c);
    assert forall c :: c in SettingsHandled ==> !UnitOrBranch(c);
  }

  lemma NoUnitOrBranchHandledLast()
    ensures forall c :: c in CategoryHandled + DailyHandled + CreditHandled ==> !UnitOrBranch(c)
    ensures forall c :: c in InvoiceHandled + ReportHandled ==> !UnitOrBranch(c)
  {
    assert forall c :: c in CategoryHandled ==> !UnitOrBranch(c);
    assert forall c :: c in DailyHandled ==> !UnitOrBranch(c);
    assert forall c :: c in CreditHandled ==> !UnitOrBranch(c);
    assert forall c :: c in InvoiceHandled ==> !UnitOrBranch(c);
  }

  lemma NoUnitOrBranchListed()
    ensures forall c :: c in Preload.ValidChannels ==> !UnitOrBranch(c)
  {
    NoUnitOrBranchInFirstGroups();
    NoUnitOrBranchInLastGroups();
  }

  lemma NoUnitOrBranchInFirstGroups()
    ensures forall c :: c in Preload.AuthChannels + Preload.UserChannels + Preload.PermissionChannels ==> !UnitOrBranch(c)
    ensures forall c :: c in Preload.CategoryChannels + Preload.ProductChannels ==> !UnitOrBranch(c)
  {
    NoUnitOrBranchInAccessGroups();
    assert forall c :: c in Preload.CategoryChannels ==> !UnitOrBranch(c);
    assert forall c :: c in Preload.ProductChannels ==> !UnitOrBranch(c);
  }

  lemma NoUnitOrBranchInAccessGroups()
    ensures forall c :: c in Preload.AuthChannels + Preload.UserChannels + Preload.PermissionChannels ==> !UnitOrBranch(c)
  {
    assert forall c :: c in Preload.AuthChannels ==> !UnitOrBranch(c);
    assert forall c :: c in Preload.UserChannels ==> !UnitOrBranch(c);
  }

  lemma NoUnitOrBranchInLastGroups()
    ensures forall c :: c in Preload.InvoiceChannels + Preload.DailyChannels + Preload.CreditChannels ==> !UnitOrBranch(c)
    ensures forall c :: c in Preload.TransactionChannels + Preload.SettingsChannels + Preload.SystemChannels ==> !UnitOrBranch(c)
  {
    assert forall c :: c in Preload.InvoiceChannels ==> !UnitOrBranch(c);
    assert forall c :: c in Preload.DailyChannels ==> !UnitOrBranch(c);
    assert forall c :: c in Preload.CreditChannels ==> !UnitOrBranch(c);
    assert forall c :: c in Preload.TransactionChannels ==> !UnitOrBranch(c);
    assert forall c :: c in Preload.SettingsChannels ==> !UnitOrBranch(c);
  }

  lemma InventoryNotListed()
    ensures "reports:inventory" !in Preload.ValidChannels
  {
    InventoryNotInFirstGroups();
    InventoryNotInLastGroups();
  }

  lemma InventoryNotInFirstGroups()
    ensures var c := "reports:inventory";
            c !in Preload.AuthChannels && c !in Preload.UserChannels && c !in Preload.PermissionChannels
            && c !in Preload.CategoryChannels && c !in Preload.ProductChannels
  {
  }

  lemma InventoryNotInLastGroups()
    ensures var c := "reports:inventory";
            c !in Preload.InvoiceChannels && c !in Preload.DailyChannels && c !in Preload.CreditChannels
            && c !in Preload.TransactionChannels && c !in Preload.SettingsChannels && c !in Preload.SystemChannels
  {
  }

  /** The list as intended: every registered channel is also allowed. */
  const ValidChannelsFixed: set<string> := Preload.ValidChannels + HandledChannels

  function DispatchFixed(ls: Limiters, channel: string, sender: int, now: int): (r: Route)
    ensures r.Refused? <==> channel !in ValidChannelsFixed
    ensures r.NoHandler? <==> channel in ValidChannelsFixed && channel !in HandledChannels
    ensures channel in HandledChannels ==> (r.Reached? <==> RateLimit(ls, sender, now).1)
  {
    if channel !in ValidChannelsFixed then Refused(Preload.InvalidChannel(channel))
    else if channel !in HandledChannels then NoHandler
    else
      var step := RateLimit(ls, sender, now);
      if step.1 then Reached(step.0) else Limited
  }

  /** With the intended list every registered handler is reachable, while
      the channels already allowed behave exactly as before. */
  lemma FixedListReachesEveryHandler(ls: Limiters, channel: string, sender: int, now: int)
    ensures channel in HandledChannels && RateLimit(ls, sender, now).1 ==> DispatchFixed(ls, channel, sender, now).Reached?
    ensures channel in Preload.ValidChannels ==> DispatchFixed(ls, channel, sender, now) == Dispatch(ls, channel, sender, now)
  {
  }
}

=== FILE: numbers.dfy ===
/** Decimal text for integers: rendering (template literals and
    `padStart(2, "0")`) and the two parsers the code calls, `parseInt` and
    `Number`. Only integer text is modelled; money is whole minor units. */
module Numbers {
  import opened Wrappers
  import Text

  predicate IsDigit(c: char) {
    '0' <= c <= '9'
  }

  predicate AllDigits(s: string) {
    forall i :: 0 <= i < |s| ==> IsDigit(s[i])
  }

  function DigitValue(c: char): (d: nat)
    requires IsDigit(c)
    ensures d < 10
  {
    c as int - '0' as int
  }

  function DigitChar(d: nat): (c: char)
    requires d < 10
    ensures IsDigit(c) && DigitValue(c) == d
  {
    ('0' as int + d) as char
  }

  /** Decimal rendering of a natural number, as `${n}` produces it. */
  function NatToString(n: nat): (r: string)
    ensures |r| >= 1 && AllDigits(r)
    ensures n < 10 <==> |r| == 1
    decreases n
  {
    if n < 10 then [DigitChar(n)] else NatToString(n / 10) + [DigitChar(n % 10)]
  }

  /** The value of a run of decimal digits (most significant first). */
  function DigitsValue(s: string): nat
    requires AllDigits(s)
    decreases |s|
  {
    if s == [] then 0 else DigitsValue(s[..|s| - 1]) * 10 + DigitValue(s[|s| - 1])
  }

  lemma {:induction false} DigitsValueOfNatToString(n: nat)
    ensures DigitsValue(NatToString(n)) == n
    decreases n
  {
    var r := NatToString(n);
    if n >= 10 {
      DigitsValueOfNatToString(n / 10);
      assert r[..|r| - 1] == NatToString(n / 10);
    }
  }

  /** A run of digits is worth at least any run it ends with. */
  lemma {:induction false} DigitsValueSuffix(p: string, w: string)
    requires AllDigits(p) && AllDigits(w)
    ensures AllDigits(p + w) && DigitsValue(p + w) >= DigitsValue(w)
    decreases |w|
  {
    var t := p + w;
    if w != [] {
      assert t[..|t| - 1] == p + w[..|w| - 1];
      DigitsValueSuffix(p, w[..|w| - 1]);
    } else {
      assert t == p;
    }
  }

  /** A run of digits is worth at least any run it starts with. */
  lemma {:induction false} DigitsValuePrefix(s: string, j: nat)
    requires AllDigits(s) && j <= |s|
    ensures DigitsValue(s[..j]) <= DigitsValue(s)
    decreases |s| - j
  {
    if j < |s| {
      DigitsValuePrefix(s[..|s| - 1], j);
      assert s[..|s| - 1][..j] == s[..j];
    } else {
      assert s[..j] == s;
    }
  }

  /** Any window of a run of digits is worth at most the whole run. */
  lemma DigitsValueWindow(s: string, i: nat, j: nat)
    requires AllDigits(s) && i <= j <= |s|
    ensures DigitsValue(s[i..j]) <= DigitsValue(s)
  {
    assert s[..i] + s[i..j] == s[..j];
    DigitsValueSuffix(s[..i], s[i..j]);
    DigitsValuePrefix(s, j);
  }

  /** A number whose decimal text contains another's is at least as large:
      so an id matched by `LIKE '%k%'` is never below k. */
  lemma ContainedNumberIsNotSmaller(a: nat, k: nat)
    requires Text.Contains(NatToString(a), NatToString(k))
    ensures k <= a
  {
    var s := NatToString(a);
    var w := NatToString(k);
    Text.ContainsIffOccurs(s, w);
    var i :| Text.OccursAt(s, w, i);
    OccurrenceNotLarger(s, w, i);
    DigitsValueOfNatToString(a);
    DigitsValueOfNatToString(k);
  }

  /** A run of digits found inside another is worth at most the whole. */
  lemma OccurrenceNotLarger(s: string, w: string, i: int)
    requires AllDigits(s) && Text.OccursAt(s, w, i)
    ensures AllDigits(w) && DigitsValue(w) <= DigitsValue(s)
  {
    assert s[i..i + |w|] == w;
    DigitsValueWindow(s, i, i + |w|);
  }

  lemma {:induction false} DigitsValueLeadingZero(s: string)
    requires AllDigits(s)
    ensures AllDigits("0" + s) && DigitsValue("0" + s) == DigitsValue(s)
    decreases |s|
  {
    if s != [] {
      var t := "0" + s;
      assert t[..|t| - 1] == "0" + s[..|s| - 1];
      DigitsValueLeadingZero(s[..|s| - 1]);
    }
  }

  /** `count` copies of `c`. */
  function Repeat(c: char, count: nat): (r: string)
    ensures |r| == count && forall i :: 0 <= i < count ==> r[i] == c
  {
    if count == 0 then [] else [c] + Repeat(c, count - 1)
  }

  /** `s.padStart(width, c)`: prefix copies of `c` up to the width; a string
      already that long is unchanged. */
  function PadStart(s: string, width: nat, c: char): (r: string)
    ensures |r| == if |s| < width then width else |s|
    ensures r[|r| - |s|..] == s
    ensures forall i :: 0 <= i < |r| - |s| ==> r[i] == c
  {
    if |s| < width then Repeat(c, width - |s|) + s else s
  }

  lemma {:induction false} DigitsValueLeadingZeros(k: nat, s: string)
    requires AllDigits(s)
    ensures AllDigits(Repeat('0', k) + s) && DigitsValue(Repeat('0', k) + s) == DigitsValue(s)
    decreases k
  {
    if k > 0 {
      DigitsValueLeadingZeros(k - 1, s);
      assert Repeat('0', k) + s == "0" + (Repeat('0', k - 1) + s);
      DigitsValueLeadingZero(Repeat('0', k - 1) + s);
    } else {
      assert Repeat('0', k) + s == s;
    }
  }

  /** Padding a run of digits with zeros keeps it a run of the same value. */
  lemma ZeroPaddingKeepsValue(s: string, width: nat)
    requires AllDigits(s)
    ensures AllDigits(PadStart(s, width, '0'))
    ensures DigitsValue(PadStart(s, width, '0')) == DigitsValue(s)
  {
    if |s| < width {
      DigitsValueLeadingZeros(width - |s|, s);
    }
  }

  /** `String(n).padStart(width, "0")`: zero-padded digits that still read
      as `n`. */
  function ZeroPad(n: nat, width: nat): (r: string)
    ensures AllDigits(r) && |r| >= width
    ensures DigitsValue(r) == n
  {
    var s := NatToString(n);
    DigitsValueOfNatToString(n);
    ZeroPaddingKeepsValue(s, width);
    if |s| < width then PadStart(s, width, '0') else s
  }

  /** `String(n).padStart(2, "0")`. */
  function Pad2(n: nat): (r: string)
    ensures AllDigits(r) && |r| >= 2
    ensures n < 100 ==> |r| == 2
    ensures DigitsValue(r) == n
  {
    ZeroPad(n, 2)
  }

  /** `${i}` for a possibly negative integer. */
  function IntToString(i: int): (r: string)
    ensures |r| >= 1
    ensures i >= 0 <==> IsDigit(r[0])
    ensures i < 0 <==> r[0] == '-'
  {
    if i < 0 then "-" + NatToString(-i) else NatToString(i)
  }

  /** The longest run of digits at the start of `s`. */
  function LeadingDigits(s: string): (r: string)
    ensures Text.IsPrefix(r, s) && AllDigits(r)
    ensures |r| == |s| || !IsDigit(s[|r|])
  {
    if s == [] || !IsDigit(s[0]) then [] else [s[0]] + LeadingDigits(s[1..])
  }

  lemma LeadingDigitsOfDigits(s: string)
    requires AllDigits(s)
    ensures LeadingDigits(s) == s
  {
  }

  /** A sign followed by a value: `-` negates, `+` or nothing keeps it. */
  function Signed(negative: bool, v: nat): int {
    if negative then -(v as int) else v
  }

  /** `parseInt(s, 10)`: leading whitespace is skipped, one optional sign is
      read, then as many digits as follow; text without a leading digit is
      NaN (`None`). */
  function ParseInt(s: string): (r: Option<int>)
    ensures r.Some? ==> exists k :: 0 <= k < |s| && IsDigit(s[k])
  {
    var t := Text.TrimStart(s);
    var negative := t != [] && t[0] == '-';
    var body := if t != [] && (t[0] == '-' || t[0] == '+') then t[1..] else t;
    var d := LeadingDigits(body);
    if d == [] then None
    else
      assert d[0] == s[|s| - |body|];
      Some(Signed(negative, DigitsValue(d)))
  }

  /** Whatever an integer renders as, `parseInt` reads back. */
  lemma ParseIntOfIntToString(i: int)
    ensures ParseInt(IntToString(i)) == Some(i)
  {
    var s := IntToString(i);
    var n := if i < 0 then -i else i;
    var digits := NatToString(n);
    DigitsValueOfNatToString(n);
    LeadingDigitsOfDigits(digits);
    assert !Text.IsSpace(s[0]);
    assert Text.TrimStart(s) == s;
    if i < 0 {
      assert s[1..] == digits;
      assert LeadingDigits(s[1..]) == digits;
    } else {
      assert s == digits;
      assert s[0] != '-' && s[0] != '+';
    }
  }

  /** `Number(s)`: the whole trimmed text must be an optionally signed run
      of digits; blank text is 0; anything else is NaN (`None`). */
  function ToNumber(s: string): (r: Option<int>)
  {
    var t := Text.Trim(s);
    if t == [] then Some(0)
    else if t[0] == '-' || t[0] == '+' then
      var d := t[1..];
      if d != [] && AllDigits(d) then Some(Signed(t[0] == '-', DigitsValue(d))) else None
    else if AllDigits(t) then Some(DigitsValue(t))
    else None
  }

  /** Blank text, the empty text included, reads as 0. */
  lemma BlankReadsAsZero(s: string)
    requires Text.IsBlank(s)
    ensures ToNumber(s) == Some(0)
  {
    Text.TrimEmptyIffBlank(s);
  }

  lemma ToNumberOfIntToString(i: int)
    ensures ToNumber(IntToString(i)) == Some(i)
  {
    if i < 0 {
      NegativeReadsBack(i);
    } else {
      NonNegativeReadsBack(i);
    }
  }

  lemma NegativeReadsBack(i: int)
    requires i < 0
    ensures ToNumber(IntToString(i)) == Some(i)
  {
    ToNumberOfNegative(-i);
  }

  lemma NonNegativeReadsBack(i: int)
    requires i >= 0
    ensures ToNumber(IntToString(i)) == Some(i)
  {
    ToNumberOfNatToString(i);
  }

  /** Text without surrounding whitespace is its own trim. */
  lemma TrimOfUnpadded(s: string)
    requires s != [] && !Text.IsSpace(s[0]) && !Text.IsSpace(s[|s| - 1])
    ensures Text.Trim(s) == s
  {
    assert Text.TrimStart(s) == s;
    assert Text.TrimEnd(s) == s;
  }

  lemma ToNumberOfNatToString(n: nat)
    ensures ToNumber(NatToString(n)) == Some(n)
  {
    DigitsValueOfNatToString(n);
    ToNumberOfDigits(NatToString(n), n);
  }

  lemma ToNumberOfNegative(n: nat)
    requires n > 0
    ensures ToNumber("-" + NatToString(n)) == Some(-(n as int))
  {
    DigitsValueOfNatToString(n);
    ToNumberOfNegatedDigits(NatToString(n), n);
  }

  /** A bare run of digits reads as its value. */
  lemma ToNumberOfDigits(d: string, v: nat)
    requires d != [] && AllDigits(d) && DigitsValue(d) == v
    ensures ToNumber(d) == Some(v)
  {
    assert IsDigit(d[0]) && IsDigit(d[|d| - 1]);
    TrimOfUnpadded(d);
  }

  /** A minus sign before a run of digits reads as the negated value. */
  lemma ToNumberOfNegatedDigits(d: string, v: nat)
    requires d != [] && AllDigits(d) && DigitsValue(d) == v
    ensures ToNumber("-" + d) == Some(-(v as int))
  {
    var s := "-" + d;
    assert IsDigit(s[|s| - 1]);
    TrimOfUnpadded(s);
    assert s[1..] == d;
  }

  /** `Number(s) || 0`: NaN and zero both fall back to 0. */
  function NumberOrZero(s: string): (r: int)
    ensures ToNumber(s).None? ==> r == 0
    ensures ToNumber(s).Some? ==> r == ToNumber(s).value
  {
    ToNumber(s).GetOr(0)
  }

  /** `Math.ceil(n / d)` for a positive divisor. */
  function CeilDiv(n: nat, d: nat): (r: nat)
    requires d > 0
    ensures r * d >= n
    ensures r == 0 || (r - 1) * d < n
  {
    (n + d - 1) / d
  }
}

=== FILE: paging.dfy ===
/** Pagination arithmetic shared by the paged SQL queries
    (`LIMIT ? OFFSET ?` with offset `(page - 1) * limit`) and by the table
    pages that slice a filtered array client-side with a page size of 10. */
module Paging {
  import Numbers

  /** The page size every table page uses. */
  const PageSize: nat := 10

  /** The SQL offset `(page - 1) * limit`. */
  function Offset(page: int, limit: int): int {
    (page - 1) * limit
  }

  /** JavaScript `array.slice(start, end)` for non-negative bounds: both
      bounds are clamped to the length and a reversed range is empty. */
  function Slice<T>(s: seq<T>, start: nat, end: nat): (r: seq<T>)
    ensures start >= |s| || end <= start ==> r == []
    ensures start < end ==> |r| == (if end < |s| then end else |s|) - start || start >= |s|
    ensures forall k :: 0 <= k < |r| ==> start + k < |s| && r[k] == s[start + k]
  {
    var a := if start < |s| then start else |s|;
    var b := if end < |s| then end else |s|;
    if b <= a then [] else s[a..b]
  }

  /** `items.slice((page - 1) * size, (page - 1) * size + size)`, the rows
      a 1-based page shows. */
  function Page<T>(items: seq<T>, page: nat, size: nat): (r: seq<T>)
    requires page >= 1
    ensures |r| <= size
    ensures |r| == Window(|items|, size, Offset(page, size))
    ensures forall k :: 0 <= k < |r| ==> Offset(page, size) + k < |items| && r[k] == items[Offset(page, size) + k]
  {
    var start := (page - 1) * size;
    assert start == Offset(page, size);
    Slice(items, start, start + size)
  }

  /** The first row `OFFSET offset` returns: a negative offset reads as 0. */
  function Start(offset: int): nat {
    if offset < 0 then 0 else offset
  }

  /** How many of `n` rows `LIMIT limit OFFSET offset` returns:
      `min(limit, n - offset)`, never negative, with a negative offset read
      as 0 and a negative limit as no limit. */
  function Window(n: nat, limit: int, offset: int): nat {
    var start := if offset < 0 then 0 else offset;
    var left := if start < n then n - start else 0;
    if 0 <= limit < left then limit else left
  }

  /** SQLite `LIMIT limit OFFSET offset`: a negative offset reads as 0 and
      a negative limit means no limit. */
  function LimitOffset<T>(rows: seq<T>, limit: int, offset: int): (r: seq<T>)
    ensures limit >= 0 ==> |r| <= limit
    ensures |r| == Window(|rows|, limit, offset)
    ensures var start := if offset < 0 then 0 else offset;
            forall k :: 0 <= k < |r| ==> start + k < |rows| && r[k] == rows[start + k]
    ensures var start := if offset < 0 then 0 else offset;
            start < |rows| && limit != 0 ==> |r| > 0
  {
    var start: nat := if offset < 0 then 0 else offset;
    var end: nat := if limit < 0 then |rows| else start + limit;
    Slice(rows, start, end)
  }

  /** `Math.ceil(total / size)`. */
  function TotalPages(total: nat, size: nat): (r: nat)
    requires size > 0
    ensures r * size >= total
    ensures r == 0 || (r - 1) * size < total
    ensures total == 0 <==> r == 0
  {
    Numbers.CeilDiv(total, size)
  }

  /** Pages 1 to n, concatenated. */
  function Pages<T>(items: seq<T>, size: nat, n: nat): seq<T>
    decreases n
  {
    if n == 0 then [] else Pages(items, size, n - 1) + Page(items, n, size)
  }

  /** `x` clamped to a length. */
  function Cut(x: nat, len: nat): nat {
    if x < len then x else len
  }

  lemma {:induction false} PagesArePrefix<T>(items: seq<T>, size: nat, n: nat)
    ensures Pages(items, size, n) == items[..Cut(n * size, |items|)]
    decreases n
  {
    if n > 0 {
      PagesArePrefix(items, size, n - 1);
      PageIsWindow(items, size, n);
      var lo, hi := Cut((n - 1) * size, |items|), Cut(n * size, |items|);
      assert items[..lo] + items[lo..hi] == items[..hi];
    }
  }

  /** Page `n` is the window between the ends of pages `n - 1` and `n`. */
  lemma PageIsWindow<T>(items: seq<T>, size: nat, n: nat)
    requires n >= 1
    ensures Cut((n - 1) * size, |items|) <= Cut(n * size, |items|)
    ensures Page(items, n, size) == items[Cut((n - 1) * size, |items|)..Cut(n * size, |items|)]
  {
    assert n * size == (n - 1) * size + size;
  }

  /** Walking pages 1 to `TotalPages` shows every row exactly once and in
      order: the pages partition the list. */
  lemma PagesCoverAll<T>(items: seq<T>, size: nat)
    requires size > 0
    ensures Pages(items, size, TotalPages(|items|, size)) == items
  {
    PagesArePrefix(items, size, TotalPages(|items|, size));
  }

  /** The footer "showing first to last of total":
      `Math.min((page - 1) * size + 1, total)` to `Math.min(page * size, total)`. */
  function ShownRange(page: int, size: int, total: int): (int, int) {
    var first := (page - 1) * size + 1;
    var last := page * size;
    (if first < total then first else total, if last < total then last else total)
  }

  /** On any existing page the footer counts exactly the rows that page
      shows, numbered from offset + 1. */
  lemma ShownRangeCountsPage<T>(items: seq<T>, page: nat, size: nat)
    requires size > 0 && 1 <= page <= TotalPages(|items|, size)
    ensures ShownRange(page, size, |items|).0 == Offset(page, size) + 1
    ensures ShownRange(page, size, |items|).1 - ShownRange(page, size, |items|).0 + 1
            == |Page(items, page, size)|
  {
    var tp := TotalPages(|items|, size);
    var off := (page - 1) * size;
    MulMonotone(page - 1, tp - 1, size);
    assert off < |items|;
    assert page * size == off + size;
    var r := Page(items, page, size);
    assert |r| == (if off + size < |items| then off + size else |items|) - off;
  }

  /** A `LIMIT limit OFFSET (page - 1) * limit` query returns rows exactly
      on the pages `Math.ceil(total / limit)` announces. */
  lemma PageShowsRowsIff<T>(rows: seq<T>, limit: int, page: int)
    requires limit > 0 && page >= 1
    ensures page <= TotalPages(|rows|, limit) <==> LimitOffset(rows, limit, Offset(page, limit)) != []
  {
    var tp := TotalPages(|rows|, limit);
    if page <= tp {
      MulMonotone(page - 1, tp - 1, limit);
    } else {
      MulMonotone(tp, page - 1, limit);
    }
  }

  lemma MulMonotone(a: nat, b: nat, c: nat)
    requires a <= b
    ensures a * c <= b * c
  {
  }

  /** The numbered page buttons: `Array.from({ length: Math.min(5, totalPages) })`
      labelled from 1. */
  function PageButtons(totalPages: nat): (r: seq<nat>)
    ensures |r| == if totalPages < 5 then totalPages else 5
    ensures forall i :: 0 <= i < |r| ==> r[i] == i + 1 && 1 <= r[i] <= totalPages
  {
    var n := if totalPages < 5 then totalPages else 5;
    seq(n, i requires 0 <= i < n => i + 1)
  }

  /** `handlePage` of the statistics page: the page changes only to a page
      that exists. */
  function GoToPage(current: nat, requested: int, totalPages: nat): (r: nat)
    ensures r == requested <==> (1 <= requested <= totalPages || requested == current)
    ensures r != current ==> 1 <= r <= totalPages
  {
    if 1 <= requested <= totalPages then requested else current
  }
}

=== FILE: pdf_export.dfy ===
/** The PDF export handler `generatePDFReport` of
    `src/main/ipc/handlers/pdf-export.js`. */
module PdfExport {
  // Which report types it renders, the file name it proposes, and the label
  // and class mappings its templates use. The headless browser, the HTML and
  // CSS text and the PDF bytes are not modelled; rendering is reduced to
  // choosing a template.

  import opened Wrappers
  import Numbers
  import Dates
  import Reports

  /** The six report types with a template. */
  datatype ReportKind =
    | DailySales
    | MonthlySales
    | ProductPerformance
    | CashierPerformance
    | Inventory
    | FinancialSummary

  function KindText(k: ReportKind): string {
    match k
    case DailySales => "daily-sales"
    case MonthlySales => "monthly-sales"
    case ProductPerformance => "product-performance"
    case CashierPerformance => "cashier-performance"
    case Inventory => "inventory"
    case FinancialSummary => "financial-summary"
  }

  /** The `switch (reportType)` both `generateFilename` and
      `generateReportHTML` perform; `undefined` and every other text match
      no case. */
  function KindOf(reportType: Option<string>): (r: Option<ReportKind>)
    ensures r.Some? ==> reportType == Some(KindText(r.value))
  {
    if reportType.None? then None
    else
      var t := reportType.value;
      if t == "daily-sales" then Some(DailySales)
      else if t == "monthly-sales" then Some(MonthlySales)
      else if t == "product-performance" then Some(ProductPerformance)
      else if t == "cashier-performance" then Some(CashierPerformance)
      else if t == "inventory" then Some(Inventory)
      else if t == "financial-summary" then Some(FinancialSummary)
      else None
  }

  /** Every type's text selects that type again. */
  lemma KindTextRoundTrip(k: ReportKind)
    ensures KindOf(Some(KindText(k))) == Some(k)
  {
  }

  /** date-fns `format(now, 'yyyy-MM-dd_HH-mm-ss')` on the local fields. */
  function Timestamp(t: Dates.DateTime): string {
    Numbers.ZeroPad(t.year, 4) + "-" + Numbers.Pad2(t.month0 + 1) + "-" + Numbers.Pad2(t.day)
    + "_" + Numbers.Pad2(t.hour) + "-" + Numbers.Pad2(t.minute) + "-" + Numbers.Pad2(t.second)
  }

  /** The timestamp carries the same digits as the stored `YYYY-MM-DD
      HH:MM:SS` text of the same instant, with `_` for the space and `-`
      for the colons, so it is safe in a file name. */
  lemma TimestampMatchesStoredDate(t: Dates.DateTime)
    requires Dates.Valid(t) && Dates.FourDigitYear(t)
    ensures var r := Timestamp(t);
            var stored := Dates.FormatDateForMySql(t);
            |r| == |stored| == 19 && r[10] == '_' && r[13] == '-' && r[16] == '-'
            && forall i :: 0 <= i < 19 && i != 10 && i != 13 && i != 16 ==> r[i] == stored[i]
  {
    Dates.FourDigitNatToString(t.year);
    assert Numbers.ZeroPad(t.year, 4) == Numbers.NatToString(t.year);
    SameBlocks(Numbers.NatToString(t.year), Numbers.Pad2(t.month0 + 1), Numbers.Pad2(t.day),
               Numbers.Pad2(t.hour), Numbers.Pad2(t.minute), Numbers.Pad2(t.second));
  }

  /** The file-name layout and the stored layout of the same six blocks
      differ only in the three separators after the date. */
  lemma SameBlocks(y: string, mo: string, d: string, h: string, mi: string, se: string)
    requires |y| == 4 && |mo| == 2 && |d| == 2 && |h| == 2 && |mi| == 2 && |se| == 2
    ensures var r := y + "-" + mo + "-" + d + "_" + h + "-" + mi + "-" + se;
            var stored := y + "-" + mo + "-" + d + " " + (h + ":" + mi + ":" + se);
            |r| == |stored| == 19 && r[10] == '_' && r[13] == '-' && r[16] == '-'
            && forall i :: 0 <= i < 19 && i != 10 && i != 13 && i != 16 ==> r[i] == stored[i]
  {
  }

  /** The fields of `reportData` some template reads without checking that
      they are there: a list it maps over or an object it reads a total of. */
  datatype Field = ProductsList | CashiersList | RevenueTotals | ExpenseTotals | ProfitTotals | TransactionTotals

  /** The fields of `reportData` the names interpolate, where a missing
      field renders as `undefined`, and which of the unguarded fields are
      present. */
  datatype ReportData = ReportData(date: Option<string>, year: Option<string>, month: Option<string>, present: set<Field>)

  /** The fields each template reads unguarded: `data.products.map` in the
      product and inventory templates, `data.cashiers.map` in the cashier
      one, and `data.revenue`, `data.expenses`, `data.profit` and
      `data.transactions` in the financial one. The daily and monthly
      templates guard every field they read. */
  function Reads(k: ReportKind): set<Field> {
    match k
    case DailySales => {}
    case MonthlySales => {}
    case ProductPerformance => {ProductsList}
    case CashierPerformance => {CashiersList}
    case Inventory => {ProductsList}
    case FinancialSummary => {RevenueTotals, ExpenseTotals, ProfitTotals, TransactionTotals}
  }

  /** The TypeError of reading a property of `undefined`; V8's exact wording
      is not modelled. */
  const MissingField := "TypeError: Cannot read properties of undefined"

  /** `${value}` of a possibly missing field. */
  function Shown(v: Option<string>): string {
    v.GetOr("undefined")
  }

  /** The end every file name shares: `_${timestamp}.pdf`. */
  function Tail(now: Dates.DateTime): string {
    "_" + Timestamp(now) + ".pdf"
  }

  /** The name for a type without a template. */
  function GenericFilename(now: Dates.DateTime): string {
    "تقرير" + Tail(now)
  }

  lemma EndsWith(a: string, tail: string)
    ensures |tail| <= |a + tail| && (a + tail)[|a + tail| - |tail|..] == tail
  {
  }

  /** `generateFilename`: a per-type Arabic name, with the day for the
      daily report and the year and month for the monthly one, then the
      timestamp; a generic name for any other type. */
  function Filename(reportType: Option<string>, data: ReportData, now: Dates.DateTime): (r: string)
    ensures |Tail(now)| <= |r| && r[|r| - |Tail(now)|..] == Tail(now)
    ensures KindOf(reportType).None? <==> r == GenericFilename(now)
  {
    var head :=
      match KindOf(reportType)
      case Some(DailySales) => "تقرير_المبيعات_اليومي_" + Shown(data.date)
      case Some(MonthlySales) => "تقرير_المبيعات_الشهري_" + Shown(data.year) + "-" + Shown(data.month)
      case Some(ProductPerformance) => "تقرير_أداء_المنتجات"
      case Some(CashierPerformance) => "تقرير_أداء_الكاشيرات"
      case Some(Inventory) => "تقرير_المخزون"
      case Some(FinancialSummary) => "التقرير_المالي"
      case None => "تقرير";
    EndsWith(head, Tail(now));
    assert KindOf(reportType).Some? ==> |head| > 5;
    head + Tail(now)
  }

  /** The four types whose name carries no report data are told apart by
      their file names alone, at any instant. */
  lemma FixedNamesApart(a: ReportKind, b: ReportKind, data: ReportData, now: Dates.DateTime)
    requires a !in {DailySales, MonthlySales} && b !in {DailySales, MonthlySales}
    requires a != b
    ensures Filename(Some(KindText(a)), data, now) != Filename(Some(KindText(b)), data, now)
  {
    KindTextRoundTrip(a);
    KindTextRoundTrip(b);
  }

  /** `generateReportHTML`: a template for each of the six types, which
      throws when a field it reads unguarded is missing, and the error
      "unsupported report type" for anything else. */
  function RenderHtml(reportType: Option<string>, data: ReportData): (r: Result<ReportKind>)
    ensures r.Ok? <==> KindOf(reportType).Some? && Reads(KindOf(reportType).value) <= data.present
    ensures r.Ok? ==> reportType == Some(KindText(r.value))
    ensures KindOf(reportType).None? ==> r == Err("نوع التقرير غير مدعوم")
    ensures KindOf(reportType).Some? && r.Err? ==> r == Err(MissingField)
  {
    match KindOf(reportType)
    case Some(k) => if Reads(k) <= data.present then Ok(k) else Err(MissingField)
    case None => Err("نوع التقرير غير مدعوم")
  }

  /** A successful export: the template used and the proposed file name. */
  datatype Export = Export(kind: ReportKind, filename: string)

  /** `generatePDFReport(event, reportData, reportType)`: the HTML is
      rendered before the name is chosen, and any failure is rethrown as
      "failed to create the PDF report". */
  function GeneratePdfReport(reportData: ReportData, reportType: Option<string>, now: Dates.DateTime): (r: Result<Export>)
    ensures r.Ok? <==> KindOf(reportType).Some? && Reads(KindOf(reportType).value) <= reportData.present
    ensures r.Err? ==> r.message == "فشل في إنشاء تقرير PDF"
    ensures r.Ok? ==> reportType == Some(KindText(r.value.kind))
                      && r.value.filename == Filename(reportType, reportData, now)
  {
    match RenderHtml(reportType, reportData)
    case Err(_) => Err("فشل في إنشاء تقرير PDF")
    case Ok(k) => Ok(Export(k, Filename(reportType, reportData, now)))
  }

  /** Since an unknown type fails in the template step, the generic branch
      of `generateFilename` never names an exported file. */
  lemma ExportNeverUsesGenericName(reportData: ReportData, reportType: Option<string>, now: Dates.DateTime)
    requires GeneratePdfReport(reportData, reportType, now).Ok?
    ensures GeneratePdfReport(reportData, reportType, now).value.filename != GenericFilename(now)
  {
  }

  /** What the reports page sends: one object `{ reportType, reportData }`. */
  datatype ExportRequest = ExportRequest(reportType: string, reportData: ReportData)

  /** The page's export as written. The preload script exposes no `pdf`
      object, so the thunk's `window.electronAPI.pdf.generateReport` throws
      before any message is sent; and were it exposed, the handler would
      receive the request object as its `reportData` argument, with its
      `reportType` parameter `undefined` and none of the report's fields.
      Either way the outcome is the handler's failure on an unknown type. */
  function ExportFromPage(req: ExportRequest, now: Dates.DateTime): Result<Export> {
    GeneratePdfReport(ReportData(None, None, None, {}), None, now)
  }

  /** The page's export fails for every report, a supported one included. */
  lemma PageExportAlwaysFails(req: ExportRequest, now: Dates.DateTime)
    ensures ExportFromPage(req, now) == Err("فشل في إنشاء تقرير PDF")
  {
  }

  /** The export with the request object unpacked into the handler's two
      arguments. */
  function ExportFromPageFixed(req: ExportRequest, now: Dates.DateTime): Result<Export> {
    GeneratePdfReport(req.reportData, Some(req.reportType), now)
  }

  /** Unpacked, a supported report whose data carries the fields its
      template reads exports under its own template and a name built from
      its own data; an unsupported type or a missing field fails. */
  lemma FixedExportUsesRequestedType(req: ExportRequest, now: Dates.DateTime)
    ensures ExportFromPageFixed(req, now).Ok? <==>
              KindOf(Some(req.reportType)).Some? && Reads(KindOf(Some(req.reportType)).value) <= req.reportData.present
    ensures ExportFromPageFixed(req, now).Ok? ==>
              KindText(ExportFromPageFixed(req, now).value.kind) == req.reportType
              && ExportFromPageFixed(req, now).value.filename == Filename(Some(req.reportType), req.reportData, now)
    ensures forall k: ReportKind :: Reads(k) <= req.reportData.present ==>
              ExportFromPageFixed(ExportRequest(KindText(k), req.reportData), now).Ok?
  {
    forall k: ReportKind | Reads(k) <= req.reportData.present
      ensures ExportFromPageFixed(ExportRequest(KindText(k), req.reportData), now).Ok?
    {
      KindTextRoundTrip(k);
    }
  }

  /** The daily and monthly reports export whatever their data holds, while
      a product, cashier or inventory report without its list fails. */
  lemma MissingListFails(data: ReportData, now: Dates.DateTime)
    ensures GeneratePdfReport(data, Some("daily-sales"), now).Ok?
    ensures GeneratePdfReport(data, Some("monthly-sales"), now).Ok?
    ensures GeneratePdfReport(data, Some("product-performance"), now).Ok? <==> ProductsList in data.present
    ensures GeneratePdfReport(data, Some("inventory"), now).Ok? <==> ProductsList in data.present
    ensures GeneratePdfReport(data, Some("cashier-performance"), now).Ok? <==> CashiersList in data.present
  {
    assert KindOf(Some("daily-sales")) == Some(DailySales);
    assert KindOf(Some("monthly-sales")) == Some(MonthlySales);
    assert KindOf(Some("product-performance")) == Some(ProductPerformance);
    assert KindOf(Some("inventory")) == Some(Inventory);
    assert KindOf(Some("cashier-performance")) == Some(CashierPerformance);
  }

  /** `getStockStatusClass`: the red class for the two shortage statuses,
      the green one for "available", none for any other text. */
  function StockStatusClass(status: string): string {
    if status == "نفد" then "negative"
    else if status == "منخفض" then "negative"
    else if status == "متوفر" then "positive"
    else ""
  }

  /** On the statuses the inventory query produces, the class is red
      exactly when the item needs restocking, and never empty. */
  lemma StockClassFlagsShortage(s: Reports.StockStatus)
    ensures StockStatusClass(Reports.StatusText(s)) == "negative" <==> s != Reports.InStock
    ensures StockStatusClass(Reports.StatusText(s)) == "positive" <==> s == Reports.InStock
  {
  }

  /** `(value || 0) >= 0 ? 'positive' : 'negative'` on a profit cell: a
      missing value counts as 0. */
  function ProfitClass(value: Option<int>): (r: string)
    ensures r == "negative" <==> value.Some? && value.value < 0
    ensures r == "positive" || r == "negative"
  {
    if value.GetOr(0) >= 0 then "positive" else "negative"
  }

  /** How many top products the monthly report prints. */
  const TopProductsShown: nat := 15

  /** An optional section of a template: shown only for a present,
      non-empty list, and then with at most `cap` of its rows when capped. */
  function Section<T>(rows: Option<seq<T>>, cap: Option<nat>): (r: Option<seq<T>>)
    ensures r.Some? <==> rows.Some? && rows.value != []
    ensures r.Some? ==> r.value <= rows.value
    ensures r.Some? && cap.Some? ==> |r.value| == if |rows.value| < cap.value then |rows.value| else cap.value
    ensures r.Some? && cap.None? ==> r.value == rows.value
  {
    if rows.None? || rows.value == [] then None
    else if cap.Some? && cap.value < |rows.value| then Some(rows.value[..cap.value])
    else Some(rows.value)
  }

  /** The monthly report's top-product table prints the first fifteen
      products, or all of them when there are fewer, in the order given. */
  lemma TopProductsPrintsFirstFifteen<T>(rows: seq<T>)
    requires rows != []
    ensures Section(Some(rows), Some(TopProductsShown)).Some?
    ensures |rows| <= TopProductsShown ==> Section(Some(rows), Some(TopProductsShown)).value == rows
    ensures |rows| > TopProductsShown ==> Section(Some(rows), Some(TopProductsShown)).value == rows[..TopProductsShown]
  {
  }
}

=== FILE: permissions.dfy ===
/** The permission handler `src/main/ipc/handlers/permissions.js` over the
    tables `permissions` and `user_permissions`: grouping the catalogue by
    category, granting, revoking and replacing a user's permissions, and
    the checks by permission name. */
module Permissions {
  import opened Wrappers
  import opened Tables
  import opened Schema
  import Sorting

  /** Whether the row belongs to the category. */
  function InCategory(c: string): Permission -> bool {
    (p: Permission) => p.category == c
  }

  /** `getPermissionsByCategory`'s reduce: rows taken in query order, each
      pushed onto its category's list, the list started on first sight. */
  function GroupByCategory(ps: seq<Permission>): map<string, seq<Permission>>
    decreases |ps|
  {
    if ps == [] then map[]
    else
      var prev := GroupByCategory(ps[..|ps| - 1]);
      var p := ps[|ps| - 1];
      prev[p.category := (if p.category in prev then prev[p.category] else []) + [p]]
  }

  /** There is a group for exactly the categories that occur, and each
      group holds exactly that category's rows in their query order. */
  lemma GroupIsByCategory(ps: seq<Permission>)
    ensures forall c :: c in GroupByCategory(ps) <==> exists k :: 0 <= k < |ps| && ps[k].category == c
    ensures forall c :: c in GroupByCategory(ps) ==> GroupByCategory(ps)[c] == Where(ps, InCategory(c))
  {
    GroupKeys(ps);
    GroupContents(ps);
  }

  lemma {:induction false} GroupKeys(ps: seq<Permission>)
    ensures forall c :: c in GroupByCategory(ps) <==> exists k :: 0 <= k < |ps| && ps[k].category == c
    decreases |ps|
  {
    if ps != [] {
      var init := ps[..|ps| - 1];
      GroupKeys(init);
      forall c
        ensures c in GroupByCategory(ps) <==> exists k :: 0 <= k < |ps| && ps[k].category == c
      {
        GroupKeyStep(ps, c);
      }
    }
  }

  /** One category, one more row: the group exists after the row exactly
      when it did before or the row is of that category. */
  lemma GroupKeyStep(ps: seq<Permission>, c: string)
    requires ps != []
    requires var init := ps[..|ps| - 1];
             c in GroupByCategory(init) <==> exists k :: 0 <= k < |init| && init[k].category == c
    ensures c in GroupByCategory(ps) <==> exists k :: 0 <= k < |ps| && ps[k].category == c
  {
    var init := ps[..|ps| - 1];
    var p := ps[|ps| - 1];
    var g := GroupByCategory(ps);
    var prev := GroupByCategory(init);
    if c in g && c != p.category {
      assert c in prev;
      var k :| 0 <= k < |init| && init[k].category == c;
      assert ps[k] == init[k];
    }
    if c == p.category {
      assert ps[|ps| - 1].category == c;
    }
    if exists k :: 0 <= k < |ps| && ps[k].category == c {
      var k :| 0 <= k < |ps| && ps[k].category == c;
      if k < |init| {
        assert init[k] == ps[k];
        assert c in prev;
      }
    }
  }

  lemma {:induction false} GroupContents(ps: seq<Permission>)
    ensures forall c :: c in GroupByCategory(ps) ==> GroupByCategory(ps)[c] == Where(ps, InCategory(c))
    decreases |ps|
  {
    if ps != [] {
      var init := ps[..|ps| - 1];
      GroupContents(init);
      GroupKeys(init);
      forall c | c in GroupByCategory(ps)
        ensures GroupByCategory(ps)[c] == Where(ps, InCategory(c))
      {
        GroupContentStep(ps, c);
      }
    }
  }

  /** One category, one more row: the group gains the row exactly when the
      row is of that category. */
  lemma GroupContentStep(ps: seq<Permission>, c: string)
    requires ps != [] && c in GroupByCategory(ps)
    requires var init := ps[..|ps| - 1];
             (c in GroupByCategory(init) <==> exists k :: 0 <= k < |init| && init[k].category == c)
             && (c in GroupByCategory(init) ==> GroupByCategory(init)[c] == Where(init, InCategory(c)))
    ensures GroupByCategory(ps)[c] == Where(ps, InCategory(c))
  {
    var init := ps[..|ps| - 1];
    var p := ps[|ps| - 1];
    assert ps == init + [p];
    WhereAppend(init, [p], InCategory(c));
    assert Where([p], InCategory(c)) == (if p.category == c then [p] else []) + Where([p][1..], InCategory(c));
    if c != p.category {
      assert c in GroupByCategory(init);
    } else if c !in GroupByCategory(init) {
      assert forall k :: 0 <= k < |init| ==> !InCategory(c)(init[k]);
      WhereNone(init, InCategory(c));
    }
  }



  /** A row of `user_permissions` pairs the user with the permission. */
  predicate Holds(grants: seq<Grant>, userId: int, permissionId: int) {
    exists k :: 0 <= k < |grants| && grants[k].userId == userId && grants[k].permissionId == permissionId
  }

  /** The ids the foreign keys of `user_permissions` may name: `user_id`
      and `granted_by` reference `users(id)`, `permission_id` references
      `permissions(id)`. The connection turns foreign keys on. */
  datatype Known = Known(users: set<int>, permissions: set<int>)

  /** The row satisfies all three foreign keys; a NULL `granted_by` names
      nobody and is always accepted. */
  predicate References(known: Known, g: Grant) {
    g.userId in known.users && g.permissionId in known.permissions
    && (g.grantedBy.None? || g.grantedBy.value in known.users)
  }

  const ForeignKeyFailed := "FOREIGN KEY constraint failed"

  /** `grantPermission`: refused when the pair is already there; otherwise
      the INSERT of one row, which throws when the row names an unknown
      user, permission or grantor. */
  function GrantPermission(known: Known, grants: seq<Grant>, userId: int, permissionId: int, grantedBy: Option<int>): (r: Result<seq<Grant>>)
    ensures r.Err? <==> Holds(grants, userId, permissionId) || !References(known, Grant(userId, permissionId, grantedBy))
    ensures Holds(grants, userId, permissionId) ==> r == Err("المستخدم لديه هذه الصلاحية بالفعل")
    ensures !Holds(grants, userId, permissionId) && !References(known, Grant(userId, permissionId, grantedBy)) ==>
              r == Err(ForeignKeyFailed)
    ensures r.Ok? ==> r.value == grants + [Grant(userId, permissionId, grantedBy)]
  {
    if Holds(grants, userId, permissionId) then Err("المستخدم لديه هذه الصلاحية بالفعل")
    else if !References(known, Grant(userId, permissionId, grantedBy)) then Err(ForeignKeyFailed)
    else Ok(grants + [Grant(userId, permissionId, grantedBy)])
  }

  /** Granting never breaks the table's UNIQUE (user_id, permission_id). */
  lemma GrantKeepsPairsUnique(known: Known, grants: seq<Grant>, userId: int, permissionId: int, grantedBy: Option<int>)
    requires UniquePairs(grants)
    ensures GrantPermission(known, grants, userId, permissionId, grantedBy).Ok? ==>
              UniquePairs(GrantPermission(known, grants, userId, permissionId, grantedBy).value)
  {
    var r := GrantPermission(known, grants, userId, permissionId, grantedBy);
    if r.Ok? {
      assert r.value[|grants|] == Grant(userId, permissionId, grantedBy);
    }
  }

  /** Granting never breaks the foreign keys: when every row named known
      ids before, every row does after. */
  lemma GrantKeepsReferences(known: Known, grants: seq<Grant>, userId: int, permissionId: int, grantedBy: Option<int>)
    requires forall k :: 0 <= k < |grants| ==> References(known, grants[k])
    ensures var after := GrantPermission(known, grants, userId, permissionId, grantedBy).GetOr(grants);
            forall k :: 0 <= k < |after| ==> References(known, after[k])
  {
    var r := GrantPermission(known, grants, userId, permissionId, grantedBy);
    if r.Ok? {
      assert r.value[|grants|] == Grant(userId, permissionId, grantedBy);
    }
  }

  /** Afterwards the user holds the permission exactly when they held it
      already or the row names known ids. */
  lemma GrantedIsHeld(known: Known, grants: seq<Grant>, userId: int, permissionId: int, grantedBy: Option<int>)
    ensures Holds(GrantPermission(known, grants, userId, permissionId, grantedBy).GetOr(grants), userId, permissionId)
            <==> Holds(grants, userId, permissionId) || References(known, Grant(userId, permissionId, grantedBy))
  {
    var r := GrantPermission(known, grants, userId, permissionId, grantedBy);
    if r.Ok? {
      assert r.value[|grants|] == Grant(userId, permissionId, grantedBy);
    }
  }

  function OtherPair(userId: int, permissionId: int): Grant -> bool {
    (g: Grant) => !(g.userId == userId && g.permissionId == permissionId)
  }

  /** `revokePermission`: the pair's rows are deleted; refused when there
      were none. */
  function RevokePermission(grants: seq<Grant>, userId: int, permissionId: int): (r: Result<seq<Grant>>)
    ensures r.Err? <==> !Holds(grants, userId, permissionId)
    ensures r.Ok? ==> !Holds(r.value, userId, permissionId)
    ensures r.Ok? ==> forall k :: 0 <= k < |grants| && (grants[k].userId != userId || grants[k].permissionId != permissionId) ==>
                        grants[k] in r.value
    ensures r.Ok? ==> forall g :: g in r.value ==> g in grants
  {
    if !Holds(grants, userId, permissionId) then Err("الصلاحية غير موجودة للمستخدم")
    else
      var kept := Where(grants, OtherPair(userId, permissionId));
      assert forall k :: 0 <= k < |kept| ==> OtherPair(userId, permissionId)(kept[k]);
      Ok(kept)
  }


  /** Revoking a freshly granted permission gives back the table. */
  lemma RevokeUndoesGrant(known: Known, grants: seq<Grant>, userId: int, permissionId: int, grantedBy: Option<int>)
    requires !Holds(grants, userId, permissionId) && References(known, Grant(userId, permissionId, grantedBy))
    ensures GrantPermission(known, grants, userId, permissionId, grantedBy).Ok?
    ensures RevokePermission(GrantPermission(known, grants, userId, permissionId, grantedBy).value, userId, permissionId) == Ok(grants)
  {
    var row := Grant(userId, permissionId, grantedBy);
    var with := grants + [row];
    assert with[|grants|] == row;
    assert Holds(with, userId, permissionId);
    var p := OtherPair(userId, permissionId);
    WhereAppend(grants, [row], p);
    assert forall k :: 0 <= k < |grants| ==> p(grants[k]);
    WhereAllRows(grants, p);
    assert [row][1..] == [];
    assert Where([row], p) == [] + Where([row][1..], p);
    assert Where(with, p) == grants;
  }

  function OtherUser(userId: int): Grant -> bool {
    (g: Grant) => g.userId != userId
  }

  /** The rows `updateUserPermissions` inserts, one per id, in list order. */
  function RowsFor(userId: int, permissionIds: seq<int>, grantedBy: Option<int>): (rows: seq<Grant>)
    ensures |rows| == |permissionIds|
    ensures forall i :: 0 <= i < |rows| ==> rows[i] == Grant(userId, permissionIds[i], grantedBy)
  {
    seq(|permissionIds|, i requires 0 <= i < |permissionIds| => Grant(userId, permissionIds[i], grantedBy))
  }

  predicate Distinct(ids: seq<int>) {
    forall i, j :: 0 <= i < j < |ids| ==> ids[i] != ids[j]
  }

  /** `updateUserPermissions` in one transaction: the user's rows deleted,
      then one row per given id. A repeated id violates UNIQUE (user_id,
      permission_id) on the insert and the transaction rolls back, so the
      table is left as it was (Err). */
  function UpdateUserPermissions(grants: seq<Grant>, userId: int, permissionIds: seq<int>, grantedBy: Option<int>): (r: Result<seq<Grant>>)
    ensures r.Err? <==> !Distinct(permissionIds)
    ensures r.Ok? ==> forall pid :: Holds(r.value, userId, pid) <==> pid in permissionIds
    ensures r.Ok? ==> Where(r.value, OtherUser(userId)) == Where(grants, OtherUser(userId))
    ensures r.Ok? && UniquePairs(grants) ==> UniquePairs(r.value)
  {
    if !Distinct(permissionIds) then Err("UNIQUE constraint failed: user_permissions.user_id, user_permissions.permission_id")
    else
      var kept := Where(grants, OtherUser(userId));
      var added := RowsFor(userId, permissionIds, grantedBy);
      ReplaceFacts(grants, kept, added, userId, permissionIds, grantedBy);
      Ok(kept + added)
  }

  lemma ReplaceFacts(grants: seq<Grant>, kept: seq<Grant>, added: seq<Grant>, userId: int, permissionIds: seq<int>, grantedBy: Option<int>)
    requires kept == Where(grants, OtherUser(userId))
    requires added == RowsFor(userId, permissionIds, grantedBy)
    requires Distinct(permissionIds)
    ensures forall pid :: Holds(kept + added, userId, pid) <==> pid in permissionIds
    ensures Where(kept + added, OtherUser(userId)) == kept
    ensures UniquePairs(grants) ==> UniquePairs(kept + added)
  {
    forall pid
      ensures Holds(kept + added, userId, pid) <==> pid in permissionIds
    {
      ReplacedHolds(kept, added, userId, permissionIds, grantedBy, pid);
    }
    WhereAppend(kept, added, OtherUser(userId));
    assert forall k :: 0 <= k < |kept| ==> OtherUser(userId)(kept[k]);
    WhereAllRows(kept, OtherUser(userId));
    assert forall k :: 0 <= k < |added| ==> !OtherUser(userId)(added[k]);
    WhereNone(added, OtherUser(userId));
    if UniquePairs(grants) {
      WhereKeepsUniquePairs(grants, OtherUser(userId));
      ReplacedUnique(kept, added, userId, permissionIds, grantedBy);
    }
  }

  lemma ReplacedHolds(kept: seq<Grant>, added: seq<Grant>, userId: int, permissionIds: seq<int>, grantedBy: Option<int>, pid: int)
    requires forall k :: 0 <= k < |kept| ==> kept[k].userId != userId
    requires added == RowsFor(userId, permissionIds, grantedBy)
    ensures Holds(kept + added, userId, pid) <==> pid in permissionIds
  {
    var all := kept + added;
    if Holds(all, userId, pid) {
      var k :| 0 <= k < |all| && all[k].userId == userId && all[k].permissionId == pid;
      if k >= |kept| {
        assert added[k - |kept|] == all[k];
      }
    }
    if pid in permissionIds {
      var i :| 0 <= i < |permissionIds| && permissionIds[i] == pid;
      assert all[|kept| + i] == added[i];
    }
  }

  lemma ReplacedUnique(kept: seq<Grant>, added: seq<Grant>, userId: int, permissionIds: seq<int>, grantedBy: Option<int>)
    requires UniquePairs(kept)
    requires forall k :: 0 <= k < |kept| ==> kept[k].userId != userId
    requires added == RowsFor(userId, permissionIds, grantedBy)
    requires Distinct(permissionIds)
    ensures UniquePairs(kept + added)
  {
    var all := kept + added;
    forall i, j | 0 <= i < j < |all|
      ensures (all[i].userId, all[i].permissionId) != (all[j].userId, all[j].permissionId)
    {
      if j < |kept| {
        assert all[i] == kept[i] && all[j] == kept[j];
      } else if i < |kept| {
        assert all[i] == kept[i] && all[j] == added[j - |kept|];
      } else {
        assert all[i] == added[i - |kept|] && all[j] == added[j - |kept|];
      }
    }
  }

  /** Deleting rows keeps the remaining pairs distinct. */
  lemma {:induction false} WhereKeepsUniquePairs(rows: seq<Grant>, p: Grant -> bool)
    requires UniquePairs(rows)
    ensures UniquePairs(Where(rows, p))
    decreases |rows|
  {
    if rows != [] {
      var rest := rows[1..];
      assert UniquePairs(rest) by {
        forall i, j | 0 <= i < j < |rest|
          ensures (rest[i].userId, rest[i].permissionId) != (rest[j].userId, rest[j].permissionId)
        {
          assert rest[i] == rows[i + 1] && rest[j] == rows[j + 1];
        }
      }
      WhereKeepsUniquePairs(rest, p);
      var tail := Where(rest, p);
      forall k | 0 <= k < |tail|
        ensures (tail[k].userId, tail[k].permissionId) != (rows[0].userId, rows[0].permissionId)
      {
        assert tail[k] in rest;
        var m :| 0 <= m < |rest| && rest[m] == tail[k];
        assert rows[m + 1] == tail[k];
      }
    }
  }

  /** The permissions the join pairs with one row of `user_permissions`:
      those with its id and the asked name. */
  function NamedPermissions(perms: seq<Permission>, permissionId: int, name: string): (n: nat)
    ensures n == |Where(perms, (p: Permission) => p.id == permissionId && p.name == name)|
  {
    CountWhere(perms, (p: Permission) => p.id == permissionId && p.name == name)
  }

  /** The `COUNT(*)` of `hasPermission`'s join over the user's rows. */
  function JoinCount(perms: seq<Permission>, grants: seq<Grant>, userId: int, name: string): nat
    decreases |grants|
  {
    if grants == [] then 0
    else
      (if grants[0].userId == userId then NamedPermissions(perms, grants[0].permissionId, name) else 0)
      + JoinCount(perms, grants[1..], userId, name)
  }

  /** `hasPermission`: the join count is positive. */
  predicate HasPermission(perms: seq<Permission>, grants: seq<Grant>, userId: int, name: string) {
    JoinCount(perms, grants, userId, name) > 0
  }

  /** A count is positive exactly when some row matches. */
  lemma {:induction false} CountPositiveIff<T>(rows: seq<T>, p: T -> bool)
    ensures CountWhere(rows, p) > 0 <==> exists k :: 0 <= k < |rows| && p(rows[k])
    decreases |rows|
  {
    if rows != [] {
      CountPositiveIff(rows[1..], p);
      if exists k :: 0 <= k < |rows| && p(rows[k]) {
        var k :| 0 <= k < |rows| && p(rows[k]);
        if k > 0 {
          assert rows[1..][k - 1] == rows[k];
        }
      }
      if exists k :: 0 <= k < |rows[1..]| && p(rows[1..][k]) {
        var k :| 0 <= k < |rows[1..]| && p(rows[1..][k]);
        assert rows[k + 1] == rows[1..][k];
      }
    }
  }

  /** The user holds, through some row, a permission with the name. */
  predicate HoldsNamed(perms: seq<Permission>, grants: seq<Grant>, userId: int, name: string) {
    exists g, p :: 0 <= g < |grants| && 0 <= p < |perms| && grants[g].userId == userId
                   && perms[p].id == grants[g].permissionId && perms[p].name == name
  }

  /** `hasPermission` is true exactly when the user holds a permission of
      that name. */
  lemma {:induction false} HasPermissionIff(perms: seq<Permission>, grants: seq<Grant>, userId: int, name: string)
    ensures HasPermission(perms, grants, userId, name) <==> HoldsNamed(perms, grants, userId, name)
    decreases |grants|
  {
    if grants != [] {
      var rest := grants[1..];
      HasPermissionIff(perms, rest, userId, name);
      var m := (p: Permission) => p.id == grants[0].permissionId && p.name == name;
      CountPositiveIff(perms, m);
      if HoldsNamed(perms, grants, userId, name) {
        var g, p :| 0 <= g < |grants| && 0 <= p < |perms| && grants[g].userId == userId
                    && perms[p].id == grants[g].permissionId && perms[p].name == name;
        if g > 0 {
          assert rest[g - 1] == grants[g];
        } else {
          assert m(perms[p]);
        }
      }
      if HoldsNamed(perms, rest, userId, name) {
        var g, p :| 0 <= g < |rest| && 0 <= p < |perms| && rest[g].userId == userId
                    && perms[p].id == rest[g].permissionId && perms[p].name == name;
        assert grants[g + 1] == rest[g];
      }
      if grants[0].userId == userId && CountWhere(perms, m) > 0 {
        var p :| 0 <= p < |perms| && m(perms[p]);
        assert grants[0].userId == userId && perms[p].id == grants[0].permissionId && perms[p].name == name;
      }
    }
  }

  /** `getUserPermissions`: the permissions the user has a row for. */
  function UserPermissions(perms: seq<Permission>, grants: seq<Grant>, userId: int): (r: seq<Permission>)
    ensures forall p :: p in r <==> p in perms && Holds(grants, userId, p.id)
  {
    Where(perms, (p: Permission) => Holds(grants, userId, p.id))
  }

  /** `hasPermission` agrees with the list `getUserPermissions` returns. */
  lemma HasPermissionIffListed(perms: seq<Permission>, grants: seq<Grant>, userId: int, name: string)
    ensures HasPermission(perms, grants, userId, name) <==>
            exists p :: p in UserPermissions(perms, grants, userId) && p.name == name
  {
    HasPermissionIff(perms, grants, userId, name);
    var listed := UserPermissions(perms, grants, userId);
    if HoldsNamed(perms, grants, userId, name) {
      var g, p :| 0 <= g < |grants| && 0 <= p < |perms| && grants[g].userId == userId
                  && perms[p].id == grants[g].permissionId && perms[p].name == name;
      assert perms[p] in listed;
    }
    if exists p :: p in listed && p.name == name {
      var p :| p in listed && p.name == name;
      var k :| 0 <= k < |perms| && perms[k] == p;
      var g :| 0 <= g < |grants| && grants[g].userId == userId && grants[g].permissionId == p.id;
      assert grants[g].userId == userId && perms[k].id == grants[g].permissionId && perms[k].name == name;
    }
  }

  /** `permissions.name` is UNIQUE. */
  predicate UniqueNames(perms: seq<Permission>) {
    forall i, j :: 0 <= i < j < |perms| ==> perms[i].name != perms[j].name
  }

  /** After a grant that names known ids the user has the permission by
      name; after a revoke of it, with names unique, the user no longer
      has it. */
  lemma GrantThenRevokeByName(known: Known, perms: seq<Permission>, grants: seq<Grant>, userId: int, k: nat, grantedBy: Option<int>)
    requires k < |perms| && UniqueNames(perms)
    ensures References(known, Grant(userId, perms[k].id, grantedBy)) ==>
              HasPermission(perms, GrantPermission(known, grants, userId, perms[k].id, grantedBy).GetOr(grants), userId, perms[k].name)
    ensures var r := RevokePermission(grants, userId, perms[k].id);
            r.Ok? ==> !HasPermission(perms, r.value, userId, perms[k].name)
  {
    var id := perms[k].id;
    var name := perms[k].name;
    var after := GrantPermission(known, grants, userId, id, grantedBy).GetOr(grants);
    if References(known, Grant(userId, id, grantedBy)) {
      GrantedIsHeld(known, grants, userId, id, grantedBy);
      HasPermissionIff(perms, after, userId, name);
      var g :| 0 <= g < |after| && after[g].userId == userId && after[g].permissionId == id;
      assert after[g].userId == userId && perms[k].id == after[g].permissionId && perms[k].name == name;
    }
    var r := RevokePermission(grants, userId, id);
    if r.Ok? {
      HasPermissionIff(perms, r.value, userId, name);
    }
  }

  /** Order of `ORDER BY u.username`. */
  function ByUsername(): (User, User) -> bool {
    (a: User, b: User) => Sorting.TextLeq(a.username, b.username)
  }

  lemma ByUsernameTotal()
    ensures Sorting.Total(ByUsername())
  {
    forall a: User, b: User
      ensures ByUsername()(a, b) || ByUsername()(b, a)
    {
      Sorting.TextLeqTotal(a.username, b.username);
    }
  }

  /** `getUsersWithPermission`: the active users holding the permission by
      name, ordered by username. */
  function GetUsersWithPermission(users: seq<User>, perms: seq<Permission>, grants: seq<Grant>, name: string): (r: seq<User>)
    ensures Sorting.Sorted(r, ByUsername())
    ensures forall u :: u in r <==> u in users && u.active && HoldsNamed(perms, grants, u.id, name)
  {
    ByUsernameTotal();
    var holders := Where(users, (u: User) => u.active && HasPermission(perms, grants, u.id, name));
    forall u: User
      ensures u in Sorting.Sort(holders, ByUsername()) <==> u in holders
    {
      Sorting.SortKeepsElements(holders, ByUsername(), u);
    }
    forall u: User
      ensures HasPermission(perms, grants, u.id, name) <==> HoldsNamed(perms, grants, u.id, name)
    {
      HasPermissionIff(perms, grants, u.id, name);
    }
    Sorting.Sort(holders, ByUsername())
  }
}

=== FILE: preload.dfy ===
/** The renderer's side of the bridge, `src/main/security/preload.cjs`: the
    channel whitelist, the guarded `invoke` / `send` and the guarded
    listener registry. */
module Preload {
  import opened Wrappers

  /** `validChannels`, in the groups the list is written in. */
  const AuthChannels: set<string> := {"auth:login", "auth:logout", "auth:check", "auth:register"}
  const UserChannels: set<string> :=
    {"users:create", "users:getAll", "users:getById", "users:update", "users:delete", "users:search"}
  const PermissionChannels: set<string> :=
    {"permissions:getAll", "permissions:getByCategory", "permissions:getUserPermissions",
     "permissions:updateUserPermissions", "permissions:grant", "permissions:revoke", "permissions:hasPermission"}
  const CategoryChannels: set<string> :=
    {"categories:create", "categories:getAll", "categories:getById", "categories:update", "categories:delete",
     "categories:search"}
  const ProductChannels: set<string> :=
    {"products:getAll", "products:getById", "products:create", "products:update", "products:delete",
     "products:search", "products:generateBarCode", "products:getByBarcode"}
  const InvoiceChannels: set<string> :=
    {"invoice:create", "invoice:after", "invoice:before", "invoice:getAll", "invoice:update"}
  const DailyChannels: set<string> := {"daily:open", "daily:close", "daily:get"}
  const CreditChannels: set<string> := {"credit:create", "credit:getAll", "credit:getByDaily", "credit:delete"}
  const TransactionChannels: set<string> :=
    {"transactions:create", "transactions:getAll", "transactions:getById", "transactions:getByDateRange"}
  const SettingsChannels: set<string> :=
    {"settings:getByDomain", "settings:getByKey", "settings:getAll", "settings:update"}
  const SystemChannels: set<string> :=
    {"system:getVersion", "system:restart", "system:minimize", "system:maximize", "system:close"}

  const ValidChannels: set<string> :=
    AuthChannels + UserChannels + PermissionChannels + CategoryChannels + ProductChannels + InvoiceChannels
    + DailyChannels + CreditChannels + TransactionChannels + SettingsChannels + SystemChannels

  /** The channels the exposed `electronAPI` object calls. */
  const ExposedChannels: set<string> := ValidChannels - {"auth:register"}

  function InvalidChannel(channel: string): string {
    "Invalid channel: " + channel
  }

  /** `safeInvoke` and `safeSend`: a channel off the list is refused before
      anything reaches the main process; otherwise the call goes through
      with the main process's outcome. */
  function SafeInvoke<T>(channel: string, mainOutcome: Result<T>): (r: Result<T>)
    ensures channel !in ValidChannels ==> r == Err(InvalidChannel(channel))
    ensures channel in ValidChannels ==> r == mainOutcome
  {
    if channel !in ValidChannels then Err(InvalidChannel(channel)) else mainOutcome
  }

  /** Every call the exposed object makes passes the guard. */
  lemma ExposedCallsPassGuard<T>(channel: string, mainOutcome: Result<T>)
    requires channel in ExposedChannels
    ensures SafeInvoke(channel, mainOutcome) == mainOutcome
  {
  }

  /** Listeners by channel, each callback named by a number. */
  type Listeners = map<string, seq<int>>

  /** Only whitelisted channels ever carry listeners. */
  ghost predicate OnlyValid(reg: Listeners) {
    forall c :: c in reg ==> c in ValidChannels
  }

  /** `on`: an off-list channel is ignored; otherwise the callback is added
      last. */
  function On(reg: Listeners, channel: string, callback: int): (r: Listeners)
    ensures channel !in ValidChannels ==> r == reg
    ensures channel in ValidChannels ==>
              r == reg[channel := (if channel in reg then reg[channel] else []) + [callback]]
    ensures OnlyValid(reg) ==> OnlyValid(r)
  {
    if channel !in ValidChannels then reg
    else reg[channel := (if channel in reg then reg[channel] else []) + [callback]]
  }

  /** The last position of the callback, as `EventEmitter` removes the most
      recently added instance. */
  function LastIndexOf(s: seq<int>, x: int): (i: int)
    ensures -1 <= i < |s|
    ensures i == -1 <==> x !in s
    ensures i >= 0 ==> s[i] == x && forall j :: i < j < |s| ==> s[j] != x
  {
    if s == [] then -1
    else if s[|s| - 1] == x then |s| - 1
    else LastIndexOf(s[..|s| - 1], x)
  }

  /** `removeListener`: an off-list channel is ignored; otherwise the most
      recently added instance of the callback goes. */
  function RemoveListener(reg: Listeners, channel: string, callback: int): (r: Listeners)
    ensures channel !in ValidChannels || channel !in reg ==> r == reg
    ensures OnlyValid(reg) ==> OnlyValid(r)
    ensures forall c :: c in reg && c != channel ==> c in r && r[c] == reg[c]
  {
    if channel !in ValidChannels || channel !in reg then reg
    else
      var i := LastIndexOf(reg[channel], callback);
      if i == -1 then reg else reg[channel := reg[channel][..i] + reg[channel][i + 1..]]
  }

  /** `removeAllListeners`: an off-list channel is ignored; otherwise the
      channel has no listener left. */
  function RemoveAllListeners(reg: Listeners, channel: string): (r: Listeners)
    ensures channel !in ValidChannels ==> r == reg
    ensures channel in ValidChannels ==> channel !in r && forall c :: c in reg && c != channel ==> c in r && r[c] == reg[c]
    ensures OnlyValid(reg) ==> OnlyValid(r)
  {
    if channel !in ValidChannels then reg else reg - {channel}
  }

  /** Adding a listener and removing it again gives back the registry's
      list for that channel. */
  lemma OnThenRemoveRestores(reg: Listeners, channel: string, callback: int)
    requires channel in ValidChannels && channel in reg
    ensures RemoveListener(On(reg, channel, callback), channel, callback) == reg
  {
    var added := On(reg, channel, callback);
    var s := added[channel];
    assert s[|s| - 1] == callback;
    assert s[..|s| - 1] + s[|s|..] == reg[channel];
  }
}

=== FILE: product_filters.dfy ===
/** The product table on the invoice screen `src/renderer/src/pages/Invoice/components/productsComponent.tsx`:
    five text filters with a count of the active ones, the page reset a
    search or filter change causes, and the stock badge against the
    `warning` setting. */
module ProductFilters {
  import opened Wrappers
  import Numbers

  datatype FilterKey = QuantityFrom | QuantityTo | PriceFrom | PriceTo | Category

  datatype FilterState = FilterState(quantityFrom: string, quantityTo: string, priceFrom: string, priceTo: string, category: string)

  const Empty: FilterState := FilterState("", "", "", "", "")

  function Get(f: FilterState, key: FilterKey): string {
    match key
    case QuantityFrom => f.quantityFrom
    case QuantityTo => f.quantityTo
    case PriceFrom => f.priceFrom
    case PriceTo => f.priceTo
    case Category => f.category
  }

  function Flag(s: string): nat {
    if s != "" then 1 else 0
  }

  /** `Object.values(filters).filter(v => v !== "").length`. */
  function ActiveCount(f: FilterState): (n: nat)
    ensures n <= 5
    ensures n == 0 <==> forall key :: Get(f, key) == ""
  {
    var n := Flag(f.quantityFrom) + Flag(f.quantityTo) + Flag(f.priceFrom) + Flag(f.priceTo) + Flag(f.category);
    if n == 0 then n
    else
      assert Get(f, QuantityFrom) != "" || Get(f, QuantityTo) != "" || Get(f, PriceFrom) != ""
             || Get(f, PriceTo) != "" || Get(f, Category) != "";
      n
  }

  /** `handleFilterChange`: the named key takes the value and the other
      four keep theirs. */
  function FilterChange(f: FilterState, key: FilterKey, value: string): (r: FilterState)
    ensures Get(r, key) == value
    ensures forall other :: other != key ==> Get(r, other) == Get(f, other)
  {
    match key
    case QuantityFrom => f.(quantityFrom := value)
    case QuantityTo => f.(quantityTo := value)
    case PriceFrom => f.(priceFrom := value)
    case PriceTo => f.(priceTo := value)
    case Category => f.(category := value)
  }

  /** `clearSingleFilter`: one key back to empty. */
  function ClearSingle(f: FilterState, key: FilterKey): (r: FilterState)
    ensures Get(r, key) == ""
    ensures forall other :: other != key ==> Get(r, other) == Get(f, other)
  {
    FilterChange(f, key, "")
  }

  /** `clearFilters`: all five back to empty. */
  function ClearFilters(f: FilterState): (r: FilterState)
    ensures forall key :: Get(r, key) == ""
  {
    Empty
  }

  /** Clearing one active filter lowers the count by exactly one; clearing
      an empty one leaves it; clearing all leaves none. */
  lemma ClearSingleCount(f: FilterState, key: FilterKey)
    ensures ActiveCount(ClearSingle(f, key)) == ActiveCount(f) - Flag(Get(f, key))
    ensures ActiveCount(ClearFilters(f)) == 0
  {
  }

  /** The state whose changes reset the page. */
  datatype TableState = TableState(search: string, filters: FilterState, page: nat)

  /** A new search text or filter set sends the table back to page 1;
      setting the same values keeps the page. */
  function Refilter(s: TableState, search: string, filters: FilterState): (r: TableState)
    ensures r.search == search && r.filters == filters
    ensures search != s.search || filters != s.filters ==> r.page == 1
    ensures search == s.search && filters == s.filters ==> r.page == s.page
  {
    if search != s.search || filters != s.filters then TableState(search, filters, 1) else s
  }

  datatype Badge = Green | Yellow | Red

  /** The `warning` setting as the table reads it: `value || 0`, then
      unary plus; text that is not a number is NaN (`None`). */
  function WarningLimit(setting: Option<string>): (r: Option<int>)
    ensures setting.None? || setting == Some("") ==> r == Some(0)
  {
    Numbers.ToNumber(setting.GetOr(""))
  }

  /** The quantity badge: green above the limit, yellow from 1 up to it,
      red otherwise. Against NaN every comparison is false, so no badge is
      green. */
  function QuantityBadge(quantity: int, limit: Option<int>): (b: Badge)
    ensures b == Green <==> limit.Some? && quantity > limit.value
    ensures b == Yellow <==> !(limit.Some? && quantity > limit.value) && quantity > 0
    ensures b == Red <==> !(limit.Some? && quantity > limit.value) && quantity <= 0
  {
    if limit.Some? && quantity > limit.value then Green
    else if quantity > 0 then Yellow
    else Red
  }

  /** With the seeded `warning` of "3", four units are green, one to three
      yellow and none red. */
  lemma SeededLimitBadges()
    ensures WarningLimit(Some("3")) == Some(3)
    ensures QuantityBadge(4, WarningLimit(Some("3"))) == Green
    ensures QuantityBadge(3, WarningLimit(Some("3"))) == Yellow
    ensures QuantityBadge(0, WarningLimit(Some("3"))) == Red
  {
    Numbers.ToNumberOfIntToString(3);
    assert Numbers.IntToString(3) == "3";
  }
}

=== FILE: product_form.dfy ===
/** The shared product form `src/renderer/src/pages/Invoice/components/productForm.tsx`:
    a dictionary of fields whose price-like fields and quantity are
    coerced to numbers as they are typed, and a submit guard. */
module ProductForm {
  import opened Wrappers
  import Text
  import Numbers

  /** A field's value: a number, or text kept as typed. */
  datatype Value = Num(n: int) | Txt(s: string)

  type FormData = map<string, Value>

  /** JavaScript truthiness of a value; a missing field is `undefined`. */
  predicate Truthy(v: Option<Value>) {
    match v
    case None => false
    case Some(Num(n)) => n != 0
    case Some(Txt(s)) => s != ""
  }

  function Lookup(f: FormData, key: string): Option<Value> {
    if key in f then Some(f[key]) else None
  }

  /** The fields read as numbers: any whose name contains "price", and
      "quantity". */
  predicate IsNumeric(name: string) {
    Text.Contains(name, "price") || name == "quantity"
  }

  /** `parseFloat(value) || 0`, integer part only: the leading number, or 0
      when there is none. */
  function ParseOrZero(value: string): (n: int)
    ensures Numbers.ParseInt(value).Some? ==> n == Numbers.ParseInt(value).value
    ensures Numbers.ParseInt(value).None? ==> n == 0
  {
    Numbers.ParseInt(value).GetOr(0)
  }

  /** `handleChange`: the named field only, coerced when numeric. */
  function HandleChange(f: FormData, name: string, value: string): (r: FormData)
    ensures name in r && forall key :: key in f && key != name ==> key in r && r[key] == f[key]
    ensures forall key :: key in r ==> key in f || key == name
    ensures IsNumeric(name) ==> r[name] == Num(ParseOrZero(value))
    ensures !IsNumeric(name) ==> r[name] == Txt(value)
  {
    f[name := if IsNumeric(name) then Num(ParseOrZero(value)) else Txt(value)]
  }

  /** The category selector sets only `category_id`. */
  function SelectCategory(f: FormData, id: int): (r: FormData)
    ensures "category_id" in r && r["category_id"] == Num(id)
    ensures forall key :: key in f && key != "category_id" ==> key in r && r[key] == f[key]
  {
    f["category_id" := Num(id)]
  }

  /** `handleFormSubmit`: blocked when the name or the price is falsy (so a
      price of 0 blocks it); otherwise the form goes out unchanged. */
  function Submit(f: FormData): (r: Option<FormData>)
    ensures r.None? <==> !Truthy(Lookup(f, "name")) || !Truthy(Lookup(f, "price"))
    ensures r.Some? ==> r.value == f
  {
    if !Truthy(Lookup(f, "name")) || !Truthy(Lookup(f, "price")) then None else Some(f)
  }

  /** "buy_price" and "price" are numeric, "name" and "barcode" are not. */
  lemma NumericFields()
    ensures IsNumeric("price") && IsNumeric("buy_price") && IsNumeric("quantity")
    ensures !IsNumeric("name") && !IsNumeric("barcode")
  {
    Text.ContainsSelf("price");
    BuyPriceMentionsPrice();
    BarcodeLacksPrice();
    assert !Text.Contains("name", "price");
  }

  lemma BuyPriceMentionsPrice()
    ensures Text.Contains("buy_price", "price")
  {
    Text.ContainsSelf("price");
    assert "buy_price"[4..] == "price";
    assert Text.Contains("buy_price"[3..], "price");
    assert Text.Contains("buy_price"[2..], "price");
    assert Text.Contains("buy_price"[1..], "price");
  }

  lemma BarcodeLacksPrice()
    ensures !Text.Contains("barcode", "price")
  {
    Text.ContainsIffOccurs("barcode", "price");
    forall i | 0 <= i <= |"barcode"| - |"price"|
      ensures !Text.OccursAt("barcode", "price", i)
    {
      assert "barcode"[i] != 'p';
    }
  }

  /** Typing text that is not a number into the price blocks submission,
      as does typing 0; typing a positive price with a name set lets it
      through unchanged. */
  lemma PriceGuard(f: FormData, name: string, n: int)
    requires name != ""
    ensures Submit(HandleChange(HandleChange(f, "name", name), "price", "abc")).None?
    ensures Submit(HandleChange(HandleChange(f, "name", name), "price", "0")).None?
    ensures n != 0 ==> Submit(HandleChange(HandleChange(f, "name", name), "price", Numbers.IntToString(n))).Some?
  {
    NumericFields();
    Typed(f, name, "abc");
    Typed(f, name, "0");
    Typed(f, name, Numbers.IntToString(n));
    Numbers.ParseIntOfIntToString(n);
    ZeroAndLettersReadAsZero();
  }

  /** After typing a name and then a price, the form holds that name and
      the price as read. */
  lemma Typed(f: FormData, name: string, price: string)
    requires IsNumeric("price") && !IsNumeric("name")
    ensures var g := HandleChange(HandleChange(f, "name", name), "price", price);
            Lookup(g, "name") == Some(Txt(name)) && Lookup(g, "price") == Some(Num(ParseOrZero(price)))
  {
  }

  lemma ZeroAndLettersReadAsZero()
    ensures ParseOrZero("abc") == 0 && ParseOrZero("0") == 0
  {
    Numbers.ParseIntOfIntToString(0);
    assert Numbers.IntToString(0) == "0";
    assert Numbers.ParseInt("abc").None? by {
      assert Text.TrimStart("abc") == "abc" by { assert !Text.IsSpace('a'); }
      assert !Numbers.IsDigit('a');
    }
  }
}

=== FILE: product_page.dfy ===
/** The stock-entry page
    `src/renderer/src/pages/Products/CreateProductPage.tsx`. */
module ProductPage {
  // A barcode lookup fills the form for an existing product or prepares a
  // new one, the added quantity is typed separately, and the submission goes
  // to `createProduct` (module Products). The lookup result and the
  // generated code are parameters.

  import opened Wrappers
  import Tables
  import Text
  import Numbers
  import Products
  import Schema

  /** The form. `newQuantity` holds the text of its number input; the other
      numbers are kept as numbers. */
  datatype Form = Form(
    name: string,
    description: string,
    quantity: int,
    newQuantity: string,
    price: int,
    buyPrice: int,
    barcode: string,
    generatedCode: string,
    categoryId: int,
    unitId: int)

  datatype PageState = PageState(form: Form, isExisting: bool, originalQuantity: int)

  const EmptyForm: Form := Form("", "", 1, "0", 0, 0, "", "", 0, 0)

  /** `resetForm`: the empty form for a new product. (The code generated
      100 ms later arrives through `ApplyGeneratedCode`.) */
  function ResetForm(s: PageState): (r: PageState)
    ensures r.form == EmptyForm && !r.isExisting && r.originalQuantity == 0
  {
    PageState(EmptyForm, false, 0)
  }

  /** The `GenerateBarCode` callback: the code becomes both the generated
      code and the barcode, and the page is back in new-product mode. */
  function ApplyGeneratedCode(s: PageState, code: string): (r: PageState)
    ensures r.form.barcode == code && r.form.generatedCode == code
    ensures !r.isExisting && r.originalQuantity == 0
    ensures r.form.name == s.form.name && r.form.newQuantity == s.form.newQuantity
  {
    PageState(s.form.(generatedCode := code, barcode := code), false, 0)
  }

  /** `handleSearch`: an empty text resets the form. When the lookup finds
      nothing the page prepares a new product under the typed text and
      keeps the generated code; when it finds an item the form is filled
      from it, its quantity becomes the original quantity and the
      generated code is cleared. */
  function HandleSearch(s: PageState, text: string, found: Option<Tables.Item>): (r: PageState)
    ensures text == "" ==> r == ResetForm(s)
    ensures text != "" && found.None? ==>
      !r.isExisting && r.originalQuantity == 0 && r.form.barcode == text
      && r.form.generatedCode == s.form.generatedCode && r.form.name == "" && r.form.newQuantity == "0"
    ensures text != "" && found.Some? ==>
      r.isExisting && r.originalQuantity == found.value.quantity
      && r.form.barcode == text && r.form.generatedCode == ""
      && r.form.name == found.value.name && r.form.price == found.value.price
      && r.form.buyPrice == found.value.buyPrice && r.form.categoryId == found.value.categoryId
      && r.form.newQuantity == "0"
  {
    if text == "" then ResetForm(s)
    else
      match found
      case None =>
        PageState(s.form.(name := "", description := "", quantity := 1, newQuantity := "0", price := 0,
                          buyPrice := 0, categoryId := 0, unitId := 0, barcode := text), false, 0)
      case Some(it) =>
        PageState(s.form.(name := it.name, description := it.description, quantity := it.quantity,
                          newQuantity := "0", price := it.price, buyPrice := it.buyPrice,
                          categoryId := it.categoryId, barcode := text, generatedCode := ""), true, it.quantity)
  }

  /** Typing in the added-quantity input. */
  function TypeNewQuantity(s: PageState, text: string): (r: PageState)
    ensures r.form.newQuantity == text
    ensures r.isExisting == s.isExisting && r.originalQuantity == s.originalQuantity
    ensures r.form.(newQuantity := s.form.newQuantity) == s.form
  {
    s.(form := s.form.(newQuantity := text))
  }

  /** What `handleSubmit` sends: the form with the barcode falling back to
      the generated code, and the quantity (None where `Number` gives NaN). */
  datatype SubmitData = SubmitData(form: Form, barcode: string, quantity: Option<int>)

  /** `handleSubmit`: refused for a blank name or when neither barcode is
      set; an existing product is sent with the original quantity plus the
      added one, a new product with the added quantity alone. */
  function Submit(s: PageState): (r: Result<SubmitData>)
    ensures r.Err? <==> Text.IsBlank(s.form.name) || (s.form.barcode == "" && s.form.generatedCode == "")
    ensures r.Ok? ==> r.value.barcode == (if s.form.barcode != "" then s.form.barcode else s.form.generatedCode)
    ensures r.Ok? ==> r.value.quantity == SentQuantity(s.isExisting, s.originalQuantity, Numbers.ToNumber(s.form.newQuantity))
  {
    Text.TrimEmptyIffBlank(s.form.name);
    if Text.Trim(s.form.name) == [] then Err("يرجى إدخال اسم المنتج")
    else if s.form.barcode == "" && s.form.generatedCode == "" then Err("يرجى إدخال باركود أو توليد باركود جديد")
    else
      Ok(SubmitData(s.form, if s.form.barcode != "" then s.form.barcode else s.form.generatedCode,
                    SentQuantity(s.isExisting, s.originalQuantity, Numbers.ToNumber(s.form.newQuantity))))
  }

  /** The quantity sent: the original plus the added amount for an existing
      product (NaN stays NaN), the added amount alone for a new one. */
  function SentQuantity(isExisting: bool, original: int, added: Option<int>): (q: Option<int>)
    ensures isExisting && added.Some? ==> q == Some(original + added.value)
    ensures isExisting && added.None? ==> q.None?
    ensures !isExisting ==> q == added
  {
    if isExisting then (match added case Some(n) => Some(original + n) case None => None)
    else added
  }

  /** The handler's view of the submission; NaN is falsy as 0 is. */
  function ToInput(d: SubmitData): (p: Products.ProductInput)
    ensures p.barcode == d.barcode && p.generatedCode == d.form.generatedCode
    ensures p.quantity == d.quantity.GetOr(0)
  {
    Products.ProductInput(d.form.name, d.form.description, d.quantity.GetOr(0), d.form.price, d.form.buyPrice,
                          d.form.categoryId, d.barcode, d.form.generatedCode)
  }

  /** After a successful save the print dialog opens for a new product
      with a code; otherwise the form is reset. */
  function AfterSave(s: PageState): (r: (PageState, bool))
    ensures r.1 <==> !s.isExisting && (s.form.generatedCode != "" || s.form.barcode != "")
    ensures !r.1 ==> r.0 == ResetForm(s)
    ensures r.1 ==> r.0 == s
  {
    if !s.isExisting && (s.form.generatedCode != "" || s.form.barcode != "") then (s, true)
    else (ResetForm(s), false)
  }

  /** Restocking through the page: scanning an item's exact barcode, typing
      the added quantity and saving overwrites that item with its quantity
      raised by the added amount. The purchase it logs carries the whole
      new quantity, not the added amount. */
  lemma RestockAddsQuantity(c: Products.Catalog, k: nat, s: PageState, added: int)
    requires k < |c.items|
    requires forall j :: 0 <= j < k ==> c.items[j].barcode != c.items[k].barcode
    requires c.items[k].barcode != ""
    requires !Text.IsBlank(c.items[k].name)
    requires c.items[k].price != 0 && c.items[k].buyPrice != 0 && c.items[k].categoryId != 0
    requires c.items[k].quantity + added != 0
    ensures var s1 := TypeNewQuantity(HandleSearch(s, c.items[k].barcode, Some(c.items[k])), Numbers.IntToString(added));
            Submit(s1).Ok?
            && Products.CreateProduct(c, ToInput(Submit(s1).value)).Ok?
            && Products.CreateProduct(c, ToInput(Submit(s1).value)).value.items[k].quantity
               == c.items[k].quantity + added
            && Products.CreateProduct(c, ToInput(Submit(s1).value)).value.movements
               == c.movements + [Schema.RecordMovement(c.items[k].id, Schema.Purchase, c.items[k].quantity + added, c.items[k].price)]
  {
    var it := c.items[k];
    RestockSubmission(s, it, added);
    Text.TrimEmptyIffBlank(it.name);
    RestockSaves(c, k, ToInput(Submit(TypeNewQuantity(HandleSearch(s, it.barcode, Some(it)), Numbers.IntToString(added))).value));
  }

  /** Saving an input that carries a listed item's own barcode and fields
      overwrites the first item with that barcode and logs one purchase of
      the whole quantity. */
  lemma RestockSaves(c: Products.Catalog, k: nat, p: Products.ProductInput)
    requires k < |c.items|
    requires forall j :: 0 <= j < k ==> c.items[j].barcode != c.items[k].barcode
    requires p.barcode == c.items[k].barcode != "" && p.generatedCode == ""
    requires p.name != "" && p.quantity != 0 && p.price == c.items[k].price
    requires p.price != 0 && p.buyPrice != 0 && p.categoryId != 0
    ensures Products.CreateProduct(c, p).Ok?
    ensures Products.CreateProduct(c, p).value.items[k].quantity == p.quantity
    ensures Products.CreateProduct(c, p).value.movements
            == c.movements + [Schema.RecordMovement(c.items[k].id, Schema.Purchase, p.quantity, p.price)]
  {
    assert !Products.MissingField(p);
    assert Products.HasBarcode(c.items, p.barcode);
  }

  /** What the page sends after scanning an item's barcode and typing the
      added amount: the item's fields, its barcode, and the raised stock. */
  lemma RestockSubmission(s: PageState, it: Tables.Item, added: int)
    requires it.barcode != "" && !Text.IsBlank(it.name)
    ensures var s1 := TypeNewQuantity(HandleSearch(s, it.barcode, Some(it)), Numbers.IntToString(added));
            Submit(s1).Ok?
            && var p := ToInput(Submit(s1).value);
               p.name == it.name && p.price == it.price && p.buyPrice == it.buyPrice
               && p.categoryId == it.categoryId && p.generatedCode == "" && p.barcode == it.barcode
               && p.quantity == it.quantity + added
  {
    Numbers.ToNumberOfIntToString(added);
    var s1 := TypeNewQuantity(HandleSearch(s, it.barcode, Some(it)), Numbers.IntToString(added));
    assert s1.form.name == it.name && s1.isExisting && s1.originalQuantity == it.quantity;
  }


  /** A new product saved under the generated code is inserted with the
      typed quantity. */
  lemma NewProductUnderGeneratedCode(c: Products.Catalog, s: PageState, code: string, n: int)
    requires code != "" && !Products.HasBarcode(c.items, code)
    requires !Text.IsBlank(s.form.name) && n != 0
    requires s.form.price != 0 && s.form.buyPrice != 0 && s.form.categoryId != 0
    ensures var s1 := TypeNewQuantity(ApplyGeneratedCode(s, code), Numbers.IntToString(n));
            Submit(s1).Ok?
            && var r := Products.CreateProduct(c, ToInput(Submit(s1).value));
               r.Ok? && |r.value.items| == |c.items| + 1
               && r.value.items[|c.items|].barcode == code && r.value.items[|c.items|].quantity == n
  {
    Numbers.ToNumberOfIntToString(n);
    var s1 := TypeNewQuantity(ApplyGeneratedCode(s, code), Numbers.IntToString(n));
    Text.TrimEmptyIffBlank(s.form.name);
    var p := ToInput(Submit(s1).value);
    assert p.generatedCode == code && p.quantity == n;
    assert !Products.MissingField(p);
  }
}

=== FILE: product_report_page.dfy ===
/** The product performance page
    `src/renderer/src/pages/Reports/ProductPerformanceReport.tsx`: the
    search, the summary cards and the per-row stock status. */
module ProductReportPage {
  import opened Wrappers
  import opened Tables
  import Text
  import Reports

  /** A row of the product performance report; the sums are NULL for a
      product that did not sell. */
  datatype ProductRow = ProductRow(
    name: string,
    category: Option<string>,
    totalSold: Option<int>,
    totalRevenue: Option<int>,
    estimatedProfit: Option<int>,
    currentStock: int)

  function Matches(term: string): ProductRow -> bool {
    (p: ProductRow) => Text.IncludesIgnoreCase(p.name, term)
                       || (p.category.Some? && p.category.value != "" && Text.IncludesIgnoreCase(p.category.value, term))
  }

  /** The search: the name or the category contains the term, ignoring case. */
  function Search(rows: seq<ProductRow>, term: string): (r: seq<ProductRow>)
    ensures forall k :: 0 <= k < |r| ==> r[k] in rows && Matches(term)(r[k])
    ensures forall k :: 0 <= k < |rows| && Matches(term)(rows[k]) ==> rows[k] in r
  {
    Where(rows, Matches(term))
  }

  /** An empty search keeps every row. */
  lemma EmptySearchKeepsRows(rows: seq<ProductRow>)
    ensures Search(rows, "") == rows
  {
    forall k | 0 <= k < |rows|
      ensures Matches("")(rows[k])
    {
      Text.ContainsEmpty(Text.ToLower(rows[k].name));
    }
    WhereAllRows(rows, Matches(""));
  }

  function Sold(): ProductRow -> int {
    (p: ProductRow) => p.totalSold.GetOr(0)
  }

  function Revenue(): ProductRow -> int {
    (p: ProductRow) => p.totalRevenue.GetOr(0)
  }

  function Profit(): ProductRow -> int {
    (p: ProductRow) => p.estimatedProfit.GetOr(0)
  }

  function HasSold(): ProductRow -> bool {
    (p: ProductRow) => p.totalSold.GetOr(0) > 0
  }

  function AnyRow(): ProductRow -> bool {
    (p: ProductRow) => true
  }

  datatype Cards = Cards(revenue: int, sold: int, profit: int, active: nat, shown: nat)

  /** The summary cards over the rows the search keeps, a NULL sum read
      as 0. */
  function SummaryCards(rows: seq<ProductRow>): (c: Cards)
    ensures c.active <= c.shown && c.shown == |rows|
    ensures c.active == |Where(rows, HasSold())|
    ensures rows == [] ==> c == Cards(0, 0, 0, 0, 0)
  {
    Cards(SumOf(rows, AnyRow(), Revenue()), SumOf(rows, AnyRow(), Sold()), SumOf(rows, AnyRow(), Profit()),
          CountWhere(rows, HasSold()), |rows|)
  }

  /** The cards add up over a split of the rows, so each row contributes
      its own figures once. */
  lemma CardsAddUp(a: seq<ProductRow>, b: seq<ProductRow>)
    ensures SummaryCards(a + b).revenue == SummaryCards(a).revenue + SummaryCards(b).revenue
    ensures SummaryCards(a + b).sold == SummaryCards(a).sold + SummaryCards(b).sold
    ensures SummaryCards(a + b).profit == SummaryCards(a).profit + SummaryCards(b).profit
    ensures SummaryCards(a + b).active == SummaryCards(a).active + SummaryCards(b).active
  {
    SumOfAppend(a, b, AnyRow(), Revenue());
    SumOfAppend(a, b, AnyRow(), Sold());
    SumOfAppend(a, b, AnyRow(), Profit());
    WhereAppend(a, b, HasSold());
  }

  /** A row added to the list adds its own revenue, units sold and profit
      to the cards, a NULL sum counting 0, one to the active count exactly
      when it sold, and one to the shown count; with the empty list's zeros
      this fixes every card as the total over the rows. */
  lemma {:induction false} CardsAddRow(rows: seq<ProductRow>, p: ProductRow)
    ensures var before, after := SummaryCards(rows), SummaryCards(rows + [p]);
            after == Cards(before.revenue + p.totalRevenue.GetOr(0), before.sold + p.totalSold.GetOr(0),
                           before.profit + p.estimatedProfit.GetOr(0),
                           before.active + (if p.totalSold.GetOr(0) > 0 then 1 else 0), before.shown + 1)
  {
    CardsAddUp(rows, [p]);
    assert [p][1..] == [];
    assert SumOf([p][1..], AnyRow(), Revenue()) == 0;
    assert SumOf([p][1..], AnyRow(), Sold()) == 0;
    assert SumOf([p][1..], AnyRow(), Profit()) == 0;
    assert SummaryCards([p]).revenue == p.totalRevenue.GetOr(0);
    assert SummaryCards([p]).sold == p.totalSold.GetOr(0);
    assert SummaryCards([p]).profit == p.estimatedProfit.GetOr(0);
    assert SummaryCards([p]).active == if p.totalSold.GetOr(0) > 0 then 1 else 0;
  }

  /** `getStockStatus(product.current_stock, 0)`: the inventory rule with a
      threshold of 0. */
  function RowStatus(p: ProductRow): Reports.StockStatus {
    Reports.Classify(p.currentStock, 0)
  }

  /** With a threshold of 0 a product shows as low only when its stock is
      negative, and as out of stock only at zero. */
  lemma LowOnlyWhenNegative(p: ProductRow)
    ensures RowStatus(p) == Reports.LowStock <==> p.currentStock < 0
    ensures RowStatus(p) == Reports.OutOfStock <==> p.currentStock == 0
  {
  }
}

=== FILE: product_table.dfy ===
/** The products table `src/renderer/src/pages/Products/components/data-table.component.tsx`:
    the quantity badge and the footer range. */
module ProductTable {
  import Reports
  import Paging

  datatype Badge = GreenBadge | YellowBadge | RedBadge

  /** The quantity cell: green above 10, yellow above 0, red otherwise. */
  function QuantityBadge(quantity: int): Badge {
    if quantity > 10 then GreenBadge
    else if quantity > 0 then YellowBadge
    else RedBadge
  }

  /** The badge a stock status would get: red when out, yellow when low,
      green when available. */
  function StatusBadge(s: Reports.StockStatus): Badge {
    match s
    case OutOfStock => RedBadge
    case LowStock => YellowBadge
    case InStock => GreenBadge
  }

  /** On a non-negative quantity the badge is the stock status the
      inventory report would give with a warning level of 10. */
  lemma BadgeIsStatusAtTen(quantity: int)
    requires quantity >= 0
    ensures QuantityBadge(quantity) == StatusBadge(Reports.Classify(quantity, 10))
    ensures QuantityBadge(quantity) == RedBadge <==> quantity == 0
  {
  }

  /** "showing first to last of total": `Math.min((page - 1) * 10 + 1, total)`
      to `Math.min(page * 10, total)`. */
  function Footer(page: nat, total: nat): (r: (int, int))
    ensures r.0 <= total && r.1 <= total
    ensures 1 <= page <= Paging.TotalPages(total, Paging.PageSize) ==>
              r.0 == Paging.Offset(page, Paging.PageSize) + 1
              && r.1 - r.0 + 1 == (if page * Paging.PageSize < total then Paging.PageSize
                                   else total - Paging.Offset(page, Paging.PageSize))
  {
    Paging.ShownRange(page, Paging.PageSize, total)
  }
}

=== FILE: products.dfy ===
/** The product handler `src/main/ipc/handlers/products.js`. */
module Products {
  // Creating a product either under a freshly generated barcode or by
  // overwriting the product that already has the typed barcode, logging the
  // purchase as a stock movement; the generated-barcode sequence; the
  // filtered and paged search; lookups; and the delete by id.
  //
  // Form values arrive as JavaScript values: a missing or zero number is
  // falsy, as is the empty string.

  import opened Wrappers
  import opened Tables
  import Schema
  import Numbers
  import Text
  import Paging

  /** The submitted product. */
  datatype ProductInput = ProductInput(
    name: string,
    description: string,
    quantity: int,
    price: int,
    buyPrice: int,
    categoryId: int,
    barcode: string,
    generatedCode: string)

  /** The items table together with the movement log a purchase writes to. */
  datatype Catalog = Catalog(items: seq<Item>, movements: seq<Schema.StockMovement>)

  /** The input check: every required field truthy (so 0 is refused) and
      some barcode given. */
  predicate MissingField(p: ProductInput) {
    p.name == "" || p.quantity == 0 || p.price == 0 || p.buyPrice == 0 || p.categoryId == 0
    || (p.barcode == "" && p.generatedCode == "")
  }

  predicate HasBarcode(items: seq<Item>, code: string) {
    exists k :: 0 <= k < |items| && items[k].barcode == code
  }

  /** The `id` column. */
  function ItemIds(items: seq<Item>): seq<int> {
    Column(items, (x: Item) => x.id)
  }

  /** The fields the overwrite path sets. */
  function Overwrite(it: Item, p: ProductInput): Item {
    it.(name := p.name, description := p.description, quantity := p.quantity, price := p.price,
        buyPrice := p.buyPrice, categoryId := p.categoryId)
  }

  /** `createProduct`. With a generated code: refused when some item already
      has it, else a new item carrying it is inserted. Without one: refused
      when no item has the typed barcode, else every item with that barcode
      is overwritten. Either way one purchase movement of the submitted
      quantity and price is logged for the first item with the barcode. */
  function CreateProduct(c: Catalog, p: ProductInput): (r: Result<Catalog>)
    ensures MissingField(p) ==> r.Err?
    ensures !MissingField(p) && p.generatedCode != "" ==> (r.Err? <==> HasBarcode(c.items, p.generatedCode))
    ensures !MissingField(p) && p.generatedCode == "" ==> (r.Err? <==> !HasBarcode(c.items, p.barcode))
    ensures r.Ok? && p.generatedCode != "" ==>
      var n := |c.items|;
      |r.value.items| == n + 1 && r.value.items[..n] == c.items
      && var it := r.value.items[n];
         (forall k :: 0 <= k < n ==> c.items[k].id < it.id)
         && it == Item(it.id, p.name, p.description, p.generatedCode, p.quantity, p.price, p.buyPrice, p.categoryId)
         && r.value.movements == c.movements + [Schema.RecordMovement(it.id, Schema.Purchase, p.quantity, p.price)]
    ensures r.Ok? && p.generatedCode == "" ==>
      |r.value.items| == |c.items|
      && (forall k :: 0 <= k < |c.items| ==>
            r.value.items[k] == if c.items[k].barcode == p.barcode then Overwrite(c.items[k], p) else c.items[k])
      && exists k :: 0 <= k < |c.items| && c.items[k].barcode == p.barcode
                     && (forall j :: 0 <= j < k ==> c.items[j].barcode != p.barcode)
                     && r.value.movements
                        == c.movements + [Schema.RecordMovement(c.items[k].id, Schema.Purchase, p.quantity, p.price)]
  {
    if MissingField(p) then Err("برجاء إدخال اسم المنتج والكمية والسعر وسعر الشراءوالفئة والباركود")
    else if p.generatedCode != "" then
      match FirstWhere(c.items, (it: Item) => it.barcode == p.generatedCode)
      case Some(_) => Err("الباركود موجود بالفعل")
      case None =>
        var id := FreshId(ItemIds(c.items));
        var it := Item(id, p.name, p.description, p.generatedCode, p.quantity, p.price, p.buyPrice, p.categoryId);
        Ok(Catalog(c.items + [it], c.movements + [Schema.RecordMovement(id, Schema.Purchase, p.quantity, p.price)]))
    else
      match FirstWhere(c.items, (it: Item) => it.barcode == p.barcode)
      case None => Err("الباركود غير موجود")
      case Some(k) =>
        var items := seq(|c.items|, j requires 0 <= j < |c.items| =>
          if c.items[j].barcode == p.barcode then Overwrite(c.items[j], p) else c.items[j]);
        Ok(Catalog(items, c.movements + [Schema.RecordMovement(c.items[k].id, Schema.Purchase, p.quantity, p.price)]))
  }

  /** The newest item: `ORDER BY id DESC LIMIT 1`. */
  function Newest(items: seq<Item>): (r: Option<nat>)
    ensures r.None? <==> items == []
    ensures r.Some? ==> r.value < |items| && forall j :: 0 <= j < |items| ==> items[j].id <= items[r.value].id
  {
    ArgMaxWhere(items, (it: Item) => true, (it: Item) => it.id)
  }

  /** `generateBarCode`: "100" for an empty table, else the newest item's
      barcode read by `parseInt`, plus one; a barcode with no leading digits
      gives "NaN". */
  function GenerateBarCode(items: seq<Item>): (code: string)
    ensures items == [] ==> code == "100"
    ensures items != [] ==>
      var last := items[Newest(items).value].barcode;
      (Numbers.ParseInt(last).Some? ==> code == Numbers.IntToString(Numbers.ParseInt(last).value + 1))
      && (Numbers.ParseInt(last).None? ==> code == "NaN")
  {
    match Newest(items)
    case None => "100"
    case Some(k) =>
      match Numbers.ParseInt(items[k].barcode)
      case Some(v) => Numbers.IntToString(v + 1)
      case None => "NaN"
  }

  /** The barcode sequence: creating a product under the generated code
      makes it the newest item, so the next generated code is one more. */
  lemma GeneratedCodesCountUp(c: Catalog, p: ProductInput, n: int)
    requires GenerateBarCode(c.items) == Numbers.IntToString(n)
    requires p.generatedCode == GenerateBarCode(c.items)
    requires CreateProduct(c, p).Ok?
    ensures GenerateBarCode(CreateProduct(c, p).value.items) == Numbers.IntToString(n + 1)
  {
    var items := CreateProduct(c, p).value.items;
    CreatedIsNewest(c, p);
    Numbers.ParseIntOfIntToString(n);
    assert Numbers.ParseInt(items[Newest(items).value].barcode) == Some(n);
  }

  /** An item created under a generated code is the newest item and
      carries that code as its barcode. */
  lemma CreatedIsNewest(c: Catalog, p: ProductInput)
    requires p.generatedCode != "" && CreateProduct(c, p).Ok?
    ensures var items := CreateProduct(c, p).value.items;
            Newest(items) == Some(|c.items|) && items[|c.items|].barcode == p.generatedCode
  {
    var items := CreateProduct(c, p).value.items;
    var k := Newest(items).value;
    assert k == |c.items|;
  }

  /** The first code of an empty catalogue is 100 and the next is 101. */
  lemma FirstCodes(p: ProductInput)
    requires !MissingField(p) && p.generatedCode == "100"
    ensures GenerateBarCode([]) == "100"
    ensures CreateProduct(Catalog([], []), p).Ok?
    ensures GenerateBarCode(CreateProduct(Catalog([], []), p).value.items) == "101"
  {
    assert Numbers.IntToString(100) == "100";
    assert Numbers.IntToString(101) == "101";
    GeneratedCodesCountUp(Catalog([], []), p, 100);
  }

  /** The search filters as the handler receives them. */
  datatype SearchFilters = SearchFilters(quantityFrom: string, quantityTo: string, priceFrom: string, priceTo: string, category: string)

  /** One comparison against a `Number(...)` parameter; NaN binds as NULL,
      against which no comparison holds. */
  predicate AtLeast(v: int, bound: string) {
    Numbers.ToNumber(bound).Some? && v >= Numbers.ToNumber(bound).value
  }

  predicate AtMost(v: int, bound: string) {
    Numbers.ToNumber(bound).Some? && v <= Numbers.ToNumber(bound).value
  }

  /** The WHERE clauses `search` builds, one per non-empty value, in order. */
  function Clauses(name: string, f: SearchFilters): (r: seq<string>)
    ensures |r| == (if name != "" then 1 else 0) + (if f.quantityFrom != "" then 1 else 0)
                   + (if f.quantityTo != "" then 1 else 0) + (if f.priceFrom != "" then 1 else 0)
                   + (if f.priceTo != "" then 1 else 0) + (if f.category != "" then 1 else 0)
  {
    (if name != "" then ["(name LIKE ? OR barcode LIKE ?)"] else [])
    + (if f.quantityFrom != "" then ["quantity >= ?"] else [])
    + (if f.quantityTo != "" then ["quantity <= ?"] else [])
    + (if f.priceFrom != "" then ["price >= ?"] else [])
    + (if f.priceTo != "" then ["price <= ?"] else [])
    + (if f.category != "" then ["category_id = ?"] else [])
  }

  function JoinAnd(clauses: seq<string>): string {
    if |clauses| == 0 then ""
    else if |clauses| == 1 then clauses[0]
    else clauses[0] + " AND " + JoinAnd(clauses[1..])
  }

  /** `whereSQL`: the clauses joined with AND, or "1=1" when there are none. */
  function WhereSql(name: string, f: SearchFilters): (w: string)
    ensures Clauses(name, f) == [] ==> w == "1=1"
    ensures |Clauses(name, f)| == 1 ==> w == Clauses(name, f)[0]
  {
    var cs := Clauses(name, f);
    if |cs| > 0 then JoinAnd(cs) else "1=1"
  }

  /** What the composed WHERE means for one item. */
  predicate Matches(it: Item, name: string, f: SearchFilters) {
    (name != "" ==> Text.IncludesIgnoreCase(it.name, name) || Text.IncludesIgnoreCase(it.barcode, name))
    && (f.quantityFrom != "" ==> AtLeast(it.quantity, f.quantityFrom))
    && (f.quantityTo != "" ==> AtMost(it.quantity, f.quantityTo))
    && (f.priceFrom != "" ==> AtLeast(it.price, f.priceFrom))
    && (f.priceTo != "" ==> AtMost(it.price, f.priceTo))
    && (f.category != "" ==> Numbers.ToNumber(f.category) == Some(it.categoryId))
  }

  /** With nothing to filter on, the WHERE is "1=1" and keeps every item. */
  lemma NoFiltersKeepAll(it: Item)
    ensures WhereSql("", SearchFilters("", "", "", "", "")) == "1=1"
    ensures Matches(it, "", SearchFilters("", "", "", "", ""))
  {
  }

  /** Each filter can only narrow the result: adding a condition never
      admits an item the looser search dropped. */
  lemma AddingFilterNarrows(it: Item, name: string, f: SearchFilters, category: string)
    requires Matches(it, name, f.(category := category))
    requires f.category == ""
    ensures Matches(it, name, f)
  {
  }

  /** One page of `search`: the matching items newest first, and the total
      the count query gives for the same conditions. */
  datatype SearchResult = SearchResult(products: seq<Item>, total: nat)

  /** The items the composed WHERE keeps, in table order. */
  function Hits(items: seq<Item>, name: string, f: SearchFilters): (r: seq<Item>)
    ensures forall k :: 0 <= k < |r| ==> Matches(r[k], name, f) && r[k] in items
    ensures forall k :: 0 <= k < |items| && Matches(items[k], name, f) ==> items[k] in r
  {
    Where(items, (it: Item) => Matches(it, name, f))
  }

  /** The page holds exactly the `LIMIT`/`OFFSET` window of the matches,
      newest first, and its length follows from the total. */
  function Search(items: seq<Item>, name: string, f: SearchFilters, page: int, limit: int): (r: SearchResult)
    ensures r.total == |Hits(items, name, f)|
    ensures limit >= 0 ==> |r.products| <= limit
    ensures |r.products| == Paging.Window(r.total, limit, Paging.Offset(page, limit))
    ensures var hits := Hits(items, name, f);
            var start := Paging.Start(Paging.Offset(page, limit));
            forall k :: 0 <= k < |r.products| ==>
              start + k < |hits| && r.products[k] == hits[|hits| - 1 - (start + k)]
    ensures forall k :: 0 <= k < |r.products| ==> Matches(r.products[k], name, f) && r.products[k] in items
  {
    var hits := Hits(items, name, f);
    SearchResult(NewestPage(hits, limit, Paging.Offset(page, limit)), |hits|)
  }

  /** `getAll`: one page of all items, newest first, with the table size. */
  function GetAll(items: seq<Item>, page: int, limit: int): (r: SearchResult)
    ensures r.total == |items|
    ensures limit >= 0 ==> |r.products| <= limit
    ensures |r.products| == Paging.Window(|items|, limit, Paging.Offset(page, limit))
    ensures var start := Paging.Offset(page, limit);
            forall k :: 0 <= k < |r.products| && start >= 0 ==>
              start + k < |items| && r.products[k] == items[|items| - 1 - (start + k)]
  {
    SearchResult(NewestPage(items, limit, Paging.Offset(page, limit)), |items|)
  }

  /** `getAll` is `search` with no name and no filters. */
  lemma GetAllIsUnfilteredSearch(items: seq<Item>, page: int, limit: int)
    ensures Search(items, "", SearchFilters("", "", "", "", ""), page, limit) == GetAll(items, page, limit)
  {
    var p := (it: Item) => Matches(it, "", SearchFilters("", "", "", "", ""));
    WhereAllRows(items, p);
  }

  /** `getByName`: every item whose name or barcode contains the text,
      in table order. */
  function GetByName(items: seq<Item>, text: string): (r: seq<Item>)
    ensures forall k :: 0 <= k < |r| ==>
      r[k] in items && (Text.IncludesIgnoreCase(r[k].name, text) || Text.IncludesIgnoreCase(r[k].barcode, text))
    ensures forall k :: 0 <= k < |items| ==>
      (Text.IncludesIgnoreCase(items[k].name, text) || Text.IncludesIgnoreCase(items[k].barcode, text)) ==> items[k] in r
  {
    Where(items, (it: Item) => Text.IncludesIgnoreCase(it.name, text) || Text.IncludesIgnoreCase(it.barcode, text))
  }

  /** `getByName` finds what a name-only `search` counts. */
  lemma GetByNameCountsAsSearch(items: seq<Item>, text: string)
    requires text != ""
    ensures |GetByName(items, text)| == Search(items, text, SearchFilters("", "", "", "", ""), 1, -1).total
  {
    var p := (it: Item) => Text.IncludesIgnoreCase(it.name, text) || Text.IncludesIgnoreCase(it.barcode, text);
    var q := (it: Item) => Matches(it, text, SearchFilters("", "", "", "", ""));
    WhereCongruent(items, p, q);
  }

  /** `getBybarcode`: the first item whose barcode contains the text. */
  function GetByBarcode(items: seq<Item>, text: string): (r: Option<Item>)
    ensures r.None? <==> forall k :: 0 <= k < |items| ==> !Text.IncludesIgnoreCase(items[k].barcode, text)
    ensures r.Some? ==> r.value in items && Text.IncludesIgnoreCase(r.value.barcode, text)
  {
    match FirstWhere(items, (it: Item) => Text.IncludesIgnoreCase(it.barcode, text))
    case None => None
    case Some(k) => Some(items[k])
  }

  /** `findById`: the first item with that id, else a failure. */
  function FindById(items: seq<Item>, id: int): (r: Result<Item>)
    ensures r.Err? <==> forall k :: 0 <= k < |items| ==> items[k].id != id
    ensures r.Ok? ==> r.value in items && r.value.id == id
  {
    match FirstWhere(items, (it: Item) => it.id == id)
    case None => Err("Product not found")
    case Some(k) => Ok(items[k])
  }

  /** `update`: refused when a required field is falsy; otherwise the rows
      whose barcode equals the submitted `id` get the new name, quantity
      and prices. */
  function Update(items: seq<Item>, p: ProductInput, id: string): (r: Result<seq<Item>>)
    ensures r.Err? <==> p.name == "" || p.quantity == 0 || p.price == 0 || p.buyPrice == 0
    ensures r.Ok? ==> |r.value| == |items| && forall k :: 0 <= k < |items| ==>
      r.value[k] == if items[k].barcode == id
                    then items[k].(name := p.name, quantity := p.quantity, price := p.price, buyPrice := p.buyPrice)
                    else items[k]
  {
    if p.name == "" || p.quantity == 0 || p.price == 0 || p.buyPrice == 0 then
      Err("برجاء إدخال اسم المنتج والكمية والسعر وسعر الشراء")
    else
      Ok(seq(|items|, k requires 0 <= k < |items| =>
        if items[k].barcode == id
        then items[k].(name := p.name, quantity := p.quantity, price := p.price, buyPrice := p.buyPrice)
        else items[k]))
  }

  /** Some stock movement refers to the item. `transactions.item_id`
      references `items(id)` with no ON DELETE action and foreign keys are
      switched on, so deleting such an item fails the whole statement. */
  predicate HasMovement(c: Catalog, id: int) {
    exists m :: 0 <= m < |c.movements| && c.movements[m].itemId == id
  }

  /** A row the delete targets whose removal the foreign key forbids. */
  predicate Blocked(c: Catalog, it: Item, matches: Item -> bool) {
    matches(it) && HasMovement(c, it.id)
  }

  /** The filter `id LIKE '%id%'`. */
  function LikeId(id: int): Item -> bool {
    (it: Item) => IdLike(it.id, id)
  }

  /** The filter `id = id`. */
  function SameId(id: int): Item -> bool {
    (it: Item) => it.id == id
  }

  /** The rows a delete keeps. */
  function Kept(matches: Item -> bool): Item -> bool {
    (it: Item) => !matches(it)
  }

  /** The one `DELETE ... WHERE matches`: refused with the foreign-key
      error when a targeted row has a movement, else every targeted row
      goes and the movements stay. */
  function DeleteWhere(c: Catalog, matches: Item -> bool): (r: Result<Catalog>)
    ensures r.Err? <==> exists k :: 0 <= k < |c.items| && Blocked(c, c.items[k], matches)
    ensures r.Ok? ==> r.value.movements == c.movements
    ensures r.Ok? ==> forall k :: 0 <= k < |r.value.items| ==> !matches(r.value.items[k]) && r.value.items[k] in c.items
    ensures r.Ok? ==> forall k :: 0 <= k < |c.items| && !matches(c.items[k]) ==> c.items[k] in r.value.items
  {
    match FirstWhere(c.items, (it: Item) => Blocked(c, it, matches))
    case Some(_) => Err("FOREIGN KEY constraint failed")
    case None => Ok(c.(items := Where(c.items, Kept(matches))))
  }

  /** `deleteProduct` as written: refused for a falsy id or when no id is
      LIKE it; otherwise every item whose id contains the id's digits is
      deleted, unless one of them has a stock movement. */
  function DeleteProduct(c: Catalog, id: int): (r: Result<Catalog>)
    ensures r.Err? <==> id == 0 || (forall k :: 0 <= k < |c.items| ==> !IdLike(c.items[k].id, id))
                        || exists k :: 0 <= k < |c.items| && IdLike(c.items[k].id, id) && HasMovement(c, c.items[k].id)
    ensures r.Ok? ==> r.value.movements == c.movements
    ensures r.Ok? ==> forall k :: 0 <= k < |r.value.items| ==> !IdLike(r.value.items[k].id, id) && r.value.items[k] in c.items
    ensures r.Ok? ==> forall k :: 0 <= k < |c.items| && !IdLike(c.items[k].id, id) ==> c.items[k] in r.value.items
  {
    if id == 0 then Err("lمنتج غير موجود")
    else if FirstWhere(c.items, LikeId(id)).None? then Err("منتج غير موجود")
    else DeleteWhere(c, LikeId(id))
  }

  /** Deleting product 1 also deletes product 12 when neither was ever
      moved. */
  lemma DeleteProductTakesNeighbours()
    ensures var a := Item(1, "a", "", "100", 1, 1, 1, 1);
            var b := Item(12, "b", "", "101", 1, 1, 1, 1);
            DeleteProduct(Catalog([a, b], []), 1) == Ok(Catalog([], []))
  {
    var a := Item(1, "a", "", "100", 1, 1, 1, 1);
    var b := Item(12, "b", "", "101", 1, 1, 1, 1);
    assert Numbers.IntToString(1) == "1";
    assert Numbers.IntToString(12) == "12";
    assert Text.IsPrefix("1", "12");
    assert IdLike(a.id, 1) && IdLike(b.id, 1);
    WhereNone([a, b], Kept(LikeId(1)));
  }

  /** A product saved under a generated code has its purchase logged, so
      the delete of its id always fails: on the foreign key, or earlier. */
  lemma CreatedProductCannotBeDeleted(c: Catalog, p: ProductInput)
    requires p.generatedCode != "" && CreateProduct(c, p).Ok?
    ensures var after := CreateProduct(c, p).value;
            DeleteProduct(after, after.items[|c.items|].id).Err?
  {
    var after := CreateProduct(c, p).value;
    var it := after.items[|c.items|];
    IdLikeSelf(it.id);
    assert after.movements[|c.movements|].itemId == it.id;
    assert HasMovement(after, it.id);
  }

  /** The delete by exact id: refused for a falsy or unknown id, otherwise
      exactly the rows with that id go, unless one has a movement. */
  function DeleteProductFixed(c: Catalog, id: int): (r: Result<Catalog>)
    ensures r.Err? <==> id == 0 || (forall k :: 0 <= k < |c.items| ==> c.items[k].id != id) || HasMovement(c, id)
    ensures r.Ok? ==> r.value.movements == c.movements
    ensures r.Ok? ==> forall k :: 0 <= k < |r.value.items| ==> r.value.items[k].id != id && r.value.items[k] in c.items
    ensures r.Ok? ==> forall k :: 0 <= k < |c.items| && c.items[k].id != id ==> c.items[k] in r.value.items
  {
    if id == 0 then Err("lمنتج غير موجود")
    else if FirstWhere(c.items, SameId(id)).None? then Err("منتج غير موجود")
    else DeleteWhere(c, SameId(id))
  }

  /** The fixed delete never removes an item with a different id. Where the
      as-written delete succeeds too it removes no fewer rows, and where it
      fails instead, a neighbour whose id merely contains the digits holds
      a movement. */
  lemma FixedDeleteKeepsOtherIds(c: Catalog, id: int)
    requires DeleteProductFixed(c, id).Ok?
    ensures DeleteProduct(c, id).Ok? ==>
              |DeleteProduct(c, id).value.items| <= |DeleteProductFixed(c, id).value.items|
    ensures DeleteProduct(c, id).Err? ==>
              exists k :: 0 <= k < |c.items| && c.items[k].id != id && IdLike(c.items[k].id, id)
                          && HasMovement(c, c.items[k].id)
  {
    if DeleteProduct(c, id).Err? {
      FailedDeleteBlamesNeighbour(c, id);
    } else {
      WrittenDeleteTakesNoFewer(c, id);
    }
  }

  /** Where both deletes succeed, the written one keeps no more items. */
  lemma WrittenDeleteTakesNoFewer(c: Catalog, id: int)
    requires DeleteProductFixed(c, id).Ok? && DeleteProduct(c, id).Ok?
    ensures |DeleteProduct(c, id).value.items| <= |DeleteProductFixed(c, id).value.items|
  {
    assert DeleteProduct(c, id) == DeleteWhere(c, LikeId(id));
    assert DeleteProductFixed(c, id) == DeleteWhere(c, SameId(id));
    IdLikeSelf(id);
    forall j | 0 <= j < |c.items| && Kept(LikeId(id))(c.items[j])
      ensures Kept(SameId(id))(c.items[j])
    {
    }
    WhereNarrower(c.items, Kept(LikeId(id)), Kept(SameId(id)));
  }

  /** Where the fixed delete succeeds and the written one fails, an item
      whose id merely contains the digits holds a movement. */
  lemma FailedDeleteBlamesNeighbour(c: Catalog, id: int)
    requires DeleteProductFixed(c, id).Ok? && DeleteProduct(c, id).Err?
    ensures exists k :: 0 <= k < |c.items| && c.items[k].id != id && IdLike(c.items[k].id, id)
                        && HasMovement(c, c.items[k].id)
  {
    var k :| 0 <= k < |c.items| && c.items[k].id == id;
    IdLikeSelf(id);
    assert IdLike(c.items[k].id, id);
    var m :| 0 <= m < |c.items| && IdLike(c.items[m].id, id) && HasMovement(c, c.items[m].id);
    assert c.items[m].id != id;
  }

  /** A stricter predicate keeps no more rows. */
  lemma {:induction false} WhereNarrower(items: seq<Item>, p: Item -> bool, q: Item -> bool)
    requires forall k :: 0 <= k < |items| && p(items[k]) ==> q(items[k])
    ensures |Where(items, p)| <= |Where(items, q)|
    decreases |items|
  {
    if items != [] {
      WhereNarrower(items[1..], p, q);
    }
  }
}

=== FILE: reports.dfy ===
/** The report handlers of `src/main/ipc/handlers/reports.js`: the daily
    sales summary with its hourly breakdown, the inventory listing with its
    stock status, and the financial summary. A handler that throws is an
    `Err` carrying the message it throws. */
module Reports {
  import opened Wrappers
  import opened Tables
  import Numbers
  import Dates
  import Sorting
  import Paging
  import Schema
  import Daily

  const CashText: string := Schema.PaymentTypeText(Schema.Cash)
  const DeferredText: string := Schema.PaymentTypeText(Schema.Deferred)
  const ReturnText: string := Schema.PaymentTypeText(Schema.Returned)

  /** SQLite `x BETWEEN start AND end` on text. */
  predicate Between(x: string, start: string, end: string) {
    Dates.LexLe(start, x) && Dates.LexLe(x, end)
  }

  function TotalOf(): Invoice -> int {
    (i: Invoice) => i.totalAfterDiscount
  }

  function DiscountOf(): Invoice -> int {
    (i: Invoice) => i.discount
  }

  // ---------------------------------------------------------------------
  // Stock status

  datatype StockStatus = OutOfStock | LowStock | InStock

  /** The `stock_status` texts. */
  function StatusText(s: StockStatus): string {
    match s
    case OutOfStock => "نفد"
    case LowStock => "منخفض"
    case InStock => "متوفر"
  }

  /** Reading a status text back; any other text is no status. */
  function ParseStatus(t: string): (r: Option<StockStatus>)
    ensures r.Some? ==> StatusText(r.value) == t
  {
    if t == StatusText(OutOfStock) then Some(OutOfStock)
    else if t == StatusText(LowStock) then Some(LowStock)
    else if t == StatusText(InStock) then Some(InStock)
    else None
  }

  /** Every status text reads back as its status. */
  lemma StatusTextRoundTrip(s: StockStatus)
    ensures ParseStatus(StatusText(s)) == Some(s)
  {
    assert StatusText(OutOfStock) != StatusText(LowStock);
    assert StatusText(OutOfStock) != StatusText(InStock);
    assert StatusText(LowStock) != StatusText(InStock);
  }

  /** The `CASE` of the inventory query: nothing left, at most the
      threshold, otherwise available. */
  function Classify(quantity: int, warning: int): StockStatus {
    if quantity == 0 then OutOfStock
    else if quantity <= warning then LowStock
    else InStock
  }

  /** How good a status is: out of stock, low, available. */
  function Rank(s: StockStatus): nat {
    match s
    case OutOfStock => 0
    case LowStock => 1
    case InStock => 2
  }

  /** With a non-negative threshold the low-stock filter
      `quantity <= warning` keeps exactly the non-negative quantities not
      shown as available, and fewer items never show a better status. */
  lemma ClassifyAgreesWithFilter(quantity: int, more: int, warning: int)
    requires warning >= 0 && 0 <= quantity
    ensures quantity <= warning <==> Classify(quantity, warning) != InStock
    ensures quantity <= more ==> Rank(Classify(quantity, warning)) <= Rank(Classify(more, warning))
  {
  }

  // ---------------------------------------------------------------------
  // Inventory report

  const InventoryFailed := "فشل في جلب تقرير المخزون"

  function IsWarning(): Schema.Setting -> bool {
    (s: Schema.Setting) => s.key == "warning"
  }

  /** `+settings.value` of the first `warning` row. Without such a row
      reading `settings.value` throws; a value that is not a number is
      written into the SQL as `NaN`, which SQLite refuses as an unknown
      column. */
  function WarningOf(settings: seq<Schema.Setting>): (r: Result<int>)
    ensures r.Err? ==> r.message == InventoryFailed
    ensures (forall k :: 0 <= k < |settings| ==> settings[k].key != "warning") ==> r.Err?
    ensures r.Ok? ==> exists k :: 0 <= k < |settings| && settings[k].key == "warning"
                                 && Numbers.ToNumber(settings[k].value) == Some(r.value)
  {
    match FirstWhere(settings, IsWarning())
    case None => Err(InventoryFailed)
    case Some(k) =>
      match Numbers.ToNumber(settings[k].value)
      case None => Err(InventoryFailed)
      case Some(n) => Ok(n)
  }

  /** The seeded database warns at three items. */
  lemma SeededWarningIsThree()
    ensures WarningOf(Schema.SeedSettings) == Ok(3)
  {
    assert FirstWhere(Schema.SeedSettings, IsWarning()) == Some(0);
    Numbers.ToNumberOfIntToString(3);
    assert Numbers.IntToString(3) == "3";
  }

  /** A listed product: the item's columns, its stock value and status and
      the name of its category (NULL when the LEFT JOIN finds none). */
  datatype InventoryRow = InventoryRow(
    id: int,
    name: string,
    barcode: string,
    price: int,
    buyPrice: int,
    stockQuantity: int,
    inventoryValue: int,
    status: StockStatus,
    categoryName: Option<string>)

  function CategoryHasId(id: int): Category -> bool {
    (c: Category) => c.id == id
  }

  /** `LEFT JOIN categories c ON i.category_id = c.id`, with the category id
      a primary key: the name of the category with that id, soft-deleted
      or not. */
  function CategoryNameOf(categories: seq<Category>, id: int): (r: Option<string>)
    ensures r.None? <==> forall k :: 0 <= k < |categories| ==> categories[k].id != id
    ensures r.Some? ==> exists k :: 0 <= k < |categories| && categories[k].id == id && categories[k].name == r.value
  {
    match FirstWhere(categories, CategoryHasId(id))
    case None => None
    case Some(k) => Some(categories[k].name)
  }

  function RowOf(item: Item, warning: int, categories: seq<Category>): InventoryRow {
    InventoryRow(item.id, item.name, item.barcode, item.price, item.buyPrice, item.quantity,
                 item.quantity * item.buyPrice, Classify(item.quantity, warning),
                 CategoryNameOf(categories, item.categoryId))
  }

  /** `ORDER BY i.quantity ASC, i.name ASC`. */
  function ItemLe(): (Item, Item) -> bool {
    (a: Item, b: Item) => a.quantity < b.quantity || (a.quantity == b.quantity && Sorting.TextLeq(a.name, b.name))
  }

  lemma ItemOrderTotal()
    ensures Sorting.Total(ItemLe())
  {
    forall a: Item, b: Item
      ensures ItemLe()(a, b) || ItemLe()(b, a)
    {
      Sorting.TextLeqTotal(a.name, b.name);
    }
  }

  /** The destructured argument `{ page = 1, limit = 10, lowStockOnly = false }`:
      an absent field takes its default. */
  datatype InventoryArgs = InventoryArgs(page: Option<int>, limit: Option<int>, lowStockOnly: Option<bool>)

  function PageOf(a: InventoryArgs): int {
    a.page.GetOr(1)
  }

  function LimitOf(a: InventoryArgs): int {
    a.limit.GetOr(10)
  }

  function LowOnly(a: InventoryArgs): bool {
    a.lowStockOnly.GetOr(false)
  }

  function AtMost(limit: int): Item -> bool {
    (i: Item) => i.quantity <= limit
  }

  function NoneLeft(): Item -> bool {
    (i: Item) => i.quantity == 0
  }

  function AnyItem(): Item -> bool {
    (i: Item) => true
  }

  function StockValue(): Item -> int {
    (i: Item) => i.quantity * i.buyPrice
  }

  /** The items the listing query reads: all of them, or with `lowStockOnly`
      those at or under the threshold. */
  function Selection(items: seq<Item>, warning: int, lowOnly: bool): (r: seq<Item>)
    ensures forall k :: 0 <= k < |r| ==> r[k] in items && (lowOnly ==> r[k].quantity <= warning)
    ensures forall k :: 0 <= k < |items| && (!lowOnly || items[k].quantity <= warning) ==> items[k] in r
  {
    if lowOnly then Where(items, AtMost(warning)) else items
  }

  /** The selection in quantity-then-name order. */
  function Ordered(items: seq<Item>, warning: int, lowOnly: bool): (r: seq<Item>)
    ensures multiset(r) == multiset(Selection(items, warning, lowOnly))
    ensures |r| == |Selection(items, warning, lowOnly)|
    ensures Sorting.Sorted(r, ItemLe())
  {
    ItemOrderTotal();
    Sorting.Sort(Selection(items, warning, lowOnly), ItemLe())
  }

  /** The items of the listed page: the selection in quantity-then-name
      order, cut by `LIMIT limit OFFSET (page - 1) * limit`. Items that tie
      on both quantity and name stay in table order; SQL leaves their
      order open. */
  function PageItems(items: seq<Item>, warning: int, args: InventoryArgs): (r: seq<Item>)
    ensures LimitOf(args) >= 0 ==> |r| <= LimitOf(args)
    ensures |r| == Paging.Window(|Selection(items, warning, LowOnly(args))|, LimitOf(args),
                                 Paging.Offset(PageOf(args), LimitOf(args)))
    ensures var sorted := Ordered(items, warning, LowOnly(args));
            var start := Paging.Start(Paging.Offset(PageOf(args), LimitOf(args)));
            forall k :: 0 <= k < |r| ==> start + k < |sorted| && r[k] == sorted[start + k]
    ensures forall k :: 0 <= k < |r| ==> r[k] in Selection(items, warning, LowOnly(args))
    ensures forall k :: 0 <= k && k + 1 < |r| ==> r[k].quantity <= r[k + 1].quantity
  {
    var sorted := Ordered(items, warning, LowOnly(args));
    var offset := Paging.Offset(PageOf(args), LimitOf(args));
    SortedWindow(sorted, Selection(items, warning, LowOnly(args)), LimitOf(args), offset);
    Paging.LimitOffset(sorted, LimitOf(args), offset)
  }

  /** A `LIMIT`/`OFFSET` window of a sorted permutation keeps only rows of
      the original, in quantity order. */
  lemma SortedWindow(sorted: seq<Item>, original: seq<Item>, limit: int, offset: int)
    requires multiset(sorted) == multiset(original)
    requires Sorting.Sorted(sorted, ItemLe())
    ensures var w := Paging.LimitOffset(sorted, limit, offset);
            forall k :: 0 <= k < |w| ==> w[k] in original
    ensures var w := Paging.LimitOffset(sorted, limit, offset);
            forall k :: 0 <= k && k + 1 < |w| ==> w[k].quantity <= w[k + 1].quantity
  {
    var shown := Paging.LimitOffset(sorted, limit, offset);
    var start: nat := if offset < 0 then 0 else offset;
    assert shown != [] ==> start + (|shown| - 1) < |sorted|;
    WindowKeepsMembers(sorted, original, shown, start);
    WindowKeepsOrder(sorted, shown, start);
  }

  /** A window of a permutation holds only rows of the original. */
  lemma WindowKeepsMembers(sorted: seq<Item>, original: seq<Item>, window: seq<Item>, start: nat)
    requires multiset(sorted) == multiset(original)
    requires window == [] || start + |window| <= |sorted|
    requires forall k :: 0 <= k < |window| ==> window[k] == sorted[start + k]
    ensures forall k :: 0 <= k < |window| ==> window[k] in original
  {
    forall k | 0 <= k < |window|
      ensures window[k] in original
    {
      assert window[k] == sorted[start + k];
      assert sorted[start + k] in multiset(sorted);
    }
  }

  /** A window of the quantity-then-name order is ordered by quantity. */
  lemma WindowKeepsOrder(sorted: seq<Item>, window: seq<Item>, start: nat)
    requires Sorting.Sorted(sorted, ItemLe())
    requires window == [] || start + |window| <= |sorted|
    requires forall k :: 0 <= k < |window| ==> window[k] == sorted[start + k]
    ensures forall k :: 0 <= k && k + 1 < |window| ==> window[k].quantity <= window[k + 1].quantity
  {
    forall k | 0 <= k && k + 1 < |window|
      ensures window[k].quantity <= window[k + 1].quantity
    {
      assert window[k] == sorted[start + k];
      assert window[k + 1] == sorted[start + k + 1];
      assert ItemLe()(sorted[start + k], sorted[start + k + 1]);
    }
  }

  /** The listed page as rows with their value, status and category. */
  function Listing(items: seq<Item>, categories: seq<Category>, warning: int, args: InventoryArgs): (r: seq<InventoryRow>)
    ensures LimitOf(args) >= 0 ==> |r| <= LimitOf(args)
    ensures |r| == |PageItems(items, warning, args)|
    ensures forall k :: 0 <= k < |r| ==> r[k] == RowOf(PageItems(items, warning, args)[k], warning, categories)
    ensures forall k :: 0 <= k < |r| ==>
              exists i :: i in Selection(items, warning, LowOnly(args)) && r[k] == RowOf(i, warning, categories)
    ensures forall k :: 0 <= k < |r| ==> r[k].status == Classify(r[k].stockQuantity, warning)
    ensures forall k :: 0 <= k && k + 1 < |r| ==> r[k].stockQuantity <= r[k + 1].stockQuantity
  {
    var shown := PageItems(items, warning, args);
    var r := seq(|shown|, k requires 0 <= k < |shown| => RowOf(shown[k], warning, categories));
    assert forall k :: 0 <= k < |r| ==> r[k] == RowOf(shown[k], warning, categories);
    r
  }

  /** The summary row: an aggregate over the whole `items` table, so the
      sums are NULL over an empty table. */
  datatype InventorySummary = InventorySummary(
    totalProducts: nat,
    totalValue: Option<int>,
    lowStockCount: Option<nat>,
    outOfStockCount: Option<nat>)

  /** The summary with a given low-stock limit. */
  function SummaryWith(items: seq<Item>, limit: int): (s: InventorySummary)
    ensures s.totalProducts == |items|
    ensures items == [] <==> s.totalValue.None?
    ensures items == [] <==> s.lowStockCount.None?
    ensures items == [] <==> s.outOfStockCount.None?
    ensures items != [] ==> s.lowStockCount == Some(|Where(items, AtMost(limit))|)
    ensures items != [] ==> s.outOfStockCount == Some(|Where(items, NoneLeft())|)
  {
    if items == [] then InventorySummary(0, None, None, None)
    else InventorySummary(|items|, Some(SumOf(items, AnyItem(), StockValue())),
                          Some(CountWhere(items, AtMost(limit))), Some(CountWhere(items, NoneLeft())))
  }

  /** The summary as written: `quantity <= 5` counts as low stock whatever
      the threshold setting says. */
  const SummaryLowLimit := 5

  function Summary(items: seq<Item>): (s: InventorySummary)
    ensures items != [] ==> s.lowStockCount == Some(|Where(items, AtMost(SummaryLowLimit))|)
  {
    SummaryWith(items, SummaryLowLimit)
  }

  /** The summary counting low stock by the threshold the status uses. */
  function SummaryFixed(items: seq<Item>, warning: int): (s: InventorySummary)
    ensures items != [] ==> s.lowStockCount == Some(|Selection(items, warning, true)|)
  {
    SummaryWith(items, warning)
  }

  datatype InventoryReport = InventoryReport(
    summary: InventorySummary,
    products: seq<InventoryRow>,
    count: nat,
    lowStockOnly: bool)

  /** `getInventoryReport` as written: the count query is built without the
      low-stock condition (the condition is appended to the listing query a
      second time instead), so the count is every item. */
  function GetInventory(items: seq<Item>, categories: seq<Category>, settings: seq<Schema.Setting>,
                        args: InventoryArgs): (r: Result<InventoryReport>)
    ensures r.Err? <==> WarningOf(settings).Err?
    ensures r.Err? ==> r.message == InventoryFailed
    ensures r.Ok? ==> r.value.products == Listing(items, categories, WarningOf(settings).value, args)
                      && r.value.count == |items|
                      && r.value.summary == Summary(items)
                      && r.value.lowStockOnly == LowOnly(args)
  {
    match WarningOf(settings)
    case Err(e) => Err(e)
    case Ok(w) => Ok(InventoryReport(Summary(items), Listing(items, categories, w, args), |items|, LowOnly(args)))
  }

  /** The report with the count taken over the rows the listing selects and
      the summary's low-stock count using the threshold. */
  function GetInventoryFixed(items: seq<Item>, categories: seq<Category>, settings: seq<Schema.Setting>,
                             args: InventoryArgs): (r: Result<InventoryReport>)
    ensures r.Err? <==> WarningOf(settings).Err?
    ensures r.Ok? ==> r.value.products == Listing(items, categories, WarningOf(settings).value, args)
                      && r.value.count == |Selection(items, WarningOf(settings).value, LowOnly(args))|
                      && r.value.summary == SummaryFixed(items, WarningOf(settings).value)
  {
    match WarningOf(settings)
    case Err(e) => Err(e)
    case Ok(w) =>
      Ok(InventoryReport(SummaryFixed(items, w), Listing(items, categories, w, args),
                         |Selection(items, w, LowOnly(args))|, LowOnly(args)))
  }

  /** As written, with `lowStockOnly` and one item above the threshold, the
      count exceeds the number of rows the listing can ever show. */
  lemma CountIgnoresLowStockFilter(items: seq<Item>, categories: seq<Category>, settings: seq<Schema.Setting>,
                                   args: InventoryArgs, k: nat)
    requires GetInventory(items, categories, settings, args).Ok? && LowOnly(args)
    requires k < |items| && items[k].quantity > WarningOf(settings).value
    ensures GetInventory(items, categories, settings, args).value.count
            > |Selection(items, WarningOf(settings).value, true)|
  {
    var w := WarningOf(settings).value;
    assert !AtMost(w)(items[k]);
    assert items[k] !in Selection(items, w, true);
    WhereShorter(items, AtMost(w), k);
  }

  /** A filter that rejects some row drops at least that row. */
  lemma {:induction false} WhereShorter<T>(rows: seq<T>, p: T -> bool, k: nat)
    requires k < |rows| && !p(rows[k])
    ensures |Where(rows, p)| < |rows|
    decreases |rows|
  {
    if k == 0 {
      assert Where(rows, p) == Where(rows[1..], p);
    } else {
      WhereShorter(rows[1..], p, k - 1);
      assert |Where(rows, p)| <= 1 + |Where(rows[1..], p)|;
    }
  }

  /** With the fixed count, every page the count announces shows rows and
      every later page is empty. */
  lemma FixedCountMatchesPages(items: seq<Item>, categories: seq<Category>, settings: seq<Schema.Setting>,
                               args: InventoryArgs)
    requires GetInventoryFixed(items, categories, settings, args).Ok?
    requires LimitOf(args) > 0 && PageOf(args) >= 1
    ensures var r := GetInventoryFixed(items, categories, settings, args).value;
            PageOf(args) <= Paging.TotalPages(r.count, LimitOf(args)) <==> r.products != []
  {
    var w := WarningOf(settings).value;
    var sorted := Ordered(items, w, LowOnly(args));
    Paging.PageShowsRowsIff(sorted, LimitOf(args), PageOf(args));
  }

  /** As written the summary calls an item with four left low stock while its
      row, under the seeded threshold of three, calls it available; the fixed
      summary agrees with the rows. */
  lemma SummaryDisagreesWithStatus()
    ensures var items := [Item(1, "a", "", "", 4, 10, 8, 1)];
            Summary(items).lowStockCount == Some(1)
            && Classify(items[0].quantity, 3) == InStock
            && SummaryFixed(items, 3).lowStockCount == Some(0)
  {
    var items := [Item(1, "a", "", "", 4, 10, 8, 1)];
    assert Where(items, AtMost(SummaryLowLimit)) == items;
    assert Where(items, AtMost(3)) == [];
  }

  /** With a non-negative threshold the fixed summary's low-stock count is
      the number of items whose row is not shown as available. */
  lemma FixedSummaryCountsStatus(items: seq<Item>, warning: int)
    requires warning >= 0 && items != []
    requires forall k :: 0 <= k < |items| ==> items[k].quantity >= 0
    ensures SummaryFixed(items, warning).lowStockCount
            == Some(CountWhere(items, (i: Item) => Classify(i.quantity, warning) != InStock))
  {
    var p := (i: Item) => Classify(i.quantity, warning) != InStock;
    CountCongruent(items, AtMost(warning), p);
  }


  // ---------------------------------------------------------------------
  // Daily sales report

  /** The day's sales: invoices created in the day's range that are not
      returns. */
  function InDay(start: string, end: string): Invoice -> bool {
    (i: Invoice) => Between(i.createdAt, start, end) && i.paymentType != ReturnText
  }

  function CashPart(): Invoice -> int {
    (i: Invoice) => if i.paymentType == CashText then i.totalAfterDiscount else 0
  }

  function DeferredPart(): Invoice -> int {
    (i: Invoice) => if i.paymentType == DeferredText then i.totalAfterDiscount else 0
  }

  /** The daily summary row. It is an aggregate query, so it always yields
      one row and the handler's fallback object is never used: over a day
      without sales the sums and the average are NULL. */
  datatype SalesSummary = SalesSummary(
    transactions: nat,
    sales: Option<int>,
    tax: int,
    discount: Option<int>,
    average: Option<real>,
    cash: Option<int>,
    credit: Option<int>,
    digital: int)

  function DailySummary(invoices: seq<Invoice>, start: string, end: string): (s: SalesSummary)
    ensures s.transactions == |Where(invoices, InDay(start, end))|
    ensures s.transactions == 0 <==> s.sales.None?
    ensures s.transactions == 0 <==> s.average.None?
    ensures s.sales.Some? ==> s.average.value * s.transactions as real == s.sales.value as real
    ensures s.tax == 0 && s.digital == 0
  {
    var p := InDay(start, end);
    var n := CountWhere(invoices, p);
    if n == 0 then SalesSummary(0, None, 0, None, None, None, None, 0)
    else
      var total := SumOf(invoices, p, TotalOf());
      SalesSummary(n, Some(total), 0, Some(SumOf(invoices, p, DiscountOf())),
                   Some(total as real / n as real),
                   Some(SumOf(invoices, p, CashPart())), Some(SumOf(invoices, p, DeferredPart())), 0)
  }

  /** Payment types are limited to cash, deferred and return by the schema's
      CHECK, so a day's sales are its cash sales plus its deferred sales. */
  lemma CashPlusCreditIsSales(invoices: seq<Invoice>, start: string, end: string)
    requires forall k :: 0 <= k < |invoices| ==> Schema.ParsePaymentType(invoices[k].paymentType).Some?
    requires DailySummary(invoices, start, end).transactions > 0
    ensures var s := DailySummary(invoices, start, end);
            s.sales.value == s.cash.value + s.credit.value
  {
    var p := InDay(start, end);
    forall k | 0 <= k < |invoices| && p(invoices[k])
      ensures TotalOf()(invoices[k]) == CashPart()(invoices[k]) + DeferredPart()(invoices[k])
    {
      var t := Schema.ParsePaymentType(invoices[k].paymentType).value;
      Schema.PaymentTypeRoundTrip(t);
      assert CashText != DeferredText;
    }
    SumOfSplit(invoices, p, TotalOf(), CashPart(), DeferredPart());
  }

  /** `CAST(strftime('%H', createdAt) AS INTEGER)` on stored text
      `YYYY-MM-DD HH:MM:SS`: the two digits after the date when they form an
      hour, NULL otherwise. */
  function HourOf(createdAt: string): (h: Option<nat>)
    ensures h.Some? ==> h.value < 24
  {
    if |createdAt| >= 13 && Numbers.AllDigits(createdAt[11..13]) && Numbers.DigitsValue(createdAt[11..13]) < 24
    then Some(Numbers.DigitsValue(createdAt[11..13]))
    else None
  }

  /** The hour read back from a stored timestamp is the hour written. */
  lemma HourOfStored(t: Dates.DateTime)
    requires Dates.Valid(t) && Dates.FourDigitYear(t)
    ensures HourOf(Dates.FormatDateForMySql(t)) == Some(t.hour)
  {
    Dates.FormatDateForMySqlLayout(t);
  }

  /** One row of the hourly breakdown. */
  datatype HourlyRow = HourlyRow(hour: Option<nat>, transactions: nat, sales: int)

  function AtHour(h: Option<nat>): Invoice -> bool {
    (i: Invoice) => HourOf(i.createdAt) == h
  }

  function HourRow(sold: seq<Invoice>, h: Option<nat>): HourlyRow {
    HourlyRow(h, CountWhere(sold, AtHour(h)), SumOf(sold, AtHour(h), TotalOf()))
  }

  /** The groups of hours `from` to 23 that have sales, in order. */
  function HoursFrom(sold: seq<Invoice>, from: nat): (rows: seq<HourlyRow>)
    ensures forall k :: 0 <= k < |rows| ==> rows[k].hour.Some? && from <= rows[k].hour.value < 24
    decreases 24 - from
  {
    if from >= 24 then []
    else (if CountWhere(sold, AtHour(Some(from))) > 0 then [HourRow(sold, Some(from))] else [])
         + HoursFrom(sold, from + 1)
  }

  /** `GROUP BY strftime('%H', createdAt) ORDER BY hour` over the day's
      sales: a group per hour that has sales, the NULL hour first. */
  function HourlyBreakdown(invoices: seq<Invoice>, start: string, end: string): seq<HourlyRow> {
    var sold := Where(invoices, InDay(start, end));
    (if CountWhere(sold, AtHour(None)) > 0 then [HourRow(sold, None)] else []) + HoursFrom(sold, 0)
  }

  // ---------------------------------------------------------------------
  // Financial summary

  const FinancialFailed := "فشل في جلب التقرير المالي"

  /** A bound of the range: absent (or empty), a date, or a value that
      `new Date` cannot read, on which `toISOString` throws. */
  datatype DateArg = Absent | Unreadable | At(t: Dates.DateTime)

  predicate LeapYear(y: nat) {
    (y % 4 == 0 && y % 100 != 0) || y % 400 == 0
  }

  function DaysInMonth(year: nat, month0: nat): (d: nat)
    ensures month0 < 12 ==> 28 <= d <= 31
  {
    if month0 == 1 then (if LeapYear(year) then 29 else 28)
    else if month0 == 3 || month0 == 5 || month0 == 8 || month0 == 10 then 30
    else 31
  }

  /** `startOfMonth(now)`: the first day at midnight. */
  function StartOfMonth(now: Dates.DateTime): (t: Dates.DateTime)
    ensures Dates.Valid(now) ==> Dates.Valid(t) && Dates.NotAfter(t, now)
  {
    now.(day := 1, hour := 0, minute := 0, second := 0, millis := 0)
  }

  /** `endOfMonth(now)`: the month's last day at 23:59:59.999. */
  function EndOfMonth(now: Dates.DateTime): (t: Dates.DateTime)
    ensures Dates.Valid(now) && now.day <= DaysInMonth(now.year, now.month0) ==>
              Dates.Valid(t) && Dates.NotAfter(now, t)
  {
    now.(day := DaysInMonth(now.year, now.month0), hour := 23, minute := 59, second := 59, millis := 999)
  }

  /** `toSqliteDate(given ? new Date(given) : fallback)`. */
  function BoundText(arg: DateArg, fallback: Dates.DateTime): (r: Result<string>)
    ensures r.Err? <==> arg.Unreadable?
    ensures r.Err? ==> r.message == FinancialFailed
    ensures arg.Absent? ==> r == Ok(Dates.ToSqliteDate(Dates.ToIsoString(fallback)))
  {
    match arg
    case Absent => Ok(Dates.ToSqliteDate(Dates.ToIsoString(fallback)))
    case Unreadable => Err(FinancialFailed)
    case At(t) => Ok(Dates.ToSqliteDate(Dates.ToIsoString(t)))
  }

  /** A bound given as a date and a stored timestamp compare in time order:
      `createdAt BETWEEN start AND end` holds exactly when the timestamp is
      not before the start and not after the end, to the second. */
  lemma RangeIsChronological(from: Dates.DateTime, to: Dates.DateTime, s: Dates.DateTime, now: Dates.DateTime)
    requires Dates.Valid(from) && Dates.FourDigitYear(from)
    requires Dates.Valid(to) && Dates.FourDigitYear(to)
    requires Dates.Valid(s) && Dates.FourDigitYear(s)
    ensures Between(Dates.FormatDateForMySql(s), BoundText(At(from), now).value, BoundText(At(to), now).value)
            <==> Dates.NotAfter(from, s) && Dates.NotAfter(s, to)
  {
    Dates.SqliteDateOfIsoString(from);
    Dates.SqliteDateOfIsoString(to);
    Dates.MySqlTextOrder(from, s);
    Dates.MySqlTextOrder(s, to);
  }

  /** The columns of `credit` the report reads. */
  datatype Expense = Expense(price: int, createdAt: string)

  datatype Financial = Financial(
    revenue: int,
    tax: int,
    discounts: int,
    netRevenue: int,
    expenses: int,
    expenseCount: nat,
    gross: int,
    netProfit: int,
    transactions: nat,
    average: real)

  /** Cash invoices in the range; deferred sales and returns do not count. */
  function CashIn(start: string, end: string): Invoice -> bool {
    (i: Invoice) => Between(i.createdAt, start, end) && i.paymentType == CashText
  }

  function ExpenseIn(start: string, end: string): Expense -> bool {
    (e: Expense) => Between(e.createdAt, start, end)
  }

  function PriceOf(): Expense -> int {
    (e: Expense) => e.price
  }

  function InvoiceHasId(id: int): Invoice -> bool {
    (i: Invoice) => i.id == id
  }

  function ItemHasId(id: int): Item -> bool {
    (i: Item) => i.id == id
  }

  /** A line's contribution to the estimated gross profit: its net total
      less its quantity at the item's buying price, when the line joins a
      cash invoice of the range and an existing item (ids are primary keys);
      nothing otherwise. */
  function LineGain(l: InvoiceItem, invoices: seq<Invoice>, items: seq<Item>, start: string, end: string): int {
    match (FirstWhere(invoices, InvoiceHasId(l.invoiceId)), FirstWhere(items, ItemHasId(l.itemId)))
    case (Some(i), Some(j)) =>
      if CashIn(start, end)(invoices[i]) then l.totalPriceAfterDiscount - l.quantity * items[j].buyPrice else 0
    case _ => 0
  }

  function GrossProfit(lines: seq<InvoiceItem>, invoices: seq<Invoice>, items: seq<Item>, start: string, end: string): int {
    SumOf(lines, (l: InvoiceItem) => true, (l: InvoiceItem) => LineGain(l, invoices, items, start, end))
  }

  /** The figures for a resolved range. No tax column is selected, so the
      tax is 0 and the net revenue is the revenue; a missing average reads
      as 0. */
  function FinancialFor(invoices: seq<Invoice>, lines: seq<InvoiceItem>, items: seq<Item>,
                        expenses: seq<Expense>, start: string, end: string): (f: Financial)
    ensures f.revenue == SumOf(invoices, CashIn(start, end), TotalOf())
    ensures f.transactions == |Where(invoices, CashIn(start, end))|
    ensures f.expenses == SumOf(expenses, ExpenseIn(start, end), PriceOf())
    ensures f.expenseCount == |Where(expenses, ExpenseIn(start, end))|
    ensures f.tax == 0 && f.netRevenue == f.revenue
    ensures f.netProfit == f.gross - f.expenses
    ensures f.average == Daily.Average(f.revenue, f.transactions)
  {
    var p := CashIn(start, end);
    var revenue := SumOf(invoices, p, TotalOf());
    var count := CountWhere(invoices, p);
    var spent := SumOf(expenses, ExpenseIn(start, end), PriceOf());
    var gross := GrossProfit(lines, invoices, items, start, end);
    Financial(revenue, 0, SumOf(invoices, p, DiscountOf()), revenue - 0, spent,
              CountWhere(expenses, ExpenseIn(start, end)), gross, gross - spent, count,
              Daily.Average(revenue, count))
  }

  /** `getFinancialSummaryReport`: the range defaults to the current month;
      an unreadable bound makes the handler throw. */
  function GetFinancial(invoices: seq<Invoice>, lines: seq<InvoiceItem>, items: seq<Item>, expenses: seq<Expense>,
                        from: DateArg, to: DateArg, now: Dates.DateTime): (r: Result<Financial>)
    ensures r.Err? <==> from.Unreadable? || to.Unreadable?
    ensures r.Err? ==> r.message == FinancialFailed
    ensures r.Ok? ==> r.value == FinancialFor(invoices, lines, items, expenses,
                                              BoundText(from, StartOfMonth(now)).value,
                                              BoundText(to, EndOfMonth(now)).value)
  {
    match (BoundText(from, StartOfMonth(now)), BoundText(to, EndOfMonth(now)))
    case (Ok(start), Ok(end)) => Ok(FinancialFor(invoices, lines, items, expenses, start, end))
    case (Err(e), _) => Err(e)
    case (_, Err(e)) => Err(e)
  }

  /** A deferred sale or a return changes none of the sales figures. */
  lemma NonCashInvoiceIsIgnored(invoices: seq<Invoice>, inv: Invoice, start: string, end: string)
    requires inv.paymentType != CashText
    ensures SumOf(invoices + [inv], CashIn(start, end), TotalOf()) == SumOf(invoices, CashIn(start, end), TotalOf())
    ensures SumOf(invoices + [inv], CashIn(start, end), DiscountOf()) == SumOf(invoices, CashIn(start, end), DiscountOf())
    ensures |Where(invoices + [inv], CashIn(start, end))| == |Where(invoices, CashIn(start, end))|
  {
    SumOfAppend(invoices, [inv], CashIn(start, end), TotalOf());
    SumOfAppend(invoices, [inv], CashIn(start, end), DiscountOf());
    WhereAppend(invoices, [inv], CashIn(start, end));
  }

  /** A cash sale in the range adds its net total to the revenue and one to
      the count. */
  lemma CashSaleRaisesRevenue(invoices: seq<Invoice>, inv: Invoice, start: string, end: string)
    requires inv.paymentType == CashText && Between(inv.createdAt, start, end)
    ensures SumOf(invoices + [inv], CashIn(start, end), TotalOf())
            == SumOf(invoices, CashIn(start, end), TotalOf()) + inv.totalAfterDiscount
    ensures |Where(invoices + [inv], CashIn(start, end))| == |Where(invoices, CashIn(start, end))| + 1
  {
    SumOfAppend(invoices, [inv], CashIn(start, end), TotalOf());
    WhereAppend(invoices, [inv], CashIn(start, end));
  }

  /** An expense recorded in the range lowers the net profit by its amount;
      one outside the range changes nothing. Expenses are read without
      regard to their soft deletion. */
  lemma ExpenseLowersNetProfit(invoices: seq<Invoice>, lines: seq<InvoiceItem>, items: seq<Item>,
                               expenses: seq<Expense>, e: Expense, start: string, end: string)
    ensures FinancialFor(invoices, lines, items, expenses + [e], start, end).netProfit
            == FinancialFor(invoices, lines, items, expenses, start, end).netProfit
               - (if Between(e.createdAt, start, end) then e.price else 0)
  {
    SumOfAppend(expenses, [e], ExpenseIn(start, end), PriceOf());
  }
}

=== FILE: schema.dfy ===
/** The SQLite schema's value constraints and the process-wide database
    handle of `src/main/database/connection.js`. */
module Schema {
  // CHECK constraints become enumerations whose text form is the exact
  // string SQLite compares against; the generated `total_value` column is a
  // field the constructor function computes; the connection is a nullable
  // handle moved by `initDatabase`, `getDatabase` and `closeDatabase`.

  import opened Wrappers

  /** `invoices.paymentType`: cash, deferred, returned. */
  datatype PaymentType = Cash | Deferred | Returned

  function PaymentTypeText(p: PaymentType): string {
    match p
    case Cash => "خالص"
    case Deferred => "أجل"
    case Returned => "مرتجع"
  }

  /** The CHECK constraint: only the three stored spellings are accepted. */
  function ParsePaymentType(s: string): (r: Option<PaymentType>)
    ensures r.Some? ==> PaymentTypeText(r.value) == s
  {
    if s == "خالص" then Some(Cash)
    else if s == "أجل" then Some(Deferred)
    else if s == "مرتجع" then Some(Returned)
    else None
  }

  /** Every payment type survives the round trip through its stored text,
      so the CHECK accepts exactly the three spellings. */
  lemma PaymentTypeRoundTrip(p: PaymentType)
    ensures ParsePaymentType(PaymentTypeText(p)) == Some(p)
  {
  }

  /** `users.role`. */
  datatype Role = Admin | Manager | Cashier

  function RoleText(r: Role): string {
    match r
    case Admin => "admin"
    case Manager => "manager"
    case Cashier => "cashier"
  }

  /** The role column on insert: an omitted role takes the DEFAULT
      'cashier'; a supplied role must pass the CHECK, else the insert fails. */
  function RoleOnInsert(given: Option<string>): (r: Result<Role>)
    ensures given.None? ==> r == Ok(Cashier)
    ensures given.Some? && r.Ok? ==> RoleText(r.value) == given.value
    ensures given.Some? ==> (r.Ok? <==> given.value in {"admin", "manager", "cashier"})
  {
    match given
    case None => Ok(Cashier)
    case Some(s) =>
      if s == "admin" then Ok(Admin)
      else if s == "manager" then Ok(Manager)
      else if s == "cashier" then Ok(Cashier)
      else Err("CHECK constraint failed: role")
  }

  /** `transactions.transaction_type`. */
  datatype MovementType = Purchase | Return | Sale

  function MovementTypeText(t: MovementType): string {
    match t
    case Purchase => "purchase"
    case Return => "return"
    case Sale => "sale"
  }

  /** A row of `transactions`; `totalValue` is the generated column. */
  datatype StockMovement = StockMovement(
    itemId: int,
    kind: MovementType,
    quantity: int,
    unitPrice: int,
    totalValue: int)

  /** Inserting a movement: SQLite computes `total_value` itself. */
  function RecordMovement(itemId: int, kind: MovementType, quantity: int, unitPrice: int): (m: StockMovement)
    ensures m.itemId == itemId && m.kind == kind
    ensures m.quantity == quantity && m.unitPrice == unitPrice
    ensures ValidMovement(m)
  {
    StockMovement(itemId, kind, quantity, unitPrice, quantity * unitPrice)
  }

  predicate ValidMovement(m: StockMovement) {
    m.totalValue == m.quantity * m.unitPrice
  }

  /** A row of `user_permissions`. */
  datatype Grant = Grant(userId: int, permissionId: int, grantedBy: Option<int>)

  /** UNIQUE (user_id, permission_id). */
  predicate UniquePairs(rows: seq<Grant>) {
    forall i, j :: 0 <= i < j < |rows| ==>
      (rows[i].userId, rows[i].permissionId) != (rows[j].userId, rows[j].permissionId)
  }

  /** A row of `settings`. */
  datatype Setting = Setting(domain: string, key: string, value: string, name: string)

  /** The seeded settings. */
  const SeedSettings: seq<Setting> := [
    Setting("products", "warning", "3", "تحذير بنفاذ الكمية بعد"),
    Setting("daily", "open", "true", "فتح اليومية بمبلغ مالي"),
    Setting("daily", "closeWithSchudledInvoice", "false", "غلف اليومية بوجود فواتير أجل")
  ]

  /** The tables the schema script creates. */
  const SchemaTables: seq<string> := [
    "categories", "users", "daily", "credit", "items", "invoices",
    "invoiceItems", "permissions", "settings", "transactions", "user_permissions"
  ]

  /** An opened database file, reduced to the tables it holds. */
  datatype Database = Database(tables: seq<string>)

  /** The module-level `database` variable: null until opened. */
  type Connection = Option<Database>

  /** `initDatabase`: open the file and run the schema script only when the
      file has no tables at all; an existing database is left as found. */
  function InitDatabase(file: Database): (c: Connection)
    ensures c.Some?
    ensures |file.tables| == 0 ==> c.value.tables == SchemaTables
    ensures |file.tables| > 0 ==> c.value == file
  {
    if |file.tables| == 0 then Some(Database(SchemaTables)) else Some(file)
  }

  /** `getDatabase`: fails until a handle is set. */
  function GetDatabase(c: Connection): (r: Result<Database>)
    ensures r.Ok? <==> c.Some?
    ensures r.Ok? ==> r.value == c.value
  {
    match c
    case None => Err("Database not initialized. Call initDatabase() first.")
    case Some(db) => Ok(db)
  }

  /** `closeDatabase`: drops the handle (a no-op when already closed). */
  function CloseDatabase(c: Connection): (r: Connection)
    ensures r.None?
  {
    None
  }

  /** The handle's life cycle: usable after init, refused after close, and
      an already-initialised file is never re-created. */
  lemma ConnectionLifecycle(file: Database, c: Connection)
    ensures GetDatabase(InitDatabase(file)).Ok?
    ensures GetDatabase(CloseDatabase(c)).Err?
    ensures InitDatabase(InitDatabase(file).value) == InitDatabase(file)
  {
  }

  /** The seeded low-stock threshold. */
  lemma SeededWarningIsThree()
    ensures exists i :: 0 <= i < |SeedSettings| && SeedSettings[i].key == "warning"
                         && SeedSettings[i].value == "3" && SeedSettings[i].domain == "products"
  {
    assert SeedSettings[0].key == "warning";
  }
}

=== FILE: settings.dfy ===
/** The settings handler `src/main/ipc/handlers/settings.js`: reading the
    settings of a domain or under a key, and writing new values by key. */
module Settings {
  import opened Wrappers
  import opened Tables
  import opened Schema

  /** `getByDomain`: every setting of the domain, in table order. */
  function GetByDomain(settings: seq<Setting>, domain: string): (r: seq<Setting>)
    ensures forall k :: 0 <= k < |r| ==> r[k].domain == domain && r[k] in settings
    ensures forall k :: 0 <= k < |settings| && settings[k].domain == domain ==> settings[k] in r
  {
    Where(settings, (s: Setting) => s.domain == domain)
  }

  /** `getByKey`: the first setting with the key, or null. */
  function GetByKey(settings: seq<Setting>, key: string): (r: Option<Setting>)
    ensures r.None? <==> forall k :: 0 <= k < |settings| ==> settings[k].key != key
    ensures r.Some? ==> exists k :: 0 <= k < |settings| && settings[k] == r.value && r.value.key == key
                                    && forall j :: 0 <= j < k ==> settings[j].key != key
  {
    match FirstWhere(settings, (s: Setting) => s.key == key)
    case None => None
    case Some(k) => Some(settings[k])
  }

  /** One `{ key, value }` of the update list: an absent key or an
      undefined value is None. */
  datatype Entry = Entry(key: Option<string>, value: Option<string>)

  /** Entries with a falsy key or an undefined value are skipped. */
  predicate Applies(e: Entry) {
    e.key.Some? && e.key.value != "" && e.value.Some?
  }

  /** `UPDATE settings SET value = ? WHERE key = ?` for one entry. */
  function Write(settings: seq<Setting>, e: Entry): (r: seq<Setting>)
    ensures |r| == |settings|
    ensures forall k :: 0 <= k < |settings| ==>
      r[k] == if Applies(e) && settings[k].key == e.key.value then settings[k].(value := e.value.value) else settings[k]
  {
    if !Applies(e) then settings
    else
      seq(|settings|, k requires 0 <= k < |settings| =>
        if settings[k].key == e.key.value then settings[k].(value := e.value.value) else settings[k])
  }

  function WriteAll(settings: seq<Setting>, entries: seq<Entry>): seq<Setting>
    decreases |entries|
  {
    if entries == [] then settings else WriteAll(Write(settings, entries[0]), entries[1..])
  }

  /** The value a key ends with: that of the last applying entry for it. */
  function LastValue(entries: seq<Entry>, key: string, current: string): string
    decreases |entries|
  {
    if entries == [] then current
    else LastValue(entries[1..], key,
                   if Applies(entries[0]) && entries[0].key.value == key then entries[0].value.value else current)
  }

  /** The writes run in list order, so every setting ends with the value of
      the last applying entry for its key, and nothing but values changes. */
  lemma {:induction false} WriteAllIsLastValue(settings: seq<Setting>, entries: seq<Entry>)
    ensures |WriteAll(settings, entries)| == |settings|
    ensures forall k :: 0 <= k < |settings| ==>
      WriteAll(settings, entries)[k] == settings[k].(value := LastValue(entries, settings[k].key, settings[k].value))
    decreases |entries|
  {
    if entries != [] {
      var next := Write(settings, entries[0]);
      WriteAllIsLastValue(next, entries[1..]);
      forall k | 0 <= k < |settings|
        ensures WriteAll(settings, entries)[k] == settings[k].(value := LastValue(entries, settings[k].key, settings[k].value))
      {
        assert next[k].key == settings[k].key;
      }
    }
  }

  /** What a call leaves behind: its answer and the settings table, whose
      writes stay applied when the call throws after them. */
  datatype Outcome = Outcome(result: Result<string>, settings: seq<Setting>)

  /** The TypeError of destructuring `[result]` from a value that is not
      iterable; V8's exact wording is not modelled. */
  const NotIterable := "TypeError: not iterable"

  /** `updateSettings` as written: refused for an empty list. Otherwise
      every applying entry is written, and `Promise.all` settles only after
      all of them; then the `reduce` callback destructures `[result]` from
      the answer of `db.run`, the object `{ stmt, lastID, changes }`, which
      is not iterable. So the call throws as soon as one entry applied, with
      its writes done, and answers success, with a count of 0, only when no
      entry applies. */
  function UpdateSettings(settings: seq<Setting>, entries: seq<Entry>): (r: Outcome)
    ensures r.result.Err? <==> entries == [] || exists i :: 0 <= i < |entries| && Applies(entries[i])
    ensures entries == [] ==> r.result == Err("Invalid data: Must be a non-empty array")
    ensures r.result.Ok? ==> r.result.value == "0 setting(s) updated successfully" && r.settings == settings
    ensures |r.settings| == |settings|
    ensures forall k :: 0 <= k < |settings| ==>
      r.settings[k] == settings[k].(value := LastValue(entries, settings[k].key, settings[k].value))
  {
    if entries == [] then Outcome(Err("Invalid data: Must be a non-empty array"), settings)
    else
      WriteAllIsLastValue(settings, entries);
      if exists i :: 0 <= i < |entries| && Applies(entries[i]) then
        Outcome(Err(NotIterable), WriteAll(settings, entries))
      else
        assert forall k :: 0 <= k < |settings| ==> LastValue(entries, settings[k].key, settings[k].value) == settings[k].value by {
          forall k | 0 <= k < |settings|
            ensures LastValue(entries, settings[k].key, settings[k].value) == settings[k].value
          {
            UnnamedKeyKeepsValue(entries, settings[k].key, settings[k].value);
          }
        }
        assert WriteAll(settings, entries) == settings;
        Outcome(Ok("0 setting(s) updated successfully"), settings)
  }

  /** `updateSettings` as intended, the count read from `result.changes`:
      refused for an empty list; otherwise the applying entries are written
      in order and the call succeeds. */
  function UpdateSettingsFixed(settings: seq<Setting>, entries: seq<Entry>): (r: Result<seq<Setting>>)
    ensures r.Err? <==> entries == []
    ensures r.Ok? ==> |r.value| == |settings|
    ensures r.Ok? ==> forall k :: 0 <= k < |settings| ==>
      r.value[k] == settings[k].(value := LastValue(entries, settings[k].key, settings[k].value))
  {
    if entries == [] then Err("Invalid data: Must be a non-empty array")
    else
      WriteAllIsLastValue(settings, entries);
      Ok(WriteAll(settings, entries))
  }

  /** Both versions leave the same table; they differ only in the answer,
      which as written is a failure exactly when the corrected one wrote
      something. */
  lemma FixedWritesAsWritten(settings: seq<Setting>, entries: seq<Entry>)
    requires entries != []
    ensures UpdateSettingsFixed(settings, entries).Ok?
    ensures UpdateSettings(settings, entries).settings == UpdateSettingsFixed(settings, entries).value
    ensures UpdateSettings(settings, entries).result.Err? <==> exists i :: 0 <= i < |entries| && Applies(entries[i])
  {
  }

  /** As written, saving one entry for an existing key throws, yet the new
      value is in the table and `getByKey` reads it back. */
  lemma OneEntryThrowsAfterWriting(settings: seq<Setting>, key: string, value: string)
    requires key != "" && GetByKey(settings, key).Some?
    ensures UpdateSettings(settings, [Entry(Some(key), Some(value))]).result == Err(NotIterable)
    ensures GetByKey(UpdateSettings(settings, [Entry(Some(key), Some(value))]).settings, key).value
            == GetByKey(settings, key).value.(value := value)
  {
    var es := [Entry(Some(key), Some(value))];
    assert Applies(es[0]);
    WrittenValueIsRead(settings, key, value);
    FixedWritesAsWritten(settings, es);
  }

  /** A key no applying entry names keeps its value. */
  lemma {:induction false} UnnamedKeyKeepsValue(entries: seq<Entry>, key: string, current: string)
    requires forall i :: 0 <= i < |entries| && Applies(entries[i]) ==> entries[i].key.value != key
    ensures LastValue(entries, key, current) == current
    decreases |entries|
  {
    if entries != [] {
      UnnamedKeyKeepsValue(entries[1..], key, current);
    }
  }

  /** With the corrected handler a single entry is saved and, read back,
      `getByKey` sees it. */
  lemma WrittenValueIsRead(settings: seq<Setting>, key: string, value: string)
    requires key != "" && GetByKey(settings, key).Some?
    ensures UpdateSettingsFixed(settings, [Entry(Some(key), Some(value))]).Ok?
    ensures GetByKey(UpdateSettingsFixed(settings, [Entry(Some(key), Some(value))]).value, key).value
            == GetByKey(settings, key).value.(value := value)
  {
    var es := [Entry(Some(key), Some(value))];
    var r := UpdateSettingsFixed(settings, es).value;
    var prev := GetByKey(settings, key).value;
    var k :| 0 <= k < |settings| && settings[k] == prev && prev.key == key
             && forall j :: 0 <= j < k ==> settings[j].key != key;
    LastOfOne(key, value, key, prev.value);
    KeysKept(settings, r, es);
    FirstKeyKept(r, key, k);
  }

  /** A single applying entry sets its own key and no other. */
  lemma LastOfOne(key: string, value: string, other: string, current: string)
    requires key != ""
    ensures LastValue([Entry(Some(key), Some(value))], other, current) == if other == key then value else current
  {
    assert [Entry(Some(key), Some(value))][1..] == [];
  }

  /** An update changes values only, so every row keeps its key. */
  lemma KeysKept(settings: seq<Setting>, r: seq<Setting>, es: seq<Entry>)
    requires UpdateSettingsFixed(settings, es) == Ok(r)
    ensures |r| == |settings| && forall j :: 0 <= j < |r| ==> r[j].key == settings[j].key
  {
  }

  /** When row `k` has the key and no earlier row does, `getByKey` finds it. */
  lemma FirstKeyKept(r: seq<Setting>, key: string, k: nat)
    requires k < |r| && r[k].key == key
    requires forall j :: 0 <= j < k ==> r[j].key != key
    ensures GetByKey(r, key) == Some(r[k])
  {
    var found := GetByKey(r, key);
    var i :| 0 <= i < |r| && r[i] == found.value && found.value.key == key
             && forall j :: 0 <= j < i ==> r[j].key != key;
    assert i == k;
  }

}

=== FILE: settings_headers.dfy ===
/** The two settings editors `src/renderer/src/pages/Settings/components/product.header.tsx`
    and `.../daily.header.tsx`: each keeps a local copy of its domain's
    settings, picks an input kind from the stored text, and edits one value
    at a time. */
module SettingsHeaders {
  import opened Wrappers
  import Numbers
  import Schema
  import Settings

  datatype InputKind = Checkbox | NumberInput | TextInput

  /** `"true"` or `"false"`. */
  predicate IsBoolean(value: string) {
    value == "true" || value == "false"
  }

  /** `!isNaN(value) && value !== ""`: `Number` reads the text. */
  predicate IsNumber(value: string) {
    value != "" && Numbers.ToNumber(value).Some?
  }

  /** `renderInput`'s kind, the same in both editors. */
  function Kind(value: string): (k: InputKind)
    ensures k == Checkbox <==> IsBoolean(value)
    ensures k == NumberInput <==> !IsBoolean(value) && IsNumber(value)
    ensures k == TextInput <==> !IsBoolean(value) && !IsNumber(value)
  {
    if IsBoolean(value) then Checkbox else if IsNumber(value) then NumberInput else TextInput
  }

  /** The seeded settings render as a number field and two switches. */
  lemma SeededKinds()
    ensures Kind(Schema.SeedSettings[0].value) == NumberInput
    ensures Kind(Schema.SeedSettings[1].value) == Checkbox
    ensures Kind(Schema.SeedSettings[2].value) == Checkbox
  {
    assert Schema.SeedSettings[0].value == "3";
    ThreeIsNumber();
  }

  lemma ThreeIsNumber()
    ensures IsNumber("3")
  {
    Numbers.ToNumberOfIntToString(3);
    assert Numbers.NatToString(3) == "3";
  }

  /** `handleChange`: the entry at the index takes the new value and keeps
      its other fields; the other entries are untouched. */
  function HandleChange(local: seq<Schema.Setting>, index: int, newValue: string): (r: seq<Schema.Setting>)
    ensures |r| == |local|
    ensures forall k :: 0 <= k < |local| && k != index ==> r[k] == local[k]
    ensures 0 <= index < |local| ==> r[index] == local[index].(value := newValue)
  {
    seq(|local|, k requires 0 <= k < |local| => if k == index then local[k].(value := newValue) else local[k])
  }

  /** Saving the edited copy writes the new value under the entry's key, so
      the setting with that key reads it back, while the handler as written
      answers the save with its TypeError. */
  lemma EditIsSaved(local: seq<Schema.Setting>, index: nat, newValue: string, table: seq<Schema.Setting>)
    requires index < |local| && local[index].key != ""
    requires forall i, j :: 0 <= i < j < |local| ==> local[i].key != local[j].key
    ensures var entries := Entries(HandleChange(local, index, newValue));
            Settings.UpdateSettings(table, entries).result.Err?
    ensures var entries := Entries(HandleChange(local, index, newValue));
            forall t :: 0 <= t < |table| && table[t].key == local[index].key ==>
              Settings.UpdateSettings(table, entries).settings[t].value == newValue
  {
    var edited := HandleChange(local, index, newValue);
    var entries := Entries(edited);
    var key := local[index].key;
    assert Settings.Applies(entries[index]);
    forall t | 0 <= t < |table| && table[t].key == key
      ensures Settings.UpdateSettings(table, entries).settings[t].value == newValue
    {
      LastEntryWins(entries, index, key, table[t].value);
    }
  }

  /** The update list the editors send: every local entry as `{ key, value }`. */
  function Entries(local: seq<Schema.Setting>): (es: seq<Settings.Entry>)
    ensures |es| == |local|
    ensures forall k :: 0 <= k < |local| ==> es[k] == Settings.Entry(Some(local[k].key), Some(local[k].value))
  {
    seq(|local|, k requires 0 <= k < |local| => Settings.Entry(Some(local[k].key), Some(local[k].value)))
  }

  /** When only entry i names the key, the key ends with entry i's value. */
  lemma {:induction false} LastEntryWins(es: seq<Settings.Entry>, i: nat, key: string, current: string)
    requires i < |es| && Settings.Applies(es[i]) && es[i].key.value == key
    requires forall j :: 0 <= j < |es| && j != i && Settings.Applies(es[j]) ==> es[j].key.value != key
    ensures Settings.LastValue(es, key, current) == es[i].value.value
    decreases |es|
  {
    if i == 0 {
      Settings.UnnamedKeyKeepsValue(es[1..], key, es[0].value.value);
    } else {
      LastEntryWins(es[1..], i - 1, key, current);
    }
  }

  /** The switch of `product.header`: "true" and "false" swap. */
  function Toggle(value: string): (r: string)
    ensures value == "true" ==> r == "false"
    ensures value != "true" ==> r == "true"
  {
    if value == "true" then "false" else "true"
  }

  /** Toggling twice restores a boolean setting, which stays a switch. */
  lemma ToggleTwice(value: string)
    requires IsBoolean(value)
    ensures Toggle(Toggle(value)) == value && Kind(Toggle(value)) == Checkbox
  {
  }

  /** The checkbox of `daily.header`. */
  function CheckboxValue(checked: bool): (r: string)
    ensures IsBoolean(r) && (r == "true" <==> checked)
  {
    if checked then "true" else "false"
  }

  /** The editor state: the local copy and the saving flag. */
  datatype Editor = Editor(local: seq<Schema.Setting>, isLoading: bool)

  /** The copy follows the store whenever the store's settings change. */
  function Mirror(e: Editor, stored: seq<Schema.Setting>): (r: Editor)
    ensures r.local == stored && r.isLoading == e.isLoading
  {
    e.(local := stored)
  }

  /** `handelSubmit` in `product.header`: loading while the save runs, and
      not loading afterwards whatever its outcome (`finally`). */
  function BeginSave(e: Editor): (r: Editor)
    ensures r.isLoading && r.local == e.local
  {
    e.(isLoading := true)
  }

  function EndSave(e: Editor, succeeded: bool): (r: Editor)
    ensures !r.isLoading && r.local == e.local
  {
    e.(isLoading := false)
  }
}

=== FILE: sorting.dfy ===
/** Ordering of query results and lists, as a stable insertion sort over a
    comparison that says when its first argument may come first. This is
    JavaScript's `Array.prototype.sort`, which is stable. SQL `ORDER BY`
    leaves the order of rows that tie on the sort key open; where the
    model uses this sort for a query, it chooses to keep tied rows in
    table order. */
module Sorting {

  /** Any two values can be put in some order. */
  ghost predicate Total<T(!new)>(le: (T, T) -> bool) {
    forall a, b :: le(a, b) || le(b, a)
  }

  /** Each element may come before its successor. */
  predicate Sorted<T>(s: seq<T>, le: (T, T) -> bool) {
    forall i :: 0 <= i < |s| - 1 ==> le(s[i], s[i + 1])
  }

  /** Inserts `x` before the first element it may precede. */
  function Insert<T(!new)>(x: T, s: seq<T>, le: (T, T) -> bool): (r: seq<T>)
    requires Total(le)
    ensures multiset(r) == multiset(s) + multiset{x}
    ensures |r| == |s| + 1
    ensures r[0] == x || (s != [] && r[0] == s[0])
    ensures Sorted(s, le) ==> Sorted(r, le)
  {
    if s == [] || le(x, s[0]) then
      ConsKeepsSorted(x, s, le);
      [x] + s
    else
      assert s == [s[0]] + s[1..];
      var rest := Insert(x, s[1..], le);
      assert le(s[0], x);
      assert Sorted(s, le) ==> Sorted(s[1..], le) && (|s| == 1 || le(s[0], s[1]));
      ConsKeepsSorted(s[0], rest, le);
      [s[0]] + rest
  }

  /** Putting an element in front of a sorted sequence whose head it may
      precede keeps it sorted. */
  lemma ConsKeepsSorted<T>(a: T, rest: seq<T>, le: (T, T) -> bool)
    ensures Sorted(rest, le) && (rest == [] || le(a, rest[0])) ==> Sorted([a] + rest, le)
  {
    if Sorted(rest, le) && (rest == [] || le(a, rest[0])) {
      var r := [a] + rest;
      forall i | 0 <= i < |r| - 1
        ensures le(r[i], r[i + 1])
      {
        if i > 0 {
          assert r[i] == rest[i - 1] && r[i + 1] == rest[i];
        }
      }
    }
  }

  /** The sort: every element is inserted into the sorted rest, so an
      element never moves after a later one it ties with. */
  function Sort<T(!new)>(s: seq<T>, le: (T, T) -> bool): (r: seq<T>)
    requires Total(le)
    ensures multiset(r) == multiset(s)
    ensures |r| == |s|
    ensures Sorted(r, le)
  {
    if s == [] then []
    else
      assert s == [s[0]] + s[1..];
      Insert(s[0], Sort(s[1..], le), le)
  }

  /** Sorting keeps exactly the elements it was given. */
  lemma SortKeepsElements<T(!new)>(s: seq<T>, le: (T, T) -> bool, x: T)
    requires Total(le)
    ensures x in Sort(s, le) <==> x in s
  {
    assert x in multiset(Sort(s, le)) <==> x in multiset(s);
  }

  /** Code-point order of two texts, as `ORDER BY` on a TEXT column under
      SQLite's BINARY collation, whose comparison of the UTF-8 bytes puts
      code points in the same order: a prefix comes first. */
  predicate TextLeq(a: string, b: string)
    decreases |a|
  {
    a == [] || (b != [] && (a[0] < b[0] || (a[0] == b[0] && TextLeq(a[1..], b[1..]))))
  }

  lemma {:induction false} TextLeqTotal(a: string, b: string)
    ensures TextLeq(a, b) || TextLeq(b, a)
    decreases |a|
  {
    if a != [] && b != [] && a[0] == b[0] {
      TextLeqTotal(a[1..], b[1..]);
    }
  }

  /** Text order compares any two texts. */
  lemma TextOrderTotal()
    ensures Total((a: string, b: string) => TextLeq(a, b))
  {
    forall a: string, b: string
      ensures TextLeq(a, b) || TextLeq(b, a)
    {
      TextLeqTotal(a, b);
    }
  }
}

=== FILE: statistics_page.dfy ===
/** The product movement page `src/renderer/src/pages/Products/prosuctStatisticsPage.tsx`:
    a free-text search and six optional filters narrowing the movements
    one after another, the count of filters in use, and the paging of what
    remains. */
module MovementFilters {
  import opened Wrappers
  import opened Tables
  import Text
  import Numbers
  import Dates
  import Paging

  /** The fields of a movement row the page reads; a field the row lacks is
      None. */
  datatype Movement = Movement(
    productName: Option<string>,
    productCode: Option<string>,
    movementType: Option<string>,
    movementTypeAr: Option<string>,
    notes: Option<string>,
    date: string,
    quantity: int)

  /** The six filter inputs, each a text. */
  datatype Filters = Filters(
    productName: string,
    movementType: string,
    dateFrom: string,
    dateTo: string,
    quantityFrom: string,
    quantityTo: string)

  const NoFilters: Filters := Filters("", "", "", "", "", "")

  /** `field?.toLowerCase().includes(term.toLowerCase())`: a missing field
      never matches. */
  predicate Mentions(field: Option<string>, term: string) {
    field.Some? && Text.IncludesIgnoreCase(field.value, term)
  }

  /** The free-text search: the name, the code, the Arabic type label or
      the notes mention the term. */
  predicate SearchHits(m: Movement, search: string) {
    Mentions(m.productName, search) || Mentions(m.productCode, search)
    || Mentions(m.movementTypeAr, search) || Mentions(m.notes, search)
  }

  /** The condition each `filtered.filter(...)` keeps. Dates are compared
      as text (`item.date >= dateFrom`), quantities as numbers. */
  datatype Criterion =
    | SearchFor(term: string)
    | NameHas(name: string)
    | TypeIs(kind: string)
    | OnOrAfter(from: string)
    | OnOrBefore(to: string)
    | AtLeast(min: int)
    | AtMost(max: int)

  predicate Holds(c: Criterion, m: Movement) {
    match c
    case SearchFor(term) => SearchHits(m, term)
    case NameHas(name) => Mentions(m.productName, name)
    case TypeIs(kind) => m.movementType == Some(kind)
    case OnOrAfter(from) => Dates.LexLe(from, m.date)
    case OnOrBefore(to) => Dates.LexLe(m.date, to)
    case AtLeast(min) => m.quantity >= min
    case AtMost(max) => m.quantity <= max
  }

  /** One `if (...) filtered = filtered.filter(...)` step: the condition
      it keeps, or None when the step does not apply. */
  type Stage = Option<Criterion>

  function Keeps(c: Criterion): Movement -> bool {
    (m: Movement) => Holds(c, m)
  }

  function Step(rows: seq<Movement>, s: Stage): seq<Movement> {
    if s.Some? then Where(rows, Keeps(s.value)) else rows
  }

  /** The stages run one after another, the first one first. */
  function Run(rows: seq<Movement>, stages: seq<Stage>): seq<Movement>
    decreases |stages|
  {
    if stages == [] then rows else Run(Step(rows, stages[0]), stages[1..])
  }

  /** When each step applies: the search and the name filter once their
      trimmed text is non-empty, the type and date filters once their text
      is non-empty, the quantity bounds once `parseInt` reads a number. */
  predicate SearchOn(search: string) { Text.Trim(search) != [] }
  predicate NameOn(f: Filters) { Text.Trim(f.productName) != [] }
  predicate TypeOn(f: Filters) { f.movementType != [] }
  predicate FromOn(f: Filters) { f.dateFrom != [] }
  predicate ToOn(f: Filters) { f.dateTo != [] }
  predicate MinOn(f: Filters) { f.quantityFrom != [] && Numbers.ParseInt(f.quantityFrom).Some? }
  predicate MaxOn(f: Filters) { f.quantityTo != [] && Numbers.ParseInt(f.quantityTo).Some? }

  /** What the page reads off its inputs before filtering: each step's
      argument when the step applies. */
  datatype Settings = Settings(
    search: Option<string>,
    name: Option<string>,
    kind: Option<string>,
    from: Option<string>,
    to: Option<string>,
    min: Option<int>,
    max: Option<int>)

  function Read(search: string, f: Filters): (s: Settings)
    ensures s.search.Some? <==> SearchOn(search)
    ensures s.name.Some? <==> NameOn(f)
    ensures s.kind.Some? <==> TypeOn(f)
    ensures s.from.Some? <==> FromOn(f)
    ensures s.to.Some? <==> ToOn(f)
    ensures s.min.Some? <==> MinOn(f)
    ensures s.max.Some? <==> MaxOn(f)
  {
    Settings(
      if SearchOn(search) then Some(search) else None,
      if NameOn(f) then Some(f.productName) else None,
      if TypeOn(f) then Some(f.movementType) else None,
      if FromOn(f) then Some(f.dateFrom) else None,
      if ToOn(f) then Some(f.dateTo) else None,
      if f.quantityFrom != [] then Numbers.ParseInt(f.quantityFrom) else None,
      if f.quantityTo != [] then Numbers.ParseInt(f.quantityTo) else None)
  }

  function StageOf<X>(arg: Option<X>, c: X -> Criterion): Stage {
    if arg.Some? then Some(c(arg.value)) else None
  }

  /** The page's seven steps in its order. */
  function Stages(s: Settings): seq<Stage> {
    [ StageOf(s.search, t => SearchFor(t)),
      StageOf(s.name, t => NameHas(t)),
      StageOf(s.kind, t => TypeIs(t)),
      StageOf(s.from, t => OnOrAfter(t)),
      StageOf(s.to, t => OnOrBefore(t)),
      StageOf(s.min, n => AtLeast(n)),
      StageOf(s.max, n => AtMost(n)) ]
  }

  /** The movements the page lists. */
  function Filtered(rows: seq<Movement>, search: string, f: Filters): seq<Movement> {
    Run(rows, Stages(Read(search, f)))
  }

  /** The reference reading: a movement is listed when it meets every
      criterion in use. */
  predicate Passes(m: Movement, search: string, f: Filters) {
    (SearchOn(search) ==> SearchHits(m, search))
    && (NameOn(f) ==> Mentions(m.productName, f.productName))
    && (TypeOn(f) ==> m.movementType == Some(f.movementType))
    && (FromOn(f) ==> Dates.LexLe(f.dateFrom, m.date))
    && (ToOn(f) ==> Dates.LexLe(m.date, f.dateTo))
    && (MinOn(f) ==> m.quantity >= Numbers.ParseInt(f.quantityFrom).value)
    && (MaxOn(f) ==> m.quantity <= Numbers.ParseInt(f.quantityTo).value)
  }

  /** A stage as a condition: its own when it applies, true otherwise. */
  predicate Admits(s: Stage, m: Movement) {
    s.None? || Holds(s.value, m)
  }

  /** Every stage admits the movement. */
  predicate AllAdmitted(stages: seq<Stage>, m: Movement)
    decreases |stages|
  {
    stages == [] || (Admits(stages[0], m) && AllAdmitted(stages[1..], m))
  }

  function AllAdmit(stages: seq<Stage>): Movement -> bool {
    (m: Movement) => AllAdmitted(stages, m)
  }

  lemma StepIsWhere(rows: seq<Movement>, s: Stage)
    ensures Step(rows, s) == Where(rows, (m: Movement) => Admits(s, m))
  {
    if s.Some? {
      WhereCongruent(rows, Keeps(s.value), (m: Movement) => Admits(s, m));
    } else {
      WhereAllRows(rows, (m: Movement) => Admits(s, m));
    }
  }

  /** Running stages one after another keeps exactly the rows every stage
      admits, in their order. */
  lemma {:induction false} RunIsWhere(rows: seq<Movement>, stages: seq<Stage>)
    ensures Run(rows, stages) == Where(rows, AllAdmit(stages))
    decreases |stages|
  {
    if stages == [] {
      WhereAllRows(rows, AllAdmit(stages));
    } else {
      var first := (m: Movement) => Admits(stages[0], m);
      StepIsWhere(rows, stages[0]);
      RunIsWhere(Step(rows, stages[0]), stages[1..]);
      WhereTwice(rows, first, AllAdmit(stages[1..]));
      WhereCongruent(rows, Both(first, AllAdmit(stages[1..])), AllAdmit(stages));
    }
  }

  /** Seven stages admit a movement when each of the seven does. */
  lemma SevenAdmit(st: seq<Stage>, m: Movement)
    requires |st| == 7
    ensures AllAdmitted(st, m) <==> (Admits(st[0], m) && Admits(st[1], m) && Admits(st[2], m)
                                     && Admits(st[3], m) && Admits(st[4], m) && Admits(st[5], m) && Admits(st[6], m))
  {
    OneMoreAdmits(st, 0, m);
    OneMoreAdmits(st, 1, m);
    OneMoreAdmits(st, 2, m);
    OneMoreAdmits(st, 3, m);
    OneMoreAdmits(st, 4, m);
    OneMoreAdmits(st, 5, m);
    OneMoreAdmits(st, 6, m);
    assert st[7..] == [];
  }

  lemma OneMoreAdmits(st: seq<Stage>, k: nat, m: Movement)
    requires k < |st|
    ensures AllAdmitted(st[k..], m) == (Admits(st[k], m) && AllAdmitted(st[k + 1..], m))
  {
    assert st[k..][0] == st[k] && st[k..][1..] == st[k + 1..];
  }

  /** The settings as one condition. */
  predicate Meets(m: Movement, s: Settings) {
    (s.search.Some? ==> SearchHits(m, s.search.value))
    && (s.name.Some? ==> Mentions(m.productName, s.name.value))
    && (s.kind.Some? ==> m.movementType == s.kind)
    && (s.from.Some? ==> Dates.LexLe(s.from.value, m.date))
    && (s.to.Some? ==> Dates.LexLe(m.date, s.to.value))
    && (s.min.Some? ==> m.quantity >= s.min.value)
    && (s.max.Some? ==> m.quantity <= s.max.value)
  }

  lemma StagesMeet(m: Movement, s: Settings)
    ensures AllAdmitted(Stages(s), m) == Meets(m, s)
  {
    SevenAdmit(Stages(s), m);
    TextStagesMean(m, s);
    RangeStagesMean(m, s);
  }

  lemma TextStagesMean(m: Movement, s: Settings)
    ensures var st := Stages(s);
            && Admits(st[0], m) == (s.search.Some? ==> SearchHits(m, s.search.value))
            && Admits(st[1], m) == (s.name.Some? ==> Mentions(m.productName, s.name.value))
            && Admits(st[2], m) == (s.kind.Some? ==> m.movementType == s.kind)
  {
  }

  lemma RangeStagesMean(m: Movement, s: Settings)
    ensures var st := Stages(s);
            && Admits(st[3], m) == (s.from.Some? ==> Dates.LexLe(s.from.value, m.date))
            && Admits(st[4], m) == (s.to.Some? ==> Dates.LexLe(m.date, s.to.value))
            && Admits(st[5], m) == (s.min.Some? ==> m.quantity >= s.min.value)
            && Admits(st[6], m) == (s.max.Some? ==> m.quantity <= s.max.value)
  {
  }

  lemma ReadMeansPasses(m: Movement, search: string, f: Filters)
    ensures Meets(m, Read(search, f)) == Passes(m, search, f)
  {
  }

  lemma AdmittedIffPasses(m: Movement, search: string, f: Filters)
    ensures AllAdmit(Stages(Read(search, f)))(m) == Passes(m, search, f)
  {
    StagesMeet(m, Read(search, f));
    ReadMeansPasses(m, search, f);
  }

  /** The steps in order select exactly the movements that pass every
      criterion in use, keeping their order: the chain only narrows, and
      its order does not matter. */
  lemma FilterIsConjunction(rows: seq<Movement>, search: string, f: Filters)
    ensures Filtered(rows, search, f) == Where(rows, (m: Movement) => Passes(m, search, f))
  {
    var st := Stages(Read(search, f));
    RunIsWhere(rows, st);
    forall k | 0 <= k < |rows|
      ensures AllAdmit(st)(rows[k]) == Passes(rows[k], search, f)
    {
      AdmittedIffPasses(rows[k], search, f);
    }
    WhereCongruent(rows, AllAdmit(st), (m: Movement) => Passes(m, search, f));
  }

  /** A movement is listed exactly when it is in the data and passes every
      criterion in use. */
  lemma ListedIff(rows: seq<Movement>, search: string, f: Filters, m: Movement)
    ensures m in Filtered(rows, search, f) <==> m in rows && Passes(m, search, f)
  {
    FilterIsConjunction(rows, search, f);
    var r := Where(rows, (m: Movement) => Passes(m, search, f));
    if m in r {
      var k :| 0 <= k < |r| && r[k] == m;
    }
    if m in rows && Passes(m, search, f) {
      var k :| 0 <= k < |rows| && rows[k] == m;
    }
  }

  /** The filter texts in the order of the state object. */
  function Values(f: Filters): seq<string> {
    [f.productName, f.movementType, f.dateFrom, f.dateTo, f.quantityFrom, f.quantityTo]
  }

  function NonBlank(): string -> bool {
    (v: string) => Text.Trim(v) != []
  }

  /** `activeFiltersCount`: how many of the six texts are non-blank once
      trimmed. */
  function ActiveCount(f: Filters): (n: nat)
    ensures n <= 6
    ensures n == 0 <==> forall k :: 0 <= k < 6 ==> Text.Trim(Values(f)[k]) == []
  {
    var vs := Values(f);
    var n := CountWhere(vs, NonBlank());
    if forall k :: 0 <= k < 6 ==> Text.Trim(vs[k]) == [] then
      WhereNone(vs, NonBlank());
      n
    else
      var k :| 0 <= k < 6 && Text.Trim(vs[k]) != [];
      assert vs[k] in Where(vs, NonBlank());
      n
  }

  /** With no search and every filter empty, every movement is listed. */
  lemma NothingSetListsAll(rows: seq<Movement>)
    ensures Filtered(rows, "", NoFilters) == rows
  {
    forall m: Movement
      ensures Passes(m, "", NoFilters)
    {
      NothingSetPasses(m);
    }
    FilterIsConjunction(rows, "", NoFilters);
    WhereAllRows(rows, (m: Movement) => Passes(m, "", NoFilters));
  }

  lemma NothingSetPasses(m: Movement)
    ensures Passes(m, "", NoFilters)
  {
    assert Text.Trim("") == "";
  }

  /** With every filter empty the badge counts nothing. */
  lemma NothingSetCountsNothing()
    ensures ActiveCount(NoFilters) == 0
  {
    assert Text.Trim("") == "";
    assert Values(NoFilters) == ["", "", "", "", "", ""];
  }

  /** The page after a change of search or filters, and the rows it shows:
      page 1 of the filtered movements. */
  const PageAfterFilter: nat := 1

  /** `filteredData.slice((page - 1) * 10, (page - 1) * 10 + 10)` with
      `totalPages = Math.ceil(filteredData.length / 10)`. */
  function View(rows: seq<Movement>, search: string, f: Filters, page: nat): (r: (seq<Movement>, nat))
    requires page >= 1
    ensures |r.0| <= Paging.PageSize
    ensures |r.0| == Paging.Window(|Filtered(rows, search, f)|, Paging.PageSize, Paging.Offset(page, Paging.PageSize))
    ensures var filtered := Filtered(rows, search, f);
            forall k :: 0 <= k < |r.0| ==>
              Paging.Offset(page, Paging.PageSize) + k < |filtered|
              && r.0[k] == filtered[Paging.Offset(page, Paging.PageSize) + k]
    ensures r.1 * Paging.PageSize >= |Filtered(rows, search, f)|
    ensures r.1 == 0 || (r.1 - 1) * Paging.PageSize < |Filtered(rows, search, f)|
    ensures forall k :: 0 <= k < |r.0| ==> r.0[k] in Filtered(rows, search, f)
  {
    var filtered := Filtered(rows, search, f);
    var shown := Paging.Page(filtered, page, Paging.PageSize);
    (shown, Paging.TotalPages(|filtered|, Paging.PageSize))
  }

  /** Whatever page is shown, it shows only movements of the data that
      pass every criterion in use. */
  lemma ViewShowsOnlyPassing(rows: seq<Movement>, search: string, f: Filters, page: nat, m: Movement)
    requires page >= 1
    requires m in View(rows, search, f, page).0
    ensures m in rows && Passes(m, search, f)
  {
    ListedIff(rows, search, f, m);
  }
}

=== FILE: tables.dfy ===
/** Rows of the tables the handlers read and write, in the shape the
    handlers' queries assume. */
module Tables {
  // That shape is wider than the schema `src/main/database/connection.js`
  // creates: the `units` and `branches` tables and the `branchId` and
  // `deleted_at` columns are used by the handlers but declared by no schema
  // script or migration, so the model takes the handlers' view as an
  // assumption. Each table is a sequence of rows in rowid order, so "the
  // first row" of a `LIMIT 1` query without ORDER BY is the first matching
  // element.

  import opened Wrappers
  import Text
  import Numbers
  import Paging

  datatype Item = Item(
    id: int,
    name: string,
    description: string,
    barcode: string,
    quantity: int,
    price: int,
    buyPrice: int,
    categoryId: int)

  datatype Daily = Daily(
    id: int,
    userId: Option<int>,
    branchId: Option<int>,
    openPrice: int,
    closedAt: Option<string>,
    closePrice: Option<int>,
    deletedAt: Option<string>)

  datatype Invoice = Invoice(
    id: int,
    customerName: string,
    customerPhone: string,
    paymentType: string,
    discount: int,
    total: int,
    totalAfterDiscount: int,
    dailyId: int,
    createdAt: string)

  datatype InvoiceItem = InvoiceItem(
    invoiceId: int,
    itemId: int,
    pricePerUnit: int,
    quantity: int,
    discount: int,
    price: int,
    totalPriceAfterDiscount: int)

  datatype Credit = Credit(
    id: int,
    reason: string,
    price: int,
    receiver: string,
    dailyId: int,
    branchId: int,
    deletedAt: Option<string>)

  datatype Category = Category(id: int, name: string, deletedAt: Option<string>)

  datatype Unit = Unit(
    id: int,
    name: string,
    abbreviation: string,
    isDefault: bool,
    deletedAt: Option<string>)

  datatype Branch = Branch(id: int, name: string, address: string)

  datatype User = User(id: int, username: string, passwordHash: string, role: string, active: bool)

  datatype Permission = Permission(id: int, name: string, displayName: string, category: string)

  /** The largest of a list of ids, or 0 for none. */
  function MaxId(ids: seq<int>): (m: int)
    ensures forall i :: 0 <= i < |ids| ==> ids[i] <= m
    ensures m == 0 || m in ids
  {
    if ids == [] then 0
    else
      var rest := MaxId(ids[1..]);
      if ids[0] > rest then ids[0] else rest
  }

  /** The id given to a new row: one more than every id present, so it is
      fresh and positive. An `INTEGER PRIMARY KEY AUTOINCREMENT` column
      counts from the largest id ever used (its `sqlite_sequence` entry),
      so after the newest row is deleted SQLite gives a larger id than this
      one; the two agree while no row with the largest id was deleted. */
  function FreshId(ids: seq<int>): (id: int)
    ensures id >= 1 && id !in ids
    ensures forall k :: 0 <= k < |ids| ==> ids[k] < id
  {
    var m := MaxId(ids);
    if m >= 0 then m + 1 else 1
  }

  /** `SELECT ... WHERE p`: the matching rows, in table order. */
  function Where<T>(rows: seq<T>, p: T -> bool): (r: seq<T>)
    ensures |r| <= |rows|
    ensures forall k :: 0 <= k < |r| ==> p(r[k]) && r[k] in rows
    ensures forall k :: 0 <= k < |rows| && p(rows[k]) ==> rows[k] in r
  {
    if rows == [] then []
    else (if p(rows[0]) then [rows[0]] else []) + Where(rows[1..], p)
  }

  lemma {:induction false} WhereAppend<T>(a: seq<T>, b: seq<T>, p: T -> bool)
    ensures Where(a + b, p) == Where(a, p) + Where(b, p)
    decreases |a|
  {
    if a != [] {
      assert (a + b)[1..] == a[1..] + b;
      WhereAppend(a[1..], b, p);
    } else {
      assert a + b == b;
    }
  }

  /** Deleting rows keeps a column's values distinct. */
  lemma {:induction false} WhereKeepsDistinct<T, K>(rows: seq<T>, key: T -> K, p: T -> bool)
    requires forall i, j :: 0 <= i < j < |rows| ==> key(rows[i]) != key(rows[j])
    ensures forall i, j :: 0 <= i < j < |Where(rows, p)| ==> key(Where(rows, p)[i]) != key(Where(rows, p)[j])
    decreases |rows|
  {
    if rows != [] {
      var rest := rows[1..];
      forall i, j | 0 <= i < j < |rest|
        ensures key(rest[i]) != key(rest[j])
      {
        assert rest[i] == rows[i + 1] && rest[j] == rows[j + 1];
      }
      WhereKeepsDistinct(rest, key, p);
      var tail := Where(rest, p);
      forall k | 0 <= k < |tail|
        ensures key(tail[k]) != key(rows[0])
      {
        var m :| 0 <= m < |rest| && rest[m] == tail[k];
        assert rows[m + 1] == tail[k];
      }
      var r := Where(rows, p);
      if p(rows[0]) {
        assert r == [rows[0]] + tail;
        forall i, j | 0 <= i < j < |r|
          ensures key(r[i]) != key(r[j])
        {
          if i == 0 {
            assert r[j] == tail[j - 1];
          } else {
            assert r[i] == tail[i - 1] && r[j] == tail[j - 1];
          }
        }
      } else {
        assert r == tail;
      }
    }
  }

  /** No row passes: the filter is empty. */
  lemma {:induction false} WhereNone<T>(rows: seq<T>, p: T -> bool)
    requires forall k :: 0 <= k < |rows| ==> !p(rows[k])
    ensures Where(rows, p) == []
    decreases |rows|
  {
    if rows != [] {
      WhereNone(rows[1..], p);
    }
  }

  /** Every row passes: the filter keeps the table. */
  lemma {:induction false} WhereAllRows<T>(rows: seq<T>, p: T -> bool)
    requires forall k :: 0 <= k < |rows| ==> p(rows[k])
    ensures Where(rows, p) == rows
    decreases |rows|
  {
    if rows != [] {
      WhereAllRows(rows[1..], p);
    }
  }

  /** `p AND q`. */
  function Both<T>(p: T -> bool, q: T -> bool): T -> bool {
    (x: T) => p(x) && q(x)
  }

  /** Filtering twice is filtering once by both conditions. */
  lemma {:induction false} WhereTwice<T>(rows: seq<T>, p: T -> bool, q: T -> bool)
    ensures Where(Where(rows, p), q) == Where(rows, Both(p, q))
    decreases |rows|
  {
    if rows != [] {
      WhereTwice(rows[1..], p, q);
      var head := if p(rows[0]) then [rows[0]] else [];
      WhereAppend(head, Where(rows[1..], p), q);
      if p(rows[0]) {
        assert Where(head, q) == (if q(rows[0]) then [rows[0]] else []) + Where(head[1..], q);
        assert head[1..] == [];
      }
    }
  }

  /** Two conditions that agree on every row select the same rows. */
  lemma {:induction false} WhereCongruent<T>(rows: seq<T>, p: T -> bool, q: T -> bool)
    requires forall k :: 0 <= k < |rows| ==> p(rows[k]) == q(rows[k])
    ensures Where(rows, p) == Where(rows, q)
    decreases |rows|
  {
    if rows != [] {
      WhereCongruent(rows[1..], p, q);
    }
  }

  /** Predicates that agree on every row count the same rows. */
  lemma CountCongruent<T>(rows: seq<T>, p: T -> bool, q: T -> bool)
    requires forall k :: 0 <= k < |rows| ==> p(rows[k]) == q(rows[k])
    ensures CountWhere(rows, p) == CountWhere(rows, q)
  {
    WhereCongruent(rows, p, q);
  }

  /** One integer column of a table, in rowid order. */
  function Column<T>(rows: seq<T>, f: T -> int): (c: seq<int>)
    ensures |c| == |rows| && forall k :: 0 <= k < |rows| ==> c[k] == f(rows[k])
  {
    seq(|rows|, k requires 0 <= k < |rows| => f(rows[k]))
  }

  /** `SELECT ... WHERE p LIMIT 1` without ORDER BY: the position of the
      first matching row in rowid order, if any. */
  function FirstWhere<T>(rows: seq<T>, p: T -> bool): (r: Option<nat>)
    ensures r.Some? ==> r.value < |rows| && p(rows[r.value])
    ensures r.Some? ==> forall j :: 0 <= j < r.value ==> !p(rows[j])
    ensures r.None? <==> forall j :: 0 <= j < |rows| ==> !p(rows[j])
  {
    if rows == [] then None
    else if p(rows[0]) then Some(0)
    else
      match FirstWhere(rows[1..], p)
      case None => None
      case Some(k) => Some(k + 1)
  }

  /** `COALESCE(SUM(f), 0)` over the matching rows. */
  function SumOf<T>(rows: seq<T>, p: T -> bool, f: T -> int): int {
    if rows == [] then 0
    else (if p(rows[0]) then f(rows[0]) else 0) + SumOf(rows[1..], p, f)
  }

  /** `COUNT(*)` over the matching rows. */
  function CountWhere<T>(rows: seq<T>, p: T -> bool): (n: nat)
    ensures n == |Where(rows, p)|
  {
    if rows == [] then 0
    else (if p(rows[0]) then 1 else 0) + CountWhere(rows[1..], p)
  }

  /** Appending a row adds its value to the sum exactly when it matches. */
  lemma {:induction false} SumOfAppend<T>(a: seq<T>, b: seq<T>, p: T -> bool, f: T -> int)
    ensures SumOf(a + b, p, f) == SumOf(a, p, f) + SumOf(b, p, f)
    decreases |a|
  {
    if a != [] {
      assert (a + b)[1..] == a[1..] + b;
      SumOfAppend(a[1..], b, p, f);
    } else {
      assert a + b == b;
    }
  }

  /** Two predicates that agree on every row give the same sum. */
  lemma {:induction false} SumOfCongruent<T>(rows: seq<T>, p: T -> bool, q: T -> bool, f: T -> int)
    requires forall k :: 0 <= k < |rows| ==> p(rows[k]) == q(rows[k])
    ensures SumOf(rows, p, f) == SumOf(rows, q, f)
    decreases |rows|
  {
    if rows != [] {
      SumOfCongruent(rows[1..], p, q, f);
    }
  }

  /** A sum over no matching row is 0. */
  lemma {:induction false} SumOfNoMatch<T>(rows: seq<T>, p: T -> bool, f: T -> int)
    requires forall k :: 0 <= k < |rows| ==> !p(rows[k])
    ensures SumOf(rows, p, f) == 0
    decreases |rows|
  {
    if rows != [] {
      SumOfNoMatch(rows[1..], p, f);
    }
  }

  /** When every matching row's value is the sum of two parts, the sum
      splits the same way. */
  lemma {:induction false} SumOfSplit<T>(rows: seq<T>, p: T -> bool, f: T -> int, g: T -> int, h: T -> int)
    requires forall k :: 0 <= k < |rows| && p(rows[k]) ==> f(rows[k]) == g(rows[k]) + h(rows[k])
    ensures SumOf(rows, p, f) == SumOf(rows, p, g) + SumOf(rows, p, h)
    decreases |rows|
  {
    if rows != [] {
      SumOfSplit(rows[1..], p, f, g, h);
    }
  }

  /** `... WHERE p ORDER BY key DESC LIMIT 1`: a matching row whose key no
      other matching row exceeds. */
  function ArgMaxWhere<T>(rows: seq<T>, p: T -> bool, key: T -> int): (r: Option<nat>)
    ensures r.None? <==> forall j :: 0 <= j < |rows| ==> !p(rows[j])
    ensures r.Some? ==> r.value < |rows| && p(rows[r.value])
    ensures r.Some? ==> forall j :: 0 <= j < |rows| && p(rows[j]) ==> key(rows[j]) <= key(rows[r.value])
  {
    if rows == [] then None
    else
      match ArgMaxWhere(rows[1..], p, key)
      case None => if p(rows[0]) then Some(0) else None
      case Some(k) =>
        if p(rows[0]) && key(rows[0]) >= key(rows[k + 1]) then Some(0) else Some(k + 1)
  }

  /** `... WHERE p ORDER BY key ASC LIMIT 1`: a matching row whose key no
      other matching row undercuts. */
  function ArgMinWhere<T>(rows: seq<T>, p: T -> bool, key: T -> int): (r: Option<nat>)
    ensures r.None? <==> forall j :: 0 <= j < |rows| ==> !p(rows[j])
    ensures r.Some? ==> r.value < |rows| && p(rows[r.value])
    ensures r.Some? ==> forall j :: 0 <= j < |rows| && p(rows[j]) ==> key(rows[r.value]) <= key(rows[j])
  {
    if rows == [] then None
    else
      match ArgMinWhere(rows[1..], p, key)
      case None => if p(rows[0]) then Some(0) else None
      case Some(k) =>
        if p(rows[0]) && key(rows[0]) <= key(rows[k + 1]) then Some(0) else Some(k + 1)
  }

  /** `WHERE id LIKE '%id%'`: the row id's decimal text contains the given
      id's text, so 1 also matches 10, 12, 21, ... */
  predicate IdLike(rowId: int, id: int) {
    Text.Contains(Numbers.IntToString(rowId), Numbers.IntToString(id))
  }

  /** Every id is LIKE itself, so an exact match is always among the
      matches. */
  lemma IdLikeSelf(id: int)
    ensures IdLike(id, id)
  {
    Text.ContainsSelf(Numbers.IntToString(id));
  }

  /** Among non-negative ids, `id LIKE '%k%'` only matches ids of at least
      k. */
  lemma IdLikeAtLeast(rowId: int, id: int)
    requires rowId >= 0 && id >= 0 && IdLike(rowId, id)
    ensures id <= rowId
  {
    Numbers.ContainedNumberIsNotSmaller(rowId, id);
  }

  /** Rowid order: ids strictly increase along the table. */
  predicate Ascending(ids: seq<int>) {
    forall i, j :: 0 <= i < j < |ids| ==> ids[i] < ids[j]
  }

  /** `ORDER BY id DESC` over a table kept in ascending id order: the rows
      reversed. */
  function NewestFirst<T>(rows: seq<T>): (r: seq<T>)
    ensures |r| == |rows|
    ensures forall k :: 0 <= k < |rows| ==> r[k] == rows[|rows| - 1 - k]
  {
    seq(|rows|, k requires 0 <= k < |rows| => rows[|rows| - 1 - k])
  }

  /** `LIMIT ? OFFSET ?` over rows kept in table order. */
  function TablePage<T>(rows: seq<T>, limit: int, offset: int): (r: seq<T>)
    ensures |r| == Paging.Window(|rows|, limit, offset)
    ensures forall k :: 0 <= k < |r| ==> Paging.Start(offset) + k < |rows| && r[k] == rows[Paging.Start(offset) + k]
  {
    var start := Paging.Start(offset);
    var shown := Paging.LimitOffset(rows, limit, offset);
    assert forall k :: 0 <= k < |shown| ==> start + k < |rows| && shown[k] == rows[start + k];
    shown
  }

  /** `ORDER BY id DESC LIMIT limit OFFSET offset` over a table in ascending
      id order: as many rows as the window holds, taken from the end. */
  function NewestPage<T>(rows: seq<T>, limit: int, offset: int): (r: seq<T>)
    ensures |r| == Paging.Window(|rows|, limit, offset)
    ensures forall k :: 0 <= k < |r| ==>
              Paging.Start(offset) + k < |rows| && r[k] == rows[|rows| - 1 - (Paging.Start(offset) + k)]
    ensures forall k :: 0 <= k < |r| ==> r[k] in rows
  {
    var ordered := NewestFirst(rows);
    var start := Paging.Start(offset);
    var shown := Paging.LimitOffset(ordered, limit, offset);
    assert forall k :: 0 <= k < |shown| ==> start + k < |ordered| && shown[k] == ordered[start + k];
    shown
  }
}

=== FILE: text.dfy ===
/** String helpers that stand in for the JavaScript and SQL string
    operations the handlers and pages rely on: `trim`, `includes`,
    `toLowerCase`, `substring(0, n)` and SQL `LIKE '%x%'`. */
module Text {

  /** The whitespace `String.prototype.trim` removes, restricted to the
      characters a form field can realistically hold. */
  predicate IsSpace(c: char) {
    c == ' ' || c == '\t' || c == '\n' || c == '\r'
  }

  predicate IsBlank(s: string) {
    forall i :: 0 <= i < |s| ==> IsSpace(s[i])
  }

  function TrimStart(s: string): (r: string)
    ensures |r| <= |s| && r == s[|s| - |r|..]
    ensures r == [] || !IsSpace(r[0])
    ensures forall i :: 0 <= i < |s| - |r| ==> IsSpace(s[i])
  {
    if s == [] || !IsSpace(s[0]) then s else TrimStart(s[1..])
  }

  function TrimEnd(s: string): (r: string)
    ensures |r| <= |s| && r == s[..|r|]
    ensures r == [] || !IsSpace(r[|r| - 1])
    ensures forall i :: |r| <= i < |s| ==> IsSpace(s[i])
  {
    if s == [] || !IsSpace(s[|s| - 1]) then s else TrimEnd(s[..|s| - 1])
  }

  /** JavaScript `s.trim()`. */
  function Trim(s: string): (r: string)
    ensures r == [] || (!IsSpace(r[0]) && !IsSpace(r[|r| - 1]))
    ensures OccursAt(s, r, |s| - |TrimStart(s)|)
  {
    var t := TrimStart(s);
    var r := TrimEnd(t);
    assert r == s[|s| - |t|..|s| - |t| + |r|];
    r
  }

  /** A string is blank exactly when trimming leaves nothing, which is the
      test `!value.trim()` the forms and handlers apply. */
  lemma TrimEmptyIffBlank(s: string)
    ensures Trim(s) == [] <==> IsBlank(s)
  {
    if Trim(s) == [] {
      assert TrimStart(s) == [];
    } else {
      var t := TrimStart(s);
      assert t != [];
      assert !IsSpace(t[0]) && t[0] == s[|s| - |t|];
    }
  }

  /** Trimming twice changes nothing more. */
  lemma TrimIdempotent(s: string)
    ensures Trim(Trim(s)) == Trim(s)
  {
    var r := Trim(s);
    if r != [] {
      assert TrimStart(r) == r;
      assert TrimEnd(r) == r;
    }
  }

  predicate IsPrefix(p: string, s: string) {
    |p| <= |s| && s[..|p|] == p
  }

  /** `s.includes(sub)`, and equally SQL `s LIKE '%sub%'` when `sub` holds
      no wildcard characters. */
  predicate Contains(s: string, sub: string)
    decreases |s|
  {
    IsPrefix(sub, s) || (s != [] && Contains(s[1..], sub))
  }

  /** The position-based reading of `Contains`: some window of `s` equals
      `sub`. */
  predicate OccursAt(s: string, sub: string, i: int) {
    0 <= i && i + |sub| <= |s| && s[i..i + |sub|] == sub
  }

  lemma {:induction false} ContainsIffOccurs(s: string, sub: string)
    ensures Contains(s, sub) <==> exists i :: OccursAt(s, sub, i)
    decreases |s|
  {
    if IsPrefix(sub, s) {
      assert OccursAt(s, sub, 0);
    } else if s == [] {
      assert sub != [];
    } else {
      ContainsIffOccurs(s[1..], sub);
      if exists i :: OccursAt(s[1..], sub, i) {
        var i :| OccursAt(s[1..], sub, i);
        assert s[1..][i..i + |sub|] == s[i + 1..i + 1 + |sub|];
        assert OccursAt(s, sub, i + 1);
      }
      if exists i :: OccursAt(s, sub, i) {
        var i :| OccursAt(s, sub, i);
        assert i != 0;
        assert s[1..][i - 1..i - 1 + |sub|] == s[i..i + |sub|];
        assert OccursAt(s[1..], sub, i - 1);
      }
    }
  }

  /** `s.indexOf(sub)`: the first position where `sub` occurs, -1 when it
      does not occur. */
  function IndexOf(s: string, sub: string): (i: int)
    ensures i == -1 <==> !Contains(s, sub)
    ensures i != -1 ==> OccursAt(s, sub, i) && forall j :: 0 <= j < i ==> !OccursAt(s, sub, j)
    decreases |s|
  {
    if IsPrefix(sub, s) then 0
    else if s == [] then -1
    else
      var i := IndexOf(s[1..], sub);
      if i == -1 then -1
      else
        assert s[1..][i..i + |sub|] == s[i + 1..i + 1 + |sub|];
        assert forall j :: 1 <= j <= i && OccursAt(s, sub, j) ==> OccursAt(s[1..], sub, j - 1) by {
          forall j | 1 <= j <= i && OccursAt(s, sub, j)
            ensures OccursAt(s[1..], sub, j - 1)
          {
            assert s[1..][j - 1..j - 1 + |sub|] == s[j..j + |sub|];
          }
        }
        i + 1
  }

  /** `s.split(sep)[1]` for a non-empty separator: the text between the
      first occurrence of `sep` and the next one (or the end), and "" for
      `undefined` when `sep` does not occur (the `found` flag says which). */
  function SplitSecond(s: string, sep: string): (r: (bool, string))
    requires sep != []
    ensures r.0 <==> Contains(s, sep)
    ensures r.0 ==> !Contains(r.1, sep)
    ensures r.0 ==> exists i :: OccursAt(s, sep, i) && IsPrefix(r.1, s[i + |sep|..])
  {
    var i := IndexOf(s, sep);
    if i == -1 then (false, "")
    else
      var rest := s[i + |sep|..];
      var j := IndexOf(rest, sep);
      if j == -1 then
        assert IsPrefix(rest, s[i + |sep|..]);
        (true, rest)
      else
        BeforeFirstLacks(rest, sep, j);
        assert IsPrefix(rest[..j], s[i + |sep|..]);
        (true, rest[..j])
  }

  /** The text before the first occurrence of `sep` does not contain it. */
  lemma BeforeFirstLacks(rest: string, sep: string, j: int)
    requires sep != [] && j != -1 && j == IndexOf(rest, sep)
    ensures 0 <= j <= |rest| && !Contains(rest[..j], sep)
  {
    var piece := rest[..j];
    ContainsIffOccurs(piece, sep);
    forall k | 0 <= k && k + |sep| <= |piece|
      ensures !OccursAt(piece, sep, k)
    {
      assert k < j;
      assert !OccursAt(rest, sep, k);
      var a, b := piece[k..k + |sep|], rest[k..k + |sep|];
      assert forall x :: 0 <= x < |sep| ==> a[x] == b[x];
      assert a == b;
    }
  }

  /** Every string contains the empty string, so an empty search term keeps
      every row. */
  lemma ContainsEmpty(s: string)
    ensures Contains(s, [])
  {
  }

  lemma ContainsSelf(s: string)
    ensures Contains(s, s)
  {
  }

  /** JavaScript `toLowerCase` on one character. Only the Latin capitals
      are folded; Arabic script has no case. */
  function Lower(c: char): (r: char)
    ensures 'A' <= c <= 'Z' ==> 'a' <= r <= 'z'
    ensures !('A' <= c <= 'Z') ==> r == c
    ensures !('A' <= r <= 'Z')
  {
    if 'A' <= c <= 'Z' then (c as int + 32) as char else c
  }

  function ToLower(s: string): (r: string)
    ensures |r| == |s|
    ensures forall i :: 0 <= i < |s| ==> r[i] == Lower(s[i])
  {
    if s == [] then [] else [Lower(s[0])] + ToLower(s[1..])
  }

  lemma ToLowerIdempotent(s: string)
    ensures ToLower(ToLower(s)) == ToLower(s)
  {
  }

  /** A name that starts with the needle includes it, whatever the case. */
  lemma PrefixIgnoringCase(haystack: string, needle: string)
    requires IsPrefix(needle, haystack)
    ensures IncludesIgnoreCase(haystack, needle)
  {
    var h, n := ToLower(haystack), ToLower(needle);
    assert h[..|n|] == n;
    assert IsPrefix(n, h);
  }

  /** `haystack.toLowerCase().includes(needle.toLowerCase())`. */
  predicate IncludesIgnoreCase(haystack: string, needle: string) {
    Contains(ToLower(haystack), ToLower(needle))
  }

  /** JavaScript `s.substring(0, n)` for `n >= 0`. */
  function Take(s: string, n: nat): (r: string)
    ensures |r| == if n < |s| then n else |s|
    ensures IsPrefix(r, s)
  {
    if n < |s| then s[..n] else s
  }
}

=== FILE: transactions.dfy ===
/** The product movement history handler `getProductTransactions` of
    `src/main/ipc/handlers/transaction.js`: one product's stock movements,
    newest first and paged, with statistics over its whole history. */
module ProductTransactions {
  import opened Wrappers
  import opened Tables
  import Schema
  import Paging
  import Numbers

  /** `movement_icon`: whether the movement moved the stock up or down. */
  datatype Direction = Up | Down

  /** The `movement_type_ar` CASE on the stored type; a text outside its
      three arms gives NULL. */
  function Label(t: string): Option<string> {
    if t == "purchase" then Some("مشتريات")
    else if t == "sale" then Some("مبيعات")
    else if t == "return" then Some("مرتجع")
    else None
  }

  /** The `movement_icon` CASE on the stored type. */
  function Icon(t: string): Option<Direction> {
    if t == "purchase" then Some(Up)
    else if t == "sale" then Some(Down)
    else if t == "return" then Some(Up)
    else None
  }

  /** What a movement does to the stock on hand: a purchase adds the bought
      quantity, a sale takes the sold quantity away, a return puts it back. */
  function StockChange(m: Schema.StockMovement): int {
    match m.kind
    case Purchase => m.quantity
    case Return => m.quantity
    case Sale => -m.quantity
  }

  /** Both CASEs cover every type the schema allows, each type gets its own
      label, and the arrow points the way the movement moves the stock. */
  lemma IconFollowsStock(m: Schema.StockMovement, other: Schema.MovementType)
    requires m.quantity > 0
    ensures Label(Schema.MovementTypeText(m.kind)).Some?
    ensures other != m.kind ==> Label(Schema.MovementTypeText(other)) != Label(Schema.MovementTypeText(m.kind))
    ensures Icon(Schema.MovementTypeText(m.kind)) == Some(Up) <==> StockChange(m) > 0
    ensures Icon(Schema.MovementTypeText(m.kind)) == Some(Down) <==> StockChange(m) < 0
  {
  }

  /** The handler's argument `{ productId, page = 1, limit = 10 }`; a
      missing page or limit takes its default. */
  datatype Request = Request(productId: int, page: Option<int>, limit: Option<int>)

  const DefaultLimit: int := 10

  /** A row of the listing: the movement with its two CASE columns. */
  datatype Listed = Listed(movement: Schema.StockMovement, typeLabel: Option<string>, icon: Option<Direction>)

  datatype Statistics = Statistics(totalMovements: nat, totalSales: int, totalPurchases: int, totalValue: int)

  /** The value of `Math.ceil(total / limit)`: a number, or `Infinity` and
      `NaN` when the limit is 0. */
  datatype PageCount = Count(n: int) | Infinity | NaN

  datatype Pagination = Pagination(currentPage: int, totalPages: PageCount, totalItems: nat, itemsPerPage: int)

  datatype ProductRef = ProductRef(id: int, name: string, code: string)

  datatype History = History(product: ProductRef, transactions: seq<Listed>, statistics: Statistics, pagination: Pagination)

  function IsProduct(id: int): Item -> bool {
    (i: Item) => i.id == id
  }

  function ForItem(id: int): Schema.StockMovement -> bool {
    (m: Schema.StockMovement) => m.itemId == id
  }

  function OfKind(id: int, kind: Schema.MovementType): Schema.StockMovement -> bool {
    (m: Schema.StockMovement) => m.itemId == id && m.kind == kind
  }

  function Quantity(): Schema.StockMovement -> int {
    (m: Schema.StockMovement) => m.quantity
  }

  function Value(): Schema.StockMovement -> int {
    (m: Schema.StockMovement) => m.totalValue
  }

  /** `Math.ceil(total / limit)`: the least whole number at or above the
      quotient, for either sign of the limit. */
  function PagesFor(total: nat, limit: int): (r: PageCount)
    ensures limit == 0 ==> r == (if total == 0 then NaN else Infinity)
    ensures limit > 0 ==> r.Count? && r.n * limit >= total && (r.n - 1) * limit < total
    ensures limit < 0 ==> r.Count? && r.n * limit <= total && (r.n - 1) * limit > total
  {
    if limit > 0 then Count(Numbers.CeilDiv(total, limit))
    else if limit < 0 then
      var q := total / -limit;
      assert q * -limit <= total < (q + 1) * -limit;
      Count(-q)
    else if total == 0 then NaN
    else Infinity
  }

  /** The statistics over every movement of the product. */
  function StatisticsOf(movements: seq<Schema.StockMovement>, id: int): Statistics {
    Statistics(
      CountWhere(movements, ForItem(id)),
      SumOf(movements, OfKind(id, Schema.Sale), Quantity()),
      SumOf(movements, OfKind(id, Schema.Purchase), Quantity()),
      SumOf(movements, ForItem(id), Value()))
  }

  function ListedOf(m: Schema.StockMovement): Listed {
    Listed(m, Label(Schema.MovementTypeText(m.kind)), Icon(Schema.MovementTypeText(m.kind)))
  }

  /** One page of a product's movements as `LIMIT limit OFFSET (page - 1) * limit`
      lists them, each with its label and icon. */
  function Listing(mine: seq<Schema.StockMovement>, page: int, limit: int): (r: seq<Listed>)
    ensures limit >= 0 ==> |r| <= limit
    ensures |r| == Paging.Window(|mine|, limit, (page - 1) * limit)
    ensures var offset := (page - 1) * limit;
            var start := if offset < 0 then 0 else offset;
            forall k :: 0 <= k < |r| ==>
              start + k < |mine| && r[k].movement == mine[start + k]
              && r[k].typeLabel == Label(Schema.MovementTypeText(mine[start + k].kind))
              && r[k].icon == Icon(Schema.MovementTypeText(mine[start + k].kind))
  {
    var rows := Paging.LimitOffset(mine, limit, (page - 1) * limit);
    seq(|rows|, k requires 0 <= k < |rows| => ListedOf(rows[k]))
  }

  /** `getProductTransactions`: an unknown product is refused; otherwise one
      page of its movements, newest first, with the statistics of all of
      them and the page count. Movements are kept in insertion order, and
      the model reads `ORDER BY created_at DESC` as that order reversed.
      Movements written in the same second tie on `created_at`; the model
      chooses to list them newest first, an order SQL does not promise. */
  function GetProductTransactions(items: seq<Item>, movements: seq<Schema.StockMovement>, req: Request): (r: Result<History>)
    ensures r.Err? <==> forall j :: 0 <= j < |items| ==> items[j].id != req.productId
    ensures r.Err? ==> r.message == "Product not found"
    ensures r.Ok? ==> exists j :: 0 <= j < |items| && items[j].id == req.productId
                        && r.value.product == ProductRef(items[j].id, items[j].name, items[j].barcode)
    ensures r.Ok? ==> r.value.statistics.totalMovements == r.value.pagination.totalItems
                        == |Where(movements, ForItem(req.productId))|
    ensures r.Ok? ==> r.value.pagination.currentPage == req.page.GetOr(1)
                        && r.value.pagination.itemsPerPage == req.limit.GetOr(DefaultLimit)
    ensures r.Ok? ==> r.value.transactions
                        == Listing(NewestFirst(Where(movements, ForItem(req.productId))), req.page.GetOr(1), req.limit.GetOr(DefaultLimit))
    ensures r.Ok? ==> forall k :: 0 <= k < |r.value.transactions| ==> r.value.transactions[k].movement.itemId == req.productId
  {
    var id := req.productId;
    match FirstWhere(items, IsProduct(id))
    case None => Err("Product not found")
    case Some(j) =>
      var mine := Where(movements, ForItem(id));
      var total := CountWhere(movements, ForItem(id));
      var page := req.page.GetOr(1);
      var limit := req.limit.GetOr(DefaultLimit);
      var listed := Listing(NewestFirst(mine), page, limit);
      assert forall k :: 0 <= k < |listed| ==> listed[k].movement in mine;
      Ok(History(
        ProductRef(items[j].id, items[j].name, items[j].barcode),
        listed,
        StatisticsOf(movements, id),
        Pagination(page, PagesFor(total, limit), total, limit)))
  }

  /** Recording a movement of the product moves its statistics by exactly
      that movement: one more movement, its quantity on the sales or the
      purchases total according to its type, its value on the value total. */
  lemma {:induction false} RecordingMovesStatistics(movements: seq<Schema.StockMovement>, id: int, kind: Schema.MovementType, quantity: int, unitPrice: int)
    ensures var m := Schema.RecordMovement(id, kind, quantity, unitPrice);
            var before := StatisticsOf(movements, id);
            var after := StatisticsOf(movements + [m], id);
            after.totalMovements == before.totalMovements + 1
            && after.totalSales == before.totalSales + (if kind == Schema.Sale then quantity else 0)
            && after.totalPurchases == before.totalPurchases + (if kind == Schema.Purchase then quantity else 0)
            && after.totalValue == before.totalValue + quantity * unitPrice
  {
    var m := Schema.RecordMovement(id, kind, quantity, unitPrice);
    WhereAppend(movements, [m], ForItem(id));
    assert Where([m], ForItem(id)) == [m];
    SumOfAppend(movements, [m], OfKind(id, Schema.Sale), Quantity());
    SumOfAppend(movements, [m], OfKind(id, Schema.Purchase), Quantity());
    SumOfAppend(movements, [m], ForItem(id), Value());
    assert SumOf([m], ForItem(id), Value()) == m.totalValue + SumOf([m][1..], ForItem(id), Value());
  }

  /** Movements of other products change nothing about this product's
      answer. */
  lemma {:induction false} OtherProductsIgnored(items: seq<Item>, movements: seq<Schema.StockMovement>, req: Request, m: Schema.StockMovement)
    requires m.itemId != req.productId
    ensures GetProductTransactions(items, movements + [m], req) == GetProductTransactions(items, movements, req)
  {
    var id := req.productId;
    WhereAppend(movements, [m], ForItem(id));
    assert Where([m], ForItem(id)) == [];
    assert Where(movements + [m], ForItem(id)) == Where(movements, ForItem(id));
    SumOfAppend(movements, [m], OfKind(id, Schema.Sale), Quantity());
    SumOfAppend(movements, [m], OfKind(id, Schema.Purchase), Quantity());
    SumOfAppend(movements, [m], ForItem(id), Value());
    assert SumOf([m], OfKind(id, Schema.Sale), Quantity()) == 0 + SumOf([m][1..], OfKind(id, Schema.Sale), Quantity());
    assert SumOf([m], OfKind(id, Schema.Purchase), Quantity()) == 0 + SumOf([m][1..], OfKind(id, Schema.Purchase), Quantity());
    assert SumOf([m], ForItem(id), Value()) == 0 + SumOf([m][1..], ForItem(id), Value());
  }

  /** With a positive limit, a page lists movements exactly when its number
      is between 1 and the announced page count. */
  lemma PageListsIffCounted(items: seq<Item>, movements: seq<Schema.StockMovement>, req: Request)
    requires GetProductTransactions(items, movements, req).Ok?
    requires req.limit.GetOr(DefaultLimit) > 0 && req.page.GetOr(1) >= 1
    ensures var h := GetProductTransactions(items, movements, req).value;
            h.pagination.totalPages.Count?
            && (h.transactions != [] <==> req.page.GetOr(1) <= h.pagination.totalPages.n)
  {
    var id := req.productId;
    var mine := NewestFirst(Where(movements, ForItem(id)));
    var limit := req.limit.GetOr(DefaultLimit);
    var page := req.page.GetOr(1);
    Paging.PageShowsRowsIff(mine, limit, page);
    assert PagesFor(|mine|, limit) == Count(Paging.TotalPages(|mine|, limit));
  }
}

=== FILE: unit_page.dfy ===
/** The unit form `src/renderer/src/pages/Units/CreateUnitPage.tsx`: the
    default checkbox, per-field errors, validation and the payload handed
    to `create` (module Units). */
module UnitPage {
  import opened Wrappers
  import Text
  import Units
  import Tables

  datatype Field = NameField | AbbreviationField | IsDefaultField

  /** `is_default` starts as the number 0; the checkbox writes "1"/"0". */
  datatype Form = Form(name: string, abbreviation: string, isDefault: Units.DefaultFlag)

  const InitialForm: Form := Form("", "", Units.FlagNumber(0))

  /** The error shown under each field; "" is no error. */
  type Errors = map<Field, string>

  /** `handleChange`: the checkbox maps to "1" when checked and "0"
      otherwise; a text field takes the typed value. The field's own error,
      when set, is cleared; other errors stay. */
  function HandleChange(f: Form, errors: Errors, field: Field, value: string, checked: bool): (r: (Form, Errors))
    ensures field == IsDefaultField ==> r.0 == f.(isDefault := Units.FlagText(if checked then "1" else "0"))
    ensures field == NameField ==> r.0 == f.(name := value)
    ensures field == AbbreviationField ==> r.0 == f.(abbreviation := value)
    ensures field in errors && errors[field] != "" ==> r.1 == errors[field := ""]
    ensures !(field in errors && errors[field] != "") ==> r.1 == errors
  {
    var form := match field
      case IsDefaultField => f.(isDefault := Units.FlagText(if checked then "1" else "0"))
      case NameField => f.(name := value)
      case AbbreviationField => f.(abbreviation := value);
    (form, if field in errors && errors[field] != "" then errors[field := ""] else errors)
  }

  /** Ticking the box is what makes the created unit the default. */
  lemma CheckboxDecidesDefault(f: Form, errors: Errors, checked: bool)
    ensures Units.MakesDefault(HandleChange(f, errors, IsDefaultField, "", checked).0.isDefault) <==> checked
    ensures !Units.MakesDefault(InitialForm.isDefault)
  {
  }

  /** `validateForm`: a name error for a blank name, or for one shorter than
      two characters; an abbreviation error for one longer than ten. */
  function Validate(f: Form): (errors: Errors)
    ensures NameField in errors <==> Text.IsBlank(f.name) || |f.name| < 2
    ensures AbbreviationField in errors <==> |f.abbreviation| > 10
    ensures IsDefaultField !in errors
  {
    var nameErrors: Errors := match NameError(f.name) case Some(e) => map[NameField := e] case None => map[];
    if |f.abbreviation| > 10 then nameErrors[AbbreviationField := "الاختصار يجب أن يكون 10 أحرف كحد أقصى"]
    else nameErrors
  }

  /** The name's error: required, then at least two characters counted on
      the untrimmed text. */
  function NameError(name: string): (e: Option<string>)
    ensures e.Some? <==> Text.IsBlank(name) || |name| < 2
  {
    Text.TrimEmptyIffBlank(name);
    if Text.Trim(name) == [] then Some("اسم الوحدة مطلوب")
    else if |name| < 2 then Some("اسم الوحدة يجب أن يكون حرفين على الأقل")
    else None
  }

  predicate Valid(f: Form) {
    |Validate(f)| == 0
  }

  /** `handleSubmit`: nothing is sent for an invalid form; otherwise the
      trimmed name, the trimmed abbreviation or else the first three
      characters of the untrimmed name, and the flag as it stands. */
  function Payload(f: Form): (r: Units.UnitInput)
    ensures r.name == Text.Trim(f.name) && r.isDefault == f.isDefault
    ensures Text.Trim(f.abbreviation) != "" ==> r.abbreviation == Text.Trim(f.abbreviation)
    ensures Text.Trim(f.abbreviation) == "" ==> r.abbreviation == Text.Take(f.name, 3)
  {
    Units.UnitInput(0, Text.Trim(f.name), if Text.Trim(f.abbreviation) != "" then Text.Trim(f.abbreviation) else Text.Take(f.name, 3), f.isDefault)
  }

  lemma ValidIff(f: Form)
    ensures Valid(f) <==> !Text.IsBlank(f.name) && |f.name| >= 2 && |f.abbreviation| <= 10
  {
    var e := Validate(f);
    if NameField in e {
      assert |e| > 0;
    }
    if AbbreviationField in e {
      assert |e| > 0;
    }
    if e != map[] {
      var k :| k in e;
    }
  }

  /** A valid form's payload is accepted by the handler, which stores the
      page's abbreviation as sent (it is never empty) and the trimmed name
      unchanged. */
  lemma ValidPayloadIsCreated(units: seq<Tables.Unit>, f: Form)
    requires Valid(f)
    ensures Units.Create(units, Payload(f)).Ok?
    ensures var u := Units.Create(units, Payload(f)).value[|units|];
            u.name == Text.Trim(f.name) && u.abbreviation == Payload(f).abbreviation
  {
    ValidIff(f);
    Text.TrimEmptyIffBlank(f.name);
    var p := Payload(f);
    assert p.abbreviation != "";
    Text.TrimIdempotent(f.name);
    Text.TrimEmptyIffBlank(p.name);
  }
}

=== FILE: units.dfy ===
/** The unit handler `src/main/ipc/handlers/units.js`: listing, creating
    and updating units so that at most one live unit is the default, and
    the guarded soft delete. The clock (`deleted_at`) and the `unit_id`
    column of the items table are parameters. */
module Units {
  import opened Wrappers
  import opened Tables
  import Text
  import Sorting

  /** The `is_default` value a caller sends: a number, a text, or nothing. */
  datatype DefaultFlag = FlagNumber(n: int) | FlagText(s: string) | FlagAbsent

  /** `is_default === "1" || is_default === 1`. */
  predicate MakesDefault(f: DefaultFlag) {
    f == FlagNumber(1) || f == FlagText("1")
  }

  datatype UnitInput = UnitInput(id: int, name: string, abbreviation: string, isDefault: DefaultFlag)

  predicate Live(u: Unit) {
    u.deletedAt.None?
  }

  predicate LiveDefault(u: Unit) {
    Live(u) && u.isDefault
  }

  /** The invariant: no two live units are both the default. */
  predicate AtMostOneDefault(units: seq<Unit>) {
    forall i, j :: 0 <= i < |units| && 0 <= j < |units| && LiveDefault(units[i]) && LiveDefault(units[j]) ==> i == j
  }

  /** The primary key. */
  predicate UniqueIds(units: seq<Unit>) {
    forall i, j :: 0 <= i < |units| && 0 <= j < |units| && units[i].id == units[j].id ==> i == j
  }

  /** The `id` column. */
  function Ids(units: seq<Unit>): seq<int> {
    Column(units, (x: Unit) => x.id)
  }

  /** `unit.abbreviation || unit.name.substring(0, 3)`: the untrimmed name's
      first three characters stand in for a missing abbreviation. */
  function Abbreviation(input: UnitInput): (a: string)
    ensures input.abbreviation != "" ==> a == input.abbreviation
    ensures input.abbreviation == "" ==> Text.IsPrefix(a, input.name) && |a| == if |input.name| < 3 then |input.name| else 3
  {
    if input.abbreviation != "" then input.abbreviation else Text.Take(input.name, 3)
  }

  /** The first live default, skipping the unit with id `except` when one
      is given (`... AND id != ? ... LIMIT 1`). */
  function FirstDefault(units: seq<Unit>, except: Option<int>): (r: Option<nat>)
    ensures r.Some? ==> r.value < |units| && LiveDefault(units[r.value])
                        && (except.None? || units[r.value].id != except.value)
    ensures r.None? ==> forall k :: 0 <= k < |units| && LiveDefault(units[k]) ==>
                          except.Some? && units[k].id == except.value
    ensures r.Some? ==> forall j :: 0 <= j < r.value ==>
                          !(LiveDefault(units[j]) && (except.None? || units[j].id != except.value))
  {
    FirstWhere(units, (u: Unit) => LiveDefault(u) && (except.None? || u.id != except.value))
  }

  /** `UPDATE units SET is_default = 0 WHERE id = ?`. */
  function ClearDefault(units: seq<Unit>, id: int): (r: seq<Unit>)
    ensures |r| == |units|
    ensures forall k :: 0 <= k < |units| ==>
      r[k] == if units[k].id == id then units[k].(isDefault := false) else units[k]
  {
    seq(|units|, k requires 0 <= k < |units| => if units[k].id == id then units[k].(isDefault := false) else units[k])
  }

  /** The step both `create` and `update` take before writing when the new
      row is to be the default: the first other live default loses it. */
  function ClearOtherDefault(units: seq<Unit>, input: UnitInput, except: Option<int>): (r: seq<Unit>)
    ensures |r| == |units|
    ensures forall k :: 0 <= k < |units| ==> r[k].(isDefault := units[k].isDefault) == units[k]
    ensures forall k :: 0 <= k < |units| && r[k].isDefault ==> units[k].isDefault
    ensures !MakesDefault(input.isDefault) ==> r == units
  {
    if MakesDefault(input.isDefault) then
      match FirstDefault(units, except)
      case Some(k) => ClearDefault(units, units[k].id)
      case None => units
    else units
  }

  /** `create`: refused for a blank name; otherwise the unit is appended
      with the trimmed name, its abbreviation, and `is_default` 1 exactly
      for the inputs 1 and "1". */
  function Create(units: seq<Unit>, input: UnitInput): (r: Result<seq<Unit>>)
    ensures r.Err? <==> Text.IsBlank(input.name)
    ensures r.Ok? ==>
      var n := |units|;
      |r.value| == n + 1 && r.value[..n] == ClearOtherDefault(units, input, None)
      && var u := r.value[n];
         u.id !in Ids(units) && u.name == Text.Trim(input.name) && u.abbreviation == Abbreviation(input)
         && (u.isDefault <==> MakesDefault(input.isDefault)) && Live(u)
  {
    if Text.IsBlank(input.name) then Err("اسم الوحدة مطلوب")
    else
      var cleared := ClearOtherDefault(units, input, None);
      var u := Unit(FreshId(Ids(units)), Text.Trim(input.name), Abbreviation(input), MakesDefault(input.isDefault), None);
      Ok(cleared + [u])
  }

  /** Clearing the first default (other than `except`) leaves no live
      default except possibly rows with id `except`, given at most one
      before. */
  lemma ClearedLeavesNoOtherDefault(units: seq<Unit>, input: UnitInput, except: Option<int>)
    requires AtMostOneDefault(units)
    requires MakesDefault(input.isDefault)
    ensures var r := ClearOtherDefault(units, input, except);
            forall k :: 0 <= k < |r| && LiveDefault(r[k]) ==> except.Some? && r[k].id == except.value
  {
    var r := ClearOtherDefault(units, input, except);
    match FirstDefault(units, except)
    case None =>
    case Some(d) =>
      assert forall k :: 0 <= k < |r| && units[k].id != units[d].id ==> r[k] == units[k];
  }

  /** Taking the default away from rows keeps the invariant. */
  lemma ClearKeepsOneDefault(units: seq<Unit>, input: UnitInput, except: Option<int>)
    requires AtMostOneDefault(units)
    ensures AtMostOneDefault(ClearOtherDefault(units, input, except))
  {
    var c := ClearOtherDefault(units, input, except);
    assert forall k :: 0 <= k < |c| && LiveDefault(c[k]) ==> LiveDefault(units[k]);
  }

  /** Appending a row keeps the invariant when the row is not a default or
      no live default is left. */
  lemma AppendKeepsOneDefault(c: seq<Unit>, u: Unit)
    requires AtMostOneDefault(c)
    requires u.isDefault ==> forall k :: 0 <= k < |c| ==> !LiveDefault(c[k])
    ensures AtMostOneDefault(c + [u])
  {
    var r := c + [u];
    assert forall k :: 0 <= k < |c| ==> r[k] == c[k];
  }

  /** `create` keeps at most one live default; a default created unit is
      then the only one. */
  lemma CreateKeepsOneDefault(units: seq<Unit>, input: UnitInput)
    requires AtMostOneDefault(units)
    requires Create(units, input).Ok?
    ensures AtMostOneDefault(Create(units, input).value)
    ensures MakesDefault(input.isDefault) ==>
      forall k :: 0 <= k < |units| ==> !LiveDefault(Create(units, input).value[k])
  {
    CreateKeepsInvariant(units, input);
    CreateClearsOthers(units, input);
  }

  lemma CreateKeepsInvariant(units: seq<Unit>, input: UnitInput)
    requires AtMostOneDefault(units)
    requires Create(units, input).Ok?
    ensures AtMostOneDefault(Create(units, input).value)
  {
    var r := Create(units, input).value;
    var c := ClearOtherDefault(units, input, None);
    var n := |units|;
    var last := r[n];
    assert r == r[..n] + [last];
    ClearKeepsOneDefault(units, input, None);
    if MakesDefault(input.isDefault) {
      ClearedLeavesNoOtherDefault(units, input, None);
    }
    AppendKeepsOneDefault(c, last);
  }

  lemma CreateClearsOthers(units: seq<Unit>, input: UnitInput)
    requires AtMostOneDefault(units)
    requires Create(units, input).Ok?
    ensures MakesDefault(input.isDefault) ==>
      forall k :: 0 <= k < |units| ==> !LiveDefault(Create(units, input).value[k])
  {
    if MakesDefault(input.isDefault) {
      var r := Create(units, input).value;
      var c := ClearOtherDefault(units, input, None);
      assert r[..|units|] == c;
      ClearedLeavesNoOtherDefault(units, input, None);
      forall k | 0 <= k < |units|
        ensures !LiveDefault(r[k])
      {
        assert r[k] == c[k];
      }
    }
  }

  /** What `update` leaves behind and whether it reports success. */
  datatype Outcome = Outcome(units: seq<Unit>, success: bool)

  /** The row `update` writes for a matched unit. */
  function Updated(u: Unit, input: UnitInput): Unit {
    u.(name := Text.Trim(input.name), abbreviation := Abbreviation(input), isDefault := MakesDefault(input.isDefault))
  }

  predicate Targeted(u: Unit, input: UnitInput) {
    u.id == input.id && Live(u)
  }

  function WriteUpdate(units: seq<Unit>, input: UnitInput): (r: seq<Unit>)
    ensures |r| == |units|
    ensures forall k :: 0 <= k < |units| ==> r[k] == if Targeted(units[k], input) then Updated(units[k], input) else units[k]
  {
    seq(|units|, k requires 0 <= k < |units| => if Targeted(units[k], input) then Updated(units[k], input) else units[k])
  }

  /** `update` as written: refused without change for a blank name;
      otherwise the other default is cleared FIRST, and only then is the
      live row with that id rewritten, success meaning some row matched.
      An unknown id therefore fails after the default was already taken
      away. */
  function Update(units: seq<Unit>, input: UnitInput): (r: Outcome)
    ensures Text.IsBlank(input.name) ==> r == Outcome(units, false)
    ensures !Text.IsBlank(input.name) ==>
      r.units == WriteUpdate(ClearOtherDefault(units, input, Some(input.id)), input)
      && (r.success <==> exists k :: 0 <= k < |units| && Targeted(units[k], input))
  {
    if Text.IsBlank(input.name) then Outcome(units, false)
    else
      var cleared := ClearOtherDefault(units, input, Some(input.id));
      var success := FirstWhere(cleared, (u: Unit) => Targeted(u, input)).Some?;
      assert forall k :: 0 <= k < |units| ==> (Targeted(cleared[k], input) <==> Targeted(units[k], input));
      Outcome(WriteUpdate(cleared, input), success)
  }

  /** `update` keeps at most one live default when ids are unique. */
  lemma UpdateKeepsOneDefault(units: seq<Unit>, input: UnitInput)
    requires AtMostOneDefault(units) && UniqueIds(units)
    ensures AtMostOneDefault(Update(units, input).units)
  {
    if !Text.IsBlank(input.name) {
      if MakesDefault(input.isDefault) {
        NewDefaultIsTheOnlyOne(units, input);
      } else {
        OldDefaultStaysAlone(units, input);
      }
    }
  }

  /** An update that makes its unit the default leaves no other default. */
  lemma NewDefaultIsTheOnlyOne(units: seq<Unit>, input: UnitInput)
    requires AtMostOneDefault(units) && UniqueIds(units)
    requires !Text.IsBlank(input.name) && MakesDefault(input.isDefault)
    ensures AtMostOneDefault(Update(units, input).units)
  {
    var c := ClearOtherDefault(units, input, Some(input.id));
    var r := WriteUpdate(c, input);
    assert Update(units, input).units == r;
    ClearedLeavesNoOtherDefault(units, input, Some(input.id));
    forall i, j | 0 <= i < |r| && 0 <= j < |r| && LiveDefault(r[i]) && LiveDefault(r[j])
      ensures i == j
    {
      DefaultHasUpdatedId(units, c, r, input, i);
      DefaultHasUpdatedId(units, c, r, input, j);
    }
  }

  /** After clearing and writing, a live default row carries the updated
      id. */
  lemma DefaultHasUpdatedId(units: seq<Unit>, c: seq<Unit>, r: seq<Unit>, input: UnitInput, k: nat)
    requires |c| == |units| && |r| == |units| && k < |units|
    requires c[k].(isDefault := units[k].isDefault) == units[k]
    requires r[k] == if Targeted(c[k], input) then Updated(c[k], input) else c[k]
    requires LiveDefault(c[k]) ==> c[k].id == input.id
    requires LiveDefault(r[k])
    ensures units[k].id == input.id
  {
  }

  /** An update that does not make a default keeps the defaults there were. */
  lemma OldDefaultStaysAlone(units: seq<Unit>, input: UnitInput)
    requires AtMostOneDefault(units)
    requires !Text.IsBlank(input.name) && !MakesDefault(input.isDefault)
    ensures AtMostOneDefault(Update(units, input).units)
  {
    var r := Update(units, input).units;
    forall i, j | 0 <= i < |r| && 0 <= j < |r| && LiveDefault(r[i]) && LiveDefault(r[j])
      ensures i == j
    {
      assert LiveDefault(units[i]) && LiveDefault(units[j]);
    }
  }

  /** An update of an id that names no live unit fails, yet the live
      default unit has lost its default: no default remains. */
  lemma FailedUpdateDropsDefault()
    ensures var units := [Unit(1, "قطعة", "قطع", true, None)];
            var r := Update(units, UnitInput(2, "كيلو", "", FlagNumber(1)));
            !r.success && |r.units| == 1 && !r.units[0].isDefault
  {
    var units := [Unit(1, "قطعة", "قطع", true, None)];
    var input := UnitInput(2, "كيلو", "", FlagNumber(1));
    assert !Text.IsSpace(input.name[0]);
    assert FirstDefault(units, Some(2)) == Some(0);
  }

  /** `update` checking for its row before touching any other: a failure
      changes nothing. */
  function UpdateFixed(units: seq<Unit>, input: UnitInput): (r: Outcome)
    ensures !r.success ==> r.units == units
    ensures r.success <==> !Text.IsBlank(input.name) && exists k :: 0 <= k < |units| && Targeted(units[k], input)
    ensures r.success ==> r == Update(units, input)
  {
    if Text.IsBlank(input.name) || FirstWhere(units, (u: Unit) => Targeted(u, input)).None? then Outcome(units, false)
    else Update(units, input)
  }

  /** The fixed update still keeps at most one live default, and it never
      leaves a table without its default when it fails. */
  lemma UpdateFixedKeepsDefault(units: seq<Unit>, input: UnitInput)
    requires AtMostOneDefault(units) && UniqueIds(units)
    ensures AtMostOneDefault(UpdateFixed(units, input).units)
    ensures !UpdateFixed(units, input).success ==> UpdateFixed(units, input).units == units
  {
    UpdateKeepsOneDefault(units, input);
  }

  /** `deleteUnit`: refused for an id with no live unit, for the default
      unit, and for a unit any item still uses; otherwise every row with
      that id gets the deletion time and nothing else changes. */
  function Delete(units: seq<Unit>, itemUnitIds: seq<int>, id: int, now: string): (r: Result<seq<Unit>>)
    ensures r.Err? <==>
      (forall k :: 0 <= k < |units| ==> !(units[k].id == id && Live(units[k])))
      || (exists k :: 0 <= k < |units| && units[k].id == id && LiveDefault(units[k])
            && forall j :: 0 <= j < k ==> !(units[j].id == id && Live(units[j])))
      || (exists k :: 0 <= k < |itemUnitIds| && itemUnitIds[k] == id)
    ensures r.Ok? ==> |r.value| == |units| && forall k :: 0 <= k < |units| ==>
      r.value[k] == if units[k].id == id then units[k].(deletedAt := Some(now)) else units[k]
  {
    match FirstWhere(units, (u: Unit) => u.id == id && Live(u))
    case None => Err("الوحدة غير موجودة")
    case Some(k) =>
      if units[k].isDefault then Err("لا يمكن حذف الوحدة الافتراضية")
      else if CountWhere(itemUnitIds, (x: int) => x == id) > 0 then
        var used := Where(itemUnitIds, (x: int) => x == id);
        assert used[0] in itemUnitIds && used[0] == id;
        Err("لا يمكن حذف هذه الوحدة لأنها مستخدمة")
      else
        Ok(seq(|units|, j requires 0 <= j < |units| => if units[j].id == id then units[j].(deletedAt := Some(now)) else units[j]))
  }

  /** The default unit is never deleted, and a delete keeps at most one
      live default. */
  lemma DefaultUnitIsProtected(units: seq<Unit>, itemUnitIds: seq<int>, k: nat, now: string)
    requires UniqueIds(units) && k < |units| && LiveDefault(units[k])
    ensures Delete(units, itemUnitIds, units[k].id, now).Err?
  {
    var id := units[k].id;
    assert forall j :: 0 <= j < |units| && units[j].id == id ==> j == k;
  }

  lemma DeleteKeepsOneDefault(units: seq<Unit>, itemUnitIds: seq<int>, id: int, now: string)
    requires AtMostOneDefault(units)
    requires Delete(units, itemUnitIds, id, now).Ok?
    ensures AtMostOneDefault(Delete(units, itemUnitIds, id, now).value)
  {
    var r := Delete(units, itemUnitIds, id, now).value;
    assert forall k :: 0 <= k < |r| && Live(r[k]) ==> Live(units[k]) && r[k] == units[k];
  }

  /** `ORDER BY is_default DESC, name ASC`. */
  function UnitLe(): (Unit, Unit) -> bool {
    (a: Unit, b: Unit) => (a.isDefault && !b.isDefault) || (a.isDefault == b.isDefault && Sorting.TextLeq(a.name, b.name))
  }

  lemma UnitOrderTotal()
    ensures Sorting.Total(UnitLe())
  {
    forall a: Unit, b: Unit
      ensures UnitLe()(a, b) || UnitLe()(b, a)
    {
      Sorting.TextLeqTotal(a.name, b.name);
    }
  }

  /** `getAll`: the live units, defaults first, then by name. */
  function GetAll(units: seq<Unit>): (r: seq<Unit>)
    ensures Sorting.Sorted(r, UnitLe()) && multiset(r) == multiset(Where(units, Live))
  {
    UnitOrderTotal();
    Sorting.Sort(Where(units, Live), UnitLe())
  }

  /** In the listing a default unit is never preceded by a non-default
      one, so the single default (if any) comes first. */
  lemma {:induction false} DefaultsLead(s: seq<Unit>, k: nat)
    requires Sorting.Sorted(s, UnitLe()) && k < |s| && s[k].isDefault
    ensures forall j :: 0 <= j <= k ==> s[j].isDefault
    decreases k
  {
    if k > 0 {
      assert UnitLe()(s[k - 1], s[k]);
      DefaultsLead(s, k - 1);
    }
  }
}

=== FILE: units_table.dfy ===
/** The units table `src/renderer/src/pages/Units/components/data-table.component.tsx`:
    which controls a user sees, and a search box that filters nothing. */
module UnitsTable {
  import opened Wrappers
  import Access
  import DataTable

  predicate IsAdmin(user: Access.SessionUser) {
    user.role == "admin"
  }

  predicate Has(user: Access.SessionUser, permission: string) {
    Access.Lists(Some(user), permission)
  }

  function CanCreate(user: Access.SessionUser): (b: bool)
    ensures !IsAdmin(user) ==> (b <==> Has(user, "units.create"))
  {
    IsAdmin(user) || Has(user, "units.create")
  }

  /** The "actions" header: admins and users who may delete or edit. */
  function ActionsHeader(user: Access.SessionUser): bool {
    IsAdmin(user) || Has(user, "units.delete") || Has(user, "units.edit")
  }

  /** The actions cell of each row (its condition names the delete
      permission twice) and the delete button inside it. */
  function ActionsCell(user: Access.SessionUser): bool {
    IsAdmin(user) || (Has(user, "units.delete") && Has(user, "units.delete"))
  }

  function DeleteButton(user: Access.SessionUser): bool {
    IsAdmin(user) || Has(user, "units.delete")
  }

  /** The cell appears exactly with its button and always under the header;
      an edit-only user gets the header over rows without the cell. */
  lemma CellFollowsDeletePermission(user: Access.SessionUser)
    ensures ActionsCell(user) == DeleteButton(user)
    ensures ActionsCell(user) ==> ActionsHeader(user)
    ensures var editor := Access.SessionUser(2, "editor", "manager", Some(["units.edit"]));
            ActionsHeader(editor) && !ActionsCell(editor)
  {
    var editor := Access.SessionUser(2, "editor", "manager", Some(["units.edit"]));
    assert "units.delete" != "units.edit";
    assert !Has(editor, "units.delete");
  }

  /** The search text is never set by any input, so it stays "" and the
      table shows the rows as given. */
  function Rows(rows: seq<DataTable.Row>, columns: seq<DataTable.Column>): (r: seq<DataTable.Row>)
    ensures r == rows
  {
    DataTable.GuardedSearch(rows, columns, "")
  }
}

=== FILE: user_page.dfy ===
/** The edit form of `src/renderer/src/pages/Users/EditUserPage.tsx`: the
    name, an optional new password with its confirmation, the permission
    picker (module Access), the checks before saving and the object handed
    to `update` (module Users). */
module UserPage {
  import opened Wrappers
  import Text
  import Permissions
  import Users
  import Access

  datatype Field = UsernameField | PasswordField | ConfirmField | PermissionsField

  datatype Form = Form(username: string, password: string, confirmPassword: string)

  /** A field whose message was cleared keeps the key with "" (nothing shown). */
  type Errors = map<Field, string>

  /** The page state: the typed fields, the picked permission ids, the
      messages and the "change password" box. */
  datatype Page = Page(form: Form, selected: seq<int>, errors: Errors, changePassword: bool)

  /** The three text inputs. */
  datatype Input = UsernameInput | PasswordInput | ConfirmInput

  function FieldOf(input: Input): Field {
    match input
    case UsernameInput => UsernameField
    case PasswordInput => PasswordField
    case ConfirmInput => ConfirmField
  }

  /** `handleChange`: the input's field takes the value and a message shown
      for it is blanked; the rest of the page is kept. */
  function HandleChange(p: Page, input: Input, value: string): (r: Page)
    ensures input == UsernameInput ==> r.form == p.form.(username := value)
    ensures input == PasswordInput ==> r.form == p.form.(password := value)
    ensures input == ConfirmInput ==> r.form == p.form.(confirmPassword := value)
    ensures r.selected == p.selected && r.changePassword == p.changePassword
    ensures var f := FieldOf(input);
            (f in p.errors && p.errors[f] != "" ==> r.errors == p.errors[f := ""])
            && (!(f in p.errors && p.errors[f] != "") ==> r.errors == p.errors)
  {
    var form := match input
      case UsernameInput => p.form.(username := value)
      case PasswordInput => p.form.(password := value)
      case ConfirmInput => p.form.(confirmPassword := value);
    var f := FieldOf(input);
    p.(form := form, errors := if f in p.errors && p.errors[f] != "" then p.errors[f := ""] else p.errors)
  }

  /** The "change password" box: unticking empties both password fields and
      blanks their messages. */
  function SetChangePassword(p: Page, checked: bool): (r: Page)
    ensures r.changePassword == checked && r.selected == p.selected && r.form.username == p.form.username
    ensures checked ==> r == p.(changePassword := true)
    ensures !checked ==> r.form.password == "" && r.form.confirmPassword == ""
                         && r.errors == p.errors[PasswordField := ""][ConfirmField := ""]
  {
    if checked then p.(changePassword := true)
    else p.(changePassword := false,
            form := p.form.(password := "", confirmPassword := ""),
            errors := p.errors[PasswordField := ""][ConfirmField := ""])
  }

  const UsernameRequired := "اسم المستخدم مطلوب"
  const UsernameShort := "اسم المستخدم يجب أن يكون 3 أحرف على الأقل"
  const PasswordRequired := "كلمة المرور مطلوبة"
  const PasswordShort := "كلمة المرور يجب أن تكون 1 أحرف على الأقل"
  const PasswordMismatch := "كلمة المرور غير متطابقة"
  const PermissionsRequired := "يجب اختيار صلاحية واحدة على الأقل"

  /** The name check as written: blank, then fewer than three characters
      counted before trimming. */
  function UsernameError(username: string): Option<string> {
    if Text.IsBlank(username) then Some(UsernameRequired)
    else if |username| < 3 then Some(UsernameShort)
    else None
  }

  /** The password check: empty, then shorter than one character, which an
      empty text already was. */
  function PasswordError(password: string): Option<string> {
    if password == "" then Some(PasswordRequired)
    else if |password| < 1 then Some(PasswordShort)
    else None
  }

  /** The message `validateForm` gives each failing field. */
  function Check(p: Page, field: Field): Option<string> {
    match field
    case UsernameField => UsernameError(p.form.username)
    case PasswordField => if p.changePassword then PasswordError(p.form.password) else None
    case ConfirmField =>
      if p.changePassword && p.form.password != p.form.confirmPassword then Some(PasswordMismatch) else None
    case PermissionsField => if p.selected == [] then Some(PermissionsRequired) else None
  }

  /** `validateForm`: a fresh message map, one entry per failing field. */
  function Validate(p: Page): (errors: Errors)
    ensures UsernameField in errors <==> Text.IsBlank(p.form.username) || |p.form.username| < 3
    ensures PasswordField in errors <==> p.changePassword && p.form.password == ""
    ensures ConfirmField in errors <==> p.changePassword && p.form.password != p.form.confirmPassword
    ensures PermissionsField in errors <==> p.selected == []
    ensures forall f :: f in errors ==> errors[f] != ""
  {
    map field: Field | Check(p, field).Some? :: Check(p, field).value
  }

  predicate Valid(p: Page) {
    |Validate(p)| == 0
  }

  lemma ValidIff(p: Page)
    ensures Valid(p) <==>
      !Text.IsBlank(p.form.username) && |p.form.username| >= 3 && p.selected != []
      && (p.changePassword ==> p.form.password != "" && p.form.password == p.form.confirmPassword)
  {
    var e := Validate(p);
    if e != map[] {
      var k :| k in e;
    }
    if UsernameField in e || PasswordField in e || ConfirmField in e || PermissionsField in e {
      assert |e| > 0;
    }
  }

  /** The second password message is never shown: whenever the password
      fails, the message is the "required" one. */
  lemma ShortPasswordMessageNeverShown(p: Page)
    ensures PasswordField in Validate(p) ==> Validate(p)[PasswordField] == PasswordRequired
    ensures forall f :: f in Validate(p) ==> Validate(p)[f] != PasswordShort
  {
    assert PasswordShort != PasswordRequired && PasswordShort != UsernameRequired && PasswordShort != UsernameShort;
    assert PasswordShort != PasswordMismatch && PasswordShort != PermissionsRequired;
  }

  /** `handleSubmit`: nothing is sent for an invalid form or before the user
      is loaded; otherwise the trimmed name, the picked ids and the editor's
      id, with the password only when it is being changed ("" stands for
      an absent password). */
  function Submit(p: Page, selectedUser: Option<int>, currentUser: Option<Access.SessionUser>): (r: Option<Users.UserUpdate>)
    ensures r.Some? <==> Valid(p) && selectedUser.Some?
    ensures r.Some? ==> r.value.id == selectedUser.value && r.value.username == Text.Trim(p.form.username)
                        && r.value.permissions == p.selected
                        && r.value.updatedBy == (if currentUser.Some? then Some(currentUser.value.id) else None)
    ensures r.Some? ==> r.value.password == (if p.changePassword then p.form.password else "")
  {
    if !Valid(p) || selectedUser.None? then None
    else
      Some(Users.UserUpdate(selectedUser.value, Text.Trim(p.form.username),
                            if p.changePassword && p.form.password != "" then p.form.password else "",
                            p.selected,
                            if currentUser.Some? then Some(currentUser.value.id) else None))
  }

  /** A submitted name is never refused as missing by the handler. */
  lemma SubmittedNameIsPresent(p: Page, selectedUser: Option<int>, currentUser: Option<Access.SessionUser>)
    requires Submit(p, selectedUser, currentUser).Some?
    ensures Submit(p, selectedUser, currentUser).value.username != ""
  {
    ValidIff(p);
    Text.TrimEmptyIffBlank(p.form.username);
  }

  /** A form the page lets through, with ids picked without repeats and a
      name no other user has, is saved: the name is the trimmed one, the
      user holds exactly the picked permissions, and the password hash is
      kept unless a new password was given. */
  lemma SubmittedUpdateIsSaved(a: Users.Accounts, p: Page, selectedUser: Option<int>,
                               currentUser: Option<Access.SessionUser>, hash: string, k: nat)
    requires Submit(p, selectedUser, currentUser).Some?
    requires Permissions.Distinct(p.selected)
    requires !Users.TakenByOther(a.users, Text.Trim(p.form.username), selectedUser.value)
    requires k < |a.users| && a.users[k].id == selectedUser.value
    ensures var input := Submit(p, selectedUser, currentUser).value;
            var saved := Users.UpdateFixed(a, input, hash);
            saved.result.Ok?
            && saved.state.users[k].username == Text.Trim(p.form.username)
            && (!p.changePassword ==> saved.state.users[k].passwordHash == a.users[k].passwordHash)
            && (forall pid :: Permissions.Holds(saved.state.grants, selectedUser.value, pid) <==> pid in p.selected)
  {
    var input := Submit(p, selectedUser, currentUser).value;
    SubmittedNameIsPresent(p, selectedUser, currentUser);
    Users.UpdateEffect(a, input, hash, k);
  }

  /** The name check as intended: at least three characters after trimming,
      the text that is sent. */
  function UsernameErrorFixed(username: string): (e: Option<string>)
    ensures e.None? <==> |Text.Trim(username)| >= 3
  {
    Text.TrimEmptyIffBlank(username);
    if Text.IsBlank(username) then Some(UsernameRequired)
    else if |Text.Trim(username)| < 3 then Some(UsernameShort)
    else None
  }

  /** As written, a one-letter name padded with two spaces passes the
      three-character check and a one-letter name is sent; the intended
      check refuses it. */
  lemma PaddedShortNamePasses()
    ensures UsernameError("a  ").None?
    ensures Text.Trim("a  ") == "a"
    ensures UsernameErrorFixed("a  ").Some?
  {
    assert Text.TrimStart("a  ") == "a  ";
    assert Text.TrimEnd("a  ") == Text.TrimEnd("a ") == Text.TrimEnd("a") == "a";
  }

  /** With the intended check every name sent has at least three characters. */
  lemma FixedCheckSendsThreeCharacters(username: string)
    requires UsernameErrorFixed(username).None?
    ensures |Text.Trim(username)| >= 3 && UsernameError(username).None?
  {
    Text.TrimEmptyIffBlank(username);
    assert |Text.Trim(username)| <= |username| by {
      var t := Text.TrimStart(username);
      assert |Text.TrimEnd(t)| <= |t|;
    }
  }
}

=== FILE: users.dfy ===
/** The user handler `src/main/ipc/handlers/users.js` over the tables
    `users` and `user_permissions`. */
module Users {
  // Creation with an initial permission list, the update that may re-hash
  // the password and replaces the permissions, deletion, lookups and the
  // paged listings. Password hashes are opaque text handed in by the caller
  // (bcrypt is not modelled).

  import opened Wrappers
  import opened Tables
  import opened Schema
  import Text
  import Paging
  import Permissions

  /** The two tables the handler writes. */
  datatype Accounts = Accounts(users: seq<User>, grants: seq<Grant>)

  /** A handler's effect: the tables afterwards, and what the call returns
      (the user's id) or throws. Without a transaction a failing call can
      still leave earlier statements applied. */
  datatype Outcome = Outcome(state: Accounts, result: Result<int>)

  /** The role column's default, since creation does not name a role. */
  const DefaultRole: string := "cashier"

  const UniqueFailure: string := "UNIQUE constraint failed: user_permissions.user_id, user_permissions.permission_id"

  function UserIds(users: seq<User>): (ids: seq<int>)
    ensures |ids| == |users| && forall k :: 0 <= k < |users| ==> ids[k] == users[k].id
  {
    seq(|users|, k requires 0 <= k < |users| => users[k].id)
  }

  predicate Taken(users: seq<User>, username: string) {
    exists k :: 0 <= k < |users| && users[k].username == username
  }

  predicate HasUser(users: seq<User>, id: int) {
    exists k :: 0 <= k < |users| && users[k].id == id
  }

  /** The table constraints the handlers rely on: ids and usernames are
      unique, each permission row names an existing user, and no pair
      repeats. */
  predicate Consistent(a: Accounts) {
    (forall i, j :: 0 <= i < j < |a.users| ==> a.users[i].id != a.users[j].id)
    && (forall i, j :: 0 <= i < j < |a.users| ==> a.users[i].username != a.users[j].username)
    && (forall k :: 0 <= k < |a.grants| ==> HasUser(a.users, a.grants[k].userId))
    && UniquePairs(a.grants)
  }

  /** The `credentials` of `createUser`; a missing username or password
      is "". */
  datatype NewUser = NewUser(username: string, password: string, permissions: seq<int>, createdBy: Option<int>)

  /** `createUser` as written: the checks, then the user row, then one
      permission row per id in a single INSERT. No transaction is opened,
      so when that INSERT fails (a repeated id) the user row stays. */
  function CreateUser(a: Accounts, input: NewUser, hash: string): (r: Outcome)
    ensures r.state == a <==> input.username == "" || input.password == "" || Taken(a.users, input.username)
    ensures r.result.Err? <==> input.username == "" || input.password == "" || Taken(a.users, input.username)
                               || !Permissions.Distinct(input.permissions)
    ensures r.state != a ==>
      var id := FreshId(UserIds(a.users));
      r.state.users == a.users + [User(id, input.username, hash, DefaultRole, true)]
      && (r.result.Ok? ==> r.result.value == id && r.state.grants == a.grants + Permissions.RowsFor(id, input.permissions, input.createdBy))
      && (r.result.Err? ==> r.state.grants == a.grants)
  {
    if input.username == "" || input.password == "" then Outcome(a, Err("برجاء إدخال اسم المستخدم وكلمة المرور"))
    else if Taken(a.users, input.username) then Outcome(a, Err("اسم المستخدم موجود بالفعل"))
    else
      var id := FreshId(UserIds(a.users));
      var users := a.users + [User(id, input.username, hash, DefaultRole, true)];
      assert |users| != |a.users|;
      if Permissions.Distinct(input.permissions) then
        Outcome(Accounts(users, a.grants + Permissions.RowsFor(id, input.permissions, input.createdBy)), Ok(id))
      else
        Outcome(Accounts(users, a.grants), Err(UniqueFailure))
  }

  /** `createUser` inside a transaction: a failed insert rolls the user
      row back too. */
  function CreateUserFixed(a: Accounts, input: NewUser, hash: string): (r: Outcome)
    ensures r.result.Err? <==> r.state == a
    ensures r.result.Err? <==> input.username == "" || input.password == "" || Taken(a.users, input.username)
                               || !Permissions.Distinct(input.permissions)
    ensures r.result.Ok? ==> r == CreateUser(a, input, hash)
  {
    var asWritten := CreateUser(a, input, hash);
    if asWritten.result.Err? then Outcome(a, asWritten.result) else asWritten
  }

  /** Grants naming a user the table lacks do not exist in a consistent
      table, so the fresh id starts with none. */
  lemma FreshUserHoldsNothing(a: Accounts, pid: int)
    requires Consistent(a)
    ensures !Permissions.Holds(a.grants, FreshId(UserIds(a.users)), pid)
  {
    var id := FreshId(UserIds(a.users));
    forall k | 0 <= k < |a.grants|
      ensures a.grants[k].userId != id
    {
      assert HasUser(a.users, a.grants[k].userId);
      var m :| 0 <= m < |a.users| && a.users[m].id == a.grants[k].userId;
      assert UserIds(a.users)[m] == a.users[m].id;
    }
  }

  /** A created user holds exactly the listed permissions and the tables
      stay consistent. */
  lemma CreateUserGrantsList(a: Accounts, input: NewUser, hash: string)
    requires Consistent(a)
    requires CreateUserFixed(a, input, hash).result.Ok?
    ensures Consistent(CreateUserFixed(a, input, hash).state)
    ensures var id := CreateUserFixed(a, input, hash).result.value;
            forall pid :: Permissions.Holds(CreateUserFixed(a, input, hash).state.grants, id, pid) <==> pid in input.permissions
  {
    var r := CreateUserFixed(a, input, hash);
    var id := FreshId(UserIds(a.users));
    var added := Permissions.RowsFor(id, input.permissions, input.createdBy);
    var s := r.state;
    assert s.users == a.users + [User(id, input.username, hash, DefaultRole, true)];
    assert s.grants == a.grants + added;
    forall pid
      ensures Permissions.Holds(s.grants, id, pid) <==> pid in input.permissions
    {
      FreshUserHoldsNothing(a, pid);
      HoldsAppended(a.grants, added, id, pid);
      if pid in input.permissions {
        var i :| 0 <= i < |input.permissions| && input.permissions[i] == pid;
        assert added[i].userId == id && added[i].permissionId == pid;
      }
    }
    CreatedIsConsistent(a, s, id, added);
  }

  lemma HoldsAppended(a: seq<Grant>, b: seq<Grant>, userId: int, pid: int)
    ensures Permissions.Holds(a + b, userId, pid) <==> Permissions.Holds(a, userId, pid) || Permissions.Holds(b, userId, pid)
  {
    if Permissions.Holds(a + b, userId, pid) {
      var k :| 0 <= k < |a + b| && (a + b)[k].userId == userId && (a + b)[k].permissionId == pid;
      if k >= |a| {
        assert b[k - |a|] == (a + b)[k];
      }
    }
    if Permissions.Holds(a, userId, pid) {
      var k :| 0 <= k < |a| && a[k].userId == userId && a[k].permissionId == pid;
      assert (a + b)[k] == a[k];
    }
    if Permissions.Holds(b, userId, pid) {
      var k :| 0 <= k < |b| && b[k].userId == userId && b[k].permissionId == pid;
      assert (a + b)[|a| + k] == b[k];
    }
  }

  lemma CreatedIsConsistent(a: Accounts, s: Accounts, id: int, added: seq<Grant>)
    requires Consistent(a)
    requires id == FreshId(UserIds(a.users))
    requires exists u: User :: u.id == id && !Taken(a.users, u.username) && s.users == a.users + [u]
    requires forall k :: 0 <= k < |added| ==> added[k].userId == id
    requires forall i, j :: 0 <= i < j < |added| ==> added[i].permissionId != added[j].permissionId
    requires s.grants == a.grants + added
    ensures Consistent(s)
  {
    var u: User :| u.id == id && !Taken(a.users, u.username) && s.users == a.users + [u];
    forall i, j | 0 <= i < j < |s.users|
      ensures s.users[i].id != s.users[j].id && s.users[i].username != s.users[j].username
    {
      if j == |a.users| {
        assert s.users[i] == a.users[i];
        assert UserIds(a.users)[i] == a.users[i].id;
      } else {
        assert s.users[i] == a.users[i] && s.users[j] == a.users[j];
      }
    }
    forall k | 0 <= k < |s.grants|
      ensures HasUser(s.users, s.grants[k].userId)
    {
      if k < |a.grants| {
        assert s.grants[k] == a.grants[k];
        var m :| 0 <= m < |a.users| && a.users[m].id == a.grants[k].userId;
        assert s.users[m] == a.users[m];
      } else {
        assert s.grants[k] == added[k - |a.grants|];
        assert s.users[|a.users|] == u;
      }
    }
    forall i, j | 0 <= i < j < |s.grants|
      ensures (s.grants[i].userId, s.grants[i].permissionId) != (s.grants[j].userId, s.grants[j].permissionId)
    {
      if j < |a.grants| {
        assert s.grants[i] == a.grants[i] && s.grants[j] == a.grants[j];
      } else if i < |a.grants| {
        assert s.grants[i] == a.grants[i] && s.grants[j] == added[j - |a.grants|];
        FreshUserHoldsNothing(a, a.grants[i].permissionId);
      } else {
        assert s.grants[i] == added[i - |a.grants|] && s.grants[j] == added[j - |a.grants|];
      }
    }
  }

  /** A repeated permission id makes the creation fail while leaving the
      user row behind, so asking again is refused as a taken name; inside
      a transaction nothing is left and the same request can be retried. */
  lemma CreateWithRepeatedIdLeavesUser(a: Accounts, username: string, password: string, pid: int, createdBy: Option<int>, hash: string)
    requires username != "" && password != "" && !Taken(a.users, username)
    ensures var input := NewUser(username, password, [pid, pid], createdBy);
            var r := CreateUser(a, input, hash);
            r.result.Err? && Taken(r.state.users, username)
            && CreateUser(r.state, NewUser(username, password, [pid], createdBy), hash).result.Err?
    ensures var input := NewUser(username, password, [pid, pid], createdBy);
            var r := CreateUserFixed(a, input, hash);
            r.result.Err? && r.state == a
            && CreateUserFixed(r.state, NewUser(username, password, [pid], createdBy), hash).result.Ok?
  {
    var input := NewUser(username, password, [pid, pid], createdBy);
    assert !Permissions.Distinct(input.permissions) by {
      assert input.permissions[0] == input.permissions[1];
    }
    var r := CreateUser(a, input, hash);
    assert r.state.users[|a.users|].username == username;
    assert Permissions.Distinct([pid]);
  }

  /** The `user` of `update`; an absent password is "". */
  datatype UserUpdate = UserUpdate(id: int, username: string, password: string, permissions: seq<int>, updatedBy: Option<int>)

  /** The user row after `UPDATE users SET username = ? [, password_hash = ?]
      WHERE id = ?`. */
  function Renamed(u: User, input: UserUpdate, hash: string): User {
    if u.id != input.id then u
    else if input.password != "" then u.(username := input.username, passwordHash := hash)
    else u.(username := input.username)
  }

  function RenameAll(users: seq<User>, input: UserUpdate, hash: string): (r: seq<User>)
    ensures |r| == |users| && forall k :: 0 <= k < |users| ==> r[k] == Renamed(users[k], input, hash)
  {
    seq(|users|, k requires 0 <= k < |users| => Renamed(users[k], input, hash))
  }

  /** Another user already has the name. */
  predicate TakenByOther(users: seq<User>, username: string, id: int) {
    exists k :: 0 <= k < |users| && users[k].username == username && users[k].id != id
  }

  /** `update` as written: the checks, the user row, the deletion of the
      user's permission rows and one INSERT for the new list, with no
      transaction; a repeated id fails the INSERT after the deletion. */
  function Update(a: Accounts, input: UserUpdate, hash: string): (r: Outcome)
    ensures r.result.Err? <==> input.username == "" || TakenByOther(a.users, input.username, input.id)
                               || !Permissions.Distinct(input.permissions)
    ensures input.username == "" || TakenByOther(a.users, input.username, input.id) ==> r.state == a
    ensures !(input.username == "" || TakenByOther(a.users, input.username, input.id)) ==>
      r.state.users == RenameAll(a.users, input, hash)
      && r.state.grants == Permissions.UpdateUserPermissions(a.grants, input.id, input.permissions, input.updatedBy)
                             .GetOr(Where(a.grants, Permissions.OtherUser(input.id)))
  {
    if input.username == "" then Outcome(a, Err("برجاء إدخال اسم المستخدم"))
    else if TakenByOther(a.users, input.username, input.id) then Outcome(a, Err("اسم المستخدم موجود بالفعل"))
    else
      var users := RenameAll(a.users, input, hash);
      var kept := Where(a.grants, Permissions.OtherUser(input.id));
      match Permissions.UpdateUserPermissions(a.grants, input.id, input.permissions, input.updatedBy)
      case Ok(grants) => Outcome(Accounts(users, grants), Ok(input.id))
      case Err(e) => Outcome(Accounts(users, kept), Err(e))
  }

  /** `update` inside a transaction: any failure leaves both tables. */
  function UpdateFixed(a: Accounts, input: UserUpdate, hash: string): (r: Outcome)
    ensures r.result.Err? ==> r.state == a
    ensures r.result.Err? <==> input.username == "" || TakenByOther(a.users, input.username, input.id)
                               || !Permissions.Distinct(input.permissions)
    ensures r.result.Ok? ==> r == Update(a, input, hash)
  {
    var asWritten := Update(a, input, hash);
    if asWritten.result.Err? then Outcome(a, asWritten.result) else asWritten
  }

  /** A successful update: the user's name changes, the hash only when a
      password was given, every other row stays, and the user holds
      exactly the listed permissions. */
  lemma UpdateEffect(a: Accounts, input: UserUpdate, hash: string, k: nat)
    requires UpdateFixed(a, input, hash).result.Ok? && k < |a.users|
    ensures var s := UpdateFixed(a, input, hash).state;
            |s.users| == |a.users|
            && (a.users[k].id == input.id ==>
                  (s.users[k].username == input.username
                   && s.users[k].passwordHash == (if input.password == "" then a.users[k].passwordHash else hash)
                   && s.users[k].role == a.users[k].role && s.users[k].active == a.users[k].active))
            && (a.users[k].id != input.id ==> s.users[k] == a.users[k])
            && (forall pid :: Permissions.Holds(s.grants, input.id, pid) <==> pid in input.permissions)
  {
  }

  /** A successful update keeps the tables consistent. */
  lemma UpdateKeepsConsistent(a: Accounts, input: UserUpdate, hash: string)
    requires Consistent(a) && HasUser(a.users, input.id)
    requires UpdateFixed(a, input, hash).result.Ok?
    ensures Consistent(UpdateFixed(a, input, hash).state)
  {
    var s := UpdateFixed(a, input, hash).state;
    var r := Permissions.UpdateUserPermissions(a.grants, input.id, input.permissions, input.updatedBy);
    assert s.users == RenameAll(a.users, input, hash) && s.grants == r.value;
    RenameKeepsDistinct(a.users, input, hash);
    forall k | 0 <= k < |s.grants|
      ensures HasUser(s.users, s.grants[k].userId)
    {
      GrantStaysOwned(a, input, hash, r.value, s.grants[k]);
    }
  }

  /** Renaming the user to a name no other user has keeps ids and names
      distinct. */
  lemma RenameKeepsDistinct(users: seq<User>, input: UserUpdate, hash: string)
    requires forall i, j :: 0 <= i < j < |users| ==> users[i].id != users[j].id
    requires forall i, j :: 0 <= i < j < |users| ==> users[i].username != users[j].username
    requires !TakenByOther(users, input.username, input.id)
    ensures var r := RenameAll(users, input, hash);
            (forall i, j :: 0 <= i < j < |r| ==> r[i].id != r[j].id)
            && (forall i, j :: 0 <= i < j < |r| ==> r[i].username != r[j].username)
  {
    var r := RenameAll(users, input, hash);
    forall i, j | 0 <= i < j < |r|
      ensures r[i].id != r[j].id && r[i].username != r[j].username
    {
      if users[i].id == input.id && users[j].id != input.id {
        assert users[j].username != input.username;
      } else if users[i].id != input.id && users[j].id == input.id {
        assert users[i].username != input.username;
      }
    }
  }

  /** After the update every permission row still names an existing user:
      the edited user's rows name it, and the others were kept. */
  lemma GrantStaysOwned(a: Accounts, input: UserUpdate, hash: string, grants: seq<Grant>, g: Grant)
    requires Consistent(a) && HasUser(a.users, input.id)
    requires Permissions.UpdateUserPermissions(a.grants, input.id, input.permissions, input.updatedBy) == Ok(grants)
    requires g in grants
    ensures HasUser(RenameAll(a.users, input, hash), g.userId)
  {
    var users := RenameAll(a.users, input, hash);
    if g.userId != input.id {
      assert Permissions.OtherUser(input.id)(g);
      assert g in Where(grants, Permissions.OtherUser(input.id));
      assert g in Where(a.grants, Permissions.OtherUser(input.id));
      var j :| 0 <= j < |a.grants| && a.grants[j] == g;
      var m :| 0 <= m < |a.users| && a.users[m].id == g.userId;
      assert users[m].id == a.users[m].id;
    } else {
      var m :| 0 <= m < |a.users| && a.users[m].id == input.id;
      assert users[m].id == a.users[m].id;
    }
  }

  /** A user's rows are all gone once the delete of its rows ran. */
  lemma KeptHoldsNothing(grants: seq<Grant>, id: int)
    ensures forall q :: !Permissions.Holds(Where(grants, Permissions.OtherUser(id)), id, q)
  {
    var kept := Where(grants, Permissions.OtherUser(id));
    assert forall k :: 0 <= k < |kept| ==> Permissions.OtherUser(id)(kept[k]);
  }

  /** As written, an update that repeats a permission id fails and yet
      strips the user of every permission. */
  lemma UpdateWithRepeatedIdDropsPermissions(a: Accounts, id: int, username: string, pid: int, hash: string)
    requires username != "" && !TakenByOther(a.users, username, id)
    ensures var r := Update(a, UserUpdate(id, username, "", [pid, pid], None), hash);
            r.result.Err? && forall q :: !Permissions.Holds(r.state.grants, id, q)
  {
    var input := UserUpdate(id, username, "", [pid, pid], None);
    assert !Permissions.Distinct(input.permissions) by {
      assert input.permissions[0] == input.permissions[1];
    }
    KeptHoldsNothing(a.grants, id);
  }

  /** Inside a transaction the same failing update leaves the user's
      permissions in place. */
  lemma UpdateFixedKeepsPermissions(a: Accounts, id: int, username: string, held: int, pid: int, hash: string)
    requires Permissions.Holds(a.grants, id, held)
    ensures var r := UpdateFixed(a, UserUpdate(id, username, "", [pid, pid], None), hash);
            r.result.Err? && Permissions.Holds(r.state.grants, id, held)
  {
    var input := UserUpdate(id, username, "", [pid, pid], None);
    assert !Permissions.Distinct(input.permissions) by {
      assert input.permissions[0] == input.permissions[1];
    }
  }

  predicate Falsy(id: int) {
    id == 0
  }

  function NotUser(id: int): User -> bool {
    (u: User) => u.id != id
  }

  /** `granted_by REFERENCES users(id) ON DELETE SET NULL`. */
  function ClearGrantor(g: Grant, id: int): Grant {
    if g.grantedBy == Some(id) then g.(grantedBy := None) else g
  }

  function ClearAll(kept: seq<Grant>, id: int): (r: seq<Grant>)
    ensures |r| == |kept| && forall k :: 0 <= k < |kept| ==> r[k] == ClearGrantor(kept[k], id)
  {
    seq(|kept|, k requires 0 <= k < |kept| => ClearGrantor(kept[k], id))
  }

  /** The tables once the user's rows, then the user, are deleted. */
  function Removed(a: Accounts, id: int): Accounts {
    Accounts(Where(a.users, NotUser(id)), ClearAll(Where(a.grants, Permissions.OtherUser(id)), id))
  }

  /** `deleteUser`: refused for a falsy id or an unknown user; otherwise
      the user's permission rows go first, then the user, and rows the
      user granted lose their grantor. */
  function DeleteUser(a: Accounts, id: int): (r: Outcome)
    ensures r.result.Err? <==> Falsy(id) || !HasUser(a.users, id)
    ensures r.result.Err? ==> r.state == a
    ensures r.result.Ok? ==> r.state == Removed(a, id)
    ensures r.result.Ok? ==> !HasUser(r.state.users, id)
                             && (forall k :: 0 <= k < |a.users| && a.users[k].id != id ==> a.users[k] in r.state.users)
                             && (forall u :: u in r.state.users ==> u in a.users)
    ensures r.result.Ok? ==> forall pid :: !Permissions.Holds(r.state.grants, id, pid)
    ensures r.result.Ok? ==> forall k :: 0 <= k < |r.state.grants| ==> r.state.grants[k].grantedBy != Some(id)
  {
    if Falsy(id) || FirstWhere(a.users, (u: User) => u.id == id).None? then Outcome(a, Err("مستخدم غير موجود"))
    else
      var users := Where(a.users, NotUser(id));
      var kept := Where(a.grants, Permissions.OtherUser(id));
      assert forall k :: 0 <= k < |users| ==> NotUser(id)(users[k]);
      assert forall k :: 0 <= k < |kept| ==> Permissions.OtherUser(id)(kept[k]);
      Outcome(Removed(a, id), Ok(id))
  }

  /** Deleting a user keeps the tables consistent: no permission row is
      left pointing at the removed user. */
  lemma DeleteKeepsConsistent(a: Accounts, id: int)
    requires Consistent(a)
    ensures Consistent(DeleteUser(a, id).state)
  {
    if DeleteUser(a, id).result.Ok? {
      RemovedIsConsistent(a, id);
    }
  }

  lemma RemovedIsConsistent(a: Accounts, id: int)
    requires Consistent(a)
    ensures Consistent(Removed(a, id))
  {
    var users := Where(a.users, NotUser(id));
    var kept := Where(a.grants, Permissions.OtherUser(id));
    var grants := ClearAll(kept, id);
    var byId := (u: User) => u.id;
    WhereKeepsDistinct(a.users, byId, NotUser(id));
    forall i, j | 0 <= i < j < |users|
      ensures users[i].id != users[j].id
    {
      assert byId(users[i]) != byId(users[j]);
    }
    var byName := (u: User) => u.username;
    WhereKeepsDistinct(a.users, byName, NotUser(id));
    forall i, j | 0 <= i < j < |users|
      ensures users[i].username != users[j].username
    {
      assert byName(users[i]) != byName(users[j]);
    }
    assert UniquePairs(grants) && forall k :: 0 <= k < |grants| ==> HasUser(users, grants[k].userId) by {
      Permissions.WhereKeepsUniquePairs(a.grants, Permissions.OtherUser(id));
      KeptGrantsReferUsers(a, id);
      ClearedGrants(kept, grants, id, users);
    }
  }

  /** The rows kept by a delete name users the delete keeps. */
  lemma KeptGrantsReferUsers(a: Accounts, id: int)
    requires Consistent(a)
    ensures var kept := Where(a.grants, Permissions.OtherUser(id));
            forall k :: 0 <= k < |kept| ==> HasUser(Where(a.users, NotUser(id)), kept[k].userId)
  {
    var users := Where(a.users, NotUser(id));
    var kept := Where(a.grants, Permissions.OtherUser(id));
    forall k | 0 <= k < |kept|
      ensures HasUser(users, kept[k].userId)
    {
      var g := kept[k];
      assert Permissions.OtherUser(id)(g);
      var j :| 0 <= j < |a.grants| && a.grants[j] == g;
      assert HasUser(a.users, a.grants[j].userId);
      var m :| 0 <= m < |a.users| && a.users[m].id == g.userId;
      assert NotUser(id)(a.users[m]);
      assert a.users[m] in users;
    }
  }

  /** Clearing the grantor keeps each row's pair and user. */
  lemma ClearedGrants(kept: seq<Grant>, cleared: seq<Grant>, id: int, users: seq<User>)
    requires |cleared| == |kept| && forall k :: 0 <= k < |kept| ==> cleared[k] == ClearGrantor(kept[k], id)
    requires UniquePairs(kept)
    requires forall k :: 0 <= k < |kept| ==> HasUser(users, kept[k].userId)
    ensures UniquePairs(cleared)
    ensures forall k :: 0 <= k < |cleared| ==> HasUser(users, cleared[k].userId)
  {
    forall i, j | 0 <= i < j < |cleared|
      ensures (cleared[i].userId, cleared[i].permissionId) != (cleared[j].userId, cleared[j].permissionId)
    {
      assert cleared[i].userId == kept[i].userId && cleared[i].permissionId == kept[i].permissionId;
      assert cleared[j].userId == kept[j].userId && cleared[j].permissionId == kept[j].permissionId;
    }
    forall k | 0 <= k < |cleared|
      ensures HasUser(users, cleared[k].userId)
    {
      assert cleared[k].userId == kept[k].userId;
    }
  }

  /** `getById`: the user with the id and the permissions it holds. */
  function GetById(a: Accounts, perms: seq<Permission>, id: int): (r: Result<(User, seq<Permission>)>)
    ensures r.Err? <==> !HasUser(a.users, id)
    ensures r.Ok? ==> r.value.0 in a.users && r.value.0.id == id
    ensures r.Ok? ==> forall p :: p in r.value.1 <==> p in perms && Permissions.Holds(a.grants, id, p.id)
  {
    match FirstWhere(a.users, (u: User) => u.id == id)
    case None => Err("المستخدم غير موجود")
    case Some(k) => Ok((a.users[k], Permissions.UserPermissions(perms, a.grants, id)))
  }

  /** A user created with a list of catalogue ids is found with exactly
      those permissions. */
  lemma CreatedUserIsFound(a: Accounts, perms: seq<Permission>, input: NewUser, hash: string)
    requires Consistent(a)
    requires CreateUserFixed(a, input, hash).result.Ok?
    ensures var r := CreateUserFixed(a, input, hash);
            var found := GetById(r.state, perms, r.result.value);
            found.Ok? && found.value.0.username == input.username
            && forall p :: p in found.value.1 <==> p in perms && p.id in input.permissions
  {
    CreateUserGrantsList(a, input, hash);
    var r := CreateUserFixed(a, input, hash);
    var id := r.result.value;
    assert r.state.users[|a.users|].id == id;
    assert HasUser(r.state.users, id);
    var found := GetById(r.state, perms, id);
    var m :| 0 <= m < |r.state.users| && r.state.users[m] == found.value.0;
    if m < |a.users| {
      assert UserIds(a.users)[m] == a.users[m].id;
    }
  }

  /** `username LIKE '%name%'`. */
  predicate NameLike(u: User, name: string) {
    Text.IncludesIgnoreCase(u.username, name)
  }

  function NameMatches(name: string): User -> bool {
    (u: User) => NameLike(u, name)
  }

  /** The result of the paged listings: rows and the total count. */
  datatype Listing<T> = Listing(rows: seq<T>, total: nat)

  /** The users `username LIKE '%name%'` keeps, in table order. */
  function Matching(users: seq<User>, name: string): (r: seq<User>)
    ensures forall k :: 0 <= k < |r| ==> NameLike(r[k], name) && r[k] in users
    ensures forall k :: 0 <= k < |users| && NameLike(users[k], name) ==> users[k] in r
  {
    Where(users, NameMatches(name))
  }

  /** `search`: matching users in table order, one page of them, and the
      number that match. */
  function Search(users: seq<User>, name: string, page: int, limit: int): (r: Listing<User>)
    ensures r.total == |Matching(users, name)|
    ensures limit >= 0 ==> |r.rows| <= limit
    ensures |r.rows| == Paging.Window(r.total, limit, Paging.Offset(page, limit))
    ensures var matches := Matching(users, name);
            var start := Paging.Start(Paging.Offset(page, limit));
            forall k :: 0 <= k < |r.rows| ==> start + k < |matches| && r.rows[k] == matches[start + k]
    ensures forall k :: 0 <= k < |r.rows| ==> NameLike(r.rows[k], name) && r.rows[k] in users
  {
    var matches := Matching(users, name);
    Listing(TablePage(matches, limit, Paging.Offset(page, limit)), |matches|)
  }

  /** An empty name matches every user. */
  lemma EmptySearchCountsAll(users: seq<User>, page: int, limit: int)
    ensures Search(users, "", page, limit).total == |users|
  {
    forall u: User
      ensures NameLike(u, "")
    {
      Text.ContainsEmpty(Text.ToLower(u.username));
    }
    assert forall k :: 0 <= k < |users| ==> NameMatches("")(users[k]);
    WhereAllRows(users, NameMatches(""));
  }

  /** One row of `getAll`: the user and its number of permission rows. */
  datatype Row = Row(user: User, permissionsCount: nat)

  function PermissionCount(grants: seq<Grant>, id: int): (n: nat)
    ensures n == |Where(grants, (g: Grant) => g.userId == id)|
  {
    CountWhere(grants, (g: Grant) => g.userId == id)
  }

  /** Every user newest first, each with its permission count. */
  function NewestWithCounts(a: Accounts): (rows: seq<Row>)
    ensures |rows| == |a.users|
    ensures forall k :: 0 <= k < |rows| ==>
              rows[k] == Row(a.users[|a.users| - 1 - k], PermissionCount(a.grants, a.users[|a.users| - 1 - k].id))
  {
    var newest := NewestFirst(a.users);
    seq(|newest|, k requires 0 <= k < |newest| => Row(newest[k], PermissionCount(a.grants, newest[k].id)))
  }

  /** `getAll`: users newest first with their permission counts, one page,
      and the number of users. Rows are kept in creation order, and the
      model reads `ORDER BY created_at DESC` as the table reversed. Users
      created in the same second tie on `created_at`; the model chooses
      to list them newest first, an order SQL does not promise. */
  function GetAll(a: Accounts, page: int, limit: int): (r: Listing<Row>)
    ensures r.total == |a.users|
    ensures limit >= 0 ==> |r.rows| <= limit
    ensures |r.rows| == Paging.Window(|a.users|, limit, Paging.Offset(page, limit))
    ensures var start := Paging.Start(Paging.Offset(page, limit));
            forall k :: 0 <= k < |r.rows| ==>
              start + k < |a.users| && r.rows[k].user == a.users[|a.users| - 1 - (start + k)]
    ensures forall k :: 0 <= k < |r.rows| ==> r.rows[k].user in a.users
    ensures forall k :: 0 <= k < |r.rows| ==> r.rows[k].permissionsCount == PermissionCount(a.grants, r.rows[k].user.id)
  {
    Listing(TablePage(NewestWithCounts(a), limit, Paging.Offset(page, limit)), |a.users|)
  }

  /** After a successful update the listing counts one row per given id. */
  lemma UpdatedCountIsListLength(a: Accounts, input: UserUpdate, hash: string)
    requires UpdateFixed(a, input, hash).result.Ok?
    ensures PermissionCount(UpdateFixed(a, input, hash).state.grants, input.id) == |input.permissions|
  {
    var kept := Where(a.grants, Permissions.OtherUser(input.id));
    var added := Permissions.RowsFor(input.id, input.permissions, input.updatedBy);
    var mine := (g: Grant) => g.userId == input.id;
    WhereAppend(kept, added, mine);
    assert forall k :: 0 <= k < |kept| ==> Permissions.OtherUser(input.id)(kept[k]);
    assert forall k :: 0 <= k < |kept| ==> !mine(kept[k]);
    WhereNone(kept, mine);
    assert forall k :: 0 <= k < |added| ==> mine(added[k]);
    WhereAllRows(added, mine);
  }
}

=== FILE: users_slice.dfy ===
/** The user list kept by the renderer, `src/renderer/src/store/slices/usersSlice.js`:
    the reducers that patch the list after an update or a deletion, and the
    browser-storage stand-ins used when the bridge is absent. */
module UsersSlice {
  import opened Wrappers
  import opened Tables

  /** A user as the list holds it. */
  datatype Listed = Listed(id: int, username: string, active: bool)

  /** What an update settles with: the updated user from the storage
      stand-in, or the bridge's `{ success, message }`, which has no id. */
  datatype UpdatePayload = UpdatedUser(user: Listed) | UpdateAnswer

  /** What a deletion settles with: the id from the storage stand-in, or the
      bridge's `{ success, message }` object, which equals no id. */
  datatype DeletePayload = DeletedId(id: int) | DeleteAnswer

  datatype State = State(users: seq<Listed>, loading: bool, error: Option<string>)

  /** The filter `u => u.id === id`. */
  function HasId(id: int): Listed -> bool {
    (u: Listed) => u.id == id
  }

  /** The filter `u => u.id !== id`. */
  function OtherId(id: int): Listed -> bool {
    (u: Listed) => u.id != id
  }

  /** `users[index] = user` at the first index with the user's id, when
      there is one. */
  function ReplaceFirst(users: seq<Listed>, user: Listed): (r: seq<Listed>)
    ensures |r| == |users|
    ensures FirstWhere(users, HasId(user.id)).None? ==> r == users
    ensures FirstWhere(users, HasId(user.id)).Some? ==>
              var i := FirstWhere(users, HasId(user.id)).value;
              r[i] == user && forall k :: 0 <= k < |users| && k != i ==> r[k] == users[k]
  {
    match FirstWhere(users, HasId(user.id))
    case None => users
    case Some(i) => users[i := user]
  }

  /** `updateUser.fulfilled`: the first user with the payload's id is
      replaced; an answer without an id changes nothing. */
  function UpdateFulfilled(s: State, payload: UpdatePayload): (r: State)
    ensures !r.loading && r.error == s.error
    ensures payload.UpdateAnswer? ==> r.users == s.users
    ensures payload.UpdatedUser? ==> r.users == ReplaceFirst(s.users, payload.user)
  {
    match payload
    case UpdateAnswer => s.(loading := false)
    case UpdatedUser(u) => s.(loading := false, users := ReplaceFirst(s.users, u))
  }

  /** `deleteUser.fulfilled`: the users whose id differs from the payload
      stay, in order; an answer object differs from every id. */
  function DeleteFulfilled(s: State, payload: DeletePayload): (r: State)
    ensures !r.loading && r.error == s.error
    ensures payload.DeleteAnswer? ==> r.users == s.users
    ensures payload.DeletedId? ==>
              (forall k :: 0 <= k < |r.users| ==> r.users[k].id != payload.id && r.users[k] in s.users)
              && (forall k :: 0 <= k < |s.users| && s.users[k].id != payload.id ==> s.users[k] in r.users)
  {
    match payload
    case DeleteAnswer => s.(loading := false)
    case DeletedId(id) => s.(loading := false, users := Where(s.users, OtherId(id)))
  }

  /** Every request shows the spinner; every rejection records its message. */
  function Pending(s: State): (r: State)
    ensures r.loading && r.users == s.users && r.error == s.error
  {
    s.(loading := true)
  }

  function Rejected(s: State, message: Option<string>): (r: State)
    ensures !r.loading && r.users == s.users && r.error == message
  {
    s.(loading := false, error := message)
  }

  /** The storage stand-in of `updateUser`: an unknown id is refused,
      otherwise the stored user is replaced and the update is the payload. */
  function LocalUpdate(stored: seq<Listed>, user: Listed): (r: Result<(seq<Listed>, UpdatePayload)>)
    ensures r.Err? <==> forall k :: 0 <= k < |stored| ==> stored[k].id != user.id
    ensures r.Ok? ==> r.value == (ReplaceFirst(stored, user), UpdatedUser(user))
  {
    if FirstWhere(stored, HasId(user.id)).None? then Err("User not found")
    else Ok((ReplaceFirst(stored, user), UpdatedUser(user)))
  }

  /** The storage stand-in of `deleteUser`: every stored user with the id is
      dropped and the id is the payload. */
  function LocalDelete(stored: seq<Listed>, id: int): (r: (seq<Listed>, DeletePayload))
    ensures r.1 == DeletedId(id)
    ensures forall k :: 0 <= k < |r.0| ==> r.0[k].id != id
  {
    (Where(stored, OtherId(id)), DeletedId(id))
  }

  /** Without the bridge the list follows storage: when it shows what is
      stored, it still does after an update or a deletion settles. */
  lemma ListFollowsStorage(s: State, user: Listed, id: int)
    ensures LocalUpdate(s.users, user).Ok? ==>
              UpdateFulfilled(s, LocalUpdate(s.users, user).value.1).users == LocalUpdate(s.users, user).value.0
    ensures DeleteFulfilled(s, LocalDelete(s.users, id).1).users == LocalDelete(s.users, id).0
  {
  }

  /** With the bridge the answers carry no id, so the list is unchanged
      after a deletion or an update until it is fetched again. */
  lemma BridgeAnswersLeaveList(s: State)
    ensures UpdateFulfilled(s, UpdateAnswer).users == s.users
    ensures DeleteFulfilled(s, DeleteAnswer).users == s.users
  {
  }

  /** Replacing a user twice is replacing it once: the second replacement
      finds the same position. */
  lemma ReplaceFirstIdempotent(users: seq<Listed>, user: Listed)
    ensures ReplaceFirst(ReplaceFirst(users, user), user) == ReplaceFirst(users, user)
  {
    var r := ReplaceFirst(users, user);
    match FirstWhere(users, HasId(user.id))
    case None =>
    case Some(i) =>
      assert forall j :: 0 <= j < i ==> r[j] == users[j];
      assert FirstWhere(r, HasId(user.id)) == Some(i);
  }

  /** Deleting twice is deleting once. */
  lemma DeleteIdempotent(users: seq<Listed>, id: int)
    ensures Where(Where(users, OtherId(id)), OtherId(id)) == Where(users, OtherId(id))
  {
    var once := Where(users, OtherId(id));
    assert forall k :: 0 <= k < |once| ==> OtherId(id)(once[k]);
    WhereAllRows(once, OtherId(id));
  }
}

=== FILE: users_table.dfy ===
/** The users table `src/renderer/src/pages/Users/components/data-table.component.tsx`:
    a search request to the server whose answer replaces the rows and
    the total, with the shown columns searched again in the browser. */
module UsersTable {
  import opened Wrappers
  import opened DataTable

  /** After a search answer, the table shows those answered rows that some
      shown column matches, and the footer counts the answer's total. */
  function AfterSearch(current: Listing, answer: Result<Answer>, columns: seq<Column>, search: string): (r: (seq<Row>, nat))
    ensures answer.Err? ==> r.1 == current.total
    ensures answer.Ok? ==> r.1 == answer.value.total.GetOr(0)
    ensures forall k :: 0 <= k < |r.0| ==> r.0[k] in Install(current, answer).rows
    ensures search != [] ==> forall k :: 0 <= k < |r.0| ==> AnyColumnMatches(r.0[k], columns, search)
    ensures search == [] ==> r.0 == Install(current, answer).rows
    ensures var rows := Install(current, answer).rows;
            forall k :: 0 <= k < |rows| && AnyColumnMatches(rows[k], columns, search) ==> rows[k] in r.0
  {
    var l := Install(current, answer);
    (GuardedSearch(l.rows, columns, search), l.total)
  }

  /** A failed search keeps the rows on show, filtered by the new text. */
  lemma FailedSearchFiltersCurrentRows(current: Listing, message: string, columns: seq<Column>, search: string)
    ensures AfterSearch(current, Err(message), columns, search).0 == GuardedSearch(current.rows, columns, search)
  {
  }
}

=== FILE: wrappers.dfy ===
/** Failure-carrying values shared by every handler model.

    The main-process handlers either throw an `Error` with a message or
    return an object `{ success: false, ... }`; both are modelled as an
    `Err` carrying the message, and `null` results are `None`. */
module Wrappers {

  datatype Option<+T> = None | Some(value: T) {
    function GetOr(default: T): T {
      match this
      case Some(v) => v
      case None => default
    }
  }

  datatype Result<+T> = Ok(value: T) | Err(message: string) {
    predicate IsFailure() {
      Err?
    }

    /** The new state on success, the unchanged one on failure. */
    function GetOr(default: T): T {
      match this
      case Ok(v) => v
      case Err(_) => default
    }
  }
}
